=== FILE: README.md ===
# A verified model of the chat bot's core logic

This project models, in Dafny, the logic of a Telegram group bot that can be modelled without threads, floats or the network. Chat-client calls are recorded as effects in a returned log. Database answers, random draws, hashes and the clock are parameters.

| module | file | what it models |
|---|---|---|
| `Wrappers` | `wrappers.dfy` | `Option` (Python's `None`) and `Result` (a value or the exception the source raises) |
| `Text` | `text.dfy` | the standard-library string operations the code relies on: `str(n)`, `int(s)`, `isdigit`, `lower`, `strip`, `lstrip`, `split`, `c * n` |
| `EventQueue`, `EventQueueProps` | `event_queue.dfy` | the scheduled task queue of `src/event_queue.py`: `add_task`, `tick`, `cancel_task` and the task registry |
| `CaptchaManager`, `CaptchaManagerProps` | `captcha_manager.dfy` | the captcha sessions of `src/captcha_manager.py`, driven by the task queue: join, countdown redraws, pass, fail, leave and regenerate |
| `LegacyCaptcha`, `LegacyCaptchaProps` | `captcha_legacy.dfy` | the older captcha of `src/commands/captcha.py`, whose sessions count their own seconds down under a timer step |
| `Play`, `PlayProps` | `play.dfy` | tiers, win values and playable categories of `src/commands/play/play.py`: validation, tier lookup and the value drawn for an index |
| `PlaySchema`, `PlaySchemaProps` | `play_schema.dfy` | the schema validators of `src/commands/play/play_schema.py`, over a small datatype of dynamic Python values |
| `CategoryBuilder`, `CategoryBuilderProps` | `category_builder.dfy` | `src/commands/play/category_builder.py`: the builder, goal-template expansion, `create_category` and `create_all_categories` |
| `PlayEvent` | `play_event.dfy` | the player filter and the daily-winner selection of `src/commands/play_event.py` |
| `RollCustomTitle` | `roll_custom_title.dfy` | the custom-title game of `src/commands/roll_custom_title.py` and the enums of `src/custom_typing/typing.py` |
| `BotUtils` | `bot_utils.dfy` | the helpers of `src/safely_bot_utils.py`: MarkdownV2 escaping, user links, `daily_hash`, the dice table, `phrases` and `do_action` |
| `LayoutMaps`, `LayoutMapsProps` | `layout_maps.dfy` | the keyboard-layout maps of `src/commands/fuzzy_match/layout_maps.py` |
| `HowMuch` | `how_much.dfy` | the percentage and its answer group in `src/commands/how_much.py` |
| `Dispatcher` | `dispatcher.dfy` | the command parsing, the chat filters and the command table of `src/commands/dispatcher.py` |

Conventions:

- Each Python handler becomes a pure step function. It takes the current state (a session map, a task registry, a dictionary kept with its insertion order) and returns the new state, the chat-client calls it makes, and the pass/fail outcomes.
- Where the source raises, the model returns `Err`. Where it returns `None`, the model returns `None`.
- Python's integer operations are written out where they differ from Dafny's: floor division, `%`, truncating `int()`, and `^` / `>>` on unbounded integers.
- Some strings in the source are stored mis-encoded: the dice emojis and the default phrase. The model uses the UTF-8 text they evidently stand for.

## Model

| member | source | states |
|---|---|---|
| EventQueue.Sort | src/event_queue.py:61 | `sorted(timestamps)`: the result is in ascending order and holds exactly the input timestamps, with repeats |
| EventQueue.BuildSubEvents | src/event_queue.py:64-82 | one sub-event per sorted timestamp, in the same order, each carrying the action chosen for its position |
| EventQueue.AddTask | src/event_queue.py:57-91 | the task registered under the fresh key starts at offset 0, not cancelled, with one sub-event per timestamp in ascending order and the chosen actions; every other task is untouched, a new key is appended at the end, and the loop is running |
| EventQueue.ChoicePrecedence | src/event_queue.py:64-80 | the first position takes `on_start` (also when it is the only one), the last `on_success`, any other the per-timestamp override and else the default |
| EventQueue.StoreFinds | src/event_queue.py:84-89 | `EVENTS[key] = …` makes the key find the new record and leaves every other key's record alone |
| EventQueue.CancelTask | src/event_queue.py:94-114 | an unknown key changes nothing and runs nothing; a known one is marked cancelled, and the `on_cancel` hook runs only for a non-silent cancel; no other task changes |
| EventQueue.CancelTwiceRunsHookTwice | src/event_queue.py:94-114 | a second non-silent cancel before the next tick runs the hook again |
| EventQueue.Drain | src/event_queue.py:132-133 | the popped sub-events and the rest make up the queue; every popped one is due and the first one left is not |
| EventQueue.StepTask | src/event_queue.py:121-137 | a cancelled or exhausted task is untouched and fires nothing; a live one advances by exactly one and fires the due prefix of its queue, in order |
| EventQueue.StepAll | src/event_queue.py:120-137 | every registry entry is stepped in place; the keys and their order stay |
| EventQueue.KeepLive | src/event_queue.py:139-143 | exactly the entries that are live with sub-events left stay registered |
| EventQueue.KeepLiveConcat | src/event_queue.py:120-143 | removal works entry by entry: the survivors of two registries laid end to end are the survivors of each, in the same order |
| EventQueue.KeepLiveOrdered | src/event_queue.py:142-143 | popping keys out of the dict keeps the survivors in their original registry order |
| EventQueue.TraceFrom | src/event_queue.py:120-137 | every action the loop runs from position i on belongs to a registered task that is not cancelled and has sub-events, and runs at that task's old offset plus one |
| EventQueue.TraceFromFired | src/event_queue.py:120-137 | per key, the actions run from position i on are exactly the due sub-events of the tasks stored under that key, each task's in queue order |
| EventQueue.DueForFind | src/event_queue.py:120-137 | with unique keys, the due sub-events of a key's tasks are those of the one task the key finds, or nothing |
| EventQueue.TraceFromOrdered | src/event_queue.py:120-137 | with unique keys, the actions run task after task in registry order, never going back to an earlier task |
| EventQueue.TraceFromOwnOffset | src/event_queue.py:129-135 | every action sees its own task at the offset it fired at, because the loop writes each offset before running that task's actions |
| EventQueue.FindAfterTick | src/event_queue.py:117-143 | what a key finds after a tick follows from what it found before: nothing for a dead or exhausted task, the stepped task otherwise |
| EventQueue.Tick | src/event_queue.py:117-147 | with unique keys, each key afterwards finds the stepped task while it is live with sub-events left and nothing otherwise, the survivors keep their registry order, and the loop stops exactly when the registry is empty; per key the tick runs exactly the due sub-events of the task it found, in queue order; the actions run task after task in registry order, each from a registered live task at its old offset plus one, and each seeing its own task at that new offset |
| EventQueueProps.DrainUnique | src/event_queue.py:132-133 | popping is positional: a due prefix followed by a not-due rest is exactly what one drain takes |
| EventQueueProps.DueMonotone | src/event_queue.py:132 | a later offset never makes fewer sub-events due |
| EventQueueProps.DueAll | src/event_queue.py:132 | every sub-event is due exactly when the largest timestamp is |
| EventQueueProps.RunFresh | src/event_queue.py:129-137 | after n ≥ 1 ticks of a fresh task exactly the sub-events due at n have fired, each once and in order, and the rest are still queued |
| EventQueueProps.TaskLifetime | src/event_queue.py:125-143 | a fresh task whose largest timestamp is T fires its last action on tick max(T, 1) and is removed in that tick; before it the task stays registered |
| EventQueueProps.CancelledDropped | src/event_queue.py:121-123 | a tick drops every cancelled task |
| EventQueueProps.CancelThenTick | src/event_queue.py:94-123 | after a cancel, silent or not, the next tick removes the task and runs none of its actions |
| EventQueueProps.SortScenario | tests/event_queue_tests.py:32-43 | the shuffled timestamps 10, 4, 0, 8, 6, 2 sort to 0, 2, 4, 6, 8, 10 |
| EventQueueProps.StartMiddleSuccessOrder | tests/event_queue_tests.py:35-55 | timestamps 0..10 step 2 with start, success and an override at 6 queue start, default, default, middle, default, success, in whatever order the timestamps come |
| CaptchaManager.Alphanumerics | src/captcha_manager.py:22-24 | the alphabet is `ascii_letters + digits`: 62 characters, a..z, then A..Z, then 0..9 |
| CaptchaManager.Allowed | src/captcha_manager.py:20-24 | every allowed symbol is an ASCII letter or digit that is banned in neither its lower nor its upper case |
| CaptchaManagerProps.AllowedExactly | src/captcha_manager.py:20-24 | a character is allowed if and only if it is alphanumeric and not banned in either case |
| CaptchaManagerProps.DefaultBannedBothCases | src/captcha_manager.py:21 | banning a symbol bans both of its cases (`O`, `o` and `0` for the default list), while other letters stay allowed in both cases |
| CaptchaManager.GenerateText | src/captcha_manager.py:27-30 | the text has exactly the configured length and uses only allowed symbols; it fails (the IndexError of `random.choices`) exactly when the alphabet is empty and a non-empty text is asked for |
| CaptchaManager.AttemptsLeft | src/captcha_manager.py:53 | attempts left never go negative, and are either zero or the configured attempts minus the failures |
| CaptchaManagerProps.FilledBounds | src/captcha_manager.py:54-58 | with the time left inside the timer, the filled part of the bar is between 0 and the bar length and is full exactly when no time is left; the percentage is between 0 and 100 and reaches 100 exactly at zero |
| CaptchaManagerProps.FilledMonotone | src/captcha_manager.py:54-58 | less time left never shows a shorter bar or a lower percentage |
| CaptchaManagerProps.BarShape | src/captcha_manager.py:57 | the bar is `[`, `filled` times `=`, `>`, then spaces and `]`; it is two characters longer than the bar length, or three when the bar is full |
| CaptchaManager.TimeLeft | src/captcha_manager.py:315-319 | the time left is the timer minus the task's offset, clamped at zero; a missing task counts as fully elapsed |
| CaptchaManager.UpdateCaptchaMessage | src/captcha_manager.py:66-90 | a missing user or one without a message changes nothing; otherwise only that user's time left and last caption change, and a caption edit is sent exactly when the new caption differs from the last one |
| CaptchaManagerProps.RedrawIdempotent | src/captcha_manager.py:66-90 | redrawing twice with the same queue view sends nothing the second time and leaves the sessions as they were |
| CaptchaManagerProps.RedrawAtTickUsesOffset | src/captcha_manager.py:315-319 | a redraw fired by a tick sets the time left from the offset the task had when it fired |
| CaptchaManagerProps.FinalizeOnce | src/captcha_manager.py:94-141 | failing or passing a user removes them, kicks exactly the failed users, and a second fail or pass of the same user does nothing |
| CaptchaManagerProps.VerifyAccounted | src/captcha_manager.py:199-215 | the same accounting holds for a verification message |
| CaptchaManagerProps.FailedAttemptAccounted | src/captcha_manager.py:144-163 | the same accounting holds for a failed attempt |
| CaptchaManagerProps.FailedAttemptEffects | src/captcha_manager.py:153-163 | a miss that reaches the limit fails the user with "Max attempts used" and ends with the kick; a miss below the limit keeps the user with one more failure and at most one caption edit |
| CaptchaManagerProps.PassThenTick | src/captcha_manager.py:119-141 | after a pass the countdown task is gone from the queue, so a following tick neither fails nor re-adds the user |
| CaptchaManager.HandleUserLeft | src/captcha_manager.py:218-232 | a leaver's session is dropped; an unknown leaver changes neither the queue nor the log |
| CaptchaManagerProps.LeaverNeverKicked | src/captcha_manager.py:218-232 | the leaver is never kicked and gets no outcome; when their countdown task is found, cancelling it runs the cancel hook against the already-emptied sessions, so nothing is sent at all |
| CaptchaManager.NormalizeInput | src/captcha_manager.py:211 | the input is stripped and lowered; it becomes None exactly when it is absent or all whitespace |
| CaptchaManagerProps.BlankNeverMatches | src/captcha_manager.py:211-215 | a blank or missing answer always counts as a failed attempt |
| CaptchaManagerProps.AnswerPasses | src/captcha_manager.py:209-213 | the answer typed in any case with surrounding whitespace passes the user, after the typed message is deleted |
| CaptchaManagerProps.WrongAnswer | src/captcha_manager.py:209-215 | a wrong answer deletes the message, leaves the queue alone, and either fails and kicks the user at the limit or counts one more failure |
| CaptchaManager.Regenerate | src/captcha_manager.py:294-312 | only the presser's answer and time left change, the time left comes from the task rather than being reset, and the photo is replaced once with the new caption |
| CaptchaManager.HandleButtonPress | src/captcha_manager.py:235-244 | a presser without a challenge is only told so; the presser, who has a challenge, gets a new answer and the callback is answered last; nobody else's session changes |
| CaptchaManager.PyRange | src/captcha_manager.py:259 | `range(start, stop, step)`: every element is `start + i*step` below `stop`, the next one would reach `stop`, and the range is empty exactly when `start >= stop` |
| CaptchaManager.Schedule | src/captcha_manager.py:257-259 | the countdown fires at every multiple of the update period up to and including the timer, and at no other time |
| CaptchaManagerProps.ScheduleSorted | src/captcha_manager.py:259 | the countdown timestamps are sorted, as the queue expects |
| CaptchaManagerProps.JoinSchedule | src/captcha_manager.py:248-269 | the queued countdown is live at offset 0, has the schedule's timestamps, redraws at every step but the last, fails with "Time expired" at the last, and cancels with "CAPTCHA cancelled" |
| CaptchaManagerProps.CountdownActions | src/captcha_manager.py:261-268 | a task built with the countdown hooks redraws at every step but the last, which fails the user |
| CaptchaManagerProps.CountdownLifetime | src/captcha_manager.py:257-269 | a fresh countdown lives for the number of steps times the period, which is at most the timer and within one period of it, and by then has fired all of its pending callbacks in order, staying live until that last step |
| CaptchaManager.JoinUsers | src/captcha_manager.py:171-194 | after a join every human joiner has a fresh session (no failures, the full timer, the first caption, a message and a key) built from the last entry with that id, bots are skipped, and other users keep theirs |
| CaptchaManager.QueueCaptchaUpdates | src/captcha_manager.py:248-269 | the new key finds the user's fresh countdown task, and every other key finds what it found before |
| CaptchaManager.JoinQueue | src/captcha_manager.py:171-194 | after the join loop each human joiner's key finds that joiner's countdown (the last human queued under it, should two share one), and every other key finds what it found before |
| CaptchaManager.JoinEffects | src/captcha_manager.py:171-192 | the join sends exactly one photo per human joiner, each with the caption for the full timer and no failures |
| CaptchaManager.HandleNewUser | src/captcha_manager.py:167-196 | a join produces no outcome, its sessions are those of the join loop, each human joiner's key finds its countdown while other tasks stay as they were, and one photo is sent per human |
| CaptchaManager.FailUserAccounted | src/captcha_manager.py:94-116 | failing a user logs exactly the kick it sends, and only for a user who had a session |
| CaptchaManager.RunAction | src/captcha_manager.py:66-116 | a queued callback removes no session it does not report: a redraw kicks nobody and a failure kicks and logs the one user it removes |
| CaptchaManager.RunFirings | src/captcha_manager.py:94-116 | over all the callbacks of a tick, every kick matches a Failed outcome, each user gets at most one outcome, only existing users get one, and no session appears |
| CaptchaManager.SystemTick | src/event_queue.py:117-147 | the captcha tick leaves the queue as the event queue's own tick does, and over it every kick matches a Failed outcome, each user has at most one outcome, and only existing users get one |
| LegacyCaptcha.Without | src/commands/captcha.py:67 | removing a key from the insertion order keeps every other key, drops that one, and keeps the order free of duplicates |
| LegacyCaptcha.Put | src/commands/captcha.py:173-180 | storing a session appends a new key at the end of the order and keeps an existing key in place |
| LegacyCaptcha.Pop | src/commands/captcha.py:67 | popping a session removes exactly that key and keeps the registry well formed |
| LegacyCaptcha.GenerateText | src/commands/captcha.py:20-22 | the text has the configured length and uses only ASCII letters and digits, none banned |
| LegacyCaptcha.UpdateMessage | src/commands/captcha.py:45-60 | an unknown user changes nothing; the first call sends the photo and records its message id, later calls only edit the caption |
| LegacyCaptcha.FailUser | src/commands/captcha.py:63-77 | failing removes the session, edits the final caption only when a challenge was sent, always kicks, and logs one Failed outcome |
| LegacyCaptcha.PassUser | src/commands/captcha.py:80-93 | passing removes the session, congratulates, deletes the challenge (even without an id) and logs one Passed outcome |
| LegacyCaptchaProps.VerifyMatch | src/commands/captcha.py:194-196 | a matching reply passes the user; the reply itself is left in the chat |
| LegacyCaptchaProps.VerifyMiss | src/commands/captcha.py:197-199 | a wrong reply is deleted and then counted as a failed attempt |
| LegacyCaptchaProps.FailedAttemptRedraws | src/commands/captcha.py:100-113 | a miss below the limit keeps the user with one more failure and redraws the caption with the new count |
| LegacyCaptchaProps.FailedAttemptKicks | src/commands/captcha.py:100-111 | a miss at the limit removes the user, logs "Max attempts used" and ends with the kick |
| LegacyCaptcha.HandleUserLeft | src/commands/captcha.py:202-212 | a leaver's session is dropped and nothing is sent |
| LegacyCaptcha.StartTimerIfNeeded | src/commands/captcha.py:152-159 | the timer loop runs afterwards exactly when it was running or a session exists |
| LegacyCaptchaProps.ExpiredMembers | src/commands/captcha.py:142-143 | a user is in the removal list exactly when their clock was already at zero |
| LegacyCaptchaProps.DueMembers | src/commands/captcha.py:135-141 | a user is in the redraw list exactly when the decremented clock is positive and a multiple of the update period |
| LegacyCaptchaProps.FailAllRemoves | src/commands/captcha.py:145-146 | failing the removal list removes exactly those users, logs a "Time is up" failure for each and sends no new photo |
| LegacyCaptchaProps.UpdateAllEdits | src/commands/captcha.py:148-149 | redrawing the due users only edits captions, one per due user, and changes no session |
| LegacyCaptchaProps.TimerStepFor | src/commands/captcha.py:134-149 | in one step a running clock loses one second and is redrawn when due, while a clock at zero is failed with "Time is up" |
| LegacyCaptchaProps.EmptyStops | src/commands/captcha.py:128-132 | with no sessions the loop stops, clears its flag and sends nothing |
| LegacyCaptchaProps.StepSurvives | src/commands/captcha.py:135-136 | a session with time left survives one step with one second less |
| LegacyCaptchaProps.ClockRunsDown | src/commands/captcha.py:122-143 | over `n` steps a session with at least `n` seconds left survives with exactly `n` seconds less |
| LegacyCaptchaProps.Expires | src/commands/captcha.py:122-146 | a session with `t` seconds left is failed with "Time is up" on the step after `t` steps |
| LegacyCaptchaProps.JoinSends | src/commands/captcha.py:162-185 | a join sends one challenge photo per new member, bots included, logs nothing, and leaves the timer running exactly when a session exists or it already ran |
| LegacyCaptchaProps.FirstChallenge | src/commands/captcha.py:173-184 | a new member's session starts with no failures and the full timer and records the id of the photo just sent |
| LegacyCaptchaProps.JoinKeys | src/commands/captcha.py:167-180 | after a join the sessions are the old ones plus one per new member |
| LegacyCaptchaProps.JoinKeeps | src/commands/captcha.py:167-180 | a join leaves the sessions of users who did not join untouched |
| LegacyCaptchaProps.JoinFresh | src/commands/captcha.py:167-184 | every new member, even one already present, gets a fresh session with a sent challenge |
| Play.GoalText | src/commands/play/play.py:86-87 | the goal text is the template for the language, or empty when there is none |
| Play.FromSchema | src/commands/play/play.py:94-124 | a win value is built exactly from "min", "max" or a pair `("exact", v)`; min and max take the category's extremes, exact takes `v`, and every other spec is rejected |
| Play.InsertByStart | src/commands/play/play.py:164 | inserting a tier into start-sorted tiers keeps them sorted and adds exactly that tier |
| Play.SortByStart | src/commands/play/play.py:164 | the sorted tiers are a permutation of the given ones, ordered by range start |
| Play.InsertByStartStable | src/commands/play/play.py:164 | inserting a tier keeps the tiers that share a start in their order, the new one first among them |
| Play.SortByStartStable | src/commands/play/play.py:164 | the sort is stable: the tiers with any given start keep their given order |
| Play.MinStart | src/commands/play/play.py:165 | the minimum is the start of some tier and no tier starts below it |
| Play.MaxEnd | src/commands/play/play.py:166 | the maximum is the end of some tier and no tier ends above it |
| Play.FirstInverted | src/commands/play/play.py:157-162 | the first tier whose start exceeds its end is found, and when none is found every range is non-empty |
| Play.PairError | src/commands/play/play.py:196-213 | two neighbouring tiers give at most one complaint, and none exactly when they neither overlap nor, for a continuous category, leave a gap |
| Play.TierError | src/commands/play/play.py:233-243 | a tier gives at most one complaint, and none exactly when it has a non-empty phrase list in the required language |
| Play.RangeErrorsEmpty | src/commands/play/play.py:193-215 | the range check reports nothing exactly when every pair of neighbours is fine |
| Play.TierLocaleErrorsEmpty | src/commands/play/play.py:233-243 | the tier locale check reports nothing exactly when every tier has phrases in the required language |
| Play.LocaleErrorsEmpty | src/commands/play/play.py:217-256 | the locale check reports nothing exactly when name, units and every tier cover the required language and its goal template is non-empty |
| Play.NewCategory | src/commands/play/play.py:153-179 | no tiers is an error; a built category has non-empty ranges, its tiers sorted by start, and the given name, win value, locale and continuity |
| PlayProps.ComplaintsEmpty | src/commands/play/play.py:170-179 | the collected complaints are empty exactly when the ranges, the locales and the exact win value are all acceptable |
| PlayProps.CreateAccepts | src/commands/play/play.py:153-179 | a category is created if and only if it has tiers, no inverted range, and its sorted tiers pass every check |
| PlayProps.CreateValid | src/commands/play/play.py:164-191 | a created category keeps the same tiers sorted by start, its extremes and total follow from them, and every check holds |
| PlayProps.SameStartOverlaps | src/commands/play/play.py:203-207 | two tiers with the same start are always rejected as overlapping |
| PlayProps.SortTwo | src/commands/play/play.py:164 | sorting two tiers yields the same two tiers in one of the two orders |
| Play.TierForValue | src/commands/play/play.py:334-354 | a found tier contains the value; on a valid category a value inside the extremes finds a tier exactly when some tier contains it |
| Play.AdjacentOrdered | src/commands/play/play.py:193-215 | tiers that pass the range check are strictly ordered: every tier ends before any later one starts |
| PlayProps.TotalPositive | src/commands/play/play.py:189-191 | with non-empty ranges the total count of values is at least the number of tiers |
| PlayProps.ValueAtInTier | src/commands/play/play.py:365-371 | every index below the total maps to a value inside some tier |
| PlayProps.ValueAtIndexOf | src/commands/play/play.py:365-371 | every value inside some tier is reached by an index below the total |
| PlayProps.IndexOfValueAt | src/commands/play/play.py:365-371 | on strictly ordered tiers the value of an index maps back to that same index |
| PlayProps.DrawInjective | src/commands/play/play.py:359-373 | two different draws of a valid category give two different values |
| PlayProps.DrawInTier | src/commands/play/play.py:359-373 | every draw lies in some tier and between the category's extremes, so the final fallback is never taken |
| PlayProps.DrawCovers | src/commands/play/play.py:359-373 | every value of every tier is reached by exactly the draw at its index |
| PlaySchema.AtIntKey | src/commands/play/play_schema.py:90 | `d[n]` for a present integer key is the value of an entry whose key equals `n` (`True` counting as 1) |
| PlaySchema.AtStrKey | src/commands/play/play_schema.py:160-164 | `d[key]` for a present string key is the value of an entry with that key |
| PlaySchema.WinValueErrors | src/commands/play/play_schema.py:47-69 | at most one complaint, and none exactly for "min", "max" or a pair `("exact", int)` |
| PlaySchema.WinType | src/commands/play/play_schema.py:39-44 | the win type is the string itself, the first item of a non-empty tuple, or "unknown" |
| PlaySchema.TierRangeErrors | src/commands/play/play_schema.py:85-97 | at most one complaint per tier, and none exactly when every tier in the span has a pair of ints |
| PlaySchema.RangesErrors | src/commands/play/play_schema.py:72-99 | a callable is never checked, a value that is neither dict nor callable gives one complaint, and a dict is clean exactly when every tier `1..n` has a pair of ints |
| PlaySchemaProps.MissingTierReported | src/commands/play/play_schema.py:85-88 | a range dict missing one of the tiers is always reported |
| PlaySchema.TierPhraseErrors | src/commands/play/play_schema.py:118-134 | at most one complaint per tier, and none exactly when every tier in the span has a non-empty list |
| PlaySchema.PhraseEntriesErrors | src/commands/play/play_schema.py:111-134 | the languages are clean exactly when each maps to a dict with a non-empty list for every tier |
| PlaySchema.PhrasesErrors | src/commands/play/play_schema.py:102-136 | empty phrases give exactly "phrases is empty"; otherwise they are clean exactly when every language is |
| PlaySchema.FieldError | src/commands/play/play_schema.py:159-168 | a required field gives at most one complaint, and none exactly when it is present and a string |
| PlaySchema.LocaleEntriesErrors | src/commands/play/play_schema.py:152-168 | the locale entries are clean exactly when each is a dict with string `name` and `units` |
| PlaySchema.LocaleErrors | src/commands/play/play_schema.py:139-170 | a non-dict locale gives one complaint, an empty one is accepted, and any other is clean exactly when every language is |
| PlaySchema.PartErrors | src/commands/play/play_schema.py:199-204 | one complaint at most per part, and none exactly when every part is a string |
| PlaySchema.WinLocaleEntriesErrors | src/commands/play/play_schema.py:185-204 | the templates are clean exactly when each is a non-empty list of strings |
| PlaySchema.WinLocaleErrors | src/commands/play/play_schema.py:173-206 | no win locale is accepted, a non-dict gives one complaint, and a dict is clean exactly when every template is |
| PlaySchema.AllErrors | src/commands/play/play_schema.py:17-36 | the flat list has every error, starts with the locale errors and ends with the win locale errors, and is empty exactly when `has_errors` is false |
| PlaySchemaProps.FullSchemaAccepts | src/commands/play/play_schema.py:209-232 | the full schema passes exactly when all five checks pass |
| PlaySchemaProps.AdmittedBuilds | src/commands/play/play.py:94-124 | every win value the schema admits builds a win value, with the min, max or exact value it names |
| PlaySchemaProps.RejectedFails | src/commands/play/play.py:94-124 | a spec the schema rejects, other than an exact pair with a non-int value, fails to build |
| CategoryBuilder.MissingParts | src/commands/play/category_builder.py:96-113 | the missing list names exactly the unset parts, in the order tiers_num, ranges, phrases, win_value, locale |
| CategoryBuilder.UnsetAmongKept | src/commands/play/category_builder.py:97-107 | the filter keeps exactly the listed parts that are unset |
| CategoryBuilder.UnsetAmongOrdered | src/commands/play/category_builder.py:97-107 | the filter keeps the parts in their listed order |
| CategoryBuilder.FindInt | src/commands/play/category_builder.py:217 | a lookup by integer key finds an entry with that key, and fails exactly when no key equals it |
| CategoryBuilder.CallRanges | src/commands/play/category_builder.py:119-122 | a callable is asked once for each tier `1..n`, in order, and each answer is keyed by its tier |
| CategoryBuilder.CopyRanges | src/commands/play/category_builder.py:123-124 | a copied dict keeps every key and its pair, in order, and fails exactly when some value is not a tuple or list starting with two ints |
| CategoryBuilderProps.CallableRanges | src/commands/play/category_builder.py:119-122 | with callable ranges, tier `t` gets exactly the pair the callable returns for `t` |
| CategoryBuilderProps.FirstKeyIsIndex | src/commands/play/category_builder.py:120-122 | the computed table answers tier `t` with the callable's value for `t` |
| CategoryBuilder.SortedEnds | src/commands/play/category_builder.py:126-128 | after sorting by start the first and last ranges are among the given ones, and every start lies between theirs |
| CategoryBuilder.SortedBounds | src/commands/play/category_builder.py:126-128 | in start-sorted ranges every start lies between the first and the last start |
| CategoryBuilder.ExtremesBounds | src/commands/play/category_builder.py:126-128 | with no ranges the build fails; otherwise the minimum is the smallest start, and the maximum is the end of the last range, in the given order, among those with the largest start (not the largest end) |
| CategoryBuilder.SortedPicksFirst | src/commands/play/category_builder.py:126-127 | because the sort is stable, the first range once sorted is the first given range with its start |
| CategoryBuilder.SortedPicksLast | src/commands/play/category_builder.py:126-128 | likewise the last range once sorted is the last given range with its start |
| CategoryBuilder.FirstPick | src/commands/play/category_builder.py:126-127 | the position of the range sorted first: no earlier range shares its start |
| CategoryBuilder.LastPick | src/commands/play/category_builder.py:126-128 | the position of the range sorted last: no later range shares its start |
| CategoryBuilder.PicksBound | src/commands/play/category_builder.py:126-128 | every start lies between the starts of the ranges sorted first and last |
| CategoryBuilder.WrittenEnds | src/commands/play/category_builder.py:119-124 | the range ends as written (a bool kept as a bool) line up with the computed pairs and equal them as numbers |
| CategoryBuilder.ExtremeEnds | src/commands/play/category_builder.py:126-128 | reading the extremes as written fails exactly when there are no ranges |
| CategoryBuilder.ExtremeEndsAgree | src/commands/play/category_builder.py:126-128 | the extremes as written equal the numeric extremes; the minimum is the written start of the first range with the smallest start, the maximum the written end of the last range with the largest start |
| CategoryBuilderProps.TiedStartsLastEnd | src/commands/play/category_builder.py:126-128 | for the ranges (1,5), (6,10), (6,8) in that order the extremes are 1 and 8 |
| CategoryBuilderProps.BoolStartKept | src/commands/play/category_builder.py:123-128 | for `{1: (False, 5), 2: (6, 10)}` the ranges copy as (0,5), (6,10) and the extremes as written are `False` and 10 |
| CategoryBuilderProps.BoolStartRendered | src/commands/play/category_builder.py:189-200 | with the extremes `False` and 10, `@range` renders `False-10` and a "min" `@value` renders `False` |
| CategoryBuilderProps.ExtremesOfTable | src/commands/play/category_builder.py:126-128 | for the ranges (3,4), (1,2), (5,6) the extremes are 1 and 6 |
| CategoryBuilderProps.ListRangeCopied | src/commands/play/category_builder.py:123-124 | a range entry past `tiers_num` that is a list `[11, 20]` is copied and read as the pair (11, 20), as `r[0]` and `r[1]` read it |
| CategoryBuilderProps.ListRangeExtremes | src/commands/play/category_builder.py:126-128 | with that list range last by start, the extremes of (1,5), (6,10), (11,20) are 1 and 20 |
| CategoryBuilder.AsTiers | src/commands/play/category_builder.py:126 | the computed ranges become one tier each, in order |
| CategoryBuilder.Strings | src/commands/play/play_schema.py:199-204 | a list is read as strings exactly when every item is a string, each kept in place |
| CategoryBuilder.AsStrings | src/commands/play/category_builder.py:158 | a template is a list of strings exactly when it is a list whose items are all strings, read in place |
| CategoryBuilder.StrKeys | src/commands/play/category_builder.py:152 | the languages of a dict are exactly its string keys; the source also takes non-string keys, which the model rejects (see Left out) |
| CategoryBuilder.CustomGoalsKeys | src/commands/play/category_builder.py:151-158 | custom goal templates are built for exactly the languages of the custom win locale |
| CategoryBuilder.TemplatesKeys | src/commands/play/category_builder.py:156-180 | the goal templates have exactly the languages processed |
| CategoryBuilder.GoalTemplates | src/commands/play/category_builder.py:145-182 | a non-empty custom win locale decides the languages, exactly its string keys; otherwise the default goal locale does (a non-string key raises, see Left out) |
| CategoryBuilderProps.DefaultsUsed | src/commands/play/category_builder.py:163-177 | without a custom win locale each default language gets its default template for the win type, or an empty text when there is none |
| CategoryBuilderProps.CustomOverrides | src/commands/play/category_builder.py:157-158 | a language of the custom win locale gets its own template parts expanded (the last entry for a repeated key wins) |
| CategoryBuilderProps.TemplateOverrides | src/commands/play/category_builder.py:156-180 | the same holds for any expansion of the parts |
| CategoryBuilderProps.JoinConcat | src/commands/play/category_builder.py:185-206 | expanding concatenated parts gives the concatenated texts |
| CategoryBuilderProps.ExpandConcat | src/commands/play/category_builder.py:184-206 | expanding two runs of parts one after the other gives the two texts one after the other |
| CategoryBuilderProps.PartTextsConcat | src/commands/play/category_builder.py:187 | the parts are expanded one by one, independently of each other |
| CategoryBuilderProps.MapPartsConcat | src/commands/play/category_builder.py:187 | mapping over concatenated parts concatenates the mapped results |
| CategoryBuilderProps.PlainCopied | src/commands/play/category_builder.py:203-204 | parts other than `@range` and `@value` are copied unchanged |
| CategoryBuilderProps.TokenValues | src/commands/play/category_builder.py:189-202 | `@range` renders `lo` alone when both ends are equal as numbers and `lo-hi` otherwise; `@value` renders the maximum for "max", the minimum for "min", and stays `@value` for an unknown type; each end is printed as `str` prints it, a bool as `True`/`False` |
| CategoryBuilderProps.OneToken | src/commands/play/category_builder.py:187-204 | a single part expands exactly as the part rule says |
| CategoryBuilderProps.ExactValueRendered | src/commands/play/category_builder.py:195-196 | for an exact win value `@value` renders the integer with `str`, including a boolean as `True`/`False` |
| CategoryBuilder.BuildWinValue | src/commands/play/category_builder.py:130-143 | a "min" win value takes the smallest start and a "max" one the end of the last sorted range, each as a number |
| CategoryBuilder.TierPhrasesKeys | src/commands/play/category_builder.py:219-221 | each tier's phrases have an entry for every language of the phrases |
| CategoryBuilderProps.MissingPhrasesEmpty | src/commands/play/category_builder.py:221 | a language without the tier gives it an empty phrase list |
| CategoryBuilder.BuildTiers | src/commands/play/category_builder.py:208-230 | a successful build gives one tier per tier number |
| CategoryBuilderProps.TiersInOrder | src/commands/play/category_builder.py:216-228 | tier `t` of the build has the computed range of tier `t` and its phrases by language |
| CategoryBuilderProps.TiersBuilt | src/commands/play/category_builder.py:216-228 | each built tier takes the range and the phrases of its own tier number |
| CategoryBuilder.BuildLocale | src/commands/play/category_builder.py:232-244 | the category locale has a name and a unit for exactly the string-keyed languages of the locale spec (a non-string key fails, see Left out) |
| CategoryBuilderProps.LocaleDefaults | src/commands/play/category_builder.py:241-242 | a language without name or units gets empty texts for both |
| CategoryBuilder.Build | src/commands/play/category_builder.py:78-94 | an incomplete builder fails naming the missing parts; a built category keeps the name and continuity and passes every check of the category |
| CategoryBuilder.CreateCategory | src/commands/play/category_builder.py:254-308 | a schema error gives no category; otherwise the category is exactly what the builder produces, and it is valid |
| CategoryBuilder.BuildOne | src/commands/play/category_builder.py:354-394 | a build result keeps the name, has a category exactly when no phase failed, and never blames the schema |
| CategoryBuilder.PickIf | src/commands/play/category_builder.py:335-346 | the picked specs are among the given ones and no more numerous |
| CategoryBuilder.FailuresOf | src/commands/play/category_builder.py:396 | the failures are results without a category |
| CategoryBuilder.SplitBy | src/commands/play/category_builder.py:323-346 | the loop splits the specs into the flagged and the unflagged ones, in order, as the filter definition does |
| CategoryBuilder.Collect | src/commands/play/category_builder.py:352-396 | the loop collects the categories of the successes and the failed results, in order, as their filter definitions do |
| CategoryBuilder.CreateAll | src/commands/play/category_builder.py:311-412 | the successes are the built categories of the schema-valid specs; the failures are the schema failures followed by the build failures |
| CategoryBuilderProps.CreateCategoryOutcome | src/commands/play/category_builder.py:254-308 | creating one category agrees with the batch's outcome for that spec |
| CategoryBuilderProps.AgreesWithCreateCategory | src/commands/play/category_builder.py:311-412 | the batch yields the same categories, in the same order, as creating each spec on its own |
| CategoryBuilderProps.Partition | src/commands/play/category_builder.py:311-412 | every spec ends up as exactly one success or one failure |
| CategoryBuilderProps.SchemaFailuresPhase | src/commands/play/category_builder.py:335-344 | a schema failure has no category and is blamed on the schema |
| CategoryBuilderProps.BuildFailuresPhase | src/commands/play/category_builder.py:378-394 | a failure after the schema passed is blamed on the build or the post-init check |
| BotUtils.EscapeWith | src/safely_bot_utils.py:102-103 | escaping lengthens the text by exactly one backslash per special character |
| BotUtils.Replace | src/safely_bot_utils.py:103 | one `replace` lengthens the text by one backslash per occurrence of the character |
| BotUtils.SpecialCharsDistinct | src/safely_bot_utils.py:100 | the eighteen special characters are distinct and do not include the backslash |
| BotUtils.EscapeMarkdownV2 | src/safely_bot_utils.py:94-104 | None escapes to the empty text; otherwise the eighteen `replace` calls in turn equal one pass that puts a backslash before each special character |
| BotUtils.ReplaceEachEscapes | src/safely_bot_utils.py:102-103 | replacing the characters one after another gives the single escaping pass, because no replacement inserts a character a later one would touch |
| BotUtils.ReplaceStep | src/safely_bot_utils.py:103 | one more `replace` of a new character extends the escaping to that character |
| BotUtils.ReplaceConcat | src/safely_bot_utils.py:103 | `replace` works character by character: it distributes over concatenation |
| BotUtils.EscapeNothing | src/safely_bot_utils.py:102-103 | with nothing to escape the text is unchanged |
| BotUtils.UnescapeEscape | src/safely_bot_utils.py:94-104 | escaping loses nothing: dropping the added backslashes gives back the text |
| BotUtils.EscapeInjective | src/safely_bot_utils.py:94-104 | two texts with the same escaped form are the same text |
| BotUtils.CountAppend | src/safely_bot_utils.py:102-103 | the count of special characters adds up over concatenation |
| BotUtils.ToLinkUser | src/safely_bot_utils.py:107-112 | no user gives the "unknown user" phrase, no username gives the first name, and any username, even empty, adds a `t.me` link |
| BotUtils.LinkV2Shape | src/safely_bot_utils.py:115-127 | the v2 link starts with the escaped first name, from which the first name is recovered exactly; an empty or missing username adds nothing |
| BotUtils.XorZero | src/safely_bot_utils.py:135 | xor with zero is the identity |
| BotUtils.XorComm | src/safely_bot_utils.py:135 | xor is commutative |
| BotUtils.XorCancel | src/safely_bot_utils.py:135-139 | xor with the same value twice cancels, so each xor step of the hash can be undone |
| BotUtils.XorSelf | src/safely_bot_utils.py:135 | a value xor itself is zero |
| BotUtils.DailyHash | src/safely_bot_utils.py:130-140 | for a non-negative key the hash is a non-negative Python integer, with no wrap-around |
| BotUtils.DiceWeights | src/safely_bot_utils.py:193-194 | one weight per dice emoji, in table order |
| BotUtils.WeightedIndex | src/safely_bot_utils.py:201 | a draw below the total weight picks the index whose cumulative weight band holds it |
| BotUtils.BandsDisjoint | src/safely_bot_utils.py:201 | the weight bands of two indices do not overlap, so the drawn index is unique |
| BotUtils.RandomDiceEmoji | src/safely_bot_utils.py:185-202 | every draw below the total weight 270 names a dice emoji of the table |
| BotUtils.DiceTable | src/safely_bot_utils.py:185-194 | the key list is exactly the table's emojis, and every emoji has a positive weight and at least one winning value |
| BotUtils.Phrases | src/safely_bot_utils.py:251-256 | an unknown language falls back to "ru", which fails only when "ru" is missing too; a known key gives its formatted template, an unknown one the fixed fallback phrase |
| BotUtils.PhrasesFallbackSticks | src/safely_bot_utils.py:252-253 | once the language has fallen back, later lookups keep that language |
| BotUtils.DoAction | src/safely_bot_utils.py:31-39 | a wrapped call returns its result when it succeeds and None exactly when it raises |
| LayoutMaps.Dict | src/commands/fuzzy_match/layout_maps.py:1-28 | a dict literal has exactly the keys of its pairs |
| LayoutMaps.Swap | src/commands/fuzzy_match/layout_maps.py:30 | the reverse mapping's items are the original items with key and value exchanged |
| LayoutMaps.Upper | src/commands/fuzzy_match/layout_maps.py:33-34 | `upper` maps a lower-case Latin letter to a capital Latin letter and a lower-case Cyrillic letter to a capital Cyrillic letter |
| LayoutMaps.UpperPairs | src/commands/fuzzy_match/layout_maps.py:33-34 | the upper-case tables take each item with both sides upper-cased |
| LayoutMapsProps.DictAt | src/commands/fuzzy_match/layout_maps.py:1-28 | with distinct keys every listed pair survives in the dict |
| LayoutMapsProps.EngToRuShape | src/commands/fuzzy_match/layout_maps.py:1-28 | the table has 26 rows, each from a lower-case Latin letter to a lower-case Cyrillic letter, with no key or value repeated |
| LayoutMapsProps.KeysLatin | src/commands/fuzzy_match/layout_maps.py:1-28 | every key of the table is a lower-case Latin letter |
| LayoutMapsProps.ValuesCyrillic | src/commands/fuzzy_match/layout_maps.py:1-28 | every value of the table is a lower-case Cyrillic letter |
| LayoutMapsProps.KeysDistinct | src/commands/fuzzy_match/layout_maps.py:1-28 | no key of the table repeats |
| LayoutMapsProps.ValuesDistinct | src/commands/fuzzy_match/layout_maps.py:1-28 | no value of the table repeats, so the reverse table loses nothing |
| LayoutMapsProps.UpperInjective | src/commands/fuzzy_match/layout_maps.py:33-34 | two lower-case letters with the same capital are the same letter |
| LayoutMapsProps.EngToRuBijective | src/commands/fuzzy_match/layout_maps.py:1-28 | the table maps all 26 Latin letters, and only them, one-to-one onto Cyrillic letters |
| LayoutMapsProps.LatinCovered | src/commands/fuzzy_match/layout_maps.py:1-28 | every lower-case Latin letter has a row |
| LayoutMapsProps.RuToEngInverse | src/commands/fuzzy_match/layout_maps.py:30 | the reverse table undoes the table, in both directions |
| LayoutMapsProps.UpperDictAt | src/commands/fuzzy_match/layout_maps.py:33-34 | the upper-case table maps each upper-cased key to the upper-cased value |
| LayoutMapsProps.UpperMirrors | src/commands/fuzzy_match/layout_maps.py:33-34 | the upper-case tables agree with the lower-case ones on capitals, in both directions |
| LayoutMapsProps.UpperMirrorsEng | src/commands/fuzzy_match/layout_maps.py:33 | the upper-case English table sends a capital to the capital of the lower-case image |
| LayoutMapsProps.UpperMirrorsRu | src/commands/fuzzy_match/layout_maps.py:34 | the upper-case Russian table sends a capital to the capital of the lower-case image |
| LayoutMapsProps.KeySets | src/commands/fuzzy_match/layout_maps.py:30-34 | the four tables have disjoint key alphabets: lower Latin, capital Latin, lower Cyrillic, capital Cyrillic |
| LayoutMapsProps.MergeKeeps | src/commands/fuzzy_match/layout_maps.py:36 | because the key sets are disjoint, merging overrides nothing: each table's entries survive in the merged map |
| LayoutMapsProps.LayoutInvolution | src/commands/fuzzy_match/layout_maps.py:36 | the merged map is its own inverse: mapping a letter twice gives it back |
| LayoutMapsProps.UpperKey | src/commands/fuzzy_match/layout_maps.py:33-34 | every key of an upper-case table is the capital of a key of the lower-case one |
| HowMuch.Percentage | src/commands/how_much.py:10 | the percentage lies in 0..100 and is congruent to the user id plus the day hash modulo 101 |
| HowMuch.BucketIndex | src/commands/how_much.py:11 | the index fails exactly for no groups or more than 100 groups, is below the group count, and starts no later than the percentage unless clamped to the last group |
| HowMuch.BucketMonotone | src/commands/how_much.py:11 | a higher percentage never lands in an earlier group |
| HowMuch.DivMonotone | src/commands/how_much.py:11 | floor division by a positive width is monotone |
| HowMuch.EveryBucketReached | src/commands/how_much.py:11 | every group is reached, by the percentage at its lower edge |
| HowMuch.Reply | src/commands/how_much.py:9-14 | the reply fails exactly when the group count is out of range or the chosen group has no emojis or no answers; otherwise it is an emoji and an answer of that group around the percentage |
| Dispatcher.Head | src/commands/dispatcher.py:31 | `head` is None exactly for an empty list and is the first item otherwise |
| Dispatcher.At | src/commands/dispatcher.py:32 | `at(l)(n)` is None exactly when n is past the end and is the n-th item otherwise |
| Dispatcher.SplitOn | src/commands/dispatcher.py:36 | `split("@")` yields at least one piece, no piece contains '@', and a text without '@' is its own single piece |
| Dispatcher.JoinSplit | src/commands/dispatcher.py:36 | splitting on '@' loses nothing: joining the pieces with '@' gives back the word |
| Dispatcher.SplitOnAround | src/commands/dispatcher.py:36 | for `a@b` with no '@' in `a`, the first piece is `a` and the second is `b` up to its next '@' |
| Dispatcher.StripSlashes | src/commands/dispatcher.py:36 | `lstrip("/")` removes every leading slash and nothing after the first other character |
| Dispatcher.SplitCmdOf | src/commands/dispatcher.py:36 | `split_cmd` of slashes, a word and then whitespace or nothing is that word split on '@' |
| Dispatcher.CmdForBotExactly | src/commands/dispatcher.py:37-38 | a command word without '@' is for this bot; with '@' it is for this bot exactly when the text between the first and second '@' is the bot's username |
| Dispatcher.UnknownCmdNever | src/commands/dispatcher.py:39-43 | `unknown_cmd` is false for every message with a command word, because no piece of a split on '@' equals "@" |
| Dispatcher.AllowedChatsExactly | src/commands/dispatcher.py:34 | without the "*" wildcard a chat passes only when its decimal id is listed, and that decimal form names no other chat |
| Dispatcher.QueryFilterAsWrittenIgnoresChat | src/commands/dispatcher.py:90 | as written, a title-game button press with a "number_" payload passes from a chat that is not allowed |
| Dispatcher.QueryFilterFollowsChats | src/commands/dispatcher.py:45 | with the chat check applied to the button's message, a button passes exactly in the chats where `chat_ok` lets every command predicate through unchanged |
| Dispatcher.Commands | src/commands/dispatcher.py:51-62 | the final table has the nine registered names in order, each with its handler, and every entry keeps its first description; the help entry gets the help handler |
| Dispatcher.Lookup | src/commands/dispatcher.py:64 | `COMMANDS[name]` finds an entry with that name, and fails only when no entry has it |
| Dispatcher.LookupAt | src/commands/dispatcher.py:64 | with names distinct before position i, looking up the i-th name finds the i-th entry |
| Dispatcher.NameIsWord | src/commands/dispatcher.py:51-61 | every registered name is non-empty, does not start with '/', and has no '@' and no whitespace |
| Dispatcher.CommandsLookup | src/commands/dispatcher.py:51-64 | in the final table every registered name finds its own entry |
| Dispatcher.HandleCmd | src/commands/dispatcher.py:64 | `handle_cmd` fails exactly when there is no command word or no entry of that name, and otherwise runs a handler registered under the command name |
| Dispatcher.SuffixedWord | src/commands/dispatcher.py:35-38 | the word `name@bot` has no whitespace, its command name is `name`, and its bot part is `bot` |
| Dispatcher.CommandWord | src/commands/dispatcher.py:35-38 | the command name of `/name` or `/name@bot`, after any slashes and followed by whitespace or nothing, is `name`, and the command is for `bot` |
| Dispatcher.DispatchesRegistered | src/commands/dispatcher.py:35-64 | `/name` or `/name@bot` runs the handler registered under `name`, and the help entry keeps its help phrase |
| Dispatcher.VerifyFilterExact | src/commands/dispatcher.py:83 | the verification filter passes exactly the senders with a captcha session, and for everyone else the verify handler would change nothing and call nothing |
| PlayEvent.Wrap | src/commands/play_event.py:21-26 | `_to_bold` and `_to_italic` put one marker ('*' or '_') on each side and keep the text whole between them |
| PlayEvent.WrapInjective | src/commands/play_event.py:21-26 | different texts have different bold and italic forms, and no bold form is an italic form |
| PlayEvent.GetPlayers | src/commands/play_event.py:43-47 | the players are exactly the users of the administrators that can be edited or are the creator, and no more than there are administrators |
| PlayEvent.GetPlayersConcat | src/commands/play_event.py:43-47 | the filter keeps the order: the players of two lists one after the other are the players of the first followed by those of the second |
| PlayEvent.PlayerValues | src/commands/play_event.py:212-215 | each player is paired, in order, with the value drawn for that player's id |
| PlayEvent.ArgMin | src/commands/play_event.py:233-235 | `min` with a key picks the first position holding the smallest key |
| PlayEvent.ArgMax | src/commands/play_event.py:240 | `max` with a key picks the first position holding the largest key |
| PlayEvent.ExactMatches | src/commands/play_event.py:226 | the exact winners are exactly the pairs whose value equals the target |
| PlayEvent.SelectWinner | src/commands/play_event.py:225-250 | there is a winner exactly for "exact", "max" and "min", and the winner is a player; "max" has the largest value, "min" the smallest, and "exact" hits the target whenever some player does and is otherwise closest to it |
| PlayEvent.FirstAmongEquals | src/commands/play_event.py:239-248 | for "max" and "min" ties go to the earliest player: nobody before the winner has the winning value |
| PlayEvent.FindPlayer | src/commands/play_event.py:259 | the previous winner is found exactly when some player has that id, and the result is such a player |
| PlayEvent.HandleWinner | src/commands/play_event.py:194-269 | no players gives only the reply; a new round happens exactly when the day flag is 1 or missing, and commits exactly for a known win type, naming a player with that player's value; otherwise the previous winner is shown again, or the call re-enters itself when that winner is no longer a player |
| PlayEvent.NewWinnerIsBest | src/commands/play_event.py:210-254 | in a new round with a known win type the committed winner is at least as good as every player: largest for "max", smallest for "min", closest to the target for "exact" |
| RollCustomTitle.EnumValuesDistinct | src/custom_typing/typing.py:87-110 | the members of Action, Field and RollType have pairwise distinct values |
| RollCustomTitle.ToInt | src/commands/roll_custom_title.py:268-271 | `_to_int` keeps an int; a string is None exactly when its text after the leading '-' characters is empty or not all digits, and raises exactly when that text is digits after more than one '-'; other values are None |
| RollCustomTitle.ToIntRoundTrip | src/commands/roll_custom_title.py:268-271 | the decimal text of any integer, negative or not, reads back as that integer |
| RollCustomTitle.ToIntNatural | src/commands/roll_custom_title.py:268-271 | the decimal text of a natural number reads back as that number |
| RollCustomTitle.ToIntNegative | src/commands/roll_custom_title.py:268-271 | the decimal text of a negative number, a single '-' and its digits, reads back as that number |
| RollCustomTitle.ToActionType | src/commands/roll_custom_title.py:274-277 | `_to_action_type` is the member whose value the string is, None for any other hashable value, and raises for a list or an object |
| RollCustomTitle.AdminTitle | src/commands/roll_custom_title.py:344-348 | the shown title is that of the first administrator with the id, and None when no administrator has it |
| RollCustomTitle.GetRollStatus | src/commands/roll_custom_title.py:144-155 | no record gives ROLL_INSTANT; a stored title that differs from the shown one gives GIVE_OLD; otherwise a passed day gives ROLL_READY and anything else WAIT, each as an if-and-only-if |
| RollCustomTitle.HandleRollLogic | src/commands/roll_custom_title.py:170-181 | the callback runs exactly when the status is ROLL_READY, or WAIT with `call_ready_on_wait`; ROLL_INSTANT sets a random title, GIVE_OLD restores the stored one, and WAIT otherwise answers "can't roll" |
| RollCustomTitle.Handlers | src/commands/roll_custom_title.py:47-70 | the steal menu opens only for a page that reads as a non-negative integer and otherwise reports a broken button; a dice value that is not an integer raises; a dice roll only starts for a value in 0..6; the titles-bag actions do nothing |
| RollCustomTitle.HandleTitleChangeAttempt | src/commands/roll_custom_title.py:72-89 | a press is rejected for a user id that is not an integer, then for an unknown action, then refused when the presser is not the owner; only the owner's press reaches the roll logic, and a handler runs only when a roll is due |
| RollCustomTitle.StealMenuPayloadRoundTrip | src/commands/roll_custom_title.py:308-315 | the owner's press on a steal-menu payload opens that page, and anyone else's press is refused |
| RollCustomTitle.StealTitlePayloadRoundTrip | src/commands/roll_custom_title.py:318-325 | the owner's press on a steal-title payload steals from that target |
| RollCustomTitle.MenuPayloadsRoundTrip | src/commands/roll_custom_title.py:290-305 | the owner's press on the rename-menu payload opens the rename menu, and on the lucky-roll payload rolls the random die |
| RollCustomTitle.D6PayloadRoundTrip | src/commands/roll_custom_title.py:280-287 | the owner's press on the payload of number button `i` rolls for `i` |
| RollCustomTitle.NegativePageRejected | src/commands/roll_custom_title.py:52-56 | a steal-menu payload with a negative page reports a broken button instead of opening a page |
| RollCustomTitle.UserTitles | src/commands/roll_custom_title.py:243 | the stored-titles dict has a key for every row and no other, and the final row's user maps to that row's title |
| RollCustomTitle.UserTitlesLastRow | src/commands/roll_custom_title.py:243 | every user maps to the title of the last row for that user, whatever rows for other users follow it |
| RollCustomTitle.Titles | src/commands/roll_custom_title.py:244-249 | the candidates are exactly the administrators other than the requester whose shown title equals the stored one, each with that title |
| RollCustomTitle.TitlesConcat | src/commands/roll_custom_title.py:244-249 | the candidate list is a filter of the administrators: that of two lists laid end to end is the two lists' candidates in order, so order and repeats are kept |
| RollCustomTitle.Slice | src/commands/roll_custom_title.py:252 | a Python slice takes the items from start up to end, cut at the end of the list |
| RollCustomTitle.GetTitlesPage | src/commands/roll_custom_title.py:250-254 | the page is the slice from `page*size` of length at most `size`, and more pages follow exactly when the page's end is before the end of the list |
| RollCustomTitle.PagesCover | src/commands/roll_custom_title.py:250-254 | title `j` is item `j % size` of page `j / size`, and every earlier page announces more pages |
| RollCustomTitle.NavRows | src/commands/roll_custom_title.py:456-462 | there is a navigation row exactly when the page is past the first or more pages follow, holding back then forward, each only when it applies |
| RollCustomTitle.TitleRows | src/commands/roll_custom_title.py:447-453 | one row per title on the page, in order, each holding the steal button for that user and title |
| RollCustomTitle.StealMenu | src/commands/roll_custom_title.py:444-464 | the steal menu lists the title buttons, then the navigation row when there is one, then the rename button last |
| RollCustomTitle.StealMenuNavigates | src/commands/roll_custom_title.py:444-464 | pressed by the owner, each title button steals that user's title, the last button opens the rename menu, back opens the previous page and forward the next |
| RollCustomTitle.StealMenuAsWrittenSkips | src/commands/roll_custom_title.py:454-455 | as written, the back button of page 1 carries page -1, which the handler refuses, and the forward button of page 0 opens page 2 |
| RollCustomTitle.RenameMenu | src/commands/roll_custom_title.py:434-441 | the rename menu has three rows, the first holding the six number buttons for 1 to 6 in order |
| RollCustomTitle.RenameMenuNavigates | src/commands/roll_custom_title.py:434-441 | pressed by the owner, number button `i` rolls for `i`, the lucky button rolls the random die, and "Кража" opens steal page 0 |
| RollCustomTitle.Fitting | src/commands/roll_custom_title.py:130-132 | the nouns kept are exactly those that fit after the adjective and a space within 16 characters |
| RollCustomTitle.RandomTitle | src/commands/roll_custom_title.py:127-134 | the title is the drawn adjective, a space and a listed noun, never longer than 16 characters; it raises exactly when there are no adjectives or no noun fits |
| RollCustomTitle.PersonalTitle | src/commands/roll_custom_title.py:199-202 | every other user keeps the drawn title; for the one special user it is the first word followed by " манул", and it raises exactly when the title is blank |
| RollCustomTitle.RollSuccess | src/commands/roll_custom_title.py:367-379 | without an expected value the roll wins exactly on the die's winning faces; with a non-zero expected value it wins exactly when the roll equals it; an expected 0 always wins |
| RollCustomTitle.D6ChoiceIgnored | src/commands/roll_custom_title.py:382-383 | the number chosen in `_handle_d6` plays no part: success depends only on the roll landing on a winning face |
| Text.NatToString | src/commands/dispatcher.py:34 | `str(n)` of a natural number is a non-empty run of digits without a leading zero |
| Text.IntToStringShape | src/commands/dispatcher.py:34 | `str(i)` is digits, preceded by '-' exactly for a negative number |
| Text.ParseNatToString | src/commands/roll_custom_title.py:270 | `int` of the decimal text of a natural number gives that number back |
| Text.IntToStringInjective | src/commands/dispatcher.py:34 | distinct chat ids have distinct decimal forms |
| Text.LeadingMinus | src/commands/roll_custom_title.py:270 | the decimal text starts with '-' exactly for a negative number |
| Text.LStripChar | src/commands/dispatcher.py:36 | `lstrip(c)` removes a prefix made only of `c`, and what remains does not start with `c` |
| Text.Strip | src/captcha_manager.py:211 | `strip()` leaves no whitespace at either end, and leaves nothing exactly when the text is all whitespace |
| Text.StripPadded | src/captcha_manager.py:211 | stripping removes exactly the whitespace around a word |
| Text.LowerStr | src/captcha_manager.py:211 | `lower()` keeps the length and lowers each character in place |
| Text.FirstWord | src/commands/dispatcher.py:36 | `head(s.split())` is None exactly for a blank text, and otherwise a non-empty run of non-whitespace characters |
| Text.FirstWordOf | src/commands/dispatcher.py:36 | a word surrounded by whitespace is the first word of the text |
| Text.Repeat | src/captcha_manager.py:57 | `c * n` is `n` copies of `c`, and empty when `n` is not positive |
| Text.TruncDiv | src/captcha_manager.py:56 | `int()` of an exact quotient truncates toward zero |

## Left out

- Threads, locks, sleeps and stop events are left out: the queue's ticking thread, the legacy `timer_loop` thread and `CAPTCHA_LOCK`. `tick` and the legacy timer body are single steps, and the thread is a `running` flag.
- LegacyCaptcha.StartTimerIfNeeded: models only the `running` flag, because thread start-up is not modelled.
- Telegram client calls are not modelled. Sends, edits, deletes, kicks, callback answers and photo uploads are entries of the returned effect log. Chat administrators, bot identity and sent-message ids are parameters.
- Image generation is not modelled: the captcha picture, PIL and the congratulation avatars.
- Randomness is an oracle parameter. This covers `random.choice`, `random.choices`, the captcha text draw, `uuid4` task keys and `random.Random(seed)`.
- Database helpers are parameters: the day-passed flag, stored titles, the last winner, and commits.
- `get_random_value_for_user` and Python's `hash` of an int are parameters, because `src/commands/play/play_utils.py` is not part of this model.
- Floating point is not modelled. The caption's progress bar and percentage compute `int((elapsed / total) * n)` in floating point; the model uses exact integer division truncated toward zero (`Text.TruncDiv`). IEEE rounding can differ when `elapsed * n` is an exact multiple of the total.
- `str.format` of phrase templates is a parameter of `BotUtils.Phrases`.
- Non-ASCII digits and letters are not modelled. `Text` treats as whitespace exactly the characters of Python's `str.isspace`, but only ASCII characters as digits and cased letters, whereas Python's `isdigit`, `int` and `lower` also accept Unicode ones.
- JSON encoding and decoding of callback payloads is not modelled. A payload is the decoded object (`RollCustomTitle.Payload`), and undecodable data is the empty object, as `_parse_callback_payload` returns.
- BotUtils.DailyHash: states only that a non-negative key gives a non-negative hash. The exact value is the body's chain of steps, and negative keys (Python's infinite two's complement) are not modelled.
- PlayEvent.HandleWinner: when the previous winner is no longer a player, the source calls itself on unchanged data. The model returns `Diverges` rather than modelling an unbounded recursion.
- `_handle_steal`, `_set_title`, `_set_old_title`, `_set_specific_title` and `_can_bot_change_title` in `src/commands/roll_custom_title.py` are chat-client and database sequences, and are not modelled. The rules they rely on are modelled: `roll_dice` success, the steal payloads and `_get_admin_title`.
- `fuzzy_match`, `message_ok`, `sticker_ok`, `handle_long` and the text and sticker handlers in `src/commands/dispatcher.py` are not modelled. They depend on fuzzy-matching scores and on reply tables outside the core.
- The logging of schema errors (`log_schema_errors`) and all other logging is left out.
- CaptchaManager.ValidConfig: a zero timer or update period is excluded by precondition rather than returned as an error, although the source raises (a `ZeroDivisionError` in `build_caption`, a `ValueError` from `range`). Negative values, which the source accepts (an empty countdown, a bar that runs backwards), are excluded too, because a negative configuration is not a deployment the bot supports.
- CategoryBuilder.BuildTiers: the phrases of a tier must be a list of strings under string language codes. The source copies whatever `tier_data.get(tier_num, [])` holds, under any key, so `CategoryBuilder.BuildTiers` and `CategoryBuilder.Build` raise where the source builds a category whose tiers hold non-string phrases or languages.
- CategoryBuilder.BuildLocale: language codes are strings in the model. `validate_category_locale_schema` checks only the values, and `_build_category_locale` stores any key, so for a locale such as `{"ru": {...}, 1: {...}}` the source builds while `CategoryBuilder.BuildLocale` returns None and `CategoryBuilder.Build` raises.
- CategoryBuilder.GoalTemplates: a non-string language key of a custom win locale makes `CategoryBuilder.Templates`, and so `CategoryBuilder.GoalTemplates` and `CategoryBuilder.Build`, raise, while `_build_win_locale` processes every key of the dict. The category's locale maps are keyed by strings, so a key such as `1` cannot be held.
- CategoryBuilder.CallRanges: a callable's answers are integer pairs, so a callable that returns a bool end has it printed as 0 or 1 where the source prints `True` or `False`; ends written in a dict are kept as written.
- CategoryBuilder.CopyRanges: a copied range value is read only when it is a tuple or a list whose first two items are ints. The schema checks only tiers `1..tiers_num`, so an extra entry may hold anything; `r[0]` and `r[1]` also read other subscriptable values, such as a dict with keys 0 and 1, and a non-int end of a range that is not last by start is never used. For such entries the model raises where the source may build.
- Exact tick numbers in the event-queue tests do not match the code: the code fires timestamp k on tick k, after the offset is incremented. `EventQueueProps` states firing order and offsets as the code computes them.

## Findings

| source | as written | input that shows it | evidently intended | confidence | as-written member | corrected member |
|---|---|---|---|---|---|---|
| src/commands/roll_custom_title.py:454-455 | `_create_steal_menu_markups` passes `page - 1` and `page + 1` to the back and forward button builders (lines 488-497), which subtract or add 1 again | page 1: the back button carries page -1, which the handler refuses; page 0: the forward button carries page 2 and skips page 1 | each navigation button moves exactly one page | not executed | RollCustomTitle.StealMenuAsWrittenSkips | RollCustomTitle.StealMenuNavigates |
| src/commands/dispatcher.py:90 | the button filter evaluates `chat_ok(call.message)`, which builds a filter instead of applying one; a function object is always truthy | a "number_1" press in chat 2 when only chat "1" is allowed passes | the button works only in allowed chats, as commands do | not executed | Dispatcher.QueryFilterAsWrittenIgnoresChat | Dispatcher.QueryFilterFollowsChats |

=== FILE: bot_utils.dfy ===
/**
 * The pure helpers of `src/safely_bot_utils.py`: MarkdownV2 escaping, user
 * links, the daily hash, the dice table, the phrase lookup and the
 * exception-swallowing wrapper around chat-client calls.
 */
module BotUtils {
  import opened Wrappers

  // ------------------------------------------------------------ escaping

  /** The characters MarkdownV2 wants escaped, in the order the source replaces them. */
  const SpecialChars: seq<char> :=
    ['_', '*', '[', ']', '(', ')', '~', '`', '>', '#', '+', '-', '=', '|', '{', '}', '.', '!']

  predicate IsSpecial(c: char) {
    c in SpecialChars
  }

  /** One character of the output when the characters of `chars` are escaped. */
  function EscapeCharWith(c: char, chars: seq<char>): string {
    if c in chars then ['\\', c] else [c]
  }

  /** How many characters of `s` belong to `chars`. */
  function CountIn(s: string, chars: seq<char>): nat {
    if |s| == 0 then 0 else (if s[0] in chars then 1 else 0) + CountIn(s[1..], chars)
  }

  /** A single left-to-right pass prefixing every character of `chars` with a
      backslash; every other character is copied. */
  function EscapeWith(s: string, chars: seq<char>): (r: string)
    ensures |r| == |s| + CountIn(s, chars)
  {
    if |s| == 0 then [] else EscapeCharWith(s[0], chars) + EscapeWith(s[1..], chars)
  }

  /** MarkdownV2 escaping as one pass over the text. */
  function Escape(s: string): string {
    EscapeWith(s, SpecialChars)
  }

  /** `text.replace(c, "\\" + c)` for one character `c`. */
  function Replace(s: string, c: char): (r: string)
    ensures |r| == |s| + CountIn(s, [c])
  {
    if |s| == 0 then [] else (if s[0] == c then ['\\', c] else [s[0]]) + Replace(s[1..], c)
  }

  /** The source's loop: replace each character of `cs` in turn. */
  function ReplaceEach(s: string, cs: seq<char>): string
    decreases |cs|
  {
    if |cs| == 0 then s else ReplaceEach(Replace(s, cs[0]), cs[1..])
  }

  predicate Distinct(cs: seq<char>) {
    forall i, j :: 0 <= i < j < |cs| ==> cs[i] != cs[j]
  }

  /** The position of a character in `SpecialChars`, -1 for any other. */
  function SpecialIndex(c: char): int {
    match c
    case '_' => 0
    case '*' => 1
    case '[' => 2
    case ']' => 3
    case '(' => 4
    case ')' => 5
    case '~' => 6
    case '`' => 7
    case '>' => 8
    case '#' => 9
    case '+' => 10
    case '-' => 11
    case '=' => 12
    case '|' => 13
    case '{' => 14
    case '}' => 15
    case '.' => 16
    case '!' => 17
    case _ => -1
  }

  lemma SpecialCharsDistinct()
    ensures Distinct(SpecialChars) && '\\' !in SpecialChars
  {
    assert forall i :: 0 <= i < |SpecialChars| ==> SpecialIndex(SpecialChars[i]) == i;
  }

  /** `escape_markdown_v2`: None gives "", anything else the loop of
      replacements, which is the single escaping pass. */
  function EscapeMarkdownV2(text: Option<string>): (r: string)
    ensures text.None? ==> r == ""
    ensures text.Some? ==> r == Escape(text.value)
  {
    match text
    case None => ""
    case Some(t) =>
      SpecialCharsDistinct();
      assert [] + SpecialChars == SpecialChars;
      ReplaceEachEscapes(t, [], SpecialChars);
      assert EscapeWith(t, []) == t by { EscapeNothing(t); }
      ReplaceEach(t, SpecialChars)
  }

  lemma {:induction false} EscapeNothing(s: string)
    ensures EscapeWith(s, []) == s
  {
    if |s| > 0 {
      EscapeNothing(s[1..]);
      assert s == [s[0]] + s[1..];
    }
  }

  lemma {:induction false} ReplaceConcat(a: string, b: string, c: char)
    ensures Replace(a + b, c) == Replace(a, c) + Replace(b, c)
  {
    if |a| == 0 {
      assert a + b == b;
    } else {
      assert (a + b)[0] == a[0];
      assert (a + b)[1..] == a[1..] + b;
      ReplaceConcat(a[1..], b, c);
    }
  }

  /** One replacement widens the escaped set by one character, provided
      that character is new and is not the backslash the escaping inserts. */
  lemma {:induction false} ReplaceStep(s: string, chars: seq<char>, c: char)
    requires c !in chars && c != '\\'
    ensures Replace(EscapeWith(s, chars), c) == EscapeWith(s, chars + [c])
  {
    if |s| > 0 {
      var head := EscapeCharWith(s[0], chars);
      ReplaceConcat(head, EscapeWith(s[1..], chars), c);
      ReplaceStep(s[1..], chars, c);
      if s[0] in chars {
        assert Replace(head, c) == ['\\', s[0]] by {
          assert head == ['\\'] + [s[0]];
          ReplaceConcat(['\\'], [s[0]], c);
        }
      }
    }
  }

  lemma {:induction false} ReplaceEachEscapes(s: string, done: seq<char>, cs: seq<char>)
    requires Distinct(done + cs) && '\\' !in done + cs
    ensures ReplaceEach(EscapeWith(s, done), cs) == EscapeWith(s, done + cs)
    decreases |cs|
  {
    if |cs| == 0 {
      assert done + cs == done;
    } else {
      assert cs[0] == (done + cs)[|done|];
      assert cs[0] !in done by {
        forall i | 0 <= i < |done| ensures done[i] != cs[0] {
          assert done[i] == (done + cs)[i];
        }
      }
      ReplaceStep(s, done, cs[0]);
      assert (done + [cs[0]]) + cs[1..] == done + cs;
      ReplaceEachEscapes(s, done + [cs[0]], cs[1..]);
    }
  }

  /** Drop the backslash in front of every escaped character of `chars`. */
  function UnescapeWith(s: string, chars: seq<char>): string {
    if |s| == 0 then []
    else if s[0] == '\\' && |s| > 1 && s[1] in chars then [s[1]] + UnescapeWith(s[2..], chars)
    else [s[0]] + UnescapeWith(s[1..], chars)
  }

  /** Escaping loses nothing: the backslashes it adds can be told apart
      from the text's own, as long as the backslash itself is not escaped. */
  lemma {:induction false} UnescapeEscape(s: string, chars: seq<char>)
    requires '\\' !in chars
    ensures UnescapeWith(EscapeWith(s, chars), chars) == s
  {
    if |s| > 0 {
      var rest := EscapeWith(s[1..], chars);
      UnescapeEscape(s[1..], chars);
      if s[0] in chars {
        var e := ['\\', s[0]] + rest;
        assert e[2..] == rest;
      } else {
        var e := [s[0]] + rest;
        assert e[1..] == rest;
        if s[0] == '\\' && |rest| > 0 {
          assert rest[0] == EscapeCharWith(s[1], chars)[0];
          assert e[1] == rest[0];
        }
      }
      assert s == [s[0]] + s[1..];
    }
  }

  /** Two texts escape alike only when they are equal. */
  lemma EscapeInjective(a: string, b: string)
    requires Escape(a) == Escape(b)
    ensures a == b
  {
    SpecialCharsDistinct();
    UnescapeEscape(a, SpecialChars);
    UnescapeEscape(b, SpecialChars);
  }

  lemma {:induction false} CountAppend(a: string, b: string, chars: seq<char>)
    ensures CountIn(a + b, chars) == CountIn(a, chars) + CountIn(b, chars)
  {
    if |a| == 0 {
      assert a + b == b;
    } else {
      assert (a + b)[1..] == a[1..] + b;
      CountAppend(a[1..], b, chars);
    }
  }

  // ------------------------------------------------------------ user links

  /** The fields of a chat-client `User` the links use. */
  datatype User = User(id: int, firstName: string, username: Option<string>)

  /** The fields of a chat-client `ChatMember` (as `get_chat_administrators`
      lists them) the commands read. */
  datatype ChatMember = ChatMember(user: User, status: string, canBeEdited: bool, customTitle: Option<string>)

  /** `to_link_user`: the first name, followed by a Markdown link when the
      username is not None (an empty username still gets one). */
  function ToLinkUser(user: Option<User>, unknown: string): (r: string)
    ensures user.None? ==> r == unknown
    ensures user.Some? && user.value.username.None? ==> r == user.value.firstName
    ensures user.Some? && user.value.username.Some? ==>
      var name := user.value.username.value;
      r == user.value.firstName + " ([" + name + "](t.me/" + name + "))"
  {
    match user
    case None => unknown
    case Some(u) =>
      match u.username
      case None => u.firstName
      case Some(name) => u.firstName + " ([" + name + "](t.me/" + name + "))"
  }

  /** `to_link_user_v2`: the MarkdownV2 form; a username counts only when it
      is non-empty, and both names are escaped. */
  function ToLinkUserV2(user: Option<User>, unknown: string): (r: string)
  {
    match user
    case None => Escape(unknown)
    case Some(u) =>
      var first := Escape(u.firstName);
      if u.username.Some? && |u.username.value| > 0 then
        var name := Escape(u.username.value);
        first + " \\([" + name + "](https://t\\.me/" + name + ")\\)"
      else first
  }

  /** The v2 link opens with the escaped first name, from which the first
      name is recovered exactly; an empty or missing username adds nothing. */
  lemma LinkV2Shape(u: User, unknown: string)
    ensures var r := ToLinkUserV2(Some(u), unknown);
      var first := Escape(u.firstName);
      |first| <= |r| && r[..|first|] == first
      && UnescapeWith(r[..|first|], SpecialChars) == u.firstName
      && (u.username.None? || u.username == Some("") ==> r == first)
  {
    SpecialCharsDistinct();
    UnescapeEscape(u.firstName, SpecialChars);
    var r := ToLinkUserV2(Some(u), unknown);
    var first := Escape(u.firstName);
    if u.username.Some? && |u.username.value| > 0 {
      var name := Escape(u.username.value);
      assert r == first + (" \\([" + name + "](https://t\\.me/" + name + ")\\)");
    }
  }

  // ------------------------------------------------------------- daily hash

  /** Python's `a ^ b` on non-negative integers, bit by bit. */
  function Xor(a: nat, b: nat): nat
    decreases a + b
  {
    if a == 0 then b
    else if b == 0 then a
    else 2 * Xor(a / 2, b / 2) + (if a % 2 == b % 2 then 0 else 1)
  }

  lemma {:induction false} XorZero(a: nat)
    ensures Xor(a, 0) == a && Xor(0, a) == a
  {
  }

  lemma {:induction false} XorComm(a: nat, b: nat)
    ensures Xor(a, b) == Xor(b, a)
    decreases a + b
  {
    if a != 0 && b != 0 {
      XorComm(a / 2, b / 2);
    }
  }

  /** Xor-ing twice with the same mask gives the value back. */
  lemma {:induction false} XorCancel(a: nat, b: nat)
    ensures Xor(Xor(a, b), b) == a
    decreases a + b
  {
    if a == 0 {
      XorSelf(b);
    } else if b != 0 {
      var x := Xor(a / 2, b / 2);
      var bit := if a % 2 == b % 2 then 0 else 1;
      assert Xor(a, b) == 2 * x + bit;
      XorCancel(a / 2, b / 2);
      if 2 * x + bit == 0 {
        assert x == 0 && bit == 0;
        XorZero(b / 2);
        assert Xor(a / 2, b / 2) == 0;
        assert a / 2 == b / 2 by { XorCancel(a / 2, b / 2); XorZero(b / 2); }
      } else {
        assert (2 * x + bit) / 2 == x;
        assert (2 * x + bit) % 2 == bit;
      }
    }
  }

  lemma {:induction false} XorSelf(a: nat)
    ensures Xor(a, a) == 0
    decreases a
  {
    if a != 0 {
      XorSelf(a / 2);
    }
  }

  /** `a >> k` on a non-negative integer: `k` halvings, each rounding down. */
  function Shr(a: nat, k: nat): (r: nat)
    ensures r <= a
  {
    if k == 0 then a else Shr(a / 2, k - 1)
  }

  /** `daily_hash(salt)` with today's ordinal passed in: the key is mixed by
      the listed xor, shift and multiply steps (Python integers, no wrap). */
  function DailyHash(salt: int, ordinal: int): (h: int)
    requires salt + ordinal >= 0
    ensures h >= 0
  {
    var k0: nat := salt + ordinal;
    var k1 := Xor(Xor(k0, 61), Shr(k0, 16));
    var k2 := k1 + k1 * 8;
    var k3 := Xor(k2, Shr(k2, 4));
    var k4 := k3 * 0x27D4EB2D;
    Xor(k4, Shr(k4, 15))
  }

  // ---------------------------------------------------------------- dice

  /** One row of `DICES`: the weight of the emoji and the values that win. */
  datatype Dice = Dice(weight: nat, winValues: seq<int>)

  /** The dice emojis in the table's order. */
  const DiceKeys: seq<string> := ["\U{26BD}", "\U{1F3C0}", "\U{1F3AF}", "\U{1F3B3}", "\U{1F3B0}"]

  /** The emoji of the plain die `send_dice` throws. */
  const PlainDie: string := "\U{1F3B2}"

  const Dices: map<string, Dice> := map[
    "\U{26BD}" := Dice(25, [3, 4, 5]),
    "\U{1F3C0}" := Dice(25, [4, 5]),
    "\U{1F3AF}" := Dice(54, [6]),
    "\U{1F3B3}" := Dice(54, [6]),
    "\U{1F3B0}" := Dice(112, [1, 22, 43, 64])]

  function Sum(ws: seq<nat>): nat {
    if |ws| == 0 then 0 else Sum(ws[..|ws| - 1]) + ws[|ws| - 1]
  }

  /** `_dice_weights`. */
  function DiceWeights(): (ws: seq<nat>)
    ensures |ws| == |DiceKeys|
  {
    [Dices[DiceKeys[0]].weight, Dices[DiceKeys[1]].weight, Dices[DiceKeys[2]].weight,
     Dices[DiceKeys[3]].weight, Dices[DiceKeys[4]].weight]
  }

  /** `random.choices(keys, weights)` once the uniform draw `r` over the
      total weight is known: the first index whose cumulative weight
      exceeds `r`. */
  function WeightedIndex(ws: seq<nat>, r: nat): (i: nat)
    requires r < Sum(ws)
    ensures i < |ws|
    ensures Sum(ws[..i]) <= r < Sum(ws[..i + 1])
    decreases |ws|
  {
    var n := |ws| - 1;
    assert ws[..n + 1] == ws;
    if r >= Sum(ws[..n]) then n
    else
      var i := WeightedIndex(ws[..n], r);
      assert ws[..n][..i] == ws[..i] && ws[..n][..i + 1] == ws[..i + 1];
      i
  }

  /** The index an emoji is drawn at is the only one whose weight band holds
      the draw: bands of distinct indices do not overlap. */
  lemma {:induction false} BandsDisjoint(ws: seq<nat>, i: nat, j: nat)
    requires i < j <= |ws|
    ensures Sum(ws[..i + 1]) <= Sum(ws[..j])
    decreases j - i
  {
    if j > i + 1 {
      BandsDisjoint(ws, i, j - 1);
      assert ws[..j][..j - 1] == ws[..j - 1];
    }
  }

  /** `send_random_dice`: the emoji drawn with the table's weights. */
  function RandomDiceEmoji(r: nat): (e: string)
    requires r < 270
    ensures e in Dices
  {
    assert Sum(DiceWeights()) == 270 by {
      var ws := DiceWeights();
      assert ws == [25, 25, 54, 54, 112];
      assert ws[..0] == [] && Sum(ws[..0]) == 0;
      assert ws[..1][..0] == ws[..0] && Sum(ws[..1]) == 25;
      assert ws[..2][..1] == ws[..1] && Sum(ws[..2]) == 50;
      assert ws[..3][..2] == ws[..2] && Sum(ws[..3]) == 104;
      assert ws[..4][..3] == ws[..3] && Sum(ws[..4]) == 158;
      assert ws[..5] == ws && ws[..5][..4] == ws[..4];
    }
    DiceKeys[WeightedIndex(DiceWeights(), r)]
  }

  /** Every emoji of the table can win and is drawn with a positive weight. */
  lemma DiceTable()
    ensures forall e :: e in DiceKeys <==> e in Dices
    ensures forall e :: e in Dices ==> Dices[e].weight > 0 && |Dices[e].winValues| > 0
  {
  }

  // ------------------------------------------------------------- phrases

  const DefaultLanguage: string := "ru"
  const NothingToSay: string := "\U{041C}\U{043D}\U{0435} \U{043D}\U{0435}\U{0447}\U{0435}\U{0433}\U{043E} \U{0442}\U{0435}\U{0431}\U{0435} \U{0441}\U{043A}\U{0430}\U{0437}\U{0430}\U{0442}\U{044C}..."

  datatype PhraseError = UnknownDefaultLanguage

  /** `phrases(k, *args)`: an unknown language is replaced by "ru" (the
      configured language changes with it, so the second component is the
      language from then on); a missing key gives the fixed phrase,
      otherwise the template formatted with the arguments. */
  function Phrases(locale: map<string, map<string, string>>, language: string, key: string,
                   args: seq<string>, format: (string, seq<string>) -> string): (r: Result<(string, string), PhraseError>)
    ensures r.Ok? ==> r.value.1 in locale
    ensures r.Ok? ==> r.value.1 == (if language in locale then language else DefaultLanguage)
    ensures r.Err? <==> language !in locale && DefaultLanguage !in locale
    ensures r.Ok? && key !in locale[r.value.1] ==> r.value.0 == NothingToSay
    ensures r.Ok? && key in locale[r.value.1] ==> r.value.0 == format(locale[r.value.1][key], args)
  {
    var lang := if language in locale then language else DefaultLanguage;
    if lang !in locale then Err(UnknownDefaultLanguage)
    else if key in locale[lang] then Ok((format(locale[lang][key], args), lang))
    else Ok((NothingToSay, lang))
  }

  /** Once the language has fallen back, it stays put. */
  lemma PhrasesFallbackSticks(locale: map<string, map<string, string>>, language: string, key: string, key': string,
                              args: seq<string>, args': seq<string>, format: (string, seq<string>) -> string)
    requires Phrases(locale, language, key, args, format).Ok?
    ensures var lang := Phrases(locale, language, key, args, format).value.1;
      Phrases(locale, lang, key', args', format).Ok? && Phrases(locale, lang, key', args', format).value.1 == lang
  {
  }

  // ------------------------------------------------------------ do_action

  /** `do_action(func)(*args)`: the call's result, or None when it raised. */
  function DoAction<R, E>(call: Result<R, E>): (r: Option<R>)
    ensures r.Some? <==> call.Ok?
    ensures r.Some? ==> r.value == call.value
  {
    match call
    case Ok(v) => Some(v)
    case Err(_) => None
  }
}

=== FILE: captcha_legacy.dfy ===
/**
 * The older captcha of `src/commands/captcha.py`: the same challenge and
 * caption, but each session counts its own seconds down, driven by a timer
 * step that runs once a second while any session exists. The session
 * dictionary is a map plus its insertion order, since the timer step walks
 * the sessions in that order. The lock and the thread are reduced to single
 * steps and the `running` flag.
 */
module LegacyCaptcha {
  import opened Wrappers
  import opened Text
  import CaptchaManager

  type UserId = CaptchaManager.UserId
  type ChatId = CaptchaManager.ChatId
  type Effect = CaptchaManager.Effect
  type Outcome = CaptchaManager.Outcome

  /** The settings this variant reads: `timer`, `update_freq`, `attempts`,
      `bar_length` and `length` (the other fields are unused here). */
  type Config = CaptchaManager.Config

  datatype Session = Session(chat: ChatId, messageId: Option<int>, failed: int, timeLeft: int, answer: string)

  /** `CAPTCHA_USERS` (its keys in insertion order, and the records) and
      `TIMER_THREAD_RUNNING`. */
  datatype State = State(order: seq<UserId>, users: map<UserId, Session>, running: bool)

  datatype Out = Out(state: State, effects: seq<Effect>, outcomes: seq<Outcome>)

  const TimeIsUp: string := "Time is up"

  // ---------------------------------------------------------------- registry

  predicate Distinct(xs: seq<UserId>) {
    forall i, j :: 0 <= i < j < |xs| ==> xs[i] != xs[j]
  }

  /** The order lists each key of the dictionary once. */
  ghost predicate WellFormed(st: State) {
    Distinct(st.order) && forall u :: u in st.users <==> u in st.order
  }

  /** `xs` without `u`. */
  function Without(xs: seq<UserId>, u: UserId): (r: seq<UserId>)
    ensures forall v :: v in r <==> v in xs && v != u
    ensures Distinct(xs) ==> Distinct(r)
  {
    if |xs| == 0 then []
    else if xs[0] == u then Without(xs[1..], u)
    else
      var rest := Without(xs[1..], u);
      var r := [xs[0]] + rest;
      assert Distinct(xs) ==> Distinct(r) by {
        if Distinct(xs) {
          assert Distinct(xs[1..]);
          forall i, j | 0 <= i < j < |r| ensures r[i] != r[j] {
            if i == 0 {
              assert r[j] in rest;
            } else {
              assert r[i] == rest[i - 1] && r[j] == rest[j - 1];
            }
          }
        }
      }
      r
  }

  /** `CAPTCHA_USERS[user_id] = session`: a new key goes to the end, an
      existing one keeps its place. */
  function Put(st: State, u: UserId, s: Session): (r: State)
    requires WellFormed(st)
    ensures WellFormed(r) && r.running == st.running
    ensures r.users == st.users[u := s]
    ensures r.order == if u in st.users then st.order else st.order + [u]
  {
    State(if u in st.users then st.order else st.order + [u], st.users[u := s], st.running)
  }

  /** `CAPTCHA_USERS.pop(user_id)`. */
  function Pop(st: State, u: UserId): (r: State)
    requires WellFormed(st)
    ensures WellFormed(r) && r.running == st.running
    ensures r.users == st.users - {u}
  {
    State(Without(st.order, u), st.users - {u}, st.running)
  }

  // ---------------------------------------------------------------- handlers

  /** `generate_captcha_text()`: `length` characters drawn from all 62 ASCII
      letters and digits, with no symbol banned. */
  function GenerateText(cfg: Config, picks: seq<nat>): (r: string)
    requires |picks| == cfg.length
    ensures |r| == cfg.length
    ensures forall i :: 0 <= i < |r| ==> CaptchaManager.IsAlnum(r[i])
  {
    var alphabet := CaptchaManager.Alphanumerics();
    assert forall i :: 0 <= i < 62 ==> CaptchaManager.IsAlnum(alphabet[i]);
    seq(cfg.length, i requires 0 <= i < cfg.length => alphabet[picks[i] % 62])
  }

  /** `update_message(user_id)`: the first call sends the photo and records
      the message id the client returns (`sent`); later calls edit the caption. */
  function UpdateMessage(cfg: Config, st: State, u: UserId, sent: int): (r: Out)
    requires CaptchaManager.ValidConfig(cfg) && WellFormed(st)
    ensures WellFormed(r.state) && r.outcomes == [] && r.state.running == st.running
    ensures u !in st.users ==> r == Out(st, [], [])
    ensures u in st.users ==>
      var s := st.users[u];
      var cap := CaptchaManager.BuildCaption(cfg, s.timeLeft, s.failed);
      if s.messageId.None? then
        && r.effects == [CaptchaManager.SendPhoto(s.chat, cap)]
        && r.state.users == st.users[u := s.(messageId := Some(sent))]
        && r.state.order == st.order
      else
        && r.effects == [CaptchaManager.EditCaption(s.chat, s.messageId.value, cap, false)]
        && r.state == st
  {
    if u !in st.users then Out(st, [], [])
    else
      var s := st.users[u];
      var cap := CaptchaManager.BuildCaption(cfg, s.timeLeft, s.failed);
      if s.messageId.None? then
        Out(Put(st, u, s.(messageId := Some(sent))), [CaptchaManager.SendPhoto(s.chat, cap)], [])
      else Out(st, [CaptchaManager.EditCaption(s.chat, s.messageId.value, cap, false)], [])
  }

  /** `fail_user(user_id, reason)`: pop, show the final caption (the time
      left as it is) when a challenge was sent, and kick. */
  function FailUser(cfg: Config, st: State, u: UserId, reason: string): (r: Out)
    requires CaptchaManager.ValidConfig(cfg) && WellFormed(st)
    ensures WellFormed(r.state) && r.state.running == st.running
    ensures u !in st.users ==> r == Out(st, [], [])
    ensures u in st.users ==>
      var s := st.users[u];
      var cap := CaptchaManager.BuildCaption(cfg, s.timeLeft, s.failed) + CaptchaManager.CrossPrefix + reason;
      && r.state.users == st.users - {u}
      && r.outcomes == [CaptchaManager.Failed(u, reason)]
      && r.effects == (if s.messageId.Some? then [CaptchaManager.EditCaption(s.chat, s.messageId.value, cap, false)] else [])
                      + [CaptchaManager.Kick(s.chat, u)]
  {
    if u !in st.users then Out(st, [], [])
    else
      var s := st.users[u];
      var cap := CaptchaManager.BuildCaption(cfg, s.timeLeft, s.failed) + CaptchaManager.CrossPrefix + reason;
      var edit := if s.messageId.Some? then [CaptchaManager.EditCaption(s.chat, s.messageId.value, cap, false)] else [];
      Out(Pop(st, u), edit + [CaptchaManager.Kick(s.chat, u)], [CaptchaManager.Failed(u, reason)])
  }

  /** `pass_user(user_id)`: pop, congratulate and delete the challenge (even
      when no challenge id was recorded). */
  function PassUser(st: State, u: UserId): (r: Out)
    requires WellFormed(st)
    ensures WellFormed(r.state) && r.state.running == st.running
    ensures u !in st.users ==> r == Out(st, [], [])
    ensures u in st.users ==>
      var s := st.users[u];
      && r.state.users == st.users - {u}
      && r.outcomes == [CaptchaManager.Passed(u)]
      && r.effects == [CaptchaManager.SendMessage(s.chat, CaptchaManager.PassedText), CaptchaManager.DeleteMessage(s.chat, s.messageId)]
  {
    if u !in st.users then Out(st, [], [])
    else
      var s := st.users[u];
      Out(Pop(st, u),
          [CaptchaManager.SendMessage(s.chat, CaptchaManager.PassedText), CaptchaManager.DeleteMessage(s.chat, s.messageId)],
          [CaptchaManager.Passed(u)])
  }

  /** `on_failed_attempt(user_id)`: count the miss, then fail at the limit or redraw. */
  function OnFailedAttempt(cfg: Config, st: State, u: UserId, sent: int): (r: Out)
    requires CaptchaManager.ValidConfig(cfg) && WellFormed(st)
    ensures WellFormed(r.state) && r.state.running == st.running
    ensures u !in st.users ==> r == Out(st, [], [])
  {
    if u !in st.users then Out(st, [], [])
    else
      var s := st.users[u];
      var st1 := Put(st, u, s.(failed := s.failed + 1));
      if s.failed + 1 >= cfg.attempts then FailUser(cfg, st1, u, CaptchaManager.MaxAttemptsUsed)
      else UpdateMessage(cfg, st1, u, sent)
  }

  /** The answer test: the reply stripped and lower-cased against the
      lower-cased answer. */
  predicate Matches(text: string, answer: string) {
    LowerStr(Strip(text)) == LowerStr(answer)
  }

  /** `handle_verify_captcha`: a match passes and leaves the user's message;
      a miss deletes it and counts. A non-text message has no `text` and
      raises before this point. */
  function HandleVerify(cfg: Config, st: State, u: UserId, chat: ChatId, messageId: int, text: string, sent: int): (r: Out)
    requires CaptchaManager.ValidConfig(cfg) && WellFormed(st)
    ensures WellFormed(r.state) && r.state.running == st.running
    ensures u !in st.users ==> r == Out(st, [], [])
  {
    if u !in st.users then Out(st, [], [])
    else if Matches(text, st.users[u].answer) then PassUser(st, u)
    else
      var miss := OnFailedAttempt(cfg, st, u, sent);
      Out(miss.state, [CaptchaManager.DeleteMessage(chat, Some(messageId))] + miss.effects, miss.outcomes)
  }

  /** `handle_user_left`: the session is dropped; nothing is sent. */
  function HandleUserLeft(st: State, left: Option<UserId>): (r: Out)
    requires WellFormed(st)
    ensures WellFormed(r.state)
    ensures r.effects == [] && r.outcomes == [] && r.state.running == st.running
    ensures r.state.users == if left.Some? then st.users - {left.value} else st.users
  {
    if left.None? then Out(st, [], [])
    else Out(Pop(st, left.value), [], [])
  }

  /** `start_timer_thread_if_needed`: the loop is started only when sessions
      exist and it is not already running. */
  function StartTimerIfNeeded(st: State): (r: State)
    ensures r.users == st.users && r.order == st.order
    ensures r.running <==> st.running || |st.users| > 0
  {
    if |st.users| == 0 || st.running then st else st.(running := true)
  }

  /** A new member: its id, the challenge text drawn for it and the id the
      client returns for its challenge photo. */
  datatype Joiner = Joiner(id: UserId, text: string, sent: int)

  /** `handle_new_user`: every new member (bots included) gets a session and
      the challenge photo; then the timer loop is started if needed. */
  function HandleNewUser(cfg: Config, st: State, chat: ChatId, joiners: seq<Joiner>): (r: Out)
    requires CaptchaManager.ValidConfig(cfg) && WellFormed(st)
    ensures WellFormed(r.state)
    decreases |joiners|
  {
    if |joiners| == 0 then Out(StartTimerIfNeeded(st), [], [])
    else
      var j := joiners[0];
      var first := UpdateMessage(cfg, Put(st, j.id, Session(chat, None, 0, cfg.timer, j.text)), j.id, j.sent);
      var rest := HandleNewUser(cfg, first.state, chat, joiners[1..]);
      Out(rest.state, first.effects + rest.effects, first.outcomes + rest.outcomes)
  }

  // ------------------------------------------------------------- timer step

  /** One second off a running clock; a clock at 0 stays. */
  function Tick(s: Session): Session {
    if s.timeLeft > 0 then s.(timeLeft := s.timeLeft - 1) else s
  }

  /** The sessions, in order, whose clock was already at 0. */
  function Expired(order: seq<UserId>, users: map<UserId, Session>): (r: seq<UserId>)
    decreases |order|
  {
    if |order| == 0 then []
    else
      var rest := Expired(order[1..], users);
      if order[0] in users && users[order[0]].timeLeft <= 0 then [order[0]] + rest else rest
  }

  /** The sessions, in order, whose decremented clock is positive and a
      multiple of the update period. */
  function DueRedraws(order: seq<UserId>, users: map<UserId, Session>, freq: int): (r: seq<UserId>)
    requires freq > 0
    decreases |order|
  {
    if |order| == 0 then []
    else
      var rest := DueRedraws(order[1..], users, freq);
      var u := order[0];
      if u in users && users[u].timeLeft > 0 && (users[u].timeLeft - 1) > 0 && (users[u].timeLeft - 1) % freq == 0
      then [u] + rest else rest
  }

  function FailAll(cfg: Config, st: State, us: seq<UserId>): (r: Out)
    requires CaptchaManager.ValidConfig(cfg) && WellFormed(st)
    ensures WellFormed(r.state) && r.state.running == st.running
    decreases |us|
  {
    if |us| == 0 then Out(st, [], [])
    else
      var first := FailUser(cfg, st, us[0], TimeIsUp);
      var rest := FailAll(cfg, first.state, us[1..]);
      Out(rest.state, first.effects + rest.effects, first.outcomes + rest.outcomes)
  }

  function UpdateAll(cfg: Config, st: State, us: seq<UserId>, sent: int): (r: Out)
    requires CaptchaManager.ValidConfig(cfg) && WellFormed(st)
    ensures WellFormed(r.state) && r.state.running == st.running
    decreases |us|
  {
    if |us| == 0 then Out(st, [], [])
    else
      var first := UpdateMessage(cfg, st, us[0], sent);
      var rest := UpdateAll(cfg, first.state, us[1..], sent);
      Out(rest.state, first.effects + rest.effects, first.outcomes + rest.outcomes)
  }

  /** One pass of `timer_loop`'s body: with no sessions the loop stops and
      clears the flag; otherwise count every clock down, fail the sessions
      that were already at 0, then redraw the due ones. */
  function TimerStep(cfg: Config, st: State, sent: int): (r: Out)
    requires CaptchaManager.ValidConfig(cfg) && WellFormed(st)
    ensures WellFormed(r.state)
    ensures |st.users| == 0 ==> r == Out(State(st.order, st.users, false), [], [])
    ensures |st.users| > 0 ==> r.state.running == st.running
  {
    if |st.users| == 0 then Out(st.(running := false), [], [])
    else
      var counted := State(st.order, map u | u in st.users :: Tick(st.users[u]), st.running);
      var failed := FailAll(cfg, counted, Expired(st.order, st.users));
      var redrawn := UpdateAll(cfg, failed.state, DueRedraws(st.order, st.users, cfg.updateFreq), sent);
      Out(redrawn.state, failed.effects + redrawn.effects, failed.outcomes + redrawn.outcomes)
  }
}

/** Properties of the older captcha: clocks run down one second per step,
    expired sessions are failed, and every session keeps its challenge id. */
module LegacyCaptchaProps {
  import opened Wrappers
  import opened Text
  import CaptchaManager
  import opened LegacyCaptcha

  /** Every session has had its challenge photo sent. */
  ghost predicate Inv(st: State) {
    WellFormed(st) && forall u :: u in st.users ==> st.users[u].messageId.Some?
  }

  /** The redraw test of the timer step, on the clock before the decrement. */
  predicate RedrawDue(timeLeft: int, freq: int)
    requires freq > 0
  {
    timeLeft > 0 && timeLeft - 1 > 0 && (timeLeft - 1) % freq == 0
  }

  // ------------------------------------------------------------ countdown

  /** Both directions: a user is listed as expired exactly when it has a
      session whose clock was already at 0. */
  lemma {:induction false} ExpiredMembers(order: seq<UserId>, users: map<UserId, Session>, u: UserId)
    ensures u in Expired(order, users) <==> u in order && u in users && users[u].timeLeft <= 0
    decreases |order|
  {
    if |order| > 0 {
      ExpiredMembers(order[1..], users, u);
      assert u in order <==> u == order[0] || u in order[1..];
    }
  }

  /** Both directions: a user is listed for a redraw exactly when its
      decremented clock is a positive multiple of the update period. */
  lemma {:induction false} DueMembers(order: seq<UserId>, users: map<UserId, Session>, freq: int, u: UserId)
    requires freq > 0
    ensures u in DueRedraws(order, users, freq) <==> u in order && u in users && RedrawDue(users[u].timeLeft, freq)
    decreases |order|
  {
    if |order| > 0 {
      DueMembers(order[1..], users, freq, u);
      assert u in order <==> u == order[0] || u in order[1..];
    }
  }

  // -------------------------------------------------------- failing, redraw

  /** Failing a list of users removes exactly them, reports "Time is up" for
      each one present, reports nothing else and never sends a photo. */
  lemma {:induction false} FailAllRemoves(cfg: Config, st: State, us: seq<UserId>)
    requires CaptchaManager.ValidConfig(cfg) && Inv(st)
    ensures var r := FailAll(cfg, st, us);
      && Inv(r.state)
      && (forall v :: v in r.state.users <==> v in st.users && v !in us)
      && (forall v :: v in r.state.users ==> r.state.users[v] == st.users[v])
      && (forall v :: v in us && v in st.users ==> CaptchaManager.Failed(v, TimeIsUp) in r.outcomes)
      && (forall o :: o in r.outcomes ==> o.Failed? && o.user in us)
      && (forall e :: e in r.effects ==> !e.SendPhoto?)
    decreases |us|
  {
    if |us| > 0 {
      var first := FailUser(cfg, st, us[0], TimeIsUp);
      FailAllRemoves(cfg, first.state, us[1..]);
      var rest := FailAll(cfg, first.state, us[1..]);
      var r := FailAll(cfg, st, us);
      assert r.outcomes == first.outcomes + rest.outcomes;
      assert r.effects == first.effects + rest.effects;
      assert forall v :: v in us <==> v == us[0] || v in us[1..];
      forall v | v in us && v in st.users
        ensures CaptchaManager.Failed(v, TimeIsUp) in r.outcomes
      {
        if v == us[0] {
          assert first.outcomes[0] == CaptchaManager.Failed(v, TimeIsUp);
        }
      }
    }
  }

  /** Under the invariant a redraw only edits: the state is untouched and
      each listed user present gets one caption edit with its current clock. */
  lemma {:induction false} UpdateAllEdits(cfg: Config, st: State, us: seq<UserId>, sent: int)
    requires CaptchaManager.ValidConfig(cfg) && Inv(st)
    ensures var r := UpdateAll(cfg, st, us, sent);
      && r.state == st
      && r.outcomes == []
      && (forall e :: e in r.effects ==> e.EditCaption?)
      && (forall v :: v in us && v in st.users ==>
            CaptchaManager.EditCaption(st.users[v].chat, st.users[v].messageId.value,
              CaptchaManager.BuildCaption(cfg, st.users[v].timeLeft, st.users[v].failed), false) in r.effects)
    decreases |us|
  {
    if |us| > 0 {
      UpdateAllEdits(cfg, st, us[1..], sent);
      var r := UpdateAll(cfg, st, us, sent);
      var first := UpdateMessage(cfg, st, us[0], sent);
      assert r.effects == first.effects + UpdateAll(cfg, st, us[1..], sent).effects;
      assert forall v :: v in us <==> v == us[0] || v in us[1..];
    }
  }

  // ------------------------------------------------------------ timer step

  /** The session map right after the countdown. */
  lemma CountedSessions(cfg: Config, st: State, sent: int)
    requires CaptchaManager.ValidConfig(cfg) && Inv(st)
    ensures Inv(State(st.order, map u | u in st.users :: Tick(st.users[u]), st.running))
  {
  }

  /** One timer step, for one user present before it: a running clock loses
      exactly one second and the session otherwise stays; the caption is
      redrawn when the new time is a positive multiple of the period; a
      clock already at 0 fails the user with "Time is up". The invariant is
      kept and no challenge photo is ever re-sent. */
  lemma TimerStepFor(cfg: Config, st: State, u: UserId, sent: int)
    requires CaptchaManager.ValidConfig(cfg) && Inv(st) && u in st.users
    ensures var r := TimerStep(cfg, st, sent);
      && Inv(r.state)
      && r.state.running == st.running
      && (forall e :: e in r.effects ==> !e.SendPhoto?)
    ensures var s := st.users[u];
      var r := TimerStep(cfg, st, sent);
      if s.timeLeft > 0 then
        && u in r.state.users && r.state.users[u] == s.(timeLeft := s.timeLeft - 1)
        && CaptchaManager.Failed(u, TimeIsUp) !in r.outcomes
        && (RedrawDue(s.timeLeft, cfg.updateFreq) ==>
              CaptchaManager.EditCaption(s.chat, s.messageId.value, CaptchaManager.BuildCaption(cfg, s.timeLeft - 1, s.failed), false) in r.effects)
      else
        && u !in r.state.users
        && CaptchaManager.Failed(u, TimeIsUp) in r.outcomes
  {
    var s := st.users[u];
    var counted := State(st.order, map v | v in st.users :: Tick(st.users[v]), st.running);
    CountedSessions(cfg, st, sent);
    var expired := Expired(st.order, st.users);
    var due := DueRedraws(st.order, st.users, cfg.updateFreq);
    ExpiredMembers(st.order, st.users, u);
    DueMembers(st.order, st.users, cfg.updateFreq, u);
    FailAllRemoves(cfg, counted, expired);
    var failed := FailAll(cfg, counted, expired);
    UpdateAllEdits(cfg, failed.state, due, sent);
    var r := TimerStep(cfg, st, sent);
    assert r.effects == failed.effects + UpdateAll(cfg, failed.state, due, sent).effects;
    assert r.outcomes == failed.outcomes;
  }

  /** With no sessions the loop stops and clears its flag, emitting nothing. */
  lemma EmptyStops(cfg: Config, st: State, sent: int)
    requires CaptchaManager.ValidConfig(cfg) && WellFormed(st) && |st.users| == 0
    ensures var r := TimerStep(cfg, st, sent);
      !r.state.running && r.effects == [] && r.outcomes == [] && |r.state.users| == 0
  {
  }

  /** `b` is the state one timer step after `a`. */
  ghost predicate StepsTo(cfg: Config, a: State, b: State, sent: int)
    requires CaptchaManager.ValidConfig(cfg)
  {
    WellFormed(a) && b == TimerStep(cfg, a, sent).state
  }

  /** A run of timer steps with no other event in between. */
  ghost predicate TimerRun(cfg: Config, run: seq<State>, sent: int)
    requires CaptchaManager.ValidConfig(cfg)
  {
    forall k {:trigger StepsTo(cfg, run[k - 1], run[k], sent)} ::
      0 < k < |run| ==> StepsTo(cfg, run[k - 1], run[k], sent)
  }

  lemma StepSurvives(cfg: Config, st: State, next: State, u: UserId, sent: int)
    requires CaptchaManager.ValidConfig(cfg) && StepsTo(cfg, st, next, sent)
    requires Inv(st) && u in st.users && st.users[u].timeLeft > 0
    ensures Inv(next)
    ensures u in next.users && next.users[u] == st.users[u].(timeLeft := st.users[u].timeLeft - 1)
  {
    TimerStepFor(cfg, st, u, sent);
  }

  /** Along a run, a session's clock runs down one second per step until it
      reaches 0: `n <= timeLeft` steps in, it shows `timeLeft - n`, with
      everything else about the session unchanged. */
  lemma {:induction false} ClockRunsDown(cfg: Config, run: seq<State>, u: UserId, n: nat, sent: int)
    requires CaptchaManager.ValidConfig(cfg) && TimerRun(cfg, run, sent)
    requires |run| > n && Inv(run[0]) && u in run[0].users
    requires n <= run[0].users[u].timeLeft
    ensures Inv(run[n])
    ensures u in run[n].users && run[n].users[u] == run[0].users[u].(timeLeft := run[0].users[u].timeLeft - n)
    decreases n
  {
    var s := run[0].users[u];
    if n > 0 {
      ClockRunsDown(cfg, run, u, n - 1, sent);
      var sp := s.(timeLeft := s.timeLeft - (n - 1));
      assert StepsTo(cfg, run[n - 1], run[n], sent);
      StepSurvives(cfg, run[n - 1], run[n], u, sent);
      assert sp.(timeLeft := sp.timeLeft - 1) == s.(timeLeft := s.timeLeft - n);
    } else {
      assert s.(timeLeft := s.timeLeft - 0) == s;
    }
  }

  /** A session that no event removes is failed with "Time is up" by the
      step after its clock reaches 0. */
  lemma Expires(cfg: Config, run: seq<State>, u: UserId, sent: int)
    requires CaptchaManager.ValidConfig(cfg) && TimerRun(cfg, run, sent)
    requires |run| > 0 && Inv(run[0]) && u in run[0].users
    requires 0 <= run[0].users[u].timeLeft < |run|
    ensures var last := run[run[0].users[u].timeLeft];
      && WellFormed(last)
      && CaptchaManager.Failed(u, TimeIsUp) in TimerStep(cfg, last, sent).outcomes
      && u !in TimerStep(cfg, last, sent).state.users
  {
    var s := run[0].users[u];
    ClockRunsDown(cfg, run, u, s.timeLeft, sent);
    TimerStepFor(cfg, run[s.timeLeft], u, sent);
  }

  // ---------------------------------------------------------------- joining

  /** The ids of a list of joiners. */
  function JoinerIds(joiners: seq<Joiner>): (ids: set<UserId>)
    ensures forall i :: 0 <= i < |joiners| ==> joiners[i].id in ids
    ensures forall v :: v in ids ==> exists i :: 0 <= i < |joiners| && joiners[i].id == v
  {
    if |joiners| == 0 then {} else {joiners[0].id} + JoinerIds(joiners[1..])
  }

  /** Joining: each new member (bots too) is sent one challenge photo showing
      the full timer and no failures, the invariant is kept, and afterwards
      the timer loop runs. */
  lemma {:induction false} JoinSends(cfg: Config, st: State, chat: ChatId, joiners: seq<Joiner>)
    requires CaptchaManager.ValidConfig(cfg) && Inv(st)
    ensures var r := HandleNewUser(cfg, st, chat, joiners);
      && Inv(r.state)
      && r.outcomes == []
      && |r.effects| == |joiners|
      && (forall i :: 0 <= i < |joiners| ==>
            r.effects[i] == CaptchaManager.SendPhoto(chat, CaptchaManager.BuildCaption(cfg, cfg.timer, 0)))
      && (r.state.running <==> st.running || |r.state.users| > 0)
    decreases |joiners|
  {
    if |joiners| > 0 {
      var j := joiners[0];
      var s0 := Session(chat, None, 0, cfg.timer, j.text);
      var first := UpdateMessage(cfg, Put(st, j.id, s0), j.id, j.sent);
      assert first.state.users == st.users[j.id := s0.(messageId := Some(j.sent))];
      assert first.effects == [CaptchaManager.SendPhoto(chat, CaptchaManager.BuildCaption(cfg, cfg.timer, 0))];
      JoinSends(cfg, first.state, chat, joiners[1..]);
      var rest := HandleNewUser(cfg, first.state, chat, joiners[1..]);
      assert HandleNewUser(cfg, st, chat, joiners).effects == first.effects + rest.effects;
    }
  }

  /** A joiner's first challenge: the photo is sent and its id recorded. */
  lemma FirstChallenge(cfg: Config, st: State, chat: ChatId, j: Joiner)
    requires CaptchaManager.ValidConfig(cfg) && WellFormed(st)
    ensures var s0 := Session(chat, None, 0, cfg.timer, j.text);
      UpdateMessage(cfg, Put(st, j.id, s0), j.id, j.sent).state.users == st.users[j.id := s0.(messageId := Some(j.sent))]
  {
  }

  /** Joining gives a session to exactly the new members. */
  lemma {:induction false} JoinKeys(cfg: Config, st: State, chat: ChatId, joiners: seq<Joiner>)
    requires CaptchaManager.ValidConfig(cfg) && WellFormed(st)
    ensures HandleNewUser(cfg, st, chat, joiners).state.users.Keys == st.users.Keys + JoinerIds(joiners)
    decreases |joiners|
  {
    if |joiners| > 0 {
      var j := joiners[0];
      var s0 := Session(chat, None, 0, cfg.timer, j.text);
      FirstChallenge(cfg, st, chat, j);
      var first := UpdateMessage(cfg, Put(st, j.id, s0), j.id, j.sent);
      JoinKeys(cfg, first.state, chat, joiners[1..]);
      assert JoinerIds(joiners) == {j.id} + JoinerIds(joiners[1..]);
    }
  }

  /** Joining leaves the session of everyone else as it was. */
  lemma {:induction false} JoinKeeps(cfg: Config, st: State, chat: ChatId, joiners: seq<Joiner>, v: UserId)
    requires CaptchaManager.ValidConfig(cfg) && WellFormed(st)
    requires v in st.users && v !in JoinerIds(joiners)
    ensures v in HandleNewUser(cfg, st, chat, joiners).state.users
    ensures HandleNewUser(cfg, st, chat, joiners).state.users[v] == st.users[v]
    decreases |joiners|
  {
    if |joiners| > 0 {
      var j := joiners[0];
      var s0 := Session(chat, None, 0, cfg.timer, j.text);
      FirstChallenge(cfg, st, chat, j);
      var first := UpdateMessage(cfg, Put(st, j.id, s0), j.id, j.sent);
      assert JoinerIds(joiners) == {j.id} + JoinerIds(joiners[1..]);
      JoinKeeps(cfg, first.state, chat, joiners[1..], v);
    }
  }

  /** Each new member's session is fresh: the full timer, no failures, the
      group's chat, and its challenge sent. */
  lemma {:induction false} JoinFresh(cfg: Config, st: State, chat: ChatId, joiners: seq<Joiner>, v: UserId)
    requires CaptchaManager.ValidConfig(cfg) && WellFormed(st) && v in JoinerIds(joiners)
    ensures var users := HandleNewUser(cfg, st, chat, joiners).state.users;
      && v in users
      && users[v].timeLeft == cfg.timer && users[v].failed == 0
      && users[v].chat == chat && users[v].messageId.Some?
    decreases |joiners|
  {
    var j := joiners[0];
    var s0 := Session(chat, None, 0, cfg.timer, j.text);
    FirstChallenge(cfg, st, chat, j);
    var first := UpdateMessage(cfg, Put(st, j.id, s0), j.id, j.sent);
    assert JoinerIds(joiners) == {j.id} + JoinerIds(joiners[1..]);
    if v in JoinerIds(joiners[1..]) {
      JoinFresh(cfg, first.state, chat, joiners[1..], v);
    } else {
      assert first.state.users[v] == s0.(messageId := Some(j.sent));
      JoinKeeps(cfg, first.state, chat, joiners[1..], v);
    }
  }

  // -------------------------------------------------------------- answering

  /** A correct answer (ignoring case and surrounding whitespace) passes and
      leaves the user's own message in place: only the congratulation is
      sent and the challenge deleted. */
  lemma VerifyMatch(cfg: Config, st: State, u: UserId, chat: ChatId, messageId: int, text: string, sent: int)
    requires CaptchaManager.ValidConfig(cfg) && Inv(st) && u in st.users
    requires Matches(text, st.users[u].answer)
    ensures var s := st.users[u];
      var r := HandleVerify(cfg, st, u, chat, messageId, text, sent);
      && Inv(r.state)
      && r.outcomes == [CaptchaManager.Passed(u)]
      && u !in r.state.users
      && r.effects == [CaptchaManager.SendMessage(s.chat, CaptchaManager.PassedText), CaptchaManager.DeleteMessage(s.chat, s.messageId)]
  {
  }

  /** A wrong answer deletes the user's message before anything else, then
      counts the failure. */
  lemma VerifyMiss(cfg: Config, st: State, u: UserId, chat: ChatId, messageId: int, text: string, sent: int)
    requires CaptchaManager.ValidConfig(cfg) && WellFormed(st) && u in st.users
    requires !Matches(text, st.users[u].answer)
    ensures var r := HandleVerify(cfg, st, u, chat, messageId, text, sent);
      var miss := OnFailedAttempt(cfg, st, u, sent);
      && r.state == miss.state
      && r.outcomes == miss.outcomes
      && r.effects == [CaptchaManager.DeleteMessage(chat, Some(messageId))] + miss.effects
  {
  }

  /** One more failure below the limit: counted and redrawn, nothing else. */
  lemma FailedAttemptRedraws(cfg: Config, st: State, u: UserId, sent: int)
    requires CaptchaManager.ValidConfig(cfg) && Inv(st) && u in st.users
    requires st.users[u].failed + 1 < cfg.attempts
    ensures var s := st.users[u];
      var r := OnFailedAttempt(cfg, st, u, sent);
      && Inv(r.state)
      && r.outcomes == []
      && r.state.users == st.users[u := s.(failed := s.failed + 1)]
      && r.effects == [CaptchaManager.EditCaption(s.chat, s.messageId.value, CaptchaManager.BuildCaption(cfg, s.timeLeft, s.failed + 1), false)]
  {
  }

  /** The failure that reaches the limit fails the user with "Max attempts
      used" and ends with the kick. */
  lemma FailedAttemptKicks(cfg: Config, st: State, u: UserId, sent: int)
    requires CaptchaManager.ValidConfig(cfg) && Inv(st) && u in st.users
    requires st.users[u].failed + 1 >= cfg.attempts
    ensures var s := st.users[u];
      var r := OnFailedAttempt(cfg, st, u, sent);
      && Inv(r.state)
      && r.outcomes == [CaptchaManager.Failed(u, CaptchaManager.MaxAttemptsUsed)]
      && r.state.users == st.users - {u}
      && |r.effects| > 0 && r.effects[|r.effects| - 1] == CaptchaManager.Kick(s.chat, u)
  {
  }
}

=== FILE: captcha_manager.dfy ===
/**
 * The captcha sessions of `src/captcha_manager.py`, driven by the task queue
 * of `EventQueue`. A joining user gets a session and a countdown task whose
 * sub-events redraw the challenge caption and finally fail the user; the
 * user passes by typing the challenge text, fails after too many wrong
 * answers or when time runs out, and may leave at any moment.
 *
 * Every handler is a step function returning the new sessions, the new task
 * registry, the chat-client calls it makes (an effect log) and the terminal
 * outcomes it logs. Images, the uuid and the random choices are inputs.
 */
module CaptchaManager {
  import opened Wrappers
  import opened Text
  import EventQueue

  type UserId = int
  type ChatId = int
  type Key = EventQueue.Key

  /** `captcha_properties`, the greeting and the "roll_not_yours" phrase. */
  datatype Config = Config(
    timer: int,
    updateFreq: int,
    attempts: int,
    barLength: int,
    length: nat,
    banned: string,
    greeting: string,
    notYours: string)

  /** A timer of 0 divides by zero and an update frequency of 0 is an invalid
      `range` step: the source raises for both. */
  predicate ValidConfig(cfg: Config) {
    cfg.timer > 0 && cfg.updateFreq > 0
  }

  // ------------------------------------------------------------ challenge text

  /** `string.ascii_letters + string.digits`: a..z, A..Z, 0..9 in that order. */
  function Alphanumerics(): (cs: string)
    ensures |cs| == 62
    ensures forall i :: 0 <= i < 26 ==> cs[i] == ('a' as int + i) as char
    ensures forall i :: 26 <= i < 52 ==> cs[i] == ('A' as int + i - 26) as char
    ensures forall i :: 52 <= i < 62 ==> cs[i] == ('0' as int + i - 52) as char
  {
    seq(26, i requires 0 <= i < 26 => ('a' as int + i) as char)
      + seq(26, i requires 0 <= i < 26 => ('A' as int + i) as char)
      + seq(10, i requires 0 <= i < 10 => ('0' as int + i) as char)
  }

  predicate IsAlnum(c: char) {
    'a' <= c <= 'z' || 'A' <= c <= 'Z' || '0' <= c <= '9'
  }

  /** Membership in `_BANNED`: a configured symbol in lower or upper case. */
  predicate IsBanned(banned: string, c: char) {
    |banned| > 0 && (c == Lower(banned[0]) || c == Upper(banned[0]) || IsBanned(banned[1..], c))
  }

  function FilterAllowed(cs: string, banned: string): (r: string)
    ensures forall i :: 0 <= i < |r| ==> r[i] in cs && !IsBanned(banned, r[i])
    ensures forall i :: 0 <= i < |cs| && !IsBanned(banned, cs[i]) ==> cs[i] in r
  {
    if |cs| == 0 then []
    else
      var rest := FilterAllowed(cs[1..], banned);
      assert forall i :: 1 <= i < |cs| ==> cs[i] == cs[1..][i - 1];
      (if IsBanned(banned, cs[0]) then [] else [cs[0]]) + rest
  }

  /** `_ALLOWED_SYMBOLS`: exactly the ASCII letters and digits not banned in either case. */
  function Allowed(banned: string): (r: string)
    ensures forall i :: 0 <= i < |r| ==> IsAlnum(r[i]) && !IsBanned(banned, r[i])
  {
    FilterAllowed(Alphanumerics(), banned)
  }

  /** `generate_captcha_text`: `picks` are the indices `random.choices` draws
      (reduced into the alphabet); an empty alphabet raises IndexError unless
      no character is asked for. */
  function GenerateText(cfg: Config, picks: seq<nat>): (r: Option<string>)
    requires |picks| == cfg.length
    ensures r.None? <==> |Allowed(cfg.banned)| == 0 && cfg.length > 0
    ensures r.Some? ==> |r.value| == cfg.length
    ensures r.Some? ==> forall i :: 0 <= i < |r.value| ==>
      IsAlnum(r.value[i]) && !IsBanned(cfg.banned, r.value[i])
  {
    var alphabet := Allowed(cfg.banned);
    if cfg.length == 0 then Some([])
    else if |alphabet| == 0 then None
    else Some(seq(cfg.length, i requires 0 <= i < cfg.length => alphabet[picks[i] % |alphabet|]))
  }

  // ------------------------------------------------------------------ caption

  function Max(a: int, b: int): int { if a >= b then a else b }
  function Min(a: int, b: int): int { if a <= b then a else b }

  /** `max(0, attempts - failed)`. */
  function AttemptsLeft(cfg: Config, failed: int): (n: int)
    ensures n >= 0 && n >= cfg.attempts - failed
    ensures n == 0 || n == cfg.attempts - failed
  {
    Max(0, cfg.attempts - failed)
  }

  /** The number of `=` in the progress bar: the elapsed fraction of the
      timer scaled to the bar, truncated, capped at the bar length. */
  function Filled(cfg: Config, timeLeft: int): int
    requires ValidConfig(cfg)
  {
    Min(cfg.barLength, TruncDiv((cfg.timer - timeLeft) * cfg.barLength, cfg.timer))
  }

  /** The elapsed percentage, truncated. */
  function Percent(cfg: Config, timeLeft: int): int
    requires ValidConfig(cfg)
  {
    TruncDiv((cfg.timer - timeLeft) * 100, cfg.timer)
  }

  function Bar(filled: int, barLength: int): string {
    "[" + Repeat('=', filled) + ">" + Repeat(' ', barLength - filled - 1) + "]"
  }

  const CaptionTitle: string := "\U{1F9E9} CAPTCHA Verification\n"

  /** `build_caption(time_left, failed_attempts)`. */
  function BuildCaption(cfg: Config, timeLeft: int, failed: int): string
    requires ValidConfig(cfg)
  {
    CaptionTitle + Bar(Filled(cfg, timeLeft), cfg.barLength) + " " + IntToString(Percent(cfg, timeLeft))
      + "% | " + IntToString(timeLeft) + "s\nAttempts left: " + IntToString(AttemptsLeft(cfg, failed))
  }

  // ------------------------------------------------------------------- state

  /** One `CAPTCHA_USERS` record (the image and the keyboard are left out). */
  datatype Session = Session(
    chat: ChatId,
    eqKey: Option<Key>,
    messageId: Option<int>,
    failed: int,
    timeLeft: int,
    answer: string,
    lastCaption: Option<string>)

  /** The two callbacks the countdown task queues. */
  datatype Action = Redraw(user: UserId) | Fail(user: UserId, reason: string)

  datatype State = State(users: map<UserId, Session>, queue: EventQueue.Queue<Action>)

  /** Chat-client calls. */
  datatype Effect =
    | SendPhoto(chat: ChatId, caption: string)
    | EditCaption(chat: ChatId, message: int, caption: string, withButton: bool)
    | EditMedia(chat: ChatId, media: Option<int>, caption: string)
    | DeleteMessage(chat: ChatId, target: Option<int>)
    | Kick(chat: ChatId, user: UserId)
    | SendMessage(chat: ChatId, text: string)
    | AnswerCallback(call: int, notice: Option<string>)

  /** The terminal outcomes the handlers log. */
  datatype Outcome = Passed(user: UserId) | Failed(user: UserId, reason: string)

  /** A step that touches only the sessions. */
  datatype Out = Out(users: map<UserId, Session>, effects: seq<Effect>, outcomes: seq<Outcome>)

  /** A step over the whole state. */
  datatype Step = Step(state: State, effects: seq<Effect>, outcomes: seq<Outcome>)

  /** Python truthiness of `message_id` / `eq_key`. */
  predicate TruthyId(m: Option<int>) { m.Some? && m.value != 0 }
  predicate TruthyKey(k: Option<Key>) { k.Some? && |k.value| > 0 }

  const PassedText: string := "\U{2705} You passed!"
  const CrossPrefix: string := "\n\U{274C} "
  const TimeExpired: string := "\U{274C} Time expired"
  const CaptchaCancelled: string := "\U{274C} CAPTCHA cancelled"
  const MaxAttemptsUsed: string := "Max attempts used"

  // --------------------------------------------------------------- time left

  /** `update_captcha_time_left`: the time left on the task's clock as
      `EVENTS` shows it (`offsets`); a missing task counts as fully elapsed. */
  function TimeLeft(cfg: Config, offsets: map<Key, nat>, eqKey: Option<Key>): (t: int)
    ensures t >= 0 && t <= Max(0, cfg.timer)
    ensures (eqKey.None? || eqKey.value !in offsets) ==> t == 0
    ensures eqKey.Some? && eqKey.value in offsets && offsets[eqKey.value] <= cfg.timer ==>
      t + offsets[eqKey.value] == cfg.timer
    ensures eqKey.Some? && eqKey.value in offsets && offsets[eqKey.value] >= cfg.timer ==> t == 0
  {
    var offset := if eqKey.Some? && eqKey.value in offsets then offsets[eqKey.value] else cfg.timer;
    Max(0, cfg.timer - offset)
  }

  // ---------------------------------------------------------------- handlers

  /** `update_captcha_message(user_id)` with `EVENTS` seen as `offsets`. */
  function UpdateCaptchaMessage(cfg: Config, users: map<UserId, Session>, offsets: map<Key, nat>, u: UserId): (o: Out)
    requires ValidConfig(cfg)
    ensures u !in users || users[u].messageId.None? ==> o == Out(users, [], [])
    ensures o.users.Keys == users.Keys && o.outcomes == []
    ensures forall v :: v in users && v != u ==> o.users[v] == users[v]
    ensures u in users && users[u].messageId.Some? ==>
      var s := users[u];
      var tl := TimeLeft(cfg, offsets, s.eqKey);
      var cap := BuildCaption(cfg, tl, s.failed);
      && o.users[u] == s.(timeLeft := tl, lastCaption := Some(cap))
      && (o.effects == [] <==> s.lastCaption == Some(cap))
      && (o.effects != [] ==> o.effects == [EditCaption(s.chat, s.messageId.value, cap, true)])
  {
    if u !in users || users[u].messageId.None? then Out(users, [], [])
    else
      var s := users[u];
      var s1 := s.(timeLeft := TimeLeft(cfg, offsets, s.eqKey));
      var cap := BuildCaption(cfg, s1.timeLeft, s1.failed);
      if Some(cap) == s.lastCaption then Out(users[u := s1], [], [])
      else Out(users[u := s1.(lastCaption := Some(cap))], [EditCaption(s.chat, s.messageId.value, cap, true)], [])
  }

  /** `fail_user(user_id, reason)`: pop the session, show the final caption on
      the challenge (one update period further on) and kick the user. */
  function FailUser(cfg: Config, users: map<UserId, Session>, u: UserId, reason: string): (o: Out)
    requires ValidConfig(cfg)
    ensures u !in users ==> o == Out(users, [], [])
    ensures u in users ==>
      var s := users[u];
      var cap := BuildCaption(cfg, Max(0, s.timeLeft - cfg.updateFreq), s.failed) + CrossPrefix + reason;
      && o.users == users - {u}
      && o.outcomes == [Failed(u, reason)]
      && o.effects == (if TruthyId(s.messageId) then [EditCaption(s.chat, s.messageId.value, cap, false)] else [])
                      + [Kick(s.chat, u)]
  {
    if u !in users then Out(users, [], [])
    else
      var s := users[u];
      var tl := Max(0, s.timeLeft - cfg.updateFreq);
      var cap := BuildCaption(cfg, tl, s.failed) + CrossPrefix + reason;
      var edit := if TruthyId(s.messageId) then [EditCaption(s.chat, s.messageId.value, cap, false)] else [];
      Out(users - {u}, edit + [Kick(s.chat, u)], [Failed(u, reason)])
  }

  /** `pass_user(user_id)`: pop the session, congratulate and greet, delete the
      challenge and cancel the countdown silently. */
  function PassUser(cfg: Config, st: State, u: UserId): (r: Step)
    ensures u !in st.users ==> r == Step(st, [], [])
    ensures u in st.users ==>
      var s := st.users[u];
      && r.state.users == st.users - {u}
      && r.outcomes == [Passed(u)]
      && r.effects == [SendMessage(s.chat, PassedText), SendMessage(s.chat, cfg.greeting)]
                      + (if TruthyId(s.messageId) then [DeleteMessage(s.chat, s.messageId)] else [])
      && r.state.queue == (if TruthyKey(s.eqKey) then EventQueue.CancelTask(st.queue, s.eqKey.value, true).0 else st.queue)
  {
    if u !in st.users then Step(st, [], [])
    else
      var s := st.users[u];
      var del := if TruthyId(s.messageId) then [DeleteMessage(s.chat, s.messageId)] else [];
      var q := if TruthyKey(s.eqKey) then EventQueue.CancelTask(st.queue, s.eqKey.value, true).0 else st.queue;
      Step(State(st.users - {u}, q), [SendMessage(s.chat, PassedText), SendMessage(s.chat, cfg.greeting)] + del, [Passed(u)])
  }

  /** `on_failed_attempt(user_id)`: count the miss, then fail at the limit or redraw. */
  function OnFailedAttempt(cfg: Config, st: State, u: UserId): (r: Step)
    requires ValidConfig(cfg)
    ensures u !in st.users ==> r == Step(st, [], [])
    ensures r.state.queue == st.queue
    ensures u in st.users ==>
      var users1 := st.users[u := st.users[u].(failed := st.users[u].failed + 1)];
      var o := if st.users[u].failed + 1 >= cfg.attempts then FailUser(cfg, users1, u, MaxAttemptsUsed)
               else UpdateCaptchaMessage(cfg, users1, EventQueue.Offsets(st.queue.entries), u);
      r == Step(State(o.users, st.queue), o.effects, o.outcomes)
  {
    if u !in st.users then Step(st, [], [])
    else
      var s := st.users[u].(failed := st.users[u].failed + 1);
      var users1 := st.users[u := s];
      var o := if s.failed >= cfg.attempts then FailUser(cfg, users1, u, MaxAttemptsUsed)
               else UpdateCaptchaMessage(cfg, users1, EventQueue.Offsets(st.queue.entries), u);
      Step(State(o.users, st.queue), o.effects, o.outcomes)
  }

  /** `(message.text or "").strip().lower() or None`. */
  function NormalizeInput(text: Option<string>): (r: Option<string>)
    ensures r.Some? ==> |r.value| > 0 && r.value == LowerStr(Strip(text.GetOr("")))
    ensures r.None? <==> forall i :: 0 <= i < |text.GetOr("")| ==> IsSpace(text.GetOr("")[i])
  {
    var t := LowerStr(Strip(text.GetOr("")));
    if |t| == 0 then None else Some(t)
  }

  /** `handle_verify_captcha`: delete the user's message, then pass on a
      match of the normalised input with the lowered answer, else count a miss. */
  function HandleVerify(cfg: Config, st: State, u: UserId, chat: ChatId, messageId: int, text: Option<string>): (r: Step)
    requires ValidConfig(cfg)
    ensures u !in st.users ==> r == Step(st, [], [])
    ensures u in st.users ==>
      var next := if NormalizeInput(text) == Some(LowerStr(st.users[u].answer)) then PassUser(cfg, st, u)
                  else OnFailedAttempt(cfg, st, u);
      r == Step(next.state, [DeleteMessage(chat, Some(messageId))] + next.effects, next.outcomes)
  {
    if u !in st.users then Step(st, [], [])
    else
      var next := if NormalizeInput(text) == Some(LowerStr(st.users[u].answer)) then PassUser(cfg, st, u)
                  else OnFailedAttempt(cfg, st, u);
      Step(next.state, [DeleteMessage(chat, Some(messageId))] + next.effects, next.outcomes)
  }

  // -------------------------------------------------------------- accounting

  function KickedUsers(effects: seq<Effect>): seq<UserId> {
    if |effects| == 0 then []
    else (if effects[0].Kick? then [effects[0].user] else []) + KickedUsers(effects[1..])
  }

  function FailedUsers(outs: seq<Outcome>): seq<UserId> {
    if |outs| == 0 then []
    else (if outs[0].Failed? then [outs[0].user] else []) + FailedUsers(outs[1..])
  }

  lemma {:induction false} KickedConcat(a: seq<Effect>, b: seq<Effect>)
    ensures KickedUsers(a + b) == KickedUsers(a) + KickedUsers(b)
  {
    if |a| > 0 {
      assert (a + b)[1..] == a[1..] + b;
      KickedConcat(a[1..], b);
    } else {
      assert a + b == b;
    }
  }

  lemma {:induction false} FailedConcat(a: seq<Outcome>, b: seq<Outcome>)
    ensures FailedUsers(a + b) == FailedUsers(a) + FailedUsers(b)
  {
    if |a| > 0 {
      assert (a + b)[1..] == a[1..] + b;
      FailedConcat(a[1..], b);
    } else {
      assert a + b == b;
    }
  }

  /** A step's outcomes are each about a distinct user who had a session
      before and has none after; no session appears; every kick is logged
      as exactly one failure, in order. */
  predicate Accounted(before: map<UserId, Session>, after: map<UserId, Session>, effects: seq<Effect>, outs: seq<Outcome>) {
    && after.Keys <= before.Keys
    && (forall i :: 0 <= i < |outs| ==> outs[i].user in before && outs[i].user !in after)
    && (forall i, j :: 0 <= i < j < |outs| ==> outs[i].user != outs[j].user)
    && KickedUsers(effects) == FailedUsers(outs)
  }

  lemma AccountedChain(a: map<UserId, Session>, b: map<UserId, Session>, c: map<UserId, Session>,
                       e1: seq<Effect>, o1: seq<Outcome>, e2: seq<Effect>, o2: seq<Outcome>)
    requires Accounted(a, b, e1, o1) && Accounted(b, c, e2, o2)
    ensures Accounted(a, c, e1 + e2, o1 + o2)
  {
    KickedConcat(e1, e2);
    FailedConcat(o1, o2);
    var o := o1 + o2;
    forall i, j | 0 <= i < j < |o|
      ensures o[i].user != o[j].user
    {
      if j >= |o1| && i < |o1| {
        assert o[i] == o1[i] && o[j] == o2[j - |o1|];
      }
    }
  }

  /** `fail_user` logs exactly the kick it sends. */
  lemma FailUserAccounted(cfg: Config, users: map<UserId, Session>, u: UserId, reason: string)
    requires ValidConfig(cfg)
    ensures var o := FailUser(cfg, users, u, reason);
      Accounted(users, o.users, o.effects, o.outcomes)
  {
    if u in users {
      var o := FailUser(cfg, users, u, reason);
      var s := users[u];
      assert KickedUsers([Kick(s.chat, u)]) == [u];
      KickedConcat(if TruthyId(s.messageId) then [o.effects[0]] else [], [Kick(s.chat, u)]);
      assert FailedUsers([Failed(u, reason)]) == [u];
    }
  }

  /** Run one queued callback against the sessions, with `EVENTS` seen as
      `offsets`. A redraw kicks nobody; a failure kicks and logs one user. */
  function RunAction(cfg: Config, users: map<UserId, Session>, offsets: map<Key, nat>, a: Action): (o: Out)
    requires ValidConfig(cfg)
    ensures Accounted(users, o.users, o.effects, o.outcomes)
  {
    match a
    case Redraw(v) =>
      var o := UpdateCaptchaMessage(cfg, users, offsets, v);
      assert KickedUsers(o.effects) == [];
      o
    case Fail(v, reason) =>
      FailUserAccounted(cfg, users, v, reason);
      FailUser(cfg, users, v, reason)
  }

  /** `handle_user_left`: pop the session first, then cancel its task loudly;
      the `on_cancel` callback runs at once against the remaining sessions. */
  function HandleUserLeft(cfg: Config, st: State, left: Option<UserId>): (r: Step)
    requires ValidConfig(cfg)
    ensures left.None? || left.value !in st.users ==> r.state.queue == st.queue && r.effects == [] && r.outcomes == []
    ensures left.Some? ==> r.state.users.Keys <= st.users.Keys - {left.value}
  {
    if left.None? then Step(st, [], [])
    else
      var u := left.value;
      var users1 := st.users - {u};
      if u !in st.users || !TruthyKey(st.users[u].eqKey) then Step(State(users1, st.queue), [], [])
      else
        var (q, hook) := EventQueue.CancelTask(st.queue, st.users[u].eqKey.value, false);
        if hook.None? then Step(State(users1, q), [], [])
        else
          var o := RunAction(cfg, users1, EventQueue.Offsets(q.entries), hook.value);
          Step(State(o.users, q), o.effects, o.outcomes)
  }

  /** `regenerate_captcha`: a new answer, the time left recomputed from the
      task (not reset), and the photo replaced. `last_caption` is kept. */
  function Regenerate(cfg: Config, st: State, u: UserId, text: string): (r: Step)
    requires ValidConfig(cfg) && u in st.users
    ensures r.state.queue == st.queue && r.outcomes == []
    ensures r.state.users.Keys == st.users.Keys
    ensures forall v :: v in st.users && v != u ==> r.state.users[v] == st.users[v]
    ensures var s := st.users[u];
      var tl := TimeLeft(cfg, EventQueue.Offsets(st.queue.entries), s.eqKey);
      && r.state.users[u] == s.(answer := text, timeLeft := tl)
      && r.effects == [EditMedia(s.chat, s.messageId, BuildCaption(cfg, tl, s.failed))]
  {
    var s := st.users[u];
    var s1 := s.(answer := text, timeLeft := TimeLeft(cfg, EventQueue.Offsets(st.queue.entries), s.eqKey));
    Step(State(st.users[u := s1], st.queue), [EditMedia(s.chat, s.messageId, BuildCaption(cfg, s1.timeLeft, s1.failed))], [])
  }

  /** `handle_captcha_button_press`: the presser's own challenge is
      regenerated; a presser without one is told it is not theirs. */
  function HandleButtonPress(cfg: Config, st: State, presser: UserId, call: int, text: string): (r: Step)
    requires ValidConfig(cfg)
    ensures r.outcomes == [] && r.state.queue == st.queue && r.state.users.Keys == st.users.Keys
    ensures presser !in st.users ==> r == Step(st, [AnswerCallback(call, Some(cfg.notYours))], [])
    ensures presser in st.users ==>
      r.state.users[presser].answer == text && |r.effects| > 0 && r.effects[|r.effects| - 1] == AnswerCallback(call, None)
    ensures forall v :: v in st.users && v != presser ==> r.state.users[v] == st.users[v]
  {
    if presser !in st.users then Step(st, [AnswerCallback(call, Some(cfg.notYours))], [])
    else
      var g := Regenerate(cfg, st, presser, text);
      Step(g.state, g.effects + [AnswerCallback(call, None)], [])
  }

  // -------------------------------------------------------------------- join

  /** `range(start, stop, step)` for a positive step. */
  function PyRange(start: int, stop: int, step: int): (r: seq<int>)
    requires step > 0
    ensures forall i :: 0 <= i < |r| ==> r[i] == start + i * step && r[i] < stop
    ensures |r| > 0 ==> r[|r| - 1] + step >= stop
    ensures |r| == 0 <==> start >= stop
    decreases stop - start
  {
    if start >= stop then []
    else
      var rest := PyRange(start + step, stop, step);
      assert forall i :: 1 <= i < |rest| + 1 ==> ([start] + rest)[i] == rest[i - 1];
      [start] + rest
  }

  /** The countdown's timestamps: every multiple of the update period up to the timer. */
  function Schedule(cfg: Config): (ts: seq<int>)
    requires ValidConfig(cfg)
    ensures forall i :: 0 <= i < |ts| ==> ts[i] == (i + 1) * cfg.updateFreq && ts[i] <= cfg.timer
    ensures |ts| > 0 ==> ts[|ts| - 1] + cfg.updateFreq > cfg.timer
    ensures |ts| == 0 <==> cfg.updateFreq > cfg.timer
  {
    PyRange(cfg.updateFreq, cfg.timer + 1, cfg.updateFreq)
  }

  function CountdownHooks(u: UserId): EventQueue.Hooks<Action> {
    EventQueue.Hooks(None, Some(Fail(u, TimeExpired)), Some(Fail(u, CaptchaCancelled)), map[])
  }

  /** The countdown task `queue_captcha_updates` registers for user `u`:
      fresh, with the schedule sorted and the countdown hooks applied. */
  function Countdown(cfg: Config, u: UserId): EventQueue.Task<Action>
    requires ValidConfig(cfg)
  {
    var sorted := EventQueue.Sort(Schedule(cfg));
    EventQueue.Task(0, false, EventQueue.BuildSubEvents(sorted, Redraw(u), CountdownHooks(u)), CountdownHooks(u))
  }

  /** `queue_captcha_updates(user_id)`, with `key` the uuid the queue hands
      out. The key finds the user's countdown; every other key finds what it
      found before. */
  function QueueCaptchaUpdates(cfg: Config, q: EventQueue.Queue<Action>, u: UserId, key: Key): (q': EventQueue.Queue<Action>)
    requires ValidConfig(cfg)
    ensures forall k :: EventQueue.Find(q'.entries, k) == if k == key then Some(Countdown(cfg, u)) else EventQueue.Find(q.entries, k)
  {
    EventQueue.StoreFinds(q.entries, key, Countdown(cfg, u));
    EventQueue.AddTask(q, key, Schedule(cfg), Redraw(u), CountdownHooks(u))
  }

  /** One entry of `new_chat_members`, with the values the random text, the
      sent photo and the uuid produce for it. */
  datatype Joiner = Joiner(id: UserId, isBot: bool, text: string, messageId: int, key: Key)

  /** The session a human joiner starts with: no failures, the full timer,
      the first caption already shown, and the countdown's key. */
  function JoinSession(cfg: Config, chat: ChatId, j: Joiner): Session
    requires ValidConfig(cfg)
  {
    Session(chat, Some(j.key), Some(j.messageId), 0, cfg.timer, j.text, Some(BuildCaption(cfg, cfg.timer, 0)))
  }

  /** The human joiners of a message; bots are skipped. */
  function HumanIds(joiners: seq<Joiner>): set<UserId> {
    if |joiners| == 0 then {}
    else (if joiners[0].isBot then {} else {joiners[0].id}) + HumanIds(joiners[1..])
  }

  /** The human joiners of a message, in order. */
  function Humans(joiners: seq<Joiner>): (hs: seq<Joiner>)
    ensures forall i :: 0 <= i < |hs| ==> !hs[i].isBot && hs[i] in joiners
  {
    if |joiners| == 0 then []
    else (if joiners[0].isBot then [] else [joiners[0]]) + Humans(joiners[1..])
  }

  /** The last human joiner with id `x`: the one whose session the loop
      leaves in place. */
  function LastWithId(joiners: seq<Joiner>, x: UserId): (r: Option<Joiner>)
    ensures r.Some? <==> x in HumanIds(joiners)
    ensures r.Some? ==> r.value.id == x && !r.value.isBot
  {
    if |joiners| == 0 then None
    else
      var later := LastWithId(joiners[1..], x);
      if later.Some? then later
      else if !joiners[0].isBot && joiners[0].id == x then Some(joiners[0])
      else None
  }

  /** The last human joiner whose countdown went in under `key`. */
  function LastWithKey(joiners: seq<Joiner>, key: Key): (r: Option<Joiner>)
    ensures r.Some? ==> r.value.key == key && !r.value.isBot && r.value in joiners
  {
    if |joiners| == 0 then None
    else
      var later := LastWithKey(joiners[1..], key);
      if later.Some? then later
      else if !joiners[0].isBot && joiners[0].key == key then Some(joiners[0])
      else None
  }

  /** The sessions after the join loop: every human joiner has a fresh
      session (a later entry for the same id wins), everybody else keeps theirs. */
  function JoinUsers(cfg: Config, users: map<UserId, Session>, chat: ChatId, joiners: seq<Joiner>): (r: map<UserId, Session>)
    requires ValidConfig(cfg)
    ensures r.Keys == users.Keys + HumanIds(joiners)
    ensures forall x :: x in users && x !in HumanIds(joiners) ==> r[x] == users[x]
    ensures forall x :: x in HumanIds(joiners) ==>
      && r[x].failed == 0 && r[x].timeLeft == cfg.timer && r[x].chat == chat
      && r[x].messageId.Some? && r[x].eqKey.Some?
      && r[x].lastCaption == Some(BuildCaption(cfg, cfg.timer, 0))
    ensures forall x :: x in HumanIds(joiners) ==> r[x] == JoinSession(cfg, chat, LastWithId(joiners, x).value)
    decreases |joiners|
  {
    if |joiners| == 0 then users
    else
      var j := joiners[0];
      JoinUsers(cfg, if j.isBot then users else users[j.id := JoinSession(cfg, chat, j)], chat, joiners[1..])
  }

  /** What `key` finds after the join loop, given what it found before: the
      countdown of the last human queued under it, or else the old task. */
  function AfterJoin(cfg: Config, joiners: seq<Joiner>, key: Key, before: Option<EventQueue.Task<Action>>): Option<EventQueue.Task<Action>>
    requires ValidConfig(cfg)
  {
    var last := LastWithKey(joiners, key);
    if last.Some? then Some(Countdown(cfg, last.value.id)) else before
  }

  /** The countdown tasks the join loop queues, one per human, in order:
      each human's key finds that human's countdown (the last one queued
      under it, should two share a key), and every other key finds what it
      found before. */
  function JoinQueue(cfg: Config, q: EventQueue.Queue<Action>, joiners: seq<Joiner>): (r: EventQueue.Queue<Action>)
    requires ValidConfig(cfg)
    ensures forall k :: EventQueue.Find(r.entries, k) == AfterJoin(cfg, joiners, k, EventQueue.Find(q.entries, k))
    decreases |joiners|
  {
    if |joiners| == 0 then q
    else
      var j := joiners[0];
      AfterJoinCons(cfg, joiners);
      JoinQueue(cfg, if j.isBot then q else QueueCaptchaUpdates(cfg, q, j.id, j.key), joiners[1..])
  }

  /** The join loop over `j` then `rest` is `j`'s pass followed by the loop over `rest`. */
  lemma AfterJoinCons(cfg: Config, joiners: seq<Joiner>)
    requires ValidConfig(cfg) && |joiners| > 0
    ensures var j := joiners[0];
      forall k, before :: AfterJoin(cfg, joiners, k, before) ==
        AfterJoin(cfg, joiners[1..], k, if !j.isBot && j.key == k then Some(Countdown(cfg, j.id)) else before)
  {
  }

  /** The photos the join loop sends, one per human, in order. */
  function JoinEffects(cfg: Config, chat: ChatId, joiners: seq<Joiner>): (e: seq<Effect>)
    requires ValidConfig(cfg)
    ensures forall i :: 0 <= i < |e| ==> e[i] == SendPhoto(chat, BuildCaption(cfg, cfg.timer, 0))
    ensures |e| == |Humans(joiners)|
  {
    if |joiners| == 0 then []
    else (if joiners[0].isBot then [] else [SendPhoto(chat, BuildCaption(cfg, cfg.timer, 0))]) + JoinEffects(cfg, chat, joiners[1..])
  }

  /** `handle_new_user`: the join loop over every new member, in order. The
      session and queue halves of each pass do not read each other, so they
      are folded separately. */
  function HandleNewUser(cfg: Config, st: State, chat: ChatId, joiners: seq<Joiner>): (r: Step)
    requires ValidConfig(cfg)
    ensures r.outcomes == []
    ensures r.state.users == JoinUsers(cfg, st.users, chat, joiners)
    ensures forall k :: EventQueue.Find(r.state.queue.entries, k) == AfterJoin(cfg, joiners, k, EventQueue.Find(st.queue.entries, k))
    ensures |r.effects| == |Humans(joiners)|
  {
    Step(State(JoinUsers(cfg, st.users, chat, joiners), JoinQueue(cfg, st.queue, joiners)), JoinEffects(cfg, chat, joiners), [])
  }

  // -------------------------------------------------------------------- tick

  /** The callbacks one tick runs, in order, each seeing `EVENTS` as it was
      when it ran. */
  function RunFirings(cfg: Config, users: map<UserId, Session>, fs: seq<EventQueue.Firing<Action>>): (o: Out)
    requires ValidConfig(cfg)
    ensures Accounted(users, o.users, o.effects, o.outcomes)
    decreases |fs|
  {
    if |fs| == 0 then Out(users, [], [])
    else
      var first := RunAction(cfg, users, fs[0].view, fs[0].action);
      var rest := RunFirings(cfg, first.users, fs[1..]);
      AccountedChain(users, first.users, rest.users, first.effects, first.outcomes, rest.effects, rest.outcomes);
      Out(rest.users, first.effects + rest.effects, first.outcomes + rest.outcomes)
  }

  /** One tick of the background queue with the captcha callbacks it runs. */
  function SystemTick(cfg: Config, st: State): (r: Step)
    requires ValidConfig(cfg)
    ensures r.state.queue == EventQueue.Tick(st.queue).0
    ensures Accounted(st.users, r.state.users, r.effects, r.outcomes)
  {
    var (q, fs) := EventQueue.Tick(st.queue);
    var o := RunFirings(cfg, st.users, fs);
    Step(State(o.users, q), o.effects, o.outcomes)
  }
}

// What the captcha handlers guarantee, stated over the module above.
module CaptchaManagerProps {
  import opened Wrappers
  import opened Text
  import EventQueue
  import EventQueueProps
  import opened CaptchaManager

  // ------------------------------------------------------------ challenge text

  lemma AlphanumericsComplete(c: char)
    requires IsAlnum(c)
    ensures c in Alphanumerics()
  {
    var cs := Alphanumerics();
    if 'a' <= c <= 'z' {
      assert cs[c as int - 'a' as int] == c;
    } else if 'A' <= c <= 'Z' {
      assert cs[c as int - 'A' as int + 26] == c;
    } else {
      assert cs[c as int - '0' as int + 52] == c;
    }
  }

  /** The challenge alphabet is exactly the ASCII letters and digits that are
      banned in neither case. */
  lemma AllowedExactly(banned: string, c: char)
    ensures c in Allowed(banned) <==> IsAlnum(c) && !IsBanned(banned, c)
  {
    if IsAlnum(c) && !IsBanned(banned, c) {
      AlphanumericsComplete(c);
    }
  }

  /** With the default banned symbols "104aqiol" neither case of a banned
      letter, nor a banned digit, can appear in a challenge. */
  lemma DefaultBannedBothCases()
    ensures IsBanned("104aqiol", 'O') && IsBanned("104aqiol", 'o') && IsBanned("104aqiol", '0')
    ensures !IsBanned("104aqiol", 'b') && !IsBanned("104aqiol", 'B')
  {
  }

  // ------------------------------------------------------------------ caption

  lemma MulMono(a: int, b: int, k: int)
    requires a <= b && k >= 0
    ensures a * k <= b * k
  {
    assert b * k - a * k == (b - a) * k;
  }

  /** The truncated share `e * k / t` of an elapsed `e` out of `t`. */
  lemma {:induction false} ScaledShare(e: int, t: int, k: int)
    requires 0 <= e <= t && t > 0 && k >= 0
    ensures 0 <= TruncDiv(e * k, t) <= k
    ensures k > 0 ==> (TruncDiv(e * k, t) == k <==> e == t)
  {
    var q := TruncDiv(e * k, t);
    MulMono(0, e, k);
    MulMono(e, t, k);
    assert q * t <= e * k < q * t + t;
    if q < 0 {
      MulMono(q, -1, t);
    }
    if q > k {
      MulMono(k + 1, q, t);
    }
    if k > 0 {
      if e == t && q < k {
        MulMono(q + 1, k, t);
      }
      if e < t && q >= k {
        MulMono(e, t - 1, k);
        MulMono(k, q, t);
      }
    }
  }

  lemma {:induction false} ScaledShareMono(e1: int, e2: int, t: int, k: int)
    requires 0 <= e1 <= e2 && t > 0 && k >= 0
    ensures TruncDiv(e1 * k, t) <= TruncDiv(e2 * k, t)
  {
    var q1 := TruncDiv(e1 * k, t);
    var q2 := TruncDiv(e2 * k, t);
    MulMono(0, e1, k);
    MulMono(e1, e2, k);
    if q1 > q2 {
      MulMono(q2 + 1, q1, t);
    }
  }

  /** While the clock runs, the bar and the percentage stay in range, and
      they are full exactly when no time is left. */
  lemma FilledBounds(cfg: Config, timeLeft: int)
    requires ValidConfig(cfg) && 0 <= timeLeft <= cfg.timer && cfg.barLength > 0
    ensures 0 <= Filled(cfg, timeLeft) <= cfg.barLength
    ensures Filled(cfg, timeLeft) == cfg.barLength <==> timeLeft == 0
    ensures 0 <= Percent(cfg, timeLeft) <= 100
    ensures Percent(cfg, timeLeft) == 100 <==> timeLeft == 0
  {
    ScaledShare(cfg.timer - timeLeft, cfg.timer, cfg.barLength);
    ScaledShare(cfg.timer - timeLeft, cfg.timer, 100);
  }

  /** Less time left never shortens the bar or lowers the percentage. */
  lemma FilledMonotone(cfg: Config, a: int, b: int)
    requires ValidConfig(cfg) && cfg.barLength >= 0 && 0 <= a <= b <= cfg.timer
    ensures Filled(cfg, b) <= Filled(cfg, a)
    ensures Percent(cfg, b) <= Percent(cfg, a)
  {
    ScaledShareMono(cfg.timer - b, cfg.timer - a, cfg.timer, cfg.barLength);
    ScaledShareMono(cfg.timer - b, cfg.timer - a, cfg.timer, 100);
  }

  /** Before the end the bar is `barLength + 2` characters: `filled` copies of
      `=`, the `>` head, and padding. At the end the head sticks out one
      character further, since no padding can be negative. */
  lemma BarShape(filled: int, barLength: int)
    requires 0 <= filled <= barLength
    ensures filled < barLength ==> |Bar(filled, barLength)| == barLength + 2
    ensures filled == barLength ==> |Bar(filled, barLength)| == barLength + 3
    ensures Bar(filled, barLength)[0] == '[' && Bar(filled, barLength)[filled + 1] == '>'
    ensures forall i :: 1 <= i <= filled ==> Bar(filled, barLength)[i] == '='
    ensures forall i :: filled + 2 <= i < |Bar(filled, barLength)| - 1 ==> Bar(filled, barLength)[i] == ' '
  {
    var b := Bar(filled, barLength);
    var eq := Repeat('=', filled);
    var pad := Repeat(' ', barLength - filled - 1);
    assert b == "[" + eq + ">" + pad + "]";
    assert forall i :: 1 <= i <= filled ==> b[i] == eq[i - 1];
    assert forall i :: filled + 2 <= i < |b| - 1 ==> b[i] == pad[i - filled - 2];
  }

  // ---------------------------------------------------------------- redraws

  /** Redrawing twice with the same view of the queue edits at most once:
      the second call finds its caption already shown. */
  lemma RedrawIdempotent(cfg: Config, users: map<UserId, Session>, offsets: map<Key, nat>, u: UserId)
    requires ValidConfig(cfg)
    ensures var o1 := UpdateCaptchaMessage(cfg, users, offsets, u);
      var o2 := UpdateCaptchaMessage(cfg, o1.users, offsets, u);
      o2.effects == [] && o2.users == o1.users
  {
    var o1 := UpdateCaptchaMessage(cfg, users, offsets, u);
    if u in users && users[u].messageId.Some? {
      assert o1.users[u].eqKey == users[u].eqKey && o1.users[u].failed == users[u].failed;
      assert o1.users == o1.users[u := o1.users[u]];
    }
  }

  /** A redraw queued by a user's own countdown, run by a tick, sets the time
      left to the timer minus the offset that task fired at. */
  lemma RedrawAtTickUsesOffset(cfg: Config, st: State, f: EventQueue.Firing<Action>, u: UserId)
    requires ValidConfig(cfg) && EventQueue.UniqueKeys(st.queue.entries)
    requires f in EventQueue.Tick(st.queue).1 && f.action == Redraw(u)
    requires u in st.users && st.users[u].eqKey == Some(f.key) && st.users[u].messageId.Some?
    ensures RunAction(cfg, st.users, f.view, f.action).users[u].timeLeft == Max(0, cfg.timer - f.offset)
  {
    assert EventQueue.SeesOwnOffset(f);
  }

  // ------------------------------------------------------------ finalization


  /** `fail_user` and `pass_user` finalize a present user once and leave an
      absent one alone, so a second finalization is a no-op. */
  lemma FinalizeOnce(cfg: Config, st: State, u: UserId, reason: string)
    requires ValidConfig(cfg)
    ensures var o := FailUser(cfg, st.users, u, reason);
      && Accounted(st.users, o.users, o.effects, o.outcomes)
      && u !in o.users
      && FailUser(cfg, o.users, u, reason) == Out(o.users, [], [])
    ensures var p := PassUser(cfg, st, u);
      && Accounted(st.users, p.state.users, p.effects, p.outcomes)
      && u !in p.state.users
      && PassUser(cfg, p.state, u) == Step(p.state, [], [])
      && FailUser(cfg, p.state.users, u, reason) == Out(p.state.users, [], [])
  {
    FailUserAccounted(cfg, st.users, u, reason);
    if u in st.users {
      var s := st.users[u];
      var p := PassUser(cfg, st, u);
      assert FailedUsers([Passed(u)]) == [];
      assert KickedUsers(p.effects) == [] by {
        var del := if TruthyId(s.messageId) then [DeleteMessage(s.chat, s.messageId)] else [];
        KickedConcat([SendMessage(s.chat, PassedText), SendMessage(s.chat, cfg.greeting)], del);
      }
    }
  }




  /** A submitted answer finalizes at most once too. */
  lemma VerifyAccounted(cfg: Config, st: State, u: UserId, chat: ChatId, messageId: int, text: Option<string>)
    requires ValidConfig(cfg)
    ensures var r := HandleVerify(cfg, st, u, chat, messageId, text);
      Accounted(st.users, r.state.users, r.effects, r.outcomes)
  {
    if u in st.users {
      var next := if NormalizeInput(text) == Some(LowerStr(st.users[u].answer)) then PassUser(cfg, st, u)
                  else OnFailedAttempt(cfg, st, u);
      if NormalizeInput(text) == Some(LowerStr(st.users[u].answer)) {
        FinalizeOnce(cfg, st, u, MaxAttemptsUsed);
      } else {
        FailedAttemptAccounted(cfg, st, u);
      }
      assert Accounted(st.users, next.state.users, next.effects, next.outcomes);
      KickedConcat([DeleteMessage(chat, Some(messageId))], next.effects);
    }
  }

  /** A wrong answer either only redraws the captcha or fails the user once. */
  lemma FailedAttemptAccounted(cfg: Config, st: State, u: UserId)
    requires ValidConfig(cfg) && u in st.users
    ensures var r := OnFailedAttempt(cfg, st, u);
      Accounted(st.users, r.state.users, r.effects, r.outcomes)
  {
    var s := st.users[u].(failed := st.users[u].failed + 1);
    var users1 := st.users[u := s];
    assert users1.Keys == st.users.Keys;
    if s.failed >= cfg.attempts {
      FinalizeOnce(cfg, State(users1, st.queue), u, MaxAttemptsUsed);
    } else {
      var upd := UpdateCaptchaMessage(cfg, users1, EventQueue.Offsets(st.queue.entries), u);
      assert KickedUsers(upd.effects) == [];
    }
  }

  /** After a pass, ticking fails nobody twice: the user has no session, so no
      countdown callback can kick them, and their cancelled task is dropped
      without firing. */
  lemma PassThenTick(cfg: Config, st: State, u: UserId)
    requires ValidConfig(cfg) && u in st.users
    requires EventQueue.UniqueKeys(st.queue.entries)
    requires TruthyKey(st.users[u].eqKey) && st.users[u].eqKey.value in EventQueue.Keys(st.queue.entries)
    ensures var p := PassUser(cfg, st, u);
      var t := SystemTick(cfg, p.state);
      && (forall i :: 0 <= i < |t.outcomes| ==> t.outcomes[i].user != u)
      && u !in t.state.users
      && st.users[u].eqKey.value !in EventQueue.Keys(t.state.queue.entries)
  {
    var p := PassUser(cfg, st, u);
    FinalizeOnce(cfg, st, u, "");
    EventQueueProps.CancelThenTick(st.queue, st.users[u].eqKey.value, true);
  }

  // ------------------------------------------------------------------ leave

  lemma {:induction false} KickedMember(e: seq<Effect>, i: nat)
    requires i < |e| && e[i].Kick?
    ensures e[i].user in KickedUsers(e)
  {
    if i > 0 {
      KickedMember(e[1..], i - 1);
    }
  }

  lemma {:induction false} FailedMember(o: seq<Outcome>, x: UserId)
    requires x in FailedUsers(o)
    ensures exists j :: 0 <= j < |o| && o[j].user == x
  {
    if |o| > 0 && !(o[0].Failed? && o[0].user == x) {
      FailedMember(o[1..], x);
      var j :| 0 <= j < |o[1..]| && o[1..][j].user == x;
      assert o[j + 1].user == x;
    }
  }

  /** A user no outcome mentions is not kicked by an accounted step. */
  lemma NoKickWithoutOutcome(e: seq<Effect>, o: seq<Outcome>, u: UserId)
    requires KickedUsers(e) == FailedUsers(o)
    requires forall j :: 0 <= j < |o| ==> o[j].user != u
    ensures forall i :: 0 <= i < |e| && e[i].Kick? ==> e[i].user != u
  {
    forall i | 0 <= i < |e| && e[i].Kick?
      ensures e[i].user != u
    {
      KickedMember(e, i);
      if e[i].user == u {
        FailedMember(o, u);
      }
    }
  }

  /** A user who leaves is dropped before the loud cancel, so the cancel
      callback never kicks or fails them; when the callback is their own
      countdown's, nothing is sent at all. */
  lemma LeaverNeverKicked(cfg: Config, st: State, u: UserId)
    requires ValidConfig(cfg)
    ensures var r := HandleUserLeft(cfg, st, Some(u));
      && u !in r.state.users
      && (forall i :: 0 <= i < |r.outcomes| ==> r.outcomes[i].user != u)
      && (forall i :: 0 <= i < |r.effects| && r.effects[i].Kick? ==> r.effects[i].user != u)
    ensures u in st.users && TruthyKey(st.users[u].eqKey)
      && EventQueue.Find(st.queue.entries, st.users[u].eqKey.value).Some?
      && EventQueue.Find(st.queue.entries, st.users[u].eqKey.value).value.hooks == CountdownHooks(u)
      ==> HandleUserLeft(cfg, st, Some(u)).effects == [] && HandleUserLeft(cfg, st, Some(u)).outcomes == []
  {
    var r := HandleUserLeft(cfg, st, Some(u));
    var users1 := st.users - {u};
    if u in st.users && TruthyKey(st.users[u].eqKey) {
      var (q, hook) := EventQueue.CancelTask(st.queue, st.users[u].eqKey.value, false);
      if hook.Some? {
        var o := RunAction(cfg, users1, EventQueue.Offsets(q.entries), hook.value);
        NoKickWithoutOutcome(o.effects, o.outcomes, u);
      }
    }
  }

  // -------------------------------------------------------------------- join

  lemma ScheduleSorted(cfg: Config)
    requires ValidConfig(cfg)
    ensures EventQueue.Sorted(Schedule(cfg))
  {
    var ts := Schedule(cfg);
    forall i, j | 0 <= i < j < |ts|
      ensures ts[i] <= ts[j]
    {
      MulMono(i + 1, j + 1, cfg.updateFreq);
    }
  }

  /** A joining human's countdown task is fresh, at offset 0, with one
      sub-event per multiple of the update period up to the timer, each a
      redraw except the last, which fails the user with "Time expired";
      queuing it starts the ticking loop. */
  lemma JoinSchedule(cfg: Config, q: EventQueue.Queue<Action>, j: Joiner)
    requires ValidConfig(cfg)
    ensures var q' := QueueCaptchaUpdates(cfg, q, j.id, j.key);
      var t := EventQueue.Find(q'.entries, j.key);
      && t.Some? && t.value.offset == 0 && !t.value.cancelled
      && t.value.hooks == CountdownHooks(j.id)
      && EventQueue.Timestamps(t.value.pending) == Schedule(cfg)
      && (forall i :: 0 <= i < |t.value.pending| - 1 ==> t.value.pending[i].action == Redraw(j.id))
      && (|t.value.pending| > 0 ==> t.value.pending[|t.value.pending| - 1].action == Fail(j.id, TimeExpired))
      && q'.running
  {
    var q' := QueueCaptchaUpdates(cfg, q, j.id, j.key);
    var t := EventQueue.Find(q'.entries, j.key).value;
    CountdownActions(t.pending, j.id);
    ScheduleSorted(cfg);
    EventQueueProps.SortedUnique(EventQueue.Timestamps(t.pending), Schedule(cfg));
  }

  /** Under the countdown hooks every sub-event redraws except the last,
      which expires the user. */
  lemma CountdownActions(pending: seq<EventQueue.SubEvent<Action>>, u: UserId)
    requires forall i :: 0 <= i < |pending| ==>
      pending[i].action == EventQueue.ChooseAction(i, |pending|, pending[i].timestamp, Redraw(u), CountdownHooks(u))
    ensures forall i :: 0 <= i < |pending| - 1 ==> pending[i].action == Redraw(u)
    ensures |pending| > 0 ==> pending[|pending| - 1].action == Fail(u, TimeExpired)
  {
  }

  /** A countdown with at least one redraw period expires exactly on tick
      `T`, its last scheduled timestamp, the first multiple of the period
      past which the timer would be exceeded: the task has fired every
      sub-event, in order, and leaves the queue then, not before. */
  lemma CountdownLifetime(cfg: Config, t: EventQueue.Task<Action>)
    requires ValidConfig(cfg) && cfg.updateFreq <= cfg.timer
    requires t.offset == 0 && !t.cancelled && EventQueue.Timestamps(t.pending) == Schedule(cfg)
    ensures var T := |Schedule(cfg)| * cfg.updateFreq;
      && T <= cfg.timer < T + cfg.updateFreq
      && EventQueueProps.Run(t, T).1 == t.pending
      && !EventQueue.Keep(EventQueueProps.Run(t, T).0)
      && forall n :: 1 <= n < T ==> EventQueue.Keep(EventQueueProps.Run(t, n).0)
  {
    var ts := Schedule(cfg);
    var p := t.pending;
    assert |ts| > 0;
    var last := |ts| - 1;
    assert ts[last] == |ts| * cfg.updateFreq;
    var m := EventQueueProps.MaxTimestamp(p);
    var k :| 0 <= k < |p| && p[k].timestamp == m;
    assert p[last].timestamp == ts[last] && p[k].timestamp == ts[k];
    ScheduleSorted(cfg);
    assert m == ts[last];
    assert ts[last] >= cfg.updateFreq >= 1;
    EventQueueProps.TaskLifetime(t);
  }

  // ------------------------------------------------------------------ verify

  /** Blank input never matches: it always counts as a miss. */
  lemma BlankNeverMatches(cfg: Config, st: State, u: UserId, chat: ChatId, messageId: int, text: Option<string>)
    requires ValidConfig(cfg) && u in st.users
    requires forall i :: 0 <= i < |text.GetOr("")| ==> IsSpace(text.GetOr("")[i])
    ensures var r := HandleVerify(cfg, st, u, chat, messageId, text);
      var miss := OnFailedAttempt(cfg, st, u);
      r.state == miss.state && r.outcomes == miss.outcomes
  {
  }

  /** Typing the answer in any letter case, with any surrounding whitespace,
      passes: the user's message and the challenge are deleted. */
  lemma AnswerPasses(cfg: Config, st: State, u: UserId, chat: ChatId, messageId: int, pre: string, typed: string, post: string)
    requires ValidConfig(cfg) && u in st.users
    requires forall i :: 0 <= i < |pre| ==> IsSpace(pre[i])
    requires forall i :: 0 <= i < |post| ==> IsSpace(post[i])
    requires |typed| > 0 && !IsSpace(typed[0]) && !IsSpace(typed[|typed| - 1])
    requires LowerStr(typed) == LowerStr(st.users[u].answer)
    ensures var r := HandleVerify(cfg, st, u, chat, messageId, Some(pre + typed + post));
      && r.outcomes == [Passed(u)]
      && u !in r.state.users
      && r.effects[0] == DeleteMessage(chat, Some(messageId))
  {
    StripPadded(pre, typed, post);
    assert NormalizeInput(Some(pre + typed + post)) == Some(LowerStr(st.users[u].answer));
    var p := PassUser(cfg, st, u);
    assert p.outcomes == [Passed(u)] && u !in p.state.users;
  }

  /** A wrong answer is counted; at the attempt limit the user is failed with
      "Max attempts used" and kicked, below it the caption is redrawn. */
  lemma WrongAnswer(cfg: Config, st: State, u: UserId, chat: ChatId, messageId: int, text: Option<string>)
    requires ValidConfig(cfg) && u in st.users
    requires NormalizeInput(text) != Some(LowerStr(st.users[u].answer))
    ensures var r := HandleVerify(cfg, st, u, chat, messageId, text);
      && r.effects[0] == DeleteMessage(chat, Some(messageId))
      && r.state.queue == st.queue
      && (st.users[u].failed + 1 >= cfg.attempts ==>
            && r.outcomes == [Failed(u, MaxAttemptsUsed)]
            && u !in r.state.users
            && r.effects[|r.effects| - 1] == Kick(st.users[u].chat, u))
      && (st.users[u].failed + 1 < cfg.attempts ==>
            && r.outcomes == []
            && u in r.state.users
            && r.state.users[u].failed == st.users[u].failed + 1
            && |r.effects| <= 2)
  {
    FailedAttemptEffects(cfg, st, u);
    var next := OnFailedAttempt(cfg, st, u);
    var r := HandleVerify(cfg, st, u, chat, messageId, text);
    assert r.effects == [DeleteMessage(chat, Some(messageId))] + next.effects;
    if st.users[u].failed + 1 >= cfg.attempts {
      assert r.effects[|r.effects| - 1] == next.effects[|next.effects| - 1];
    }
  }

  /** What a counted miss does on its own. */
  lemma FailedAttemptEffects(cfg: Config, st: State, u: UserId)
    requires ValidConfig(cfg) && u in st.users
    ensures var r := OnFailedAttempt(cfg, st, u);
      && (st.users[u].failed + 1 >= cfg.attempts ==>
            && r.outcomes == [Failed(u, MaxAttemptsUsed)]
            && u !in r.state.users
            && |r.effects| > 0 && r.effects[|r.effects| - 1] == Kick(st.users[u].chat, u))
      && (st.users[u].failed + 1 < cfg.attempts ==>
            && r.outcomes == []
            && u in r.state.users
            && r.state.users[u].failed == st.users[u].failed + 1
            && |r.effects| <= 1)
  {
    var s := st.users[u].(failed := st.users[u].failed + 1);
    var users1 := st.users[u := s];
    if s.failed >= cfg.attempts {
      var o := FailUser(cfg, users1, u, MaxAttemptsUsed);
      assert o.effects[|o.effects| - 1] == Kick(s.chat, u);
    } else {
      var o := UpdateCaptchaMessage(cfg, users1, EventQueue.Offsets(st.queue.entries), u);
      assert u in o.users;
    }
  }
}

=== FILE: category_builder.dfy ===
/**
 * `src/commands/play/category_builder.py`: turning one category definition
 * into a `Play.Category` — the completeness check, the range computation,
 * the `@range`/`@value` goal templates, the tiers and the locale — and the
 * two entry points that run the schema check first and report failures.
 *
 * The default goal templates come from a configuration module that is not
 * part of this model; they are a parameter (`Env.defaults`).
 */
module CategoryBuilder {
  import opened Wrappers
  import opened Text
  import Play
  import PlayProps
  import opened PlaySchema

  /** Why a build stops. `Incomplete` is the `RuntimeError` of a builder
      with unset parts, `Raised` any other exception that is not a
      `ValueError`, and the last two the `ValueError`s of the win value and
      of the category's own validation. */
  datatype Failure =
    | Incomplete(missing: seq<Part>)
    | Raised
    | WinValueRejected(message: string)
    | Rejected(errors: seq<Play.CategoryError>)

  /** The builder after its `with_*` calls. `DNone` (or `None` for the tier
      count) is a part never set; `rangeFn` gives what a callable `ranges`
      returns for each tier number. */
  datatype Builder = Builder(
    name: string,
    tiersNum: Option<int>,
    ranges: Dyn,
    rangeFn: int -> Play.Pair,
    phrases: Dyn,
    winValue: Dyn,
    locale: Dyn,
    winLocale: Dyn,
    continuous: bool)

  /** What the builder reads from its surroundings: the default goal
      templates per language and win type, the configured language, and
      the order the set of required locale fields iterates in. */
  datatype Env = Env(defaults: map<string, map<string, seq<string>>>, required: Play.Lang, fields: seq<string>)

  /** The parts `_validate_builder_state` requires. */
  datatype Part = TiersNumPart | RangesPart | PhrasesPart | WinValuePart | LocalePart

  /** The name the error message gives a part. */
  function PartName(p: Part): string
  {
    match p
    case TiersNumPart => "tiers_num"
    case RangesPart => "ranges"
    case PhrasesPart => "phrases"
    case WinValuePart => "win_value"
    case LocalePart => "locale"
  }

  function Unset(b: Builder, p: Part): bool
  {
    match p
    case TiersNumPart => b.tiersNum.None?
    case RangesPart => b.ranges == DNone
    case PhrasesPart => b.phrases == DNone
    case WinValuePart => b.winValue == DNone
    case LocalePart => b.locale == DNone
  }

  /** The position in which the check names a part. */
  function Rank(p: Part): nat
  {
    match p
    case TiersNumPart => 0
    case RangesPart => 1
    case PhrasesPart => 2
    case WinValuePart => 3
    case LocalePart => 4
  }

  /** Every part, in the order the check names them. */
  const AllParts: seq<Part> := [TiersNumPart, RangesPart, PhrasesPart, WinValuePart, LocalePart]

  /** The unset parts, in the order the check names them. */
  function Missing(b: Builder): seq<Part>
  {
    UnsetAmong(b, AllParts)
  }

  function UnsetAmong(b: Builder, ps: seq<Part>): seq<Part>
  {
    if |ps| == 0 then []
    else (if Unset(b, ps[0]) then [ps[0]] else []) + UnsetAmong(b, ps[1..])
  }

  /** Exactly the unset parts are reported, each once and in rank order. */
  lemma MissingParts(b: Builder)
    ensures forall p :: p in Missing(b) <==> Unset(b, p)
    ensures forall i, j :: 0 <= i < j < |Missing(b)| ==> Rank(Missing(b)[i]) < Rank(Missing(b)[j])
  {
    forall p: Part ensures p in AllParts {
      assert AllParts[Rank(p)] == p;
    }
    UnsetAmongKept(b, AllParts);
    UnsetAmongOrdered(b, AllParts);
  }

  lemma {:induction false} UnsetAmongKept(b: Builder, ps: seq<Part>)
    ensures forall p :: p in UnsetAmong(b, ps) <==> p in ps && Unset(b, p)
  {
    if |ps| > 0 {
      UnsetAmongKept(b, ps[1..]);
      assert ps == [ps[0]] + ps[1..];
    }
  }

  lemma {:induction false} UnsetAmongOrdered(b: Builder, ps: seq<Part>)
    requires forall i, j :: 0 <= i < j < |ps| ==> Rank(ps[i]) < Rank(ps[j])
    ensures forall i, j :: 0 <= i < j < |UnsetAmong(b, ps)| ==> Rank(UnsetAmong(b, ps)[i]) < Rank(UnsetAmong(b, ps)[j])
  {
    if |ps| > 0 && Unset(b, ps[0]) {
      var tail := ps[1..];
      UnsetAmongOrdered(b, tail);
      UnsetAmongKept(b, tail);
      var rest := UnsetAmong(b, tail);
      var r := [ps[0]] + rest;
      forall i, j | 0 <= i < j < |r| ensures Rank(r[i]) < Rank(r[j]) {
        assert r[j] == rest[j - 1] && rest[j - 1] in tail;
        var k :| 0 <= k < |tail| && tail[k] == r[j];
        assert ps[k + 1] == r[j];
        if i > 0 {
          assert r[i] == rest[i - 1];
        }
      }
      assert UnsetAmong(b, ps) == r;
    } else if |ps| > 0 {
      UnsetAmongOrdered(b, ps[1..]);
    }
  }

  // --------------------------------------------------------------- ranges

  /** A range value read as `(r[0], r[1])`: a tuple or a list whose first
      two items are integers. */
  function AsPair(v: Dyn): Option<Play.Pair>
  {
    if (v.DTuple? || v.DList?) && |v.items| >= 2 && IsInt(v.items[0]) && IsInt(v.items[1])
    then Some(Play.Pair(IntOf(v.items[0]), IntOf(v.items[1])))
    else None
  }

  /** A range end as `r[0]` or `r[1]` reads it: an integer, or a bool, which
      Python keeps as a bool. */
  type End = v: Dyn | IsInt(v) witness DInt(0)

  /** `str` of a range end: its decimal digits, or `True`/`False`. */
  function EndText(v: End): string
  {
    if v.DBool? then (if v.b then "True" else "False") else IntToString(v.i)
  }

  /** The first value under the integer key `n`. */
  function FindInt<T>(entries: seq<(Dyn, T)>, n: int): (r: Option<T>)
    ensures r.Some? ==> exists j :: 0 <= j < |entries| && KeyIs(entries[j].0, n) && entries[j].1 == r.value
    ensures r.None? <==> forall j :: 0 <= j < |entries| ==> !KeyIs(entries[j].0, n)
  {
    if |entries| == 0 then None
    else if KeyIs(entries[0].0, n) then Some(entries[0].1)
    else
      var r := FindInt(entries[1..], n);
      assert forall j :: 1 <= j < |entries| ==> entries[j] == entries[1..][j - 1];
      r
  }

  /** `{i: ranges(i) for i in range(1, n + 1)}` from tier `k` on. */
  function CallRanges(f: int -> Play.Pair, k: int, n: int): (r: seq<(Dyn, Play.Pair)>)
    ensures |r| == if n - k + 1 > 0 then n - k + 1 else 0
    ensures forall i :: 0 <= i < |r| ==> r[i] == (DInt(k + i), f(k + i))
    decreases n - k + 1
  {
    if k > n then [] else [(DInt(k), f(k))] + CallRanges(f, k + 1, n)
  }

  /** `ranges.copy()` with each value read as a pair. */
  function CopyRanges(entries: seq<(Dyn, Dyn)>): (r: Option<seq<(Dyn, Play.Pair)>>)
    ensures r.Some? ==> |r.value| == |entries|
    ensures r.Some? ==> forall i :: 0 <= i < |entries| ==> AsPair(entries[i].1).Some? && r.value[i] == (entries[i].0, AsPair(entries[i].1).value)
    ensures r.None? <==> exists i :: 0 <= i < |entries| && AsPair(entries[i].1).None?
  {
    if |entries| == 0 then Some([])
    else
      var head := AsPair(entries[0].1);
      var rest := CopyRanges(entries[1..]);
      assert forall i :: 1 <= i < |entries| ==> entries[i] == entries[1..][i - 1];
      if head.None? || rest.None? then None else Some([(entries[0].0, head.value)] + rest.value)
  }

  /** The computed ranges, for a callable or a dict. */
  function ComputedRanges(b: Builder, n: int): (r: Result<seq<(Dyn, Play.Pair)>, Failure>)
  {
    if b.ranges.DCallable? then Ok(CallRanges(b.rangeFn, 1, n))
    else if b.ranges.DDict? then
      match CopyRanges(b.ranges.entries)
      case Some(c) => Ok(c)
      case None => Err(Raised)
    else Err(Raised)
  }

  /** The pairs as tiers with no phrases, so the tier sort orders them. */
  function AsTiers(computed: seq<(Dyn, Play.Pair)>): (r: seq<Play.Tier>)
    ensures |r| == |computed|
    ensures forall i :: 0 <= i < |r| ==> r[i] == Play.Tier(computed[i].1, map[])
  {
    if |computed| == 0 then [] else [Play.Tier(computed[0].1, map[])] + AsTiers(computed[1..])
  }

  /** The first tier of the sorted order starts lowest and the last starts highest. */
  lemma SortedEnds(ts: seq<Play.Tier>)
    requires |ts| > 0
    ensures Play.SortByStart(ts)[0] in ts && Play.SortByStart(ts)[|ts| - 1] in ts
    ensures forall i :: 0 <= i < |ts| ==> Play.SortByStart(ts)[0].range.x <= ts[i].range.x <= Play.SortByStart(ts)[|ts| - 1].range.x
  {
    var sorted := Play.SortByStart(ts);
    assert sorted[0] in multiset(sorted) && sorted[|ts| - 1] in multiset(sorted);
    forall i | 0 <= i < |ts| ensures sorted[0].range.x <= ts[i].range.x <= sorted[|ts| - 1].range.x {
      assert ts[i] in multiset(ts);
      SortedBounds(sorted, ts[i]);
    }
  }

  /** Every tier of a sorted sequence starts between its first and last. */
  lemma SortedBounds(sorted: seq<Play.Tier>, t: Play.Tier)
    requires Play.SortedByStart(sorted) && t in sorted
    ensures sorted[0].range.x <= t.range.x <= sorted[|sorted| - 1].range.x
  {
    var k :| 0 <= k < |sorted| && sorted[k] == t;
    if k > 0 {
      assert sorted[0].range.x <= sorted[k].range.x;
    }
    if k < |sorted| - 1 {
      assert sorted[k].range.x <= sorted[|sorted| - 1].range.x;
    }
  }

  /** `d_min_range` and `d_max_range`: the start of the first and the end of
      the last range once sorted by start; no ranges is an `IndexError`. */
  function Extremes(computed: seq<(Dyn, Play.Pair)>): Result<(int, int), Failure>
  {
    if |computed| == 0 then Err(Raised)
    else
      var sorted := Play.SortByStart(AsTiers(computed));
      Ok((sorted[0].range.x, sorted[|sorted| - 1].range.y))
  }

  /** `sorted` is stable, so the first tier of the sorted order is the first
      given one with its start. */
  lemma SortedPicksFirst(ts: seq<Play.Tier>)
    requires |ts| > 0
    ensures var sorted := Play.SortByStart(ts);
      && (exists j :: 0 <= j < |ts| && ts[j].range.x == sorted[0].range.x)
      && sorted[0] == ts[Play.FirstWithStart(ts, sorted[0].range.x)]
  {
    var sorted := Play.SortByStart(ts);
    Play.SortByStartStable(ts, sorted[0].range.x);
    Play.SameStartFirst(sorted, ts);
  }

  /** Likewise the last tier of the sorted order is the last given one with
      its start. */
  lemma SortedPicksLast(ts: seq<Play.Tier>)
    requires |ts| > 0
    ensures var sorted := Play.SortByStart(ts);
      && (exists j :: 0 <= j < |ts| && ts[j].range.x == sorted[|ts| - 1].range.x)
      && sorted[|ts| - 1] == ts[Play.LastWithStart(ts, sorted[|ts| - 1].range.x)]
  {
    var sorted := Play.SortByStart(ts);
    Play.SortByStartStable(ts, sorted[|ts| - 1].range.x);
    Play.SameStartLast(sorted, ts);
  }

  /** The position the stable sort brings first: the first tier with the
      smallest start. */
  function FirstPick(ts: seq<Play.Tier>): (i: nat)
    requires |ts| > 0
    ensures i < |ts| && ts[i] == Play.SortByStart(ts)[0]
    ensures forall j :: 0 <= j < i ==> ts[j].range.x != ts[i].range.x
  {
    SortedPicksFirst(ts);
    Play.FirstWithStart(ts, Play.SortByStart(ts)[0].range.x)
  }

  /** The position the stable sort brings last: the last tier with the
      largest start. */
  function LastPick(ts: seq<Play.Tier>): (i: nat)
    requires |ts| > 0
    ensures i < |ts| && ts[i] == Play.SortByStart(ts)[|ts| - 1]
    ensures forall j :: i < j < |ts| ==> ts[j].range.x != ts[i].range.x
  {
    SortedPicksLast(ts);
    Play.LastWithStart(ts, Play.SortByStart(ts)[|ts| - 1].range.x)
  }

  /** Every start lies between those of the two picks. */
  lemma PicksBound(ts: seq<Play.Tier>)
    requires |ts| > 0
    ensures forall j :: 0 <= j < |ts| ==> ts[FirstPick(ts)].range.x <= ts[j].range.x <= ts[LastPick(ts)].range.x
  {
    SortedEnds(ts);
  }

  /** The first extreme is the smallest start; the second is the end of the
      last range, in the given order, among those with the largest start. */
  lemma ExtremesBounds(computed: seq<(Dyn, Play.Pair)>)
    ensures var r := Extremes(computed);
      && (r.Err? <==> |computed| == 0)
      && (r.Ok? ==> forall i :: 0 <= i < |computed| ==> r.value.0 <= computed[i].1.x)
      && (r.Ok? ==> exists i :: 0 <= i < |computed| && r.value.0 == computed[i].1.x)
      && (r.Ok? ==> exists i :: 0 <= i < |computed| && r.value.1 == computed[i].1.y
                      && (forall j :: 0 <= j < |computed| ==> computed[j].1.x <= computed[i].1.x)
                      && (forall j :: i < j < |computed| ==> computed[j].1.x < computed[i].1.x))
  {
    if |computed| > 0 {
      var ts := AsTiers(computed);
      var f, l := FirstPick(ts), LastPick(ts);
      PicksBound(ts);
      assert computed[f].1 == ts[f].range && computed[l].1 == ts[l].range;
      assert forall j :: 0 <= j < |computed| ==> computed[j].1 == ts[j].range;
    }
  }

  /** Written ends that read as the computed pairs. */
  predicate Aligned(computed: seq<(Dyn, Play.Pair)>, written: seq<(End, End)>)
  {
    && |written| == |computed|
    && forall i :: 0 <= i < |computed| ==>
         IntOf(written[i].0) == computed[i].1.x && IntOf(written[i].1) == computed[i].1.y
  }

  /** The first two items of a range value, as written. */
  function WrittenPair(v: Dyn): (End, End)
    requires AsPair(v).Some?
  {
    (v.items[0], v.items[1])
  }

  /** The ends of a pair the callable returned. */
  function IntPair(p: Play.Pair): (End, End)
  {
    (DInt(p.x), DInt(p.y))
  }

  /** The range ends as written: a dict's values item by item, so a bool
      stays a bool; a callable's pairs are integers. */
  function WrittenEnds(ranges: Dyn, computed: seq<(Dyn, Play.Pair)>): (w: seq<(End, End)>)
    requires ranges.DDict? ==> CopyRanges(ranges.entries) == Some(computed)
    ensures Aligned(computed, w)
  {
    if ranges.DDict? then
      seq(|computed|, i requires 0 <= i < |computed| => WrittenPair(ranges.entries[i].1))
    else
      seq(|computed|, i requires 0 <= i < |computed| => IntPair(computed[i].1))
  }

  /** `d_min_range` and `d_max_range` as Python holds them: `sorted[0][0]`
      and `sorted[-1][1]`, taken from the written ends at the positions the
      stable sort brings first and last. */
  function ExtremeEnds(computed: seq<(Dyn, Play.Pair)>, written: seq<(End, End)>): (r: Result<(End, End), Failure>)
    requires |written| == |computed|
    ensures r.Err? <==> |computed| == 0
  {
    if |computed| == 0 then Err(Raised)
    else
      var ts := AsTiers(computed);
      Ok((written[FirstPick(ts)].0, written[LastPick(ts)].1))
  }

  /** Read as integers, the written extremes are the extremes; the lower one
      is written in the first range with the smallest start, the upper one
      in the last range with the largest start. */
  lemma ExtremeEndsAgree(computed: seq<(Dyn, Play.Pair)>, written: seq<(End, End)>)
    requires Aligned(computed, written) && |computed| > 0
    ensures ExtremeEnds(computed, written).Ok? && Extremes(computed).Ok?
    ensures IntOf(ExtremeEnds(computed, written).value.0) == Extremes(computed).value.0
    ensures IntOf(ExtremeEnds(computed, written).value.1) == Extremes(computed).value.1
    ensures exists i :: 0 <= i < |computed| && ExtremeEnds(computed, written).value.0 == written[i].0
              && (forall j :: 0 <= j < |computed| ==> computed[i].1.x <= computed[j].1.x)
              && (forall j :: 0 <= j < i ==> computed[j].1.x != computed[i].1.x)
    ensures exists i :: 0 <= i < |computed| && ExtremeEnds(computed, written).value.1 == written[i].1
              && (forall j :: 0 <= j < |computed| ==> computed[j].1.x <= computed[i].1.x)
              && (forall j :: i < j < |computed| ==> computed[j].1.x != computed[i].1.x)
  {
    var ts := AsTiers(computed);
    var f, l := FirstPick(ts), LastPick(ts);
    PicksBound(ts);
    assert forall j :: 0 <= j < |computed| ==> computed[j].1 == ts[j].range;
    assert ExtremeEnds(computed, written) == Ok((written[f].0, written[l].1));
  }

  // ------------------------------------------------------- goal templates

  /** `str(v)` for the scalar values an exact win value can be. */
  function Render(v: Dyn): Option<string>
  {
    match v
    case DInt(i) => Some(IntToString(i))
    case DBool(b) => Some(if b then "True" else "False")
    case DStr(s) => Some(s)
    case DNone => Some("None")
    case _ => None
  }

  /** What replaces one template part. */
  function ExpandPart(part: string, winType: Dyn, winValue: Dyn, lo: End, hi: End): Result<string, Failure>
  {
    if part == "@range" then Ok(RangeText(lo, hi))
    else if part == "@value" then ValueText(winType, winValue, lo, hi)
    else Ok(part)
  }

  /** What `@range` becomes: one end for a single-value range (`==` compares
      a bool as 0 or 1), else "min-max". */
  function RangeText(lo: End, hi: End): string
  {
    if IntOf(lo) == IntOf(hi) then EndText(lo) else EndText(lo) + "-" + EndText(hi)
  }

  /** What `@value` becomes: the exact target, the top of the range for a
      max game, its bottom for a min game, and the token itself otherwise. */
  function ValueText(winType: Dyn, winValue: Dyn, lo: End, hi: End): Result<string, Failure>
  {
    if winType == DStr("exact") && winValue.DTuple? then
      if |winValue.items| < 2 then Err(Raised)
      else match Render(winValue.items[1])
        case Some(s) => Ok(s)
        case None => Err(Raised)
    else if winType == DStr("max") then Ok(EndText(hi))
    else if winType == DStr("min") then Ok(EndText(lo))
    else Ok("@value")
  }

  /** What each template part becomes, in order. */
  function PartTexts(parts: seq<string>, winType: Dyn, winValue: Dyn, lo: End, hi: End): (r: seq<Result<string, Failure>>)
    ensures |r| == |parts|
    ensures forall i :: 0 <= i < |parts| ==> r[i] == ExpandPart(parts[i], winType, winValue, lo, hi)
  {
    MapParts(part => ExpandPart(part, winType, winValue, lo, hi), parts)
  }

  function MapParts(f: string -> Result<string, Failure>, parts: seq<string>): (r: seq<Result<string, Failure>>)
    ensures |r| == |parts|
    ensures forall i :: 0 <= i < |parts| ==> r[i] == f(parts[i])
  {
    seq(|parts|, i requires 0 <= i < |parts| => f(parts[i]))
  }

  /** The texts appended one after the other to an initially empty result;
      the first failure ends the loop. */
  function JoinTexts(rs: seq<Result<string, Failure>>): Result<string, Failure>
  {
    if |rs| == 0 then Ok("")
    else
      match JoinTexts(rs[..|rs| - 1])
      case Err(e) => Err(e)
      case Ok(acc) =>
        match rs[|rs| - 1]
        case Err(e) => Err(e)
        case Ok(t) => Ok(acc + t)
  }

  /** `_process_locale_tokens`: the expanded parts, concatenated in order. */
  function ExpandTokens(parts: seq<string>, winType: Dyn, winValue: Dyn, lo: End, hi: End): Result<string, Failure>
  {
    JoinTexts(PartTexts(parts, winType, winValue, lo, hi))
  }


  /** The strings of items that are all strings. */
  function Strings(items: seq<Dyn>): (r: Option<seq<string>>)
    ensures r.Some? <==> forall i :: 0 <= i < |items| ==> items[i].DStr?
    ensures r.Some? ==> |r.value| == |items| && forall i :: 0 <= i < |items| ==> r.value[i] == items[i].s
  {
    if |items| == 0 then Some([])
    else
      var rest := Strings(items[1..]);
      assert forall i :: 1 <= i < |items| ==> items[i] == items[1..][i - 1];
      if items[0].DStr? && rest.Some? then Some([items[0].s] + rest.value) else None
  }

  /** The strings of a list whose every item is a string. */
  function AsStrings(v: Dyn): (r: Option<seq<string>>)
    ensures r.Some? <==> v.DList? && forall i :: 0 <= i < |v.items| ==> v.items[i].DStr?
    ensures r.Some? ==> |r.value| == |v.items| && forall i :: 0 <= i < |v.items| ==> r.value[i] == v.items[i].s
  {
    if v.DList? then Strings(v.items) else None
  }

  /** The string keys of a dict's entries. */
  function StrKeys<T>(entries: seq<(Dyn, T)>): (r: set<string>)
    ensures forall l :: l in r <==> exists j :: 0 <= j < |entries| && entries[j].0 == DStr(l)
  {
    if |entries| == 0 then {}
    else
      var n := |entries| - 1;
      assert forall j :: 0 <= j < n ==> entries[..n][j] == entries[j];
      StrKeys(entries[..n]) + (if entries[n].0.DStr? then {entries[n].0.s} else {})
  }

  /** The custom goal templates: every language of `win_locale`, expanded. */
  function CustomGoals(entries: seq<(Dyn, Dyn)>, winType: Dyn, winValue: Dyn, lo: End, hi: End): Result<map<string, string>, Failure>
  {
    Templates(entries, parts => ExpandTokens(parts, winType, winValue, lo, hi))
  }

  /** Every language of `entries` with its template parts expanded by
      `expand`, later entries overriding earlier ones; a non-string key or
      a template that is not a list of strings raises. */
  function Templates(entries: seq<(Dyn, Dyn)>, expand: seq<string> -> Result<string, Failure>): Result<map<string, string>, Failure>
    decreases |entries|
  {
    if |entries| == 0 then Ok(map[])
    else
      var last := entries[|entries| - 1];
      match Templates(entries[..|entries| - 1], expand)
      case Err(e) => Err(e)
      case Ok(m) =>
        if !last.0.DStr? then Err(Raised)
        else match AsStrings(last.1)
          case None => Err(Raised)
          case Some(parts) =>
            match expand(parts)
            case Err(e) => Err(e)
            case Ok(text) => Ok(m[last.0.s := text])
  }

  /** The custom templates cover exactly the string keys of `win_locale`. */
  lemma CustomGoalsKeys(entries: seq<(Dyn, Dyn)>, winType: Dyn, winValue: Dyn, lo: End, hi: End)
    ensures CustomGoals(entries, winType, winValue, lo, hi).Ok? ==> CustomGoals(entries, winType, winValue, lo, hi).value.Keys == StrKeys(entries)
  {
    TemplatesKeys(entries, parts => ExpandTokens(parts, winType, winValue, lo, hi));
  }

  lemma {:induction false} TemplatesKeys(entries: seq<(Dyn, Dyn)>, expand: seq<string> -> Result<string, Failure>)
    ensures Templates(entries, expand).Ok? ==> Templates(entries, expand).value.Keys == StrKeys(entries)
    decreases |entries|
  {
    if |entries| > 0 {
      TemplatesKeys(entries[..|entries| - 1], expand);
    }
  }

  /** The default template parts of a language for a win type, or none. */
  function DefaultParts(env: Env, language: string, winType: Dyn): seq<string>
    requires language in env.defaults
  {
    if winType.DStr? && winType.s in env.defaults[language] then env.defaults[language][winType.s] else []
  }

  /** `_build_win_locale`: the custom templates when `win_locale` is a
      non-empty dict, else the default templates of every configured
      language (empty where none exists for the win type). */
  function GoalTemplates(b: Builder, env: Env, winType: Dyn, lo: End, hi: End): (r: Result<map<string, string>, Failure>)
    ensures r.Ok? && b.winLocale.DDict? && |b.winLocale.entries| > 0 ==> r.value.Keys == StrKeys(b.winLocale.entries)
    ensures r.Ok? && (b.winLocale == DNone || b.winLocale == DDict([])) ==> r.value.Keys == env.defaults.Keys
  {
    if b.winLocale.DDict? && |b.winLocale.entries| > 0 then
      CustomGoalsKeys(b.winLocale.entries, winType, b.winValue, lo, hi);
      CustomGoals(b.winLocale.entries, winType, b.winValue, lo, hi)
    else if b.winLocale == DNone || b.winLocale == DDict([]) then
      if exists l | l in env.defaults :: ExpandTokens(DefaultParts(env, l, winType), winType, b.winValue, lo, hi).Err?
      then Err(Raised)
      else Ok(map l | l in env.defaults :: ExpandTokens(DefaultParts(env, l, winType), winType, b.winValue, lo, hi).value)
    else Err(Raised)
  }

  /** `_extract_win_type`: the string itself, the tuple's first item, or
      "unknown"; an empty tuple has no first item. */
  function BuilderWinType(v: Dyn): Result<Dyn, Failure>
  {
    if v.DStr? then Ok(v)
    else if v.DTuple? then (if |v.items| == 0 then Err(Raised) else Ok(v.items[0]))
    else Ok(DStr("unknown"))
  }

  /** `_build_win_value`: `create_from_schema`, whose refusal is a `ValueError`. */
  function BuildWinValue(b: Builder, env: Env, lo: End, hi: End): (r: Result<Play.WinValue, Failure>)
    ensures r.Ok? && b.winValue == DStr("min") ==> r.value.kind == Play.Min && r.value.value == IntOf(lo)
    ensures r.Ok? && b.winValue == DStr("max") ==> r.value.kind == Play.Max && r.value.value == IntOf(hi)
  {
    match BuilderWinType(b.winValue)
    case Err(e) => Err(e)
    case Ok(winType) =>
      match GoalTemplates(b, env, winType, lo, hi)
      case Err(e) => Err(e)
      case Ok(goals) =>
        if b.winValue.DTuple? && |b.winValue.items| == 2 && b.winValue.items[0] == DStr("exact") && !IsInt(b.winValue.items[1])
        then Err(Raised)
        else match Play.FromSchema(ToWinSpec(b.winValue), IntOf(lo), IntOf(hi), goals)
          case Err(m) => Err(WinValueRejected(m))
          case Ok(w) => Ok(w)
  }

  // ---------------------------------------------------------------- tiers

  /** `tier_data.get(t, [])` for one language. */
  function PhrasesOf(tierData: Dyn, t: int): Option<seq<string>>
  {
    if !tierData.DDict? then None
    else match FindInt(tierData.entries, t)
      case None => Some([])
      case Some(v) => AsStrings(v)
  }

  /** The phrases of tier `t` in every language. */
  function TierPhrases(entries: seq<(Dyn, Dyn)>, t: int): Option<map<string, seq<string>>>
    decreases |entries|
  {
    if |entries| == 0 then Some(map[])
    else
      var last := entries[|entries| - 1];
      match TierPhrases(entries[..|entries| - 1], t)
      case None => None
      case Some(m) =>
        if !last.0.DStr? then None
        else match PhrasesOf(last.1, t)
          case None => None
          case Some(p) => Some(m[last.0.s := p])
  }

  /** Every language of the tier data gets phrases for tier `t`. */
  lemma {:induction false} TierPhrasesKeys(entries: seq<(Dyn, Dyn)>, t: int)
    ensures TierPhrases(entries, t).Some? ==> TierPhrases(entries, t).value.Keys == StrKeys(entries)
    decreases |entries|
  {
    if |entries| > 0 {
      TierPhrasesKeys(entries[..|entries| - 1], t);
    }
  }

  /** `_build_tiers` from tier number `k` to `n`. */
  function BuildTiers(computed: seq<(Dyn, Play.Pair)>, phrases: seq<(Dyn, Dyn)>, k: int, n: int): (r: Result<seq<Play.Tier>, Failure>)
    ensures r.Ok? ==> |r.value| == if n - k + 1 > 0 then n - k + 1 else 0
  {
    TiersFrom(t => FindInt(computed, t), t => TierPhrases(phrases, t), k, n)
  }

  /** The tiers `k..n` from a range lookup and a phrase lookup, failing
      with `Raised` at the first tier either lookup misses. */
  function TiersFrom(range: int -> Option<Play.Pair>, phrases: int -> Option<map<string, seq<string>>>, k: int, n: int): (r: Result<seq<Play.Tier>, Failure>)
    ensures r.Ok? ==> |r.value| == if n - k + 1 > 0 then n - k + 1 else 0
    decreases n - k + 1
  {
    if k > n then Ok([])
    else match range(k)
      case None => Err(Raised)
      case Some(pair) =>
        match phrases(k)
        case None => Err(Raised)
        case Some(p) =>
          match TiersFrom(range, phrases, k + 1, n)
          case Err(e) => Err(e)
          case Ok(rest) => Ok([Play.Tier(pair, p)] + rest)
  }

  // --------------------------------------------------------------- locale

  /** `data.get(field, "")`. */
  function FieldOr(data: Dyn, field: string): Option<string>
  {
    if !data.DDict? then None
    else if !HasStrKey(data.entries, field) then Some("")
    else
      var v := AtStrKey(data.entries, field);
      if v.DStr? then Some(v.s) else None
  }

  /** `_build_category_locale`: name and units per language, "" where missing. */
  function BuildLocale(entries: seq<(Dyn, Dyn)>): (r: Option<Play.CategoryLocale>)
    ensures r.Some? ==> r.value.name.Keys == StrKeys(entries) && r.value.units.Keys == StrKeys(entries)
    decreases |entries|
  {
    if |entries| == 0 then Some(Play.CategoryLocale(map[], map[]))
    else
      var last := entries[|entries| - 1];
      match BuildLocale(entries[..|entries| - 1])
      case None => None
      case Some(loc) =>
        if !last.0.DStr? then None
        else match (FieldOr(last.1, "name"), FieldOr(last.1, "units"))
          case (Some(n), Some(u)) =>
            Some(Play.CategoryLocale(loc.name[last.0.s := n], loc.units[last.0.s := u]))
          case _ => None
  }

  // ---------------------------------------------------------------- build

  /** `build()`: the completeness check, then ranges, win value, tiers,
      locale, and the category's own validation, each failure stopping it. */
  function Build(b: Builder, env: Env): (r: Result<Play.Category, Failure>)
    ensures Missing(b) != [] ==> r == Err(Incomplete(Missing(b)))
    ensures r.Ok? ==> r.value.name == b.name && r.value.continuous == b.continuous
    ensures r.Ok? ==> Play.ValidCategory(r.value, env.required)
  {
    if Missing(b) != [] then Err(Incomplete(Missing(b)))
    else
      var n := b.tiersNum.value;
      match ComputedRanges(b, n)
      case Err(e) => Err(e)
      case Ok(computed) =>
        match ExtremeEnds(computed, WrittenEnds(b.ranges, computed))
        case Err(e) => Err(e)
        case Ok((lo, hi)) =>
          match BuildWinValue(b, env, lo, hi)
          case Err(e) => Err(e)
          case Ok(win) =>
            if !b.phrases.DDict? then Err(Raised)
            else match BuildTiers(computed, b.phrases.entries, 1, n)
              case Err(e) => Err(e)
              case Ok(tiers) =>
                if !b.locale.DDict? then Err(Raised)
                else match BuildLocale(b.locale.entries)
                  case None => Err(Raised)
                  case Some(locale) =>
                    match Play.NewCategory(b.name, tiers, win, locale, b.continuous, env.required)
                    case Err(errors) => Err(Rejected(errors))
                    case Ok(c) =>
                      PlayProps.CreateValid(b.name, tiers, win, locale, b.continuous, env.required, c);
                      Ok(c)
  }

  // ------------------------------------------------------------- creation

  /** One entry of the category table: the schema-checked parts, whether
      the ranges must be continuous, and what a callable `ranges` returns. */
  datatype Definition = Definition(spec: CategorySpec, continuous: bool, rangeFn: int -> Play.Pair)

  /** The builder chain `create_category` and `create_all_categories` set up. */
  function BuilderFor(d: Definition): Builder
  {
    Builder(d.spec.name, Some(d.spec.tiersNum), d.spec.ranges, d.rangeFn, DDict(d.spec.phrases),
            d.spec.winValue, d.spec.locale, d.spec.winLocale, d.continuous)
  }

  predicate ValidEnv(env: Env) {
    FieldOrder(env.fields)
  }

  function Validation(d: Definition, env: Env): ValidationResult
    requires ValidEnv(env)
  {
    FullSchema(d.spec, env.fields)
  }

  /** `create_category`: nothing when the schema check complains or the
      build fails in any way, else the built category. */
  function CreateCategory(d: Definition, env: Env): (r: Option<Play.Category>)
    requires ValidEnv(env)
    ensures HasErrors(Validation(d, env)) ==> r.None?
    ensures r.Some? ==> Build(BuilderFor(d), env) == Ok(r.value) && Play.ValidCategory(r.value, env.required)
    ensures !HasErrors(Validation(d, env)) && Build(BuilderFor(d), env).Ok? ==> r.Some?
  {
    if HasErrors(Validation(d, env)) then None
    else match Build(BuilderFor(d), env)
      case Ok(c) => Some(c)
      case Err(_) => None
  }

  datatype Phase = SchemaPhase | BuildPhase | PostInitPhase

  /** What a failure reports: the schema's complaints or the exception. */
  datatype Report = SchemaReport(errors: seq<SchemaError>) | ExceptionReport(failure: Failure)

  /** `CategoryBuildResult`. */
  datatype BuildResult = BuildResult(name: string, category: Option<Play.Category>, phase: Option<Phase>, report: Option<Report>)

  /** The phase a build failure is reported under: `ValueError` is
      post-init, every other exception is build. */
  function PhaseOf(f: Failure): Phase
  {
    if f.WinValueRejected? || f.Rejected? then PostInitPhase else BuildPhase
  }

  /** The result of building one schema-valid definition. */
  function BuildOne(d: Definition, env: Env): (r: BuildResult)
    ensures r.name == d.spec.name
    ensures r.category.Some? <==> r.phase.None?
    ensures r.phase != Some(SchemaPhase)
  {
    match Build(BuilderFor(d), env)
    case Ok(c) => BuildResult(d.spec.name, Some(c), None, None)
    case Err(f) => BuildResult(d.spec.name, None, Some(PhaseOf(f)), Some(ExceptionReport(f)))
  }

  function SchemaFailure(d: Definition, env: Env): BuildResult
    requires ValidEnv(env)
  {
    BuildResult(d.spec.name, None, Some(SchemaPhase), Some(SchemaReport(AllErrors(Validation(d, env)))))
  }

  /** The items whose flag is `want`, in order. */
  function PickIf<T>(xs: seq<T>, flags: seq<bool>, want: bool): (r: seq<T>)
    requires |xs| == |flags|
    ensures |r| <= |xs|
    ensures forall i :: 0 <= i < |r| ==> r[i] in xs
    decreases |xs|
  {
    if |xs| == 0 then []
    else
      var n := |xs| - 1;
      PickIf(xs[..n], flags[..n], want) + (if flags[n] == want then [xs[n]] else [])
  }

  /** Whether each definition fails the schema check. */
  function Flags(ds: seq<Definition>, env: Env): (r: seq<bool>)
    requires ValidEnv(env)
    ensures |r| == |ds| && forall i :: 0 <= i < |ds| ==> r[i] == HasErrors(Validation(ds[i], env))
  {
    seq(|ds|, i requires 0 <= i < |ds| => HasErrors(Validation(ds[i], env)))
  }

  /** The schema failures, in order. */
  function SchemaFailures(ds: seq<Definition>, env: Env): seq<BuildResult>
    requires ValidEnv(env)
  {
    PickIf(seq(|ds|, i requires 0 <= i < |ds| => SchemaFailure(ds[i], env)), Flags(ds, env), true)
  }

  /** The definitions that pass the schema check, in order. */
  function SchemaValid(ds: seq<Definition>, env: Env): seq<Definition>
    requires ValidEnv(env)
  {
    PickIf(ds, Flags(ds, env), false)
  }

  /** The result of building each definition. */
  function Outcomes(ds: seq<Definition>, env: Env): (r: seq<BuildResult>)
    ensures |r| == |ds| && forall i :: 0 <= i < |ds| ==> r[i] == BuildOne(ds[i], env)
  {
    seq(|ds|, i requires 0 <= i < |ds| => BuildOne(ds[i], env))
  }

  /** The categories of the successful results, in order. */
  function CategoriesOf(rs: seq<BuildResult>): seq<Play.Category>
  {
    if |rs| == 0 then []
    else
      var n := |rs| - 1;
      CategoriesOf(rs[..n]) + (if rs[n].category.Some? then [rs[n].category.value] else [])
  }

  /** The failed results, in order. */
  function FailuresOf(rs: seq<BuildResult>): (r: seq<BuildResult>)
    ensures forall i :: 0 <= i < |r| ==> r[i] in rs && r[i].category.None?
  {
    if |rs| == 0 then []
    else
      var n := |rs| - 1;
      FailuresOf(rs[..n]) + (if rs[n].category.None? then [rs[n]] else [])
  }

  /** Splits `xs` by its flags, keeping the order on both sides. */
  method SplitBy<T>(xs: seq<T>, flags: seq<bool>) returns (picked: seq<T>, others: seq<T>)
    requires |xs| == |flags|
    ensures picked == PickIf(xs, flags, true)
    ensures others == PickIf(xs, flags, false)
  {
    picked, others := [], [];
    var i := 0;
    while i < |xs|
      invariant 0 <= i <= |xs|
      invariant picked == PickIf(xs[..i], flags[..i], true)
      invariant others == PickIf(xs[..i], flags[..i], false)
    {
      assert xs[..i + 1][..i] == xs[..i] && flags[..i + 1][..i] == flags[..i];
      if flags[i] {
        picked := picked + [xs[i]];
      } else {
        others := others + [xs[i]];
      }
      i := i + 1;
    }
    assert xs[..|xs|] == xs && flags[..|flags|] == flags;
  }

  /** Collects the categories of the successful results and the failed
      results, each in order. */
  method Collect(rs: seq<BuildResult>) returns (successes: seq<Play.Category>, failed: seq<BuildResult>)
    ensures successes == CategoriesOf(rs)
    ensures failed == FailuresOf(rs)
  {
    successes, failed := [], [];
    var j := 0;
    while j < |rs|
      invariant 0 <= j <= |rs|
      invariant successes == CategoriesOf(rs[..j])
      invariant failed == FailuresOf(rs[..j])
    {
      assert rs[..j + 1][..j] == rs[..j];
      if rs[j].category.Some? {
        successes := successes + [rs[j].category.value];
      } else {
        failed := failed + [rs[j]];
      }
      j := j + 1;
    }
    assert rs[..|rs|] == rs;
  }

  /** `create_all_categories`: check every schema first, then build every
      definition that passed; the failed list holds the schema failures and
      then the build failures, each in table order. */
  method CreateAll(ds: seq<Definition>, env: Env) returns (successes: seq<Play.Category>, failed: seq<BuildResult>)
    requires ValidEnv(env)
    ensures successes == CategoriesOf(Outcomes(SchemaValid(ds, env), env))
    ensures failed == SchemaFailures(ds, env) + FailuresOf(Outcomes(SchemaValid(ds, env), env))
  {
    var flags := Flags(ds, env);
    var reports := seq(|ds|, i requires 0 <= i < |ds| => SchemaFailure(ds[i], env));
    var schemaFailed, _ := SplitBy(reports, flags);
    var _, valid := SplitBy(ds, flags);
    var built;
    successes, built := Collect(Outcomes(valid, env));
    failed := schemaFailed + built;
  }
}

/** Properties of the builder and of the two creation entry points. */
module CategoryBuilderProps {
  import opened Wrappers
  import opened Text
  import Play
  import opened PlaySchema
  import opened CategoryBuilder

  /** Joining two lists of texts is joining each and concatenating. */
  lemma {:induction false} JoinConcat(x: seq<Result<string, Failure>>, y: seq<Result<string, Failure>>)
    requires JoinTexts(x).Ok? && JoinTexts(y).Ok?
    ensures JoinTexts(x + y) == Ok(JoinTexts(x).value + JoinTexts(y).value)
    decreases |y|
  {
    var tx := JoinTexts(x).value;
    if |y| == 0 {
      assert x + y == x;
      assert tx + "" == tx;
    } else {
      var n := |y| - 1;
      var xy := x + y;
      assert xy[..|xy| - 1] == x + y[..n];
      assert xy[|xy| - 1] == y[n];
      var ty := JoinTexts(y[..n]).value;
      JoinConcat(x, y[..n]);
      var t := y[n].value;
      assert JoinTexts(y).value == ty + t;
      assert (tx + ty) + t == tx + (ty + t);
    }
  }

  /** Expanding a template is expanding its parts one after the other. */
  lemma ExpandConcat(a: seq<string>, c: seq<string>, winType: Dyn, winValue: Dyn, lo: End, hi: End)
    requires ExpandTokens(a, winType, winValue, lo, hi).Ok? && ExpandTokens(c, winType, winValue, lo, hi).Ok?
    ensures ExpandTokens(a + c, winType, winValue, lo, hi)
      == Ok(ExpandTokens(a, winType, winValue, lo, hi).value + ExpandTokens(c, winType, winValue, lo, hi).value)
  {
    PartTextsConcat(a, c, winType, winValue, lo, hi);
    JoinConcat(PartTexts(a, winType, winValue, lo, hi), PartTexts(c, winType, winValue, lo, hi));
  }

  lemma PartTextsConcat(a: seq<string>, c: seq<string>, winType: Dyn, winValue: Dyn, lo: End, hi: End)
    ensures PartTexts(a + c, winType, winValue, lo, hi) == PartTexts(a, winType, winValue, lo, hi) + PartTexts(c, winType, winValue, lo, hi)
  {
    MapPartsConcat(part => ExpandPart(part, winType, winValue, lo, hi), a, c);
  }

  lemma MapPartsConcat(f: string -> Result<string, Failure>, a: seq<string>, c: seq<string>)
    ensures MapParts(f, a + c) == MapParts(f, a) + MapParts(f, c)
  {
    var pac := MapParts(f, a + c);
    var pa, pc := MapParts(f, a), MapParts(f, c);
    forall i | 0 <= i < |pac| ensures pac[i] == (pa + pc)[i] {
      if i < |a| {
        assert (a + c)[i] == a[i];
      } else {
        assert (a + c)[i] == c[i - |a|];
      }
    }
  }

  /** A template without tokens is copied verbatim. */
  lemma {:induction false} PlainCopied(parts: seq<string>, winType: Dyn, winValue: Dyn, lo: End, hi: End)
    requires forall i :: 0 <= i < |parts| ==> parts[i] != "@range" && parts[i] != "@value"
    ensures ExpandTokens(parts, winType, winValue, lo, hi) == Ok(Concat(parts))
    decreases |parts|
  {
    if |parts| > 0 {
      var n := |parts| - 1;
      PlainCopied(parts[..n], winType, winValue, lo, hi);
      assert PartTexts(parts, winType, winValue, lo, hi)[..n] == PartTexts(parts[..n], winType, winValue, lo, hi);
    }
  }

  /** The parts concatenated. */
  function Concat(parts: seq<string>): string
  {
    if |parts| == 0 then "" else Concat(parts[..|parts| - 1]) + parts[|parts| - 1]
  }

  /** `@range` gives one end when the range is a single value and
      "min-max" otherwise; `@value` gives the target of a min or max game;
      each end is printed as `str` prints it. */
  lemma TokenValues(winType: Dyn, winValue: Dyn, lo: End, hi: End)
    ensures IntOf(lo) == IntOf(hi) ==> ExpandTokens(["@range"], winType, winValue, lo, hi) == Ok(EndText(lo))
    ensures IntOf(lo) != IntOf(hi) ==> ExpandTokens(["@range"], winType, winValue, lo, hi) == Ok(EndText(lo) + "-" + EndText(hi))
    ensures winType == DStr("max") ==> ExpandTokens(["@value"], winType, winValue, lo, hi) == Ok(EndText(hi))
    ensures winType == DStr("min") ==> ExpandTokens(["@value"], winType, winValue, lo, hi) == Ok(EndText(lo))
    ensures winType == DStr("unknown") ==> ExpandTokens(["@value"], winType, winValue, lo, hi) == Ok("@value")
  {
    OneToken("@range", winType, winValue, lo, hi);
    OneToken("@value", winType, winValue, lo, hi);
  }

  /** A one-part template expands to that part. */
  lemma OneToken(part: string, winType: Dyn, winValue: Dyn, lo: End, hi: End)
    ensures ExpandTokens([part], winType, winValue, lo, hi) == ExpandPart(part, winType, winValue, lo, hi)
  {
    var rs := PartTexts([part], winType, winValue, lo, hi);
    assert rs[..0] == [] && [part][0] == part;
    assert rs[0] == ExpandPart(part, winType, winValue, lo, hi);
    assert JoinTexts(rs[..|rs| - 1]) == Ok("");
    match ExpandPart(part, winType, winValue, lo, hi)
    case Ok(t) => assert "" + t == t;
    case Err(_) =>
  }


  /** An exact game's `@value` is the value of the definition, `True`
      and `False` included, rendered as `str` does. */
  lemma ExactValueRendered(v: int, flag: bool, lo: End, hi: End)
    ensures ExpandTokens(["@value"], DStr("exact"), DTuple([DStr("exact"), DInt(v)]), lo, hi) == Ok(IntToString(v))
    ensures ExpandTokens(["@value"], DStr("exact"), DTuple([DStr("exact"), DBool(flag)]), lo, hi) == Ok(if flag then "True" else "False")
  {
    OneToken("@value", DStr("exact"), DTuple([DStr("exact"), DInt(v)]), lo, hi);
    OneToken("@value", DStr("exact"), DTuple([DStr("exact"), DBool(flag)]), lo, hi);
    assert DTuple([DStr("exact"), DInt(v)]).items[1] == DInt(v);
    assert DTuple([DStr("exact"), DBool(flag)]).items[1] == DBool(flag);
  }

  /** A custom goal template overrides the default for its language and
      languages without custom templates get none. */
  lemma CustomOverrides(entries: seq<(Dyn, Dyn)>, winType: Dyn, winValue: Dyn, lo: End, hi: End, j: nat, parts: seq<string>)
    requires CustomGoals(entries, winType, winValue, lo, hi).Ok?
    requires j < |entries| && entries[j].0.DStr? && AsStrings(entries[j].1) == Some(parts)
    requires forall k :: j < k < |entries| ==> entries[k].0 != entries[j].0
    ensures entries[j].0.s in CustomGoals(entries, winType, winValue, lo, hi).value
    ensures Ok(CustomGoals(entries, winType, winValue, lo, hi).value[entries[j].0.s]) == ExpandTokens(parts, winType, winValue, lo, hi)
  {
    TemplateOverrides(entries, parts => ExpandTokens(parts, winType, winValue, lo, hi), j, parts);
  }

  /** The template of a language is the expansion of its last entry. */
  lemma {:induction false} TemplateOverrides(entries: seq<(Dyn, Dyn)>, expand: seq<string> -> Result<string, Failure>, j: nat, parts: seq<string>)
    requires Templates(entries, expand).Ok?
    requires j < |entries| && entries[j].0.DStr? && AsStrings(entries[j].1) == Some(parts)
    requires forall k :: j < k < |entries| ==> entries[k].0 != entries[j].0
    ensures entries[j].0.s in Templates(entries, expand).value
    ensures Ok(Templates(entries, expand).value[entries[j].0.s]) == expand(parts)
    decreases |entries|
  {
    var n := |entries| - 1;
    var init := entries[..n];
    if j < n {
      assert init[j] == entries[j];
      assert forall k :: j < k < |init| ==> init[k].0 != init[j].0;
      TemplateOverrides(init, expand, j, parts);
    }
  }

  /** With no custom templates every configured language gets its default
      template for the win type, or an empty one. */
  lemma DefaultsUsed(b: Builder, env: Env, winType: Dyn, lo: End, hi: End, language: string)
    requires b.winLocale == DNone || b.winLocale == DDict([])
    requires GoalTemplates(b, env, winType, lo, hi).Ok? && language in env.defaults
    ensures language in GoalTemplates(b, env, winType, lo, hi).value
    ensures winType.DStr? && winType.s in env.defaults[language] ==>
      GoalTemplates(b, env, winType, lo, hi).value[language] == ExpandTokens(env.defaults[language][winType.s], winType, b.winValue, lo, hi).value
    ensures !(winType.DStr? && winType.s in env.defaults[language]) ==> GoalTemplates(b, env, winType, lo, hi).value[language] == ""
  {
  }

  /** A callable `ranges` yields one range per tier number `1..n`. */
  lemma CallableRanges(b: Builder, n: int, t: int)
    requires b.ranges.DCallable? && 1 <= t <= n
    ensures ComputedRanges(b, n).Ok?
    ensures FindInt(ComputedRanges(b, n).value, t) == Some(b.rangeFn(t))
  {
    var c := CallRanges(b.rangeFn, 1, n);
    assert c[t - 1] == (DInt(t), b.rangeFn(t));
    FirstKeyIsIndex(b.rangeFn, n, t);
  }

  lemma FirstKeyIsIndex(f: int -> Play.Pair, n: int, t: int)
    requires 1 <= t <= n
    ensures FindInt(CallRanges(f, 1, n), t) == Some(f(t))
  {
    var c := CallRanges(f, 1, n);
    var r := FindInt(c, t);
    assert KeyIs(c[t - 1].0, t);
    var j :| 0 <= j < |c| && KeyIs(c[j].0, t) && c[j].1 == r.value;
    assert c[j] == (DInt(1 + j), f(1 + j));
  }

  /** `d_min_range` is the smallest start and `d_max_range` the end of a range
      whose start is largest. */
  lemma ExtremesOfTable()
    ensures Extremes([(DInt(1), Play.Pair(3, 4)), (DInt(2), Play.Pair(1, 2)), (DInt(3), Play.Pair(5, 6))]) == Ok((1, 6))
  {
    var computed := [(DInt(1), Play.Pair(3, 4)), (DInt(2), Play.Pair(1, 2)), (DInt(3), Play.Pair(5, 6))];
    ExtremesBounds(computed);
    assert computed[1].1.x == 1 && computed[2].1.x == 5;
  }

  /** A range past `tiers_num`, which the schema never checks, may be a list:
      `ranges.copy()` keeps it and `r[0]`, `r[1]` read it like a tuple. */
  lemma ListRangeCopied()
    ensures CopyRanges([(DInt(1), DTuple([DInt(1), DInt(5)])), (DInt(2), DTuple([DInt(6), DInt(10)])), (DInt(3), DList([DInt(11), DInt(20)]))])
         == Some([(DInt(1), Play.Pair(1, 5)), (DInt(2), Play.Pair(6, 10)), (DInt(3), Play.Pair(11, 20))])
  {
    var entries := [(DInt(1), DTuple([DInt(1), DInt(5)])), (DInt(2), DTuple([DInt(6), DInt(10)])), (DInt(3), DList([DInt(11), DInt(20)]))];
    var computed := [(DInt(1), Play.Pair(1, 5)), (DInt(2), Play.Pair(6, 10)), (DInt(3), Play.Pair(11, 20))];
    forall i | 0 <= i < |entries|
      ensures AsPair(entries[i].1) == Some(computed[i].1)
    {
      assert i == 0 || i == 1 || i == 2;
    }
    var r := CopyRanges(entries);
    assert r.Some? && |r.value| == |computed|;
    assert forall i :: 0 <= i < |computed| ==> r.value[i] == computed[i];
    assert r.value == computed;
  }

  /** With that list range last by start, its end is the maximum of the table. */
  lemma ListRangeExtremes()
    ensures Extremes([(DInt(1), Play.Pair(1, 5)), (DInt(2), Play.Pair(6, 10)), (DInt(3), Play.Pair(11, 20))]) == Ok((1, 20))
  {
    var computed := [(DInt(1), Play.Pair(1, 5)), (DInt(2), Play.Pair(6, 10)), (DInt(3), Play.Pair(11, 20))];
    ExtremesBounds(computed);
    assert computed[1].1.x == 6 && computed[2].1.x == 11;
  }

  /** Of several ranges with the largest start, the last given one supplies
      the maximum: for (1,5), (6,10), (6,8) the extremes are 1 and 8. */
  lemma TiedStartsLastEnd()
    ensures Extremes([(DInt(1), Play.Pair(1, 5)), (DInt(2), Play.Pair(6, 10)), (DInt(3), Play.Pair(6, 8))]) == Ok((1, 8))
  {
    var computed := [(DInt(1), Play.Pair(1, 5)), (DInt(2), Play.Pair(6, 10)), (DInt(3), Play.Pair(6, 8))];
    ExtremesBounds(computed);
    assert computed[0].1.x == 1 && computed[1].1.x == 6 && computed[2].1.x == 6;
  }

  /** A bool range end stays a bool: for {1: (False, 5), 2: (6, 10)} the
      lower extreme is `False`, read as 0. */
  lemma BoolStartKept()
    ensures var entries := [(DInt(1), DTuple([DBool(false), DInt(5)])), (DInt(2), DTuple([DInt(6), DInt(10)]))];
      var computed := [(DInt(1), Play.Pair(0, 5)), (DInt(2), Play.Pair(6, 10))];
      && CopyRanges(entries) == Some(computed)
      && ExtremeEnds(computed, WrittenEnds(DDict(entries), computed)) == Ok((DBool(false), DInt(10)))
  {
    var entries := [(DInt(1), DTuple([DBool(false), DInt(5)])), (DInt(2), DTuple([DInt(6), DInt(10)]))];
    var computed := [(DInt(1), Play.Pair(0, 5)), (DInt(2), Play.Pair(6, 10))];
    forall i | 0 <= i < |entries|
      ensures AsPair(entries[i].1) == Some(computed[i].1)
    {
      assert i == 0 || i == 1;
    }
    var r := CopyRanges(entries);
    assert r.Some? && |r.value| == |computed|;
    assert forall i :: 0 <= i < |computed| ==> r.value[i] == computed[i];
    assert r.value == computed;
    var written := WrittenEnds(DDict(entries), computed);
    assert written[0] == (DBool(false), DInt(5)) && written[1] == (DInt(6), DInt(10));
    var ts := AsTiers(computed);
    var f, l := FirstPick(ts), LastPick(ts);
    PicksBound(ts);
    assert ts[0].range.x == 0 && ts[1].range.x == 6;
    assert f == 0 && l == 1;
  }

  /** With the ends `False` and 10, `@range` renders "False-10" and a min
      game's `@value` renders "False", as `str` prints them. */
  lemma BoolStartRendered()
    ensures ExpandTokens(["@range"], DStr("min"), DStr("min"), DBool(false), DInt(10)) == Ok("False-10")
    ensures ExpandTokens(["@value"], DStr("min"), DStr("min"), DBool(false), DInt(10)) == Ok("False")
  {
    TokenValues(DStr("min"), DStr("min"), DBool(false), DInt(10));
    assert NatToString(1) == "1";
    assert EndText(DInt(10)) == "10";
    assert EndText(DBool(false)) + "-" + EndText(DInt(10)) == "False-10";
  }

  /** Exactly `tiersNum` tiers are built, tier `t` from range `t` and the
      phrases every language gives for `t`. */
  lemma TiersInOrder(computed: seq<(Dyn, Play.Pair)>, phrases: seq<(Dyn, Dyn)>, n: int, t: int)
    requires BuildTiers(computed, phrases, 1, n).Ok? && 1 <= t <= n
    ensures |BuildTiers(computed, phrases, 1, n).value| == n
    ensures FindInt(computed, t) == Some(BuildTiers(computed, phrases, 1, n).value[t - 1].range)
    ensures TierPhrases(phrases, t) == Some(BuildTiers(computed, phrases, 1, n).value[t - 1].phrases)
  {
    TiersBuilt(u => FindInt(computed, u), u => TierPhrases(phrases, u), 1, n, t - 1);
  }

  /** Tier `i` of a build starting at `k` comes from both lookups at `k + i`. */
  lemma {:induction false} TiersBuilt(range: int -> Option<Play.Pair>, phrases: int -> Option<map<string, seq<string>>>, k: int, n: int, i: int)
    requires TiersFrom(range, phrases, k, n).Ok? && 0 <= i < |TiersFrom(range, phrases, k, n).value|
    ensures range(k + i) == Some(TiersFrom(range, phrases, k, n).value[i].range)
    ensures phrases(k + i) == Some(TiersFrom(range, phrases, k, n).value[i].phrases)
    decreases n - k + 1
  {
    if i > 0 {
      TiersBuilt(range, phrases, k + 1, n, i - 1);
    }
  }

  /** A language missing a tier's phrases gets none for it, not a failure. */
  lemma MissingPhrasesEmpty(tierData: seq<(Dyn, Dyn)>, t: int)
    requires forall j :: 0 <= j < |tierData| ==> !KeyIs(tierData[j].0, t)
    ensures PhrasesOf(DDict(tierData), t) == Some([])
  {
  }

  /** A locale without a name or units gets "" for it. */
  lemma LocaleDefaults(language: string)
    ensures BuildLocale([(DStr(language), DDict([]))]) == Some(Play.CategoryLocale(map[language := ""], map[language := ""]))
  {
    assert [(DStr(language), DDict([]))][..0] == [];
    assert !HasStrKey([], "name") && !HasStrKey([], "units");
  }

  /** The present values, in order. */
  function Kept<T>(xs: seq<Option<T>>): seq<T>
  {
    if |xs| == 0 then []
    else
      var n := |xs| - 1;
      Kept(xs[..n]) + (if xs[n].Some? then [xs[n].value] else [])
  }

  /** What `create_category` returns for each definition. */
  function Created(ds: seq<Definition>, env: Env): (r: seq<Option<Play.Category>>)
    requires ValidEnv(env)
    ensures |r| == |ds| && forall i :: 0 <= i < |ds| ==> r[i] == CreateCategory(ds[i], env)
  {
    seq(|ds|, i requires 0 <= i < |ds| => CreateCategory(ds[i], env))
  }

  /** The category slot of each result. */
  function Cats(rs: seq<BuildResult>): (r: seq<Option<Play.Category>>)
    ensures |r| == |rs| && forall i :: 0 <= i < |rs| ==> r[i] == rs[i].category
  {
    seq(|rs|, i requires 0 <= i < |rs| => rs[i].category)
  }

  lemma {:induction false} CategoriesKept(rs: seq<BuildResult>)
    ensures CategoriesOf(rs) == Kept(Cats(rs))
  {
    if |rs| > 0 {
      var n := |rs| - 1;
      CategoriesKept(rs[..n]);
      assert Cats(rs)[..n] == Cats(rs[..n]);
    }
  }

  /** Picking commutes with applying `f` to every item. */
  lemma {:induction false} PickMap<T, U>(xs: seq<T>, ys: seq<U>, flags: seq<bool>, want: bool, f: T -> U)
    requires |xs| == |ys| == |flags|
    requires forall i :: 0 <= i < |xs| ==> ys[i] == f(xs[i])
    ensures |PickIf(ys, flags, want)| == |PickIf(xs, flags, want)|
    ensures forall i :: 0 <= i < |PickIf(xs, flags, want)| ==> PickIf(ys, flags, want)[i] == f(PickIf(xs, flags, want)[i])
    decreases |xs|
  {
    if |xs| > 0 {
      var n := |xs| - 1;
      PickMap(xs[..n], ys[..n], flags[..n], want, f);
    }
  }

  /** Dropping only absent values before keeping the present ones changes nothing. */
  lemma {:induction false} KeptPick<T>(a: seq<Option<T>>, b: seq<Option<T>>, flags: seq<bool>)
    requires |a| == |b| == |flags|
    requires forall i :: 0 <= i < |a| ==> if flags[i] then b[i].None? else a[i] == b[i]
    ensures Kept(PickIf(a, flags, false)) == Kept(b)
    decreases |a|
  {
    if |a| > 0 {
      var n := |a| - 1;
      KeptPick(a[..n], b[..n], flags[..n]);
      var p := PickIf(a[..n], flags[..n], false);
      if flags[n] {
        assert PickIf(a, flags, false) == p;
        assert Kept(b) == Kept(b[..n]) + [];
      } else {
        var q := p + [a[n]];
        assert PickIf(a, flags, false) == q;
        assert q[..|q| - 1] == p;
        assert Kept(q) == Kept(p) + (if a[n].Some? then [a[n].value] else []);
      }
    }
  }

  /** A definition's `create_category` result is its build's category when
      the schema check passes, and nothing otherwise. */
  lemma CreateCategoryOutcome(d: Definition, env: Env)
    requires ValidEnv(env)
    ensures CreateCategory(d, env) == if HasErrors(Validation(d, env)) then None else BuildOne(d, env).category
  {
  }

  /** The two entry points agree: the successes of `create_all_categories`
      are exactly what `create_category` returns for each definition, in
      table order. */
  lemma AgreesWithCreateCategory(ds: seq<Definition>, env: Env)
    requires ValidEnv(env)
    ensures CategoriesOf(Outcomes(SchemaValid(ds, env), env)) == Kept(Created(ds, env))
  {
    var flags := Flags(ds, env);
    var all := Outcomes(ds, env);
    var valid := SchemaValid(ds, env);
    PickMap(ds, all, flags, false, d => BuildOne(d, env));
    assert Outcomes(valid, env) == PickIf(all, flags, false);
    PickMap(all, Cats(all), flags, false, (r: BuildResult) => r.category);
    assert Cats(PickIf(all, flags, false)) == PickIf(Cats(all), flags, false);
    CategoriesKept(PickIf(all, flags, false));
    var created := Created(ds, env);
    forall i | 0 <= i < |ds|
      ensures if flags[i] then created[i].None? else Cats(all)[i] == created[i]
    {
      CreateCategoryOutcome(ds[i], env);
    }
    KeptPick(Cats(all), created, flags);
  }

  function Count(flags: seq<bool>, want: bool): nat
  {
    if |flags| == 0 then 0 else Count(flags[..|flags| - 1], want) + (if flags[|flags| - 1] == want then 1 else 0)
  }

  lemma {:induction false} PickCount<T>(xs: seq<T>, flags: seq<bool>, want: bool)
    requires |xs| == |flags|
    ensures |PickIf(xs, flags, want)| == Count(flags, want)
    ensures Count(flags, true) + Count(flags, false) == |flags|
    decreases |xs|
  {
    if |xs| > 0 {
      PickCount(xs[..|xs| - 1], flags[..|xs| - 1], want);
    }
  }

  lemma {:induction false} OutcomeCount(rs: seq<BuildResult>)
    ensures |CategoriesOf(rs)| + |FailuresOf(rs)| == |rs|
  {
    if |rs| > 0 {
      OutcomeCount(rs[..|rs| - 1]);
    }
  }

  /** Every definition lands in exactly one outcome: built, failed at the
      schema, or failed while building. */
  lemma Partition(ds: seq<Definition>, env: Env)
    requires ValidEnv(env)
    ensures |CategoriesOf(Outcomes(SchemaValid(ds, env), env))| + |SchemaFailures(ds, env)|
            + |FailuresOf(Outcomes(SchemaValid(ds, env), env))| == |ds|
  {
    var flags := Flags(ds, env);
    var reports := seq(|ds|, i requires 0 <= i < |ds| => SchemaFailure(ds[i], env));
    PickCount(reports, flags, true);
    PickCount(ds, flags, false);
    OutcomeCount(Outcomes(SchemaValid(ds, env), env));
  }

  /** The schema failures are reported under the schema phase, without a
      category. */
  lemma SchemaFailuresPhase(ds: seq<Definition>, env: Env)
    requires ValidEnv(env)
    ensures forall r :: r in SchemaFailures(ds, env) ==> r.phase == Some(SchemaPhase) && r.category.None?
  {
    var reports := seq(|ds|, i requires 0 <= i < |ds| => SchemaFailure(ds[i], env));
    assert forall k :: 0 <= k < |reports| ==> reports[k].phase == Some(SchemaPhase) && reports[k].category.None?;
    var picked := PickIf(reports, Flags(ds, env), true);
    assert SchemaFailures(ds, env) == picked;
    forall r | r in picked ensures r.phase == Some(SchemaPhase) && r.category.None? {
      var i :| 0 <= i < |reports| && reports[i] == r;
    }
  }

  /** The build failures are reported under the build or post-init phase. */
  lemma BuildFailuresPhase(ds: seq<Definition>, env: Env)
    requires ValidEnv(env)
    ensures forall r :: r in FailuresOf(Outcomes(SchemaValid(ds, env), env)) ==> r.phase.Some? && r.phase != Some(SchemaPhase)
  {
    var outcomes := Outcomes(SchemaValid(ds, env), env);
    forall r | r in FailuresOf(outcomes) ensures r.phase.Some? && r.phase != Some(SchemaPhase) {
      var i :| 0 <= i < |outcomes| && outcomes[i] == r;
    }
  }
}

=== FILE: dispatcher.dfy ===
/**
 * The message filters and the command lookup of
 * `src/commands/dispatcher.py`: how a command token is read out of a
 * message, whether it is addressed to this bot, whether the chat is
 * allowed, and which registered handler runs.
 */
module Dispatcher {
  import opened Wrappers
  import opened Text
  import CaptchaManager

  /** The fields of an incoming message the filters read. */
  datatype Message = Message(chatId: int, fromId: int, text: string)

  /** `head`: the first item, None for an empty list. */
  function Head<T>(l: seq<T>): (r: Option<T>)
    ensures r.None? <==> |l| == 0
    ensures r.Some? ==> r.value == l[0]
  {
    if |l| == 0 then None else Some(l[0])
  }

  /** `at(l)(n)` for the non-negative indices the dispatcher uses. */
  function At<T>(l: seq<T>, n: nat): (r: Option<T>)
    ensures r.None? <==> n >= |l|
    ensures r.Some? ==> r.value == l[n]
  {
    if n < |l| then Some(l[n]) else None
  }

  // ----------------------------------------------------------- split("@")

  /** `s.split(c)`: the pieces between occurrences of `c`, empty ones kept. */
  function SplitOn(s: string, c: char): (parts: seq<string>)
    ensures |parts| >= 1
    ensures forall k :: 0 <= k < |parts| ==> c !in parts[k]
    ensures |parts| == 1 <==> c !in s
    ensures c !in s ==> parts == [s]
  {
    if |s| == 0 then [""]
    else
      var rest := SplitOn(s[1..], c);
      assert s == [s[0]] + s[1..];
      if s[0] == c then
        assert c in s;
        [""] + rest
      else
        assert c !in [s[0]] + rest[0];
        assert c in s <==> c in s[1..];
        var parts := [[s[0]] + rest[0]] + rest[1..];
        assert |parts| == |rest|;
        parts
  }

  /** `c.join(parts)`. */
  function Join(parts: seq<string>, c: char): string
    requires |parts| >= 1
  {
    if |parts| == 1 then parts[0] else parts[0] + [c] + Join(parts[1..], c)
  }

  /** Splitting loses nothing: joining the pieces back gives the text. */
  lemma {:induction false} JoinSplit(s: string, c: char)
    ensures Join(SplitOn(s, c), c) == s
  {
    if |s| > 0 {
      var rest := SplitOn(s[1..], c);
      JoinSplit(s[1..], c);
      assert s == [s[0]] + s[1..];
      if s[0] == c {
        var parts := [""] + rest;
        assert SplitOn(s, c) == parts;
        assert parts[1..] == rest;
        assert Join(parts, c) == "" + [c] + Join(rest, c);
      } else {
        JoinCons(s[0], rest, c);
      }
    }
  }

  /** Putting a character in front of the first piece puts it in front of
      the joined text. */
  lemma JoinCons(x: char, rest: seq<string>, c: char)
    requires |rest| >= 1
    ensures Join([[x] + rest[0]] + rest[1..], c) == [x] + Join(rest, c)
  {
    var parts := [[x] + rest[0]] + rest[1..];
    if |rest| > 1 {
      assert parts[1..] == rest[1..];
      assert Join(parts, c) == [x] + rest[0] + [c] + Join(rest[1..], c);
    }
  }

  /** The piece after the first `c`: everything up to the next `c`. */
  lemma {:induction false} SplitOnAround(a: string, b: string, c: char)
    requires c !in a
    ensures |SplitOn(a + [c] + b, c)| >= 2
    ensures SplitOn(a + [c] + b, c)[0] == a
    ensures SplitOn(a + [c] + b, c)[1] == SplitOn(b, c)[0]
  {
    if |a| == 0 {
      assert a + [c] + b == [c] + b;
      assert ([c] + b)[1..] == b;
    } else {
      var s := a + [c] + b;
      assert s[0] == a[0] && s[1..] == a[1..] + [c] + b;
      SplitOnAround(a[1..], b, c);
      assert a == [a[0]] + a[1..];
    }
  }

  // ---------------------------------------------------------- the command

  /** `split_cmd`: the first word after the leading slashes, split on '@'.
      None where the source raises (no word at all). */
  function SplitCmd(m: Message): (r: Option<seq<string>>)
    ensures r.Some? ==> |r.value| >= 1
  {
    match FirstWord(LStripChar(m.text, '/'))
    case None => None
    case Some(w) => Some(SplitOn(w, '@'))
  }

  /** `cmd_name`: the command without its bot suffix. */
  function CmdName(m: Message): Option<string> {
    match SplitCmd(m)
    case None => None
    case Some(c) => Head(c)
  }

  predicate IsBotUsername(c: seq<string>, botName: string) {
    At(c, 1) == Some(botName)
  }

  /** `is_cmd_for_bot`: no '@' suffix, or the suffix names this bot. */
  predicate IsCmdForBot(c: seq<string>, botName: string) {
    At(c, 1).None? || IsBotUsername(c, botName)
  }

  /** `unknown_cmd` as written. */
  predicate UnknownCmd(c: seq<string>, botName: string, commands: seq<string>) {
    Head(c) == Some("@") && IsBotUsername(c, botName) && c[0] !in commands
  }

  /** A command word with no '@' is for this bot; one with '@' is for this
      bot exactly when the text between its first and second '@' is the
      bot's name. */
  lemma CmdForBotExactly(w: string, botName: string)
    ensures '@' !in w ==> IsCmdForBot(SplitOn(w, '@'), botName)
    ensures forall a, b :: '@' !in a && w == a + ['@'] + b ==>
      (IsCmdForBot(SplitOn(w, '@'), botName) <==> SplitOn(b, '@')[0] == botName)
  {
    forall a, b | '@' !in a && w == a + ['@'] + b
      ensures IsCmdForBot(SplitOn(w, '@'), botName) <==> SplitOn(b, '@')[0] == botName
    {
      SplitOnAround(a, b, '@');
    }
  }

  /** `unknown_cmd` never holds: a piece of a split on '@' cannot be "@". */
  lemma UnknownCmdNever(m: Message, botName: string, commands: seq<string>)
    ensures SplitCmd(m).Some? ==> !UnknownCmd(SplitCmd(m).value, botName, commands)
  {
    if SplitCmd(m).Some? {
      var c := SplitCmd(m).value;
      assert '@' !in c[0];
      assert '@' in "@";
    }
  }

  // -------------------------------------------------------------- chats

  /** `in_allowed_chat`: a wildcard or the chat id in decimal. */
  predicate InAllowedChat(allowed: seq<string>, m: Message) {
    "*" in allowed || IntToString(m.chatId) in allowed
  }

  /** `chat_ok(p)(m)`. */
  predicate ChatOk(p: Message -> bool, allowed: seq<string>, m: Message) {
    p(m) && InAllowedChat(allowed, m)
  }

  /** Without the wildcard exactly the listed chats pass: the decimal form
      of a chat id names no other chat. */
  lemma AllowedChatsExactly(allowed: seq<string>, m: Message, other: Message)
    requires "*" !in allowed && InAllowedChat(allowed, m)
    ensures IntToString(m.chatId) in allowed
    ensures IntToString(other.chatId) == IntToString(m.chatId) ==> other.chatId == m.chatId
  {
    if IntToString(other.chatId) == IntToString(m.chatId) {
      IntToStringInjective(other.chatId, m.chatId);
    }
  }

  // ----------------------------------------------------- button presses

  predicate StartsWith(s: string, prefix: string) {
    |prefix| <= |s| && s[..|prefix|] == prefix
  }

  /** The filter of the title-game buttons as written:
      `chat_ok(call.message)` builds a filter instead of applying one, and a
      function object is always truthy, so only the prefix is checked. */
  predicate QueryFilterAsWritten(allowed: seq<string>, m: Message, data: string) {
    StartsWith(data, "number_")
  }

  /** The filter with the chat check applied to the button's message. */
  predicate QueryFilter(allowed: seq<string>, m: Message, data: string) {
    InAllowedChat(allowed, m) && StartsWith(data, "number_")
  }

  /** As written, a button press from a chat that is not allowed passes. */
  lemma QueryFilterAsWrittenIgnoresChat()
    ensures var m := Message(2, 7, "");
      QueryFilterAsWritten(["1"], m, "number_1") && !InAllowedChat(["1"], m)
  {
    assert IntToString(2) == "2";
    assert "2" !in ["1"] && "*" !in ["1"];
  }

  /** With the check applied, a button works in exactly the chats where
      commands work: for any message from the same chat, `chat_ok` adds
      nothing to its predicate exactly when the button passes. */
  lemma QueryFilterFollowsChats(allowed: seq<string>, m: Message, data: string)
    requires StartsWith(data, "number_")
    ensures QueryFilter(allowed, m, data) <==>
      forall p: Message -> bool, m2: Message :: m2.chatId == m.chatId ==> ChatOk(p, allowed, m2) == p(m2)
  {
    if !QueryFilter(allowed, m, data) {
      var p: Message -> bool := _ => true;
      assert !ChatOk(p, allowed, m) && p(m);
    }
  }

  // ----------------------------------------------------------- handlers

  /** The handlers registered in `COMMANDS`. */
  datatype Command = Help | Top | Like | Rename | Reg | DrinkOrNot | HowMuchEsper | Players | Play

  /** One entry: the name, the handler (the help entry starts without one)
      and the description. */
  datatype Entry = Entry(name: string, handler: Option<Command>, description: string)

  const Names: seq<string> := ["help", "top", "like", "rename", "reg", "drink_or_not", "how_much_esper", "players", "play"]
  const Handlers: seq<Command> := [Help, Top, Like, Rename, Reg, DrinkOrNot, HowMuchEsper, Players, Play]

  /** `COMMANDS` as first written; `describe(name)` is the `<name>_help` phrase. */
  function InitialCommands(describe: string -> string): (t: seq<Entry>)
    ensures |t| == |Names|
  {
    seq(|Names|, i requires 0 <= i < |Names| =>
      Entry(Names[i], if i == 0 then None else Some(Handlers[i]), describe(Names[i])))
  }

  /** `COMMANDS["help"] = (handle_help(COMMANDS), COMMANDS["help"][1])`:
      the entry keeps its place and description and gets its handler. */
  function Commands(describe: string -> string): (t: seq<Entry>)
    ensures |t| == |Names|
    ensures forall i :: 0 <= i < |t| ==> t[i].name == Names[i] && t[i].handler == Some(Handlers[i])
    ensures forall i :: 0 <= i < |t| ==> t[i].description == InitialCommands(describe)[i].description
  {
    var t := InitialCommands(describe);
    t[0 := Entry(t[0].name, Some(Help), t[0].description)]
  }

  function Lookup(t: seq<Entry>, name: string): (r: Option<Entry>)
    ensures r.Some? ==> r.value in t && r.value.name == name
    ensures r.None? ==> forall i :: 0 <= i < |t| ==> t[i].name != name
  {
    if |t| == 0 then None else if t[0].name == name then Some(t[0]) else Lookup(t[1..], name)
  }

  datatype DispatchError = NoCommandWord | UnknownName(name: string) | NoHandler

  /** `handle_cmd`: the handler registered under the command name; the
      source raises where there is no word, no entry or no handler. */
  function HandleCmd(t: seq<Entry>, m: Message): (r: Result<Command, DispatchError>)
    ensures r == Err(NoCommandWord) <==> CmdName(m).None?
    ensures CmdName(m).Some? ==>
      (r == Err(UnknownName(CmdName(m).value)) <==> forall i :: 0 <= i < |t| ==> t[i].name != CmdName(m).value)
    ensures r.Ok? ==> exists i :: 0 <= i < |t| && t[i].name == CmdName(m).value && t[i].handler == Some(r.value)
  {
    match CmdName(m)
    case None => Err(NoCommandWord)
    case Some(name) =>
      match Lookup(t, name)
      case None => Err(UnknownName(name))
      case Some(e) => if e.handler.None? then Err(NoHandler) else Ok(e.handler.value)
  }

  lemma NamesDistinct()
    ensures forall i, j :: 0 <= i < j < |Names| ==> Names[i] != Names[j]
  {
  }

  /** `Lookup` finds the entry at the name's position in the table. */
  lemma {:induction false} LookupAt(t: seq<Entry>, i: nat)
    requires i < |t|
    requires forall j :: 0 <= j < i ==> t[j].name != t[i].name
    ensures Lookup(t, t[i].name) == Some(t[i])
  {
    if i > 0 {
      assert forall j :: 0 <= j < i - 1 ==> t[1..][j] == t[j + 1];
      LookupAt(t[1..], i - 1);
    }
  }

  /** Every registered name is a plain word: no slash first, no '@', no
      whitespace. */
  lemma NameIsWord(i: nat)
    requires i < |Names|
    ensures |Names[i]| > 0 && Names[i][0] != '/' && '@' !in Names[i]
    ensures forall k :: 0 <= k < |Names[i]| ==> !IsSpace(Names[i][k])
  {
  }

  /** The leading slashes go, then the first word is split on '@'. */
  lemma SplitCmdOf(m: Message, slashes: string, w: string, post: string)
    requires |w| > 0 && w[0] != '/'
    requires forall k :: 0 <= k < |w| ==> !IsSpace(w[k])
    requires forall k :: 0 <= k < |slashes| ==> slashes[k] == '/'
    requires |post| == 0 || IsSpace(post[0])
    requires m.text == slashes + w + post
    ensures SplitCmd(m) == Some(SplitOn(w, '@'))
  {
    Regroup(slashes, w, post);
    WordAfterSlashes(slashes, w, post);
  }

  lemma Regroup(a: string, b: string, c: string)
    ensures a + b + c == a + (b + c)
  {
  }

  lemma WordAfterSlashes(slashes: string, w: string, post: string)
    requires |w| > 0 && w[0] != '/'
    requires forall k :: 0 <= k < |w| ==> !IsSpace(w[k])
    requires forall k :: 0 <= k < |slashes| ==> slashes[k] == '/'
    requires |post| == 0 || IsSpace(post[0])
    ensures FirstWord(LStripChar(slashes + (w + post), '/')) == Some(w)
  {
    var t := w + post;
    assert t[0] == w[0];
    StripSlashes(slashes, t);
    FirstWordOf("", w, post);
    assert "" + w + post == t;
  }

  /** A word with a '@' suffix: `name@bot`. */
  lemma SuffixedWord(n: string, bot: string)
    requires |n| > 0 && '@' !in n
    requires forall k :: 0 <= k < |n| ==> !IsSpace(n[k])
    requires forall k :: 0 <= k < |bot| ==> !IsSpace(bot[k])
    ensures forall k :: 0 <= k < |n + "@" + bot| ==> !IsSpace((n + "@" + bot)[k])
    ensures (n + "@" + bot)[0] == n[0]
    ensures Head(SplitOn(n + "@" + bot, '@')) == Some(n)
    ensures '@' !in bot ==> At(SplitOn(n + "@" + bot, '@'), 1) == Some(bot)
  {
    var w := n + "@" + bot;
    forall k | 0 <= k < |w| ensures !IsSpace(w[k]) {
      if k > |n| { assert w[k] == bot[k - |n| - 1]; }
    }
    SplitOnAround(n, bot, '@');
    assert n + ['@'] + bot == w;
  }

  /** The command name of `/name`, or `/name@bot`, after any number of
      slashes and followed by whitespace or nothing, is `name`, and the
      command is for `bot`. */
  lemma CommandWord(m: Message, slashes: string, n: string, bot: Option<string>, post: string)
    requires |n| > 0 && n[0] != '/' && '@' !in n
    requires forall k :: 0 <= k < |n| ==> !IsSpace(n[k])
    requires forall k :: 0 <= k < |slashes| ==> slashes[k] == '/'
    requires bot.Some? ==> '@' !in bot.value && forall k :: 0 <= k < |bot.value| ==> !IsSpace(bot.value[k])
    requires |post| == 0 || IsSpace(post[0])
    requires m.text == slashes + (n + (if bot.Some? then "@" + bot.value else "")) + post
    ensures CmdName(m) == Some(n)
    ensures IsCmdForBot(SplitCmd(m).value, if bot.Some? then bot.value else "")
  {
    if bot.Some? {
      SuffixedWord(n, bot.value);
      assert n + ("@" + bot.value) == n + "@" + bot.value;
      SplitCmdOf(m, slashes, n + "@" + bot.value, post);
    } else {
      assert n + "" == n;
      SplitCmdOf(m, slashes, n, post);
    }
  }

  /** The final table finds each registered name at its own entry. */
  lemma CommandsLookup(describe: string -> string, i: nat)
    requires i < |Names|
    ensures Lookup(Commands(describe), Names[i]) == Some(Commands(describe)[i])
  {
    NamesDistinct();
    LookupAt(Commands(describe), i);
  }

  /** `/name`, or `/name@bot`, runs the handler registered under `name`; the
      help entry runs the help handler and keeps its phrase. */
  lemma DispatchesRegistered(describe: string -> string, m: Message, i: nat,
                             slashes: string, bot: Option<string>, post: string)
    requires i < |Names|
    requires forall k :: 0 <= k < |slashes| ==> slashes[k] == '/'
    requires bot.Some? ==> '@' !in bot.value && forall k :: 0 <= k < |bot.value| ==> !IsSpace(bot.value[k])
    requires |post| == 0 || IsSpace(post[0])
    requires m.text == slashes + (Names[i] + (if bot.Some? then "@" + bot.value else "")) + post
    ensures HandleCmd(Commands(describe), m) == Ok(Handlers[i])
    ensures i == 0 ==> Commands(describe)[0].description == describe("help")
  {
    NameIsWord(i);
    CommandWord(m, slashes, Names[i], bot, post);
    CommandsLookup(describe, i);
  }

  lemma {:induction false} StripSlashes(slashes: string, s: string)
    requires forall k :: 0 <= k < |slashes| ==> slashes[k] == '/'
    requires |s| > 0 && s[0] != '/'
    ensures LStripChar(slashes + s, '/') == s
  {
    if |slashes| > 0 {
      assert (slashes + s)[1..] == slashes[1..] + s;
      StripSlashes(slashes[1..], s);
    } else {
      assert slashes + s == s;
    }
  }

  // ------------------------------------------------------- captcha filter

  /** The filter of `handle_verify_captcha`: the sender has a session. */
  predicate VerifyFilter(st: CaptchaManager.State, m: Message) {
    m.fromId in st.users
  }

  /** The filter lets through exactly the messages the verification handler
      acts on: for anyone else it would change nothing and call nothing. */
  lemma VerifyFilterExact(cfg: CaptchaManager.Config, st: CaptchaManager.State, m: Message)
    requires CaptchaManager.ValidConfig(cfg)
    ensures var r := CaptchaManager.HandleVerify(cfg, st, m.fromId, m.chatId, 0, Some(m.text));
      (VerifyFilter(st, m) <==> |r.effects| > 0) && (!VerifyFilter(st, m) ==> r.state == st)
  {
  }
}

=== FILE: event_queue.dfy ===
/**
 * The scheduled task queue of `src/event_queue.py`: a registry of tasks,
 * each a queue of (timestamp, action) sub-events, advanced one offset per
 * tick. Actions are data of type `A`; running one is recording it in the
 * tick's trace (the source catches every exception an action raises, so an
 * action's fate never changes which sub-events fire). The background thread
 * is reduced to the `running` flag.
 */
module EventQueue {
  import opened Wrappers

  /** The uuid4 string `add_task` returns. */
  type Key = string

  /** One queued `{"timestamp": ts, "action": action}` record. */
  datatype SubEvent<A> = SubEvent(timestamp: int, action: A)

  /** `conditional_funcs`: the named hooks and the per-timestamp overrides. */
  datatype Hooks<A> = Hooks(
    onStart: Option<A>,
    onSuccess: Option<A>,
    onCancel: Option<A>,
    overrides: map<int, A>)

  /** The registry record `{offset, cancelled, sub_events, conditional_funcs}`. */
  datatype Task<A> = Task(offset: nat, cancelled: bool, pending: seq<SubEvent<A>>, hooks: Hooks<A>)

  datatype Entry<A> = Entry(key: Key, task: Task<A>)

  /** `EVENTS` in insertion order, and `TICK_JOB_RUNNING`. */
  datatype Queue<A> = Queue(entries: seq<Entry<A>>, running: bool)

  /** One action run by a tick: the task, the task's offset at that moment,
      the action, and every task's offset as `EVENTS` shows it then. */
  datatype Firing<A> = Firing(key: Key, offset: nat, action: A, view: map<Key, nat>)

  /** A Python dict never holds a key twice. */
  predicate UniqueKeys<A>(entries: seq<Entry<A>>) {
    forall i, j :: 0 <= i < j < |entries| ==> entries[i].key != entries[j].key
  }

  function Keys<A>(entries: seq<Entry<A>>): (ks: seq<Key>)
    ensures |ks| == |entries|
    ensures forall i :: 0 <= i < |entries| ==> ks[i] == entries[i].key
  {
    if |entries| == 0 then [] else [entries[0].key] + Keys(entries[1..])
  }

  /** `EVENTS.get(key)`. */
  function Find<A>(entries: seq<Entry<A>>, key: Key): (r: Option<Task<A>>)
    ensures r.None? <==> key !in Keys(entries)
    ensures r.Some? ==> exists i :: 0 <= i < |entries| && entries[i] == Entry(key, r.value)
  {
    if |entries| == 0 then None
    else if entries[0].key == key then Some(entries[0].task)
    else Find(entries[1..], key)
  }

  /** Every task's offset, as an action reading `EVENTS[k]["offset"]` sees it. */
  function Offsets<A>(entries: seq<Entry<A>>): (m: map<Key, nat>)
    ensures forall k :: k in m <==> k in Keys(entries)
  {
    if |entries| == 0 then map[]
    else Offsets(entries[1..])[entries[0].key := entries[0].task.offset]
  }

  // ---------------------------------------------------------------- add_task

  predicate Sorted(xs: seq<int>) {
    forall i, j :: 0 <= i < j < |xs| ==> xs[i] <= xs[j]
  }

  function Insert(x: int, xs: seq<int>): (r: seq<int>)
    requires Sorted(xs)
    ensures Sorted(r)
    ensures multiset(r) == multiset(xs) + multiset{x}
    ensures |r| == |xs| + 1
    ensures r[0] == x || (|xs| > 0 && r[0] == xs[0])
  {
    if |xs| == 0 then [x]
    else if x <= xs[0] then [x] + xs
    else
      var rest := Insert(x, xs[1..]);
      assert xs == [xs[0]] + xs[1..];
      assert |xs| > 1 ==> xs[0] <= xs[1];
      [xs[0]] + rest
  }

  /** `sorted(timestamps)`. */
  function Sort(xs: seq<int>): (r: seq<int>)
    ensures Sorted(r)
    ensures multiset(r) == multiset(xs)
    ensures |r| == |xs|
  {
    if |xs| == 0 then []
    else
      assert xs == [xs[0]] + xs[1..];
      Insert(xs[0], Sort(xs[1..]))
  }

  /** The action `add_task` queues at position `i` of `n` sorted timestamps. */
  function ChooseAction<A>(i: nat, n: nat, ts: int, default: A, hooks: Hooks<A>): A {
    if i == 0 && hooks.onStart.Some? then hooks.onStart.value
    else if i == n - 1 && hooks.onSuccess.Some? then hooks.onSuccess.value
    else if ts in hooks.overrides then hooks.overrides[ts]
    else default
  }

  function BuildSubEvents<A>(sorted: seq<int>, default: A, hooks: Hooks<A>): (subs: seq<SubEvent<A>>)
    ensures |subs| == |sorted|
    ensures forall i :: 0 <= i < |sorted| ==>
      subs[i] == SubEvent(sorted[i], ChooseAction(i, |sorted|, sorted[i], default, hooks))
  {
    seq(|sorted|, i requires 0 <= i < |sorted| =>
      SubEvent(sorted[i], ChooseAction(i, |sorted|, sorted[i], default, hooks)))
  }

  function Timestamps<A>(subs: seq<SubEvent<A>>): (ts: seq<int>)
    ensures |ts| == |subs|
    ensures forall i :: 0 <= i < |subs| ==> ts[i] == subs[i].timestamp
  {
    if |subs| == 0 then [] else [subs[0].timestamp] + Timestamps(subs[1..])
  }

  function Actions<A>(subs: seq<SubEvent<A>>): (acts: seq<A>)
    ensures |acts| == |subs|
    ensures forall i :: 0 <= i < |subs| ==> acts[i] == subs[i].action
  {
    if |subs| == 0 then [] else [subs[0].action] + Actions(subs[1..])
  }

  /** Replace the task stored under `key`, or append a new entry (`EVENTS[key] = ...`). */
  function Store<A>(entries: seq<Entry<A>>, key: Key, t: Task<A>): (r: seq<Entry<A>>)
    ensures key !in Keys(entries) ==> r == entries + [Entry(key, t)]
  {
    if |entries| == 0 then [Entry(key, t)]
    else if entries[0].key == key then [Entry(key, t)] + entries[1..]
    else [entries[0]] + Store(entries[1..], key, t)
  }

  /** Storing makes `key` find the new task and leaves every other key alone. */
  lemma {:induction false} StoreFinds<A>(entries: seq<Entry<A>>, key: Key, t: Task<A>)
    ensures Find(Store(entries, key, t), key) == Some(t)
    ensures forall k :: k != key ==> Find(Store(entries, key, t), k) == Find(entries, k)
  {
    if |entries| > 0 && entries[0].key != key {
      StoreFinds(entries[1..], key, t);
    }
  }

  /** Storing under a present key replaces it in place. */
  lemma {:induction false} StoreInPlace<A>(entries: seq<Entry<A>>, key: Key, t: Task<A>)
    requires key in Keys(entries)
    ensures Keys(Store(entries, key, t)) == Keys(entries)
  {
    assert Keys(entries) == [entries[0].key] + Keys(entries[1..]);
    var r := Store(entries, key, t);
    assert Keys(r) == [r[0].key] + Keys(r[1..]);
    if entries[0].key != key {
      StoreInPlace(entries[1..], key, t);
    }
  }

  /** Storing keeps the keys of the registry unique. */
  lemma StoreKeys<A>(entries: seq<Entry<A>>, key: Key, t: Task<A>)
    ensures UniqueKeys(entries) ==> UniqueKeys(Store(entries, key, t))
  {
    var r := Store(entries, key, t);
    if !UniqueKeys(entries) {
    } else if key in Keys(entries) {
      StoreInPlace(entries, key, t);
      assert forall i :: 0 <= i < |r| ==> r[i].key == Keys(r)[i];
    } else {
      assert forall i :: 0 <= i < |entries| ==> entries[i].key == Keys(entries)[i];
    }
  }

  /** `add_task(timestamps, default, conditional_funcs)` returning the fresh `key`
      (the uuid is an input). The new task starts at offset 0, not cancelled,
      with one sub-event per timestamp in ascending order, and the ticking
      loop is running afterwards. */
  function AddTask<A>(q: Queue<A>, key: Key, timestamps: seq<int>, default: A, hooks: Hooks<A>): (q': Queue<A>)
    ensures Find(q'.entries, key).Some?
    ensures var t := Find(q'.entries, key).value;
      && t.offset == 0 && !t.cancelled && t.hooks == hooks
      && |t.pending| == |timestamps|
      && Sorted(Timestamps(t.pending))
      && multiset(Timestamps(t.pending)) == multiset(timestamps)
      && (forall i :: 0 <= i < |t.pending| ==>
            t.pending[i].action == ChooseAction(i, |t.pending|, t.pending[i].timestamp, default, hooks))
    ensures forall k :: k != key ==> Find(q'.entries, k) == Find(q.entries, k)
    ensures key !in Keys(q.entries) ==> |q'.entries| == |q.entries| + 1 && q'.entries[..|q.entries|] == q.entries
    ensures UniqueKeys(q.entries) ==> UniqueKeys(q'.entries)
    ensures q'.running
  {
    var sorted := Sort(timestamps);
    var subs := BuildSubEvents(sorted, default, hooks);
    assert Timestamps(subs) == sorted;
    var entries := Store(q.entries, key, Task(0, false, subs, hooks));
    StoreFinds(q.entries, key, Task(0, false, subs, hooks));
    StoreKeys(q.entries, key, Task(0, false, subs, hooks));
    Queue(entries, q.running || |entries| > 0)
  }

  /** With a single timestamp `on_start` wins over `on_success`; otherwise the
      first position takes `on_start`, the last `on_success`, the rest an
      override for their timestamp and else the default. */
  lemma ChoicePrecedence<A>(n: nat, ts: int, default: A, hooks: Hooks<A>, start: A, success: A)
    requires hooks.onStart == Some(start) && hooks.onSuccess == Some(success)
    ensures ChooseAction(0, n, ts, default, hooks) == start
    ensures n > 1 ==> ChooseAction(n - 1, n, ts, default, hooks) == success
    ensures forall i: nat :: 0 < i < n - 1 ==>
      ChooseAction(i, n, ts, default, hooks) == if ts in hooks.overrides then hooks.overrides[ts] else default
  {
  }

  // ------------------------------------------------------------- cancel_task

  function SetCancelled<A>(entries: seq<Entry<A>>, key: Key): (r: seq<Entry<A>>)
    ensures |r| == |entries| && Keys(r) == Keys(entries)
    ensures forall i :: 0 <= i < |entries| ==>
      r[i] == if entries[i].key == key then Entry(key, entries[i].task.(cancelled := true)) else entries[i]
  {
    if |entries| == 0 then []
    else
      var e := entries[0];
      [if e.key == key then Entry(key, e.task.(cancelled := true)) else e] + SetCancelled(entries[1..], key)
  }

  /** `cancel_task(key, silently)`: the new queue and the `on_cancel` action it
      runs synchronously, if any (an exception it raises is swallowed). */
  function CancelTask<A>(q: Queue<A>, key: Key, silently: bool): (r: (Queue<A>, Option<A>))
    ensures key !in Keys(q.entries) ==> r == (q, None)
    ensures key in Keys(q.entries) ==>
      && Find(r.0.entries, key) == Some(Find(q.entries, key).value.(cancelled := true))
      && r.1 == (if silently then None else Find(q.entries, key).value.hooks.onCancel)
    ensures forall k :: k != key ==> Find(r.0.entries, k) == Find(q.entries, k)
    ensures Keys(r.0.entries) == Keys(q.entries) && r.0.running == q.running
  {
    match Find(q.entries, key)
    case None => (q, None)
    case Some(t) =>
      var entries := SetCancelled(q.entries, key);
      FindSetCancelled(q.entries, key);
      (Queue(entries, q.running), if silently then None else t.hooks.onCancel)
  }

  function CancelledView<A>(found: Option<Task<A>>, hit: bool): Option<Task<A>> {
    if hit && found.Some? then Some(found.value.(cancelled := true)) else found
  }

  lemma {:induction false} FindSetCancelled<A>(entries: seq<Entry<A>>, key: Key)
    ensures forall k :: Find(SetCancelled(entries, key), k) == CancelledView(Find(entries, k), k == key)
  {
    if |entries| > 0 {
      FindSetCancelled(entries[1..], key);
      assert SetCancelled(entries, key)[1..] == SetCancelled(entries[1..], key);
    }
  }

  /** A repeated non-silent cancel before the next tick runs the hook again. */
  lemma CancelTwiceRunsHookTwice<A>(q: Queue<A>, key: Key, hook: A)
    requires Find(q.entries, key).Some? && Find(q.entries, key).value.hooks.onCancel == Some(hook)
    ensures CancelTask(q, key, false).1 == Some(hook)
    ensures CancelTask(CancelTask(q, key, false).0, key, false).1 == Some(hook)
  {
  }

  // -------------------------------------------------------------------- tick

  /** Pop every leading sub-event whose timestamp is at most `offset`. */
  function Drain<A>(pending: seq<SubEvent<A>>, offset: int): (r: (seq<SubEvent<A>>, seq<SubEvent<A>>))
    ensures r.0 + r.1 == pending
    ensures forall i :: 0 <= i < |r.0| ==> r.0[i].timestamp <= offset
    ensures |r.1| > 0 ==> r.1[0].timestamp > offset
  {
    if |pending| > 0 && pending[0].timestamp <= offset then
      var rest := Drain(pending[1..], offset);
      var due := [pending[0]] + rest.0;
      assert forall i :: 1 <= i < |due| ==> due[i] == rest.0[i - 1];
      assert due + rest.1 == [pending[0]] + (rest.0 + rest.1);
      (due, rest.1)
    else ([], pending)
  }

  /** What one tick does to one task: a cancelled or exhausted task is left
      alone (and then removed); a live one advances by one and runs every
      due sub-event, each popped before it runs. */
  function StepTask<A>(t: Task<A>): (r: (Task<A>, seq<SubEvent<A>>))
    ensures t.cancelled || |t.pending| == 0 ==> r == (t, [])
    ensures !t.cancelled && |t.pending| > 0 ==>
      && r.0 == t.(offset := t.offset + 1, pending := r.0.pending)
      && r.1 + r.0.pending == t.pending
      && (forall i :: 0 <= i < |r.1| ==> r.1[i].timestamp <= t.offset + 1)
      && (|r.0.pending| > 0 ==> r.0.pending[0].timestamp > t.offset + 1)
  {
    if t.cancelled || |t.pending| == 0 then (t, [])
    else
      var d := Drain(t.pending, t.offset + 1);
      (t.(offset := t.offset + 1, pending := d.1), d.0)
  }

  /** A task stays registered after a tick iff it is live and has sub-events left. */
  predicate Keep<A>(t: Task<A>) {
    !t.cancelled && |t.pending| > 0
  }

  function StepAll<A>(entries: seq<Entry<A>>): (r: seq<Entry<A>>)
    ensures |r| == |entries| && Keys(r) == Keys(entries)
    ensures forall i :: 0 <= i < |entries| ==> r[i] == Entry(entries[i].key, StepTask(entries[i].task).0)
  {
    if |entries| == 0 then []
    else [Entry(entries[0].key, StepTask(entries[0].task).0)] + StepAll(entries[1..])
  }
  function KeepLive<A>(entries: seq<Entry<A>>): (r: seq<Entry<A>>)
    ensures forall i :: 0 <= i < |r| ==> r[i] in entries && Keep(r[i].task)
    ensures forall i :: 0 <= i < |entries| && Keep(entries[i].task) ==> entries[i] in r
    ensures |r| <= |entries|
  {
    if |entries| == 0 then []
    else (if Keep(entries[0].task) then [entries[0]] else []) + KeepLive(entries[1..])
  }

  /** Filtering distributes over concatenation, so the entries that stay
      keep their registry order. */
  lemma {:induction false} KeepLiveConcat<A>(a: seq<Entry<A>>, b: seq<Entry<A>>)
    ensures KeepLive(a + b) == KeepLive(a) + KeepLive(b)
  {
    if |a| == 0 {
      assert a + b == b;
    } else {
      assert (a + b)[0] == a[0];
      assert (a + b)[1..] == a[1..] + b;
      KeepLiveConcat(a[1..], b);
    }
  }

  /** The registry position of `key`: the first entry holding it, or the
      length of the registry when none does. */
  function IndexOf<A>(entries: seq<Entry<A>>, key: Key): (n: nat)
    ensures n <= |entries|
    ensures n < |entries| ==> entries[n].key == key
  {
    if |entries| == 0 then 0 else if entries[0].key == key then 0 else 1 + IndexOf(entries[1..], key)
  }

  /** With unique keys, entry `j` sits at the position of its own key. */
  lemma IndexOfUnique<A>(entries: seq<Entry<A>>, j: nat)
    requires UniqueKeys(entries) && j < |entries|
    ensures IndexOf(entries, entries[j].key) == j
  {
    if j > 0 {
      assert entries[0].key != entries[j].key;
      assert UniqueKeys(entries[1..]);
      assert entries[1..][j - 1] == entries[j];
      IndexOfUnique(entries[1..], j - 1);
    }
  }

  /** An entry of the tail of a registry with unique keys sits one further
      along in the whole registry. */
  lemma IndexOfTail<A>(s: seq<Entry<A>>, e: Entry<A>)
    requires UniqueKeys(s) && |s| > 0 && e in s[1..]
    ensures IndexOf(s, e.key) == 1 + IndexOf(s[1..], e.key)
  {
    var m :| 0 <= m < |s[1..]| && s[1..][m] == e;
    assert s[m + 1] == e;
  }

  /** Filtering keeps registry order. */
  lemma {:induction false} KeepLiveOrdered<A>(s: seq<Entry<A>>)
    requires UniqueKeys(s)
    ensures var r := KeepLive(s);
      forall a, b :: 0 <= a < b < |r| ==> IndexOf(s, r[a].key) < IndexOf(s, r[b].key)
  {
    if |s| > 0 {
      var t := s[1..];
      assert UniqueKeys(t);
      KeepLiveOrdered(t);
      var kt := KeepLive(t);
      forall m | 0 <= m < |kt|
        ensures IndexOf(s, kt[m].key) == 1 + IndexOf(t, kt[m].key)
      {
        IndexOfTail(s, kt[m]);
      }
      if Keep(s[0].task) {
        KeepLiveKept(s, kt);
      } else {
        assert KeepLive(s) == kt;
      }
    }
  }

  lemma KeepLiveKept<A>(s: seq<Entry<A>>, kt: seq<Entry<A>>)
    requires |s| > 0 && Keep(s[0].task) && kt == KeepLive(s[1..])
    requires forall m :: 0 <= m < |kt| ==> IndexOf(s, kt[m].key) == 1 + IndexOf(s[1..], kt[m].key)
    requires forall a, b :: 0 <= a < b < |kt| ==> IndexOf(s[1..], kt[a].key) < IndexOf(s[1..], kt[b].key)
    ensures var r := KeepLive(s);
      forall a, b :: 0 <= a < b < |r| ==> IndexOf(s, r[a].key) < IndexOf(s, r[b].key)
  {
    var r := KeepLive(s);
    assert r == [s[0]] + kt;
    assert IndexOf(s, s[0].key) == 0;
    forall a, b | 0 <= a < b < |r|
      ensures IndexOf(s, r[a].key) < IndexOf(s, r[b].key)
    {
      assert r[b] == kt[b - 1];
      if a > 0 {
        assert r[a] == kt[a - 1];
      } else {
        assert r[a] == s[0];
      }
    }
  }

  function Fire<A>(key: Key, offset: nat, subs: seq<SubEvent<A>>, view: map<Key, nat>): (fs: seq<Firing<A>>)
    ensures |fs| == |subs|
    ensures forall i :: 0 <= i < |subs| ==> fs[i] == Firing(key, offset, subs[i].action, view)
  {
    if |subs| == 0 then [] else [Firing(key, offset, subs[0].action, view)] + Fire(key, offset, subs[1..], view)
  }

  /** `EVENTS` as the actions of entry `i` see it: the loop has already
      written the new offsets of entries `0..i` into the dict, and the ones
      after it still hold their old offsets. */
  function ViewAt<A>(entries: seq<Entry<A>>, i: nat): (view: map<Key, nat>)
    requires i < |entries|
    ensures entries[i].key in view && view[entries[i].key] == StepTask(entries[i].task).0.offset
  {
    var before := if i == 0 then Offsets(entries) else ViewAt(entries, i - 1);
    before[entries[i].key := StepTask(entries[i].task).0.offset]
  }

  /** `f` is a firing of entry `e`: the entry is live with sub-events, and
      `f` runs at its offset plus one. */
  predicate FiredBy<A>(e: Entry<A>, f: Firing<A>) {
    f.key == e.key && Keep(e.task) && f.offset == e.task.offset + 1
  }

  /** `f` is a firing of one of the entries from position `i` on. */
  predicate FiredFrom<A>(entries: seq<Entry<A>>, i: nat, f: Firing<A>) {
    exists j :: i <= j < |entries| && FiredBy(entries[j], f)
  }

  /** The action sees its own task at the offset it fired at. */
  predicate SeesOwnOffset<A>(f: Firing<A>) {
    f.key in f.view && f.view[f.key] == f.offset
  }

  /** The actions entry `i` runs in a tick, all at its new offset. */
  function FireAt<A>(entries: seq<Entry<A>>, i: nat): (fs: seq<Firing<A>>)
    requires i < |entries|
    ensures forall f :: f in fs ==> FiredBy(entries[i], f)
  {
    var step := StepTask(entries[i].task);
    Fire(entries[i].key, step.0.offset, step.1, ViewAt(entries, i))
  }

  /** The firings of entries `i..`, in registry order. Each firing comes
      from a live entry with sub-events, at that entry's offset plus one. */
  function TraceFrom<A>(entries: seq<Entry<A>>, i: nat): (r: seq<Firing<A>>)
    requires i <= |entries|
    decreases |entries| - i
    ensures forall f :: f in r ==> FiredFrom(entries, i, f)
  {
    if i == |entries| then [] else FireAt(entries, i) + TraceFrom(entries, i + 1)
  }

  /** The actions fired for `key`, in firing order. */
  function FiredFor<A>(fs: seq<Firing<A>>, key: Key): (acts: seq<A>)
    ensures |acts| <= |fs|
  {
    if |fs| == 0 then []
    else (if fs[0].key == key then [fs[0].action] else []) + FiredFor(fs[1..], key)
  }

  /** What a tick fires for the task a key finds: its due prefix, or nothing. */
  function DueActions<A>(found: Option<Task<A>>): seq<A> {
    if found.Some? then Actions(StepTask(found.value).1) else []
  }

  lemma {:induction false} FiredForConcat<A>(a: seq<Firing<A>>, b: seq<Firing<A>>, key: Key)
    ensures FiredFor(a + b, key) == FiredFor(a, key) + FiredFor(b, key)
  {
    if |a| == 0 {
      assert a + b == b;
    } else {
      assert (a + b)[0] == a[0];
      assert (a + b)[1..] == a[1..] + b;
      FiredForConcat(a[1..], b, key);
    }
  }

  lemma {:induction false} FiredForFire<A>(k: Key, offset: nat, subs: seq<SubEvent<A>>, view: map<Key, nat>, key: Key)
    ensures FiredFor(Fire(k, offset, subs, view), key) == if k == key then Actions(subs) else []
  {
    if |subs| > 0 {
      FiredForFire(k, offset, subs[1..], view, key);
      assert Fire(k, offset, subs, view)[1..] == Fire(k, offset, subs[1..], view);
      assert Actions(subs) == [subs[0].action] + Actions(subs[1..]);
    }
  }

  /** The due actions of every entry from `i` on that holds `key`, in
      registry order. */
  function DueFor<A>(entries: seq<Entry<A>>, i: nat, key: Key): seq<A>
    requires i <= |entries|
    decreases |entries| - i
  {
    if i == |entries| then [] else Own(entries, i, key) + DueFor(entries, i + 1, key)
  }

  /** The due actions of entry `i` when it holds `key`. */
  function Own<A>(entries: seq<Entry<A>>, i: nat, key: Key): seq<A>
    requires i < |entries|
  {
    if entries[i].key == key then DueActions(Some(entries[i].task)) else []
  }

  /** A key held by no entry from `i` on has nothing due there. */
  lemma {:induction false} DueForAbsent<A>(entries: seq<Entry<A>>, i: nat, key: Key)
    requires i <= |entries|
    requires forall j :: i <= j < |entries| ==> entries[j].key != key
    ensures DueFor(entries, i, key) == []
    decreases |entries| - i
  {
    if i < |entries| {
      DueForAbsent(entries, i + 1, key);
    }
  }

  /** With unique keys only the entry holding `key` contributes. */
  lemma {:induction false} DueForFind<A>(entries: seq<Entry<A>>, key: Key)
    requires UniqueKeys(entries)
    ensures DueFor(entries, 0, key) == DueActions(Find(entries, key))
  {
    if |entries| > 0 {
      var rest := DueFor(entries, 1, key);
      if entries[0].key == key {
        DueForAbsent(entries, 1, key);
        var due := DueActions(Some(entries[0].task));
        assert due + rest == due;
      } else {
        assert UniqueKeys(entries[1..]);
        DueForFind(entries[1..], key);
        DueForShift(entries, 1, key);
        var none: seq<A> := [];
        assert none + rest == rest;
      }
    }
  }

  lemma {:induction false} DueForShift<A>(entries: seq<Entry<A>>, i: nat, key: Key)
    requires 1 <= i <= |entries|
    ensures DueFor(entries, i, key) == DueFor(entries[1..], i - 1, key)
    decreases |entries| - i
  {
    if i < |entries| {
      assert entries[1..][i - 1] == entries[i];
      DueForShift(entries, i + 1, key);
    }
  }

  /** Per key, the trace of entries `i..` holds exactly the due sub-events
      of the entries holding that key, each in queue order. */
  lemma {:induction false} TraceFromFired<A>(entries: seq<Entry<A>>, i: nat, key: Key)
    requires i <= |entries|
    ensures FiredFor(TraceFrom(entries, i), key) == DueFor(entries, i, key)
    decreases |entries| - i, 1
  {
    if i < |entries| {
      TraceFromFiredAt(entries, i, key);
    }
  }

  lemma {:induction false} TraceFromFiredAt<A>(entries: seq<Entry<A>>, i: nat, key: Key)
    requires i < |entries|
    ensures FiredFor(TraceFrom(entries, i), key) == DueFor(entries, i, key)
    decreases |entries| - i, 0
  {
    TraceFromFired(entries, i + 1, key);
    FiredForStep(entries, i, key);
  }

  lemma FiredForStep<A>(entries: seq<Entry<A>>, i: nat, key: Key)
    requires i < |entries|
    requires FiredFor(TraceFrom(entries, i + 1), key) == DueFor(entries, i + 1, key)
    ensures FiredFor(TraceFrom(entries, i), key) == DueFor(entries, i, key)
  {
    var step := StepTask(entries[i].task);
    FiredForConcat(FireAt(entries, i), TraceFrom(entries, i + 1), key);
    FiredForFire(entries[i].key, step.0.offset, step.1, ViewAt(entries, i), key);
  }

  /** The firings run task after task, in registry order. */
  predicate FiringsInOrder<A>(entries: seq<Entry<A>>, fs: seq<Firing<A>>) {
    forall a, b :: 0 <= a < b < |fs| ==> IndexOf(entries, fs[a].key) <= IndexOf(entries, fs[b].key)
  }

  /** Every firing belongs to an entry at position `i` or later. */
  predicate FiringsFrom<A>(entries: seq<Entry<A>>, fs: seq<Firing<A>>, i: nat) {
    forall m :: 0 <= m < |fs| ==> i <= IndexOf(entries, fs[m].key)
  }

  lemma {:induction false} TraceFromAfter<A>(entries: seq<Entry<A>>, i: nat)
    requires UniqueKeys(entries) && i <= |entries|
    ensures FiringsFrom(entries, TraceFrom(entries, i), i)
    decreases |entries| - i, 1
  {
    if i < |entries| {
      TraceFromAfterAt(entries, i);
    }
  }

  lemma {:induction false} TraceFromAfterAt<A>(entries: seq<Entry<A>>, i: nat)
    requires UniqueKeys(entries) && i < |entries|
    ensures FiringsFrom(entries, TraceFrom(entries, i), i)
    decreases |entries| - i, 0
  {
    TraceFromAfter(entries, i + 1);
    IndexOfUnique(entries, i);
    AfterCons(entries, i, FireAt(entries, i), TraceFrom(entries, i + 1));
  }

  lemma {:induction false} TraceFromOrdered<A>(entries: seq<Entry<A>>, i: nat)
    requires UniqueKeys(entries) && i <= |entries|
    ensures FiringsInOrder(entries, TraceFrom(entries, i))
    decreases |entries| - i, 1
  {
    if i < |entries| {
      TraceFromOrderedAt(entries, i);
    }
  }

  lemma {:induction false} TraceFromOrderedAt<A>(entries: seq<Entry<A>>, i: nat)
    requires UniqueKeys(entries) && i < |entries|
    ensures FiringsInOrder(entries, TraceFrom(entries, i))
    decreases |entries| - i, 0
  {
    TraceFromOrdered(entries, i + 1);
    TraceFromAfter(entries, i + 1);
    IndexOfUnique(entries, i);
    OrderedCons(entries, i, FireAt(entries, i), TraceFrom(entries, i + 1));
  }

  lemma AfterCons<A>(entries: seq<Entry<A>>, i: nat, fs: seq<Firing<A>>, rest: seq<Firing<A>>)
    requires i < |entries| && IndexOf(entries, entries[i].key) == i
    requires forall f :: f in fs ==> f.key == entries[i].key
    requires FiringsFrom(entries, rest, i + 1)
    ensures FiringsFrom(entries, fs + rest, i)
  {
    var r := fs + rest;
    forall m | 0 <= m < |r|
      ensures i <= IndexOf(entries, r[m].key)
    {
      if m < |fs| {
        assert r[m] == fs[m];
      } else {
        assert r[m] == rest[m - |fs|];
      }
    }
  }

  lemma OrderedCons<A>(entries: seq<Entry<A>>, i: nat, fs: seq<Firing<A>>, rest: seq<Firing<A>>)
    requires i < |entries| && IndexOf(entries, entries[i].key) == i
    requires forall f :: f in fs ==> f.key == entries[i].key
    requires FiringsFrom(entries, rest, i + 1) && FiringsInOrder(entries, rest)
    ensures FiringsInOrder(entries, fs + rest)
  {
    var r := fs + rest;
    forall a, b | 0 <= a < b < |r|
      ensures IndexOf(entries, r[a].key) <= IndexOf(entries, r[b].key)
    {
      if b < |fs| {
        assert r[a] == fs[a] && r[b] == fs[b];
      } else if a < |fs| {
        assert r[a] == fs[a] && r[b] == rest[b - |fs|];
      } else {
        assert r[a] == rest[a - |fs|] && r[b] == rest[b - |fs|];
      }
    }
  }

  lemma FindCons<A>(e: Entry<A>, rest: seq<Entry<A>>, k: Key)
    ensures Find([e] + rest, k) == if e.key == k then Some(e.task) else Find(rest, k)
  {
    assert ([e] + rest)[1..] == rest;
  }

  /** What `Find` returns for a key after a tick, given what it returned
      before: the stepped task while it is live with sub-events left, and
      nothing otherwise. */
  function AfterTick<A>(found: Option<Task<A>>): Option<Task<A>> {
    if found.Some? && Keep(StepTask(found.value).0) then Some(StepTask(found.value).0) else None
  }

  lemma {:induction false} FindKeepLive<A>(s: seq<Entry<A>>, k: Key)
    requires UniqueKeys(s)
    ensures Find(KeepLive(s), k) ==
      if Find(s, k).Some? && Keep(Find(s, k).value) then Find(s, k) else None
  {
    if |s| > 0 {
      var tail := s[1..];
      assert UniqueKeys(tail);
      FindKeepLive(tail, k);
      var kept := KeepLive(tail);
      if Keep(s[0].task) {
        assert KeepLive(s) == [s[0]] + kept;
        FindCons(s[0], kept, k);
      } else {
        assert KeepLive(s) == kept;
      }
      if s[0].key == k {
        assert Find(s, k) == Some(s[0].task);
        assert k !in Keys(tail) by {
          assert forall j :: 0 <= j < |tail| ==> tail[j].key == s[j + 1].key;
        }
        assert Find(kept, k).None?;
      } else {
        assert Find(s, k) == Find(tail, k);
      }
    }
  }

  lemma {:induction false} FindStepAll<A>(entries: seq<Entry<A>>, k: Key)
    ensures Find(StepAll(entries), k) ==
      if Find(entries, k).Some? then Some(StepTask(Find(entries, k).value).0) else None
  {
    if |entries| > 0 {
      assert StepAll(entries)[1..] == StepAll(entries[1..]);
      FindStepAll(entries[1..], k);
    }
  }

  /** A lookup after a tick follows from the lookup before it. */
  lemma FindAfterTick<A>(entries: seq<Entry<A>>, k: Key)
    requires UniqueKeys(entries)
    ensures Find(KeepLive(StepAll(entries)), k) == AfterTick(Find(entries, k))
  {
    var s := StepAll(entries);
    assert UniqueKeys(s) by {
      assert forall i :: 0 <= i < |s| ==> s[i].key == entries[i].key;
    }
    FindKeepLive(s, k);
    FindStepAll(entries, k);
  }

  /** Filtering a registry with unique keys keeps them unique. */
  lemma {:induction false} KeepLiveUnique<A>(s: seq<Entry<A>>)
    requires UniqueKeys(s)
    ensures UniqueKeys(KeepLive(s))
  {
    KeepLiveOrdered(s);
  }

  /** Every action of entries `i..` sees its own task at the offset it fired at. */
  lemma {:induction false} TraceFromOwnOffset<A>(entries: seq<Entry<A>>, i: nat)
    requires i <= |entries|
    ensures forall f :: f in TraceFrom(entries, i) ==> SeesOwnOffset(f)
    decreases |entries| - i
  {
    if i < |entries| {
      TraceFromOwnOffset(entries, i + 1);
      var step := StepTask(entries[i].task);
      FireOwnOffset(entries[i].key, step.0.offset, step.1, ViewAt(entries, i));
    }
  }

  lemma FireOwnOffset<A>(key: Key, offset: nat, subs: seq<SubEvent<A>>, view: map<Key, nat>)
    requires key in view && view[key] == offset
    ensures forall f :: f in Fire(key, offset, subs, view) ==> SeesOwnOffset(f)
  {
  }

  lemma StepAllUnique<A>(entries: seq<Entry<A>>)
    requires UniqueKeys(entries)
    ensures UniqueKeys(StepAll(entries))
  {
    var s := StepAll(entries);
    assert forall i :: 0 <= i < |s| ==> s[i].key == entries[i].key;
  }

  /** The registry a tick leaves behind, key by key. */
  lemma TickFind<A>(entries: seq<Entry<A>>)
    requires UniqueKeys(entries)
    ensures var r := KeepLive(StepAll(entries));
      && UniqueKeys(r)
      && forall k :: Find(r, k) == AfterTick(Find(entries, k))
  {
    StepAllUnique(entries);
    KeepLiveUnique(StepAll(entries));
    forall k ensures Find(KeepLive(StepAll(entries)), k) == AfterTick(Find(entries, k)) {
      FindAfterTick(entries, k);
    }
  }

  /** Filtering a registry whose keys sit where `entries` has them keeps
      the order of `entries`. */
  lemma TickOrder<A>(entries: seq<Entry<A>>, s: seq<Entry<A>>)
    requires UniqueKeys(entries) && Keys(s) == Keys(entries)
    ensures var r := KeepLive(s);
      forall a, b :: 0 <= a < b < |r| ==> IndexOf(entries, r[a].key) < IndexOf(entries, r[b].key)
  {
    SameKeysUnique(entries, s);
    var r := KeepLive(s);
    forall a, b | 0 <= a < b < |r|
      ensures IndexOf(entries, r[a].key) < IndexOf(entries, r[b].key)
    {
      KeepLiveOrderedAt(s, a, b);
      IndexOfSameKeys(entries, s, r[a].key);
      IndexOfSameKeys(entries, s, r[b].key);
    }
  }

  lemma KeepLiveOrderedAt<A>(s: seq<Entry<A>>, a: nat, b: nat)
    requires UniqueKeys(s) && a < b < |KeepLive(s)|
    ensures IndexOf(s, KeepLive(s)[a].key) < IndexOf(s, KeepLive(s)[b].key)
  {
    KeepLiveOrdered(s);
  }

  lemma SameKeysUnique<A>(entries: seq<Entry<A>>, s: seq<Entry<A>>)
    requires UniqueKeys(entries) && Keys(s) == Keys(entries)
    ensures UniqueKeys(s)
  {
    assert forall i :: 0 <= i < |s| ==> s[i].key == Keys(s)[i] == entries[i].key;
  }

  /** Positions depend on the keys only. */
  lemma {:induction false} IndexOfSameKeys<A>(a: seq<Entry<A>>, b: seq<Entry<A>>, key: Key)
    requires Keys(a) == Keys(b)
    ensures IndexOf(a, key) == IndexOf(b, key)
  {
    if |a| > 0 {
      assert Keys(a[1..]) == Keys(a)[1..] && Keys(b[1..]) == Keys(b)[1..];
      assert a[0].key == Keys(a)[0] == b[0].key;
      IndexOfSameKeys(a[1..], b[1..], key);
    }
  }

  /** The actions a tick runs, stated key by key and in order. */
  lemma TickTrace<A>(entries: seq<Entry<A>>)
    requires UniqueKeys(entries)
    ensures var r := TraceFrom(entries, 0);
      && (forall k :: FiredFor(r, k) == DueActions(Find(entries, k)))
      && FiringsInOrder(entries, r)
      && forall f :: f in r ==> SeesOwnOffset(f)
  {
    forall k ensures FiredFor(TraceFrom(entries, 0), k) == DueActions(Find(entries, k)) {
      TraceFromFired(entries, 0, k);
      DueForFind(entries, k);
    }
    TraceFromOrdered(entries, 0);
    TraceFromOwnOffset(entries, 0);
  }

  /** `tick()`: the new queue and the actions it ran, in order.
      Every live task advances by one and stays only while it has
      sub-events left; cancelled and exhausted tasks leave without
      advancing; the survivors keep their registry order. The trace runs
      each task's due sub-events in queue order, task after task in
      registry order, and every action sees its own task at the offset it
      fired at. The loop stops once the registry is empty. */
  function Tick<A>(q: Queue<A>): (r: (Queue<A>, seq<Firing<A>>))
    ensures r.0.running <==> q.running && |r.0.entries| > 0
    ensures |r.0.entries| <= |q.entries|
    ensures forall f :: f in r.1 ==> FiredFrom(q.entries, 0, f)
    ensures UniqueKeys(q.entries) ==> UniqueKeys(r.0.entries)
    ensures UniqueKeys(q.entries) ==> forall k :: Find(r.0.entries, k) == AfterTick(Find(q.entries, k))
    ensures UniqueKeys(q.entries) ==> forall a, b :: 0 <= a < b < |r.0.entries| ==>
      IndexOf(q.entries, r.0.entries[a].key) < IndexOf(q.entries, r.0.entries[b].key)
    ensures UniqueKeys(q.entries) ==> forall k :: FiredFor(r.1, k) == DueActions(Find(q.entries, k))
    ensures UniqueKeys(q.entries) ==> FiringsInOrder(q.entries, r.1)
    ensures UniqueKeys(q.entries) ==> forall f :: f in r.1 ==> SeesOwnOffset(f)
  {
    var entries := KeepLive(StepAll(q.entries));
    var trace := TraceFrom(q.entries, 0);
    if UniqueKeys(q.entries) then
      TickFind(q.entries);
      TickOrder(q.entries, StepAll(q.entries));
      TickTrace(q.entries);
      (Queue(entries, q.running && |entries| > 0), trace)
    else
      (Queue(entries, q.running && |entries| > 0), trace)
  }
}

// The properties of ticking, stated over the module above.
module EventQueueProps {
  import opened Wrappers
  import opened EventQueue

  /** Popping is positional: whatever `Drain` takes is the longest due prefix. */
  lemma {:induction false} DrainUnique<A>(a: seq<SubEvent<A>>, b: seq<SubEvent<A>>, o: int)
    requires forall i :: 0 <= i < |a| ==> a[i].timestamp <= o
    requires |b| > 0 ==> b[0].timestamp > o
    ensures Drain(a + b, o) == (a, b)
  {
    if |a| > 0 {
      assert (a + b)[0] == a[0];
      assert (a + b)[1..] == a[1..] + b;
      DrainUnique(a[1..], b, o);
      assert a == [a[0]] + a[1..];
    } else {
      assert a + b == b;
    }
  }

  /** The number of sub-events due at `o`. */
  function Due<A>(p: seq<SubEvent<A>>, o: int): (d: nat)
    ensures d <= |p|
  {
    |Drain(p, o).0|
  }

  lemma DrainSplit<A>(p: seq<SubEvent<A>>, o: int)
    ensures Drain(p, o) == (p[..Due(p, o)], p[Due(p, o)..])
  {
    var d := Drain(p, o);
    assert p == d.0 + d.1;
  }

  /** Every sub-event in a prefix that is all due at `o` is drained at `o`. */
  lemma {:induction false} DueCovers<A>(p: seq<SubEvent<A>>, o: int, k: nat)
    requires k <= |p|
    requires forall i :: 0 <= i < k ==> p[i].timestamp <= o
    ensures Due(p, o) >= k
  {
    if k > 0 {
      DueCovers(p[1..], o, k - 1);
    }
  }

  /** Draining the rest of a partly drained queue takes up exactly the newly due part. */
  lemma DrainSuffix<A>(p: seq<SubEvent<A>>, d: nat, o: int)
    requires d <= Due(p, o)
    ensures Drain(p[d..], o) == (p[d..Due(p, o)], p[Due(p, o)..])
  {
    DrainSplit(p, o);
    var e := Due(p, o);
    assert p[d..] == p[d..e] + p[e..];
    DrainUnique(p[d..e], p[e..], o);
  }

  lemma DueMonotone<A>(p: seq<SubEvent<A>>, o: int, o': int)
    requires o <= o'
    ensures Due(p, o) <= Due(p, o')
  {
    DrainSplit(p, o);
    DueCovers(p, o', Due(p, o));
  }

  /** All of a task's sub-events are due exactly when its largest timestamp is. */
  function MaxTimestamp<A>(p: seq<SubEvent<A>>): (m: int)
    requires |p| > 0
    ensures forall i :: 0 <= i < |p| ==> p[i].timestamp <= m
    ensures exists i :: 0 <= i < |p| && p[i].timestamp == m
  {
    if |p| == 1 then p[0].timestamp
    else
      var m := MaxTimestamp(p[1..]);
      assert forall i :: 1 <= i < |p| ==> p[i] == p[1..][i - 1];
      if p[0].timestamp >= m then p[0].timestamp else m
  }

  lemma DueAll<A>(p: seq<SubEvent<A>>, o: int)
    requires |p| > 0
    ensures Due(p, o) == |p| <==> MaxTimestamp(p) <= o
  {
    DrainSplit(p, o);
    if MaxTimestamp(p) <= o {
      DueCovers(p, o, |p|);
    }
  }

  /** `n` ticks of one task in isolation: the task and every action fired. */
  function Run<A>(t: Task<A>, n: nat): (Task<A>, seq<SubEvent<A>>) {
    if n == 0 then (t, [])
    else
      var prev := Run(t, n - 1);
      var step := StepTask(prev.0);
      (step.0, prev.1 + step.1)
  }

  lemma StepLive<A>(t: Task<A>)
    requires Keep(t)
    ensures StepTask(t).0 == t.(offset := t.offset + 1, pending := Drain(t.pending, t.offset + 1).1)
    ensures StepTask(t).1 == Drain(t.pending, t.offset + 1).0
  {
  }

  /** One more tick of a task that still has `p[d..]` pending at offset `n - 1`. */
  lemma RunAdvance<A>(t: Task<A>, n: nat, p: seq<SubEvent<A>>, d: nat)
    requires n >= 1 && !t.cancelled && d < |p| && d <= Due(p, n)
    requires Run(t, n - 1).0 == t.(offset := n - 1, pending := p[d..])
    requires Run(t, n - 1).1 == p[..d]
    ensures Run(t, n).0 == t.(offset := n, pending := p[Due(p, n)..])
    ensures Run(t, n).1 == p[..Due(p, n)]
  {
    var prev := Run(t, n - 1);
    var e := Due(p, n);
    StepLive(prev.0);
    DrainSuffix(p, d, n);
    assert p[..d] + p[d..e] == p[..e];
  }

  /** Ticking a task with nothing pending changes nothing. */
  lemma RunExhausted<A>(t: Task<A>, n: nat)
    requires n >= 1 && |Run(t, n - 1).0.pending| == 0
    ensures Run(t, n) == Run(t, n - 1)
  {
    var prev := Run(t, n - 1);
    assert prev.1 + [] == prev.1;
  }

  /** After `n >= 1` ticks of a fresh task, exactly the sub-events due at `n`
      have fired, each once and in queue order, and the rest are pending;
      the offset counts the ticks while anything was pending. */
  lemma {:induction false} RunFresh<A>(t: Task<A>, n: nat)
    requires t.offset == 0 && !t.cancelled && |t.pending| > 0 && n >= 1
    ensures Run(t, n).1 == t.pending[..Due(t.pending, n)]
    ensures Run(t, n).0.pending == t.pending[Due(t.pending, n)..]
    ensures !Run(t, n).0.cancelled
    ensures (n == 1 || Due(t.pending, n - 1) < |t.pending|) ==> Run(t, n).0 == t.(offset := n, pending := Run(t, n).0.pending)
  {
    var p := t.pending;
    if n == 1 {
      assert Run(t, 0) == (t.(offset := 0, pending := p[0..]), p[..0]);
      RunAdvance(t, 1, p, 0);
    } else {
      RunFresh(t, n - 1);
      DueMonotone(p, n - 1, n);
      var d := Due(p, n - 1);
      if d < |p| {
        if n - 1 > 1 {
          DueMonotone(p, n - 2, n - 1);
        }
        RunAdvance(t, n, p, d);
      } else {
        RunExhausted(t, n);
      }
    }
  }

  /** A fresh task whose largest timestamp is `T` fires its last action on
      tick `max(T, 1)` and leaves the registry in that tick; before it, it is
      still registered with its last sub-event pending. Every sub-event fires
      exactly once, in order. */
  lemma TaskLifetime<A>(t: Task<A>)
    requires t.offset == 0 && !t.cancelled && |t.pending| > 0
    ensures var last := if MaxTimestamp(t.pending) > 1 then MaxTimestamp(t.pending) else 1;
      && Run(t, last).1 == t.pending
      && !Keep(Run(t, last).0)
      && Run(t, last).0.offset == last
      && forall n :: 1 <= n < last ==> Keep(Run(t, n).0)
  {
    var p := t.pending;
    var T := MaxTimestamp(p);
    var last := if T > 1 then T else 1;
    RunFresh(t, last);
    DueAll(p, last);
    if last > 1 {
      DueAll(p, last - 1);
    }
    forall n | 1 <= n < last
      ensures Keep(Run(t, n).0)
    {
      RunFresh(t, n);
      DueAll(p, n);
    }
  }

  // ------------------------------------------------------ ticks and cancels

  /** A tick drops every entry whose task is cancelled. */
  lemma CancelledDropped<A>(es: seq<Entry<A>>, key: Key)
    requires forall j :: 0 <= j < |es| && es[j].key == key ==> es[j].task.cancelled
    ensures key !in Keys(KeepLive(StepAll(es)))
  {
    var stepped := StepAll(es);
    forall j | 0 <= j < |stepped| && stepped[j].key == key
      ensures !Keep(stepped[j].task)
    {
      assert es[j].task.cancelled;
    }
    DeadDropped(stepped, key);
  }

  /** `KeepLive` keeps no entry of a key whose tasks are all dead. */
  lemma DeadDropped<A>(es: seq<Entry<A>>, key: Key)
    requires forall j :: 0 <= j < |es| && es[j].key == key ==> !Keep(es[j].task)
    ensures key !in Keys(KeepLive(es))
  {
  }

  /** After a cancel, the next tick removes the task without advancing it and
      fires nothing of it. */
  lemma CancelThenTick<A>(q: Queue<A>, key: Key, silently: bool)
    requires key in Keys(q.entries)
    ensures var q1 := CancelTask(q, key, silently).0;
      && key !in Keys(Tick(q1).0.entries)
      && forall f :: f in Tick(q1).1 ==> f.key != key
  {
    var es := SetCancelled(q.entries, key);
    assert CancelTask(q, key, silently).0 == Queue(es, q.running);
    CancelledDropped(es, key);
  }

  // --------------------------------------------------------------- scenarios

  /** Two sorted sequences with the same elements are equal: `Sort` is
      determined by its contract. */
  lemma {:induction false} SortedUnique(a: seq<int>, b: seq<int>)
    requires Sorted(a) && Sorted(b) && multiset(a) == multiset(b)
    ensures a == b
    decreases |a|
  {
    if |a| > 0 {
      assert |b| == |multiset(b)| == |multiset(a)| == |a|;
      assert a[0] in multiset(b) && b[0] in multiset(a);
      SortedHeadLeast(a, b[0]);
      SortedHeadLeast(b, a[0]);
      var h := a[0];
      assert b[0] == h;
      MultisetTail(a);
      MultisetTail(b);
      var ta, tb := a[1..], b[1..];
      assert multiset(ta) == multiset(tb);
      SortedUnique(ta, tb);
      ConsTail(a);
      ConsTail(b);
    } else {
      assert |b| == |multiset(b)| == 0;
    }
  }

  lemma ConsTail(a: seq<int>)
    requires |a| > 0
    ensures a == [a[0]] + a[1..]
  {
  }

  /** The head of a sorted sequence is its least element. */
  lemma SortedHeadLeast(a: seq<int>, x: int)
    requires Sorted(a) && x in a
    ensures a[0] <= x
  {
    var k :| 0 <= k < |a| && a[k] == x;
    if k > 0 {
      assert a[0] <= a[k];
    }
  }

  /** Dropping the head drops one copy of it from the multiset; the rest stays sorted. */
  lemma MultisetTail(a: seq<int>)
    requires |a| > 0
    ensures multiset(a[1..]) == multiset(a) - multiset{a[0]}
    ensures Sorted(a) ==> Sorted(a[1..])
  {
    ConsTail(a);
  }

  lemma SortOf(xs: seq<int>, sorted: seq<int>)
    requires Sorted(sorted) && multiset(xs) == multiset(sorted)
    ensures Sort(xs) == sorted
  {
    SortedUnique(Sort(xs), sorted);
  }

  lemma ScenarioSorted()
    ensures Sorted([0, 2, 4, 6, 8, 10])
  {
  }

  lemma ScenarioShuffled()
    ensures multiset([10, 4, 0, 8, 6, 2]) == multiset([0, 2, 4, 6, 8, 10])
  {
  }

  lemma SortScenario()
    ensures Sort([10, 4, 0, 8, 6, 2]) == [0, 2, 4, 6, 8, 10]
  {
    ScenarioSorted();
    ScenarioShuffled();
    SortOf([10, 4, 0, 8, 6, 2], [0, 2, 4, 6, 8, 10]);
  }

  lemma SortScenarioSorted()
    ensures Sort([0, 2, 4, 6, 8, 10]) == [0, 2, 4, 6, 8, 10]
  {
    ScenarioSorted();
    SortOf([0, 2, 4, 6, 8, 10], [0, 2, 4, 6, 8, 10]);
  }

  lemma SortedScenarioActions(hooks: Hooks<string>)
    requires hooks == Hooks(Some("start"), Some("success"), None, map[6 := "middle"])
    ensures Actions(BuildSubEvents([0, 2, 4, 6, 8, 10], "default", hooks))
         == ["start", "default", "default", "middle", "default", "success"]
  {
    var acts := Actions(BuildSubEvents([0, 2, 4, 6, 8, 10], "default", hooks));
    assert acts[0] == "start";
    assert acts[1] == "default";
    assert acts[2] == "default";
    assert acts[3] == "middle";
    assert acts[4] == "default";
    assert acts[5] == "success";
  }

  /** Timestamps 0, 2, ..., 10 with start, success and an override at 6 fire
      start, default, default, middle, default, success, whatever the order
      the timestamps are given in. */
  lemma StartMiddleSuccessOrder(hooks: Hooks<string>)
    requires hooks == Hooks(Some("start"), Some("success"), None, map[6 := "middle"])
    ensures Actions(BuildSubEvents(Sort([0, 2, 4, 6, 8, 10]), "default", hooks))
         == ["start", "default", "default", "middle", "default", "success"]
    ensures Actions(BuildSubEvents(Sort([10, 4, 0, 8, 6, 2]), "default", hooks))
         == ["start", "default", "default", "middle", "default", "success"]
  {
    SortScenario();
    SortScenarioSorted();
    SortedScenarioActions(hooks);
  }
}

=== FILE: how_much.dfy ===
/**
 * The "how much" command of `src/commands/how_much.py`: a daily percentage
 * per user, bucketed into one of the configured answer groups.
 */
module HowMuch {
  import opened Wrappers
  import Text

  /** One configured answer group: emojis and answers (entries may be None). */
  datatype Bucket = Bucket(emoji: seq<Option<string>>, answer: seq<Option<string>>)

  /** What the handler raises instead of replying. */
  datatype Error = ZeroDivision | EmptyChoice

  /** `(user_id + hash(today.toordinal())) % 101`; `h` is the hash, which for
      a small int is the int itself. Python's `%` by a positive divisor is
      never negative, as Dafny's. */
  function Percentage(userId: int, h: int): (p: int)
    ensures 0 <= p <= 100
    ensures (p - userId - h) % 101 == 0
  {
    (userId + h) % 101
  }

  /** `min(len - 1, pct // (100 // len))`: `100 // len` is zero for more
      than 100 groups and the second division then raises, as does the
      first for no groups at all. */
  function BucketIndex(count: nat, pct: int): (r: Result<nat, Error>)
    requires 0 <= pct <= 100
    ensures r.Err? <==> count == 0 || count > 100
    ensures r.Ok? ==> r.value < count
    ensures r.Ok? ==> r.value * (100 / count) <= pct || r.value == count - 1
  {
    if count == 0 || 100 / count == 0 then Err(ZeroDivision)
    else
      var q := pct / (100 / count);
      Ok(if count - 1 <= q then count - 1 else q)
  }

  /** A higher percentage never lands in an earlier group. */
  lemma BucketMonotone(count: nat, p: int, q: int)
    requires 0 <= p <= q <= 100 && 1 <= count <= 100
    ensures BucketIndex(count, p).value <= BucketIndex(count, q).value
  {
    var w := 100 / count;
    assert w > 0;
    DivMonotone(p, q, w);
  }

  lemma DivMonotone(p: int, q: int, w: int)
    requires 0 <= p <= q && w > 0
    ensures p / w <= q / w
  {
    var a, b := p / w, q / w;
    if a > b {
      MulLe(b + 1, a, w);
      assert false;
    }
  }

  /** Every group is reached by some percentage: the lowest percentage of
      group `k` is `k * (100 // len)`. */
  lemma EveryBucketReached(count: nat, k: nat)
    requires 1 <= count <= 100 && k < count
    ensures k * (100 / count) <= 100
    ensures BucketIndex(count, k * (100 / count)) == Ok(k)
  {
    var w := 100 / count;
    MulLe(k, count - 1, w);
    assert count * w <= 100;
    DivExact(k, w);
  }

  lemma DivExact(k: int, w: int)
    requires w > 0
    ensures (k * w) / w == k
  {
    var q := (k * w) / w;
    var r := (k * w) % w;
    assert k * w == q * w + r && 0 <= r < w;
    if q < k {
      MulLe(q + 1, k, w);
      assert false;
    } else if q > k {
      MulLe(k + 1, q, w);
      assert false;
    }
  }

  lemma MulLe(a: int, b: int, w: int)
    requires a <= b && w >= 0
    ensures a * w <= b * w
  {
    assert b * w - a * w == (b - a) * w;
  }

  /** `f"{x}"` for an entry that may be None. */
  function Show(x: Option<string>): string {
    match x
    case None => "None"
    case Some(s) => s
  }

  /** `_handle`: the reply text, with the two `random.choice` draws given
      as indices (`emojiPick`, `answerPick`, taken modulo the list length). */
  function Reply(source: seq<Bucket>, userId: int, h: int, emojiPick: nat, answerPick: nat): (r: Result<string, Error>)
    ensures r.Err? <==> (|source| == 0 || |source| > 100
                         || |source[BucketIndex(|source|, Percentage(userId, h)).value].emoji| == 0
                         || |source[BucketIndex(|source|, Percentage(userId, h)).value].answer| == 0)
    ensures r.Ok? ==>
      var b := source[BucketIndex(|source|, Percentage(userId, h)).value];
      exists i, j :: 0 <= i < |b.emoji| && 0 <= j < |b.answer| &&
        r.value == Show(b.emoji[i]) + "\n[" + Text.IntToString(Percentage(userId, h)) + "%] " + Show(b.answer[j])
  {
    var pct := Percentage(userId, h);
    match BucketIndex(|source|, pct)
    case Err(e) => Err(e)
    case Ok(idx) =>
      var b := source[idx];
      if |b.emoji| == 0 || |b.answer| == 0 then Err(EmptyChoice)
      else
        var i, j := emojiPick % |b.emoji|, answerPick % |b.answer|;
        Ok(Show(b.emoji[i]) + "\n[" + Text.IntToString(pct) + "%] " + Show(b.answer[j]))
  }
}

=== FILE: layout_maps.dfy ===
/**
 * The keyboard-layout tables of `src/commands/fuzzy_match/layout_maps.py`:
 * the Latin-to-Cyrillic key map, its inverse, their upper-case copies and
 * the merged map that swaps a character to the other layout.
 */
module LayoutMaps {

  /** `ENG_TO_RU` as written, in insertion order. */
  const EngToRuPairs: seq<(char, char)> := [
    ('q', 'й'), ('w', 'ц'), ('e', 'у'), ('r', 'к'), ('t', 'е'), ('y', 'н'),
    ('u', 'г'), ('i', 'ш'), ('o', 'щ'), ('p', 'з'), ('a', 'ф'), ('s', 'ы'),
    ('d', 'в'), ('f', 'а'), ('g', 'п'), ('h', 'р'), ('j', 'о'), ('k', 'л'),
    ('l', 'д'), ('z', 'я'), ('x', 'ч'), ('c', 'с'), ('v', 'м'), ('b', 'и'),
    ('n', 'т'), ('m', 'ь')]

  /** A dict built from key-value pairs: a later pair overrides an earlier one. */
  function Dict(ps: seq<(char, char)>): (m: map<char, char>)
    ensures forall i :: 0 <= i < |ps| ==> ps[i].0 in m
    ensures forall c :: c in m ==> exists i :: 0 <= i < |ps| && ps[i].0 == c
  {
    if |ps| == 0 then map[]
    else
      var m := Dict(ps[..|ps| - 1]);
      assert forall i :: 0 <= i < |ps| - 1 ==> ps[..|ps| - 1][i] == ps[i];
      m[ps[|ps| - 1].0 := ps[|ps| - 1].1]
  }

  /** `(v, k) for k, v in items`. */
  function Swap(ps: seq<(char, char)>): (r: seq<(char, char)>)
    ensures |r| == |ps|
    ensures forall i :: 0 <= i < |ps| ==> r[i] == (ps[i].1, ps[i].0)
  {
    seq(|ps|, i requires 0 <= i < |ps| => (ps[i].1, ps[i].0))
  }

  predicate LowerLatin(c: char) { 'a' <= c <= 'z' }
  predicate UpperLatin(c: char) { 'A' <= c <= 'Z' }
  predicate LowerCyrillic(c: char) { 'а' <= c <= 'я' }
  predicate UpperCyrillic(c: char) { 'А' <= c <= 'Я' }

  /** `str.upper` on the letters the tables use: both the Latin and the
      basic Cyrillic lower-case letters sit 32 code points above their
      capitals. */
  function Upper(c: char): (u: char)
    ensures LowerLatin(c) ==> UpperLatin(u)
    ensures LowerCyrillic(c) ==> UpperCyrillic(u)
  {
    if LowerLatin(c) || LowerCyrillic(c) then (c as int - 32) as char else c
  }

  /** `{k.upper(): v.upper() for k, v in items}` as pairs. */
  function UpperPairs(ps: seq<(char, char)>): (r: seq<(char, char)>)
    ensures |r| == |ps|
    ensures forall i :: 0 <= i < |ps| ==> r[i] == (Upper(ps[i].0), Upper(ps[i].1))
  {
    seq(|ps|, i requires 0 <= i < |ps| => (Upper(ps[i].0), Upper(ps[i].1)))
  }

  function EngToRu(): map<char, char> { Dict(EngToRuPairs) }

  /** `RU_TO_ENG`: built from the items of `ENG_TO_RU`, which are its
      pairs because no key repeats. */
  function RuToEng(): map<char, char> { Dict(Swap(EngToRuPairs)) }

  function EngToRuUpper(): map<char, char> { Dict(UpperPairs(EngToRuPairs)) }

  function RuToEngUpper(): map<char, char> { Dict(UpperPairs(Swap(EngToRuPairs))) }

  /** `LAYOUT_MAP = {**ENG_TO_RU, **ENG_TO_RU_UPPER, **RU_TO_ENG, **RU_TO_ENG_UPPER}`. */
  function LayoutMap(): map<char, char> {
    EngToRu() + EngToRuUpper() + RuToEng() + RuToEngUpper()
  }
}

/** The tables are bijections between the two alphabets and the merged map
    is its own inverse. */
module LayoutMapsProps {
  import opened LayoutMaps

  predicate DistinctKeys(ps: seq<(char, char)>) {
    forall i, j :: 0 <= i < j < |ps| ==> ps[i].0 != ps[j].0
  }

  predicate DistinctValues(ps: seq<(char, char)>) {
    forall i, j :: 0 <= i < j < |ps| ==> ps[i].1 != ps[j].1
  }

  /** With distinct keys every pair survives in the dict. */
  lemma {:induction false} DictAt(ps: seq<(char, char)>, i: nat)
    requires DistinctKeys(ps) && i < |ps|
    ensures Dict(ps)[ps[i].0] == ps[i].1
  {
    var n := |ps| - 1;
    if i < n {
      var pre := ps[..n];
      assert pre[i] == ps[i];
      assert DistinctKeys(pre) by {
        forall a, b | 0 <= a < b < |pre| ensures pre[a].0 != pre[b].0 {
          assert pre[a] == ps[a] && pre[b] == ps[b];
        }
      }
      DictAt(pre, i);
      assert ps[n].0 != ps[i].0;
    }
  }

  /** The table as written: 26 lower-case Latin keys, no key twice, and 26
      distinct lower-case Cyrillic values. */
  lemma EngToRuShape()
    ensures |EngToRuPairs| == 26
    ensures forall i :: 0 <= i < 26 ==> LowerLatin(EngToRuPairs[i].0) && LowerCyrillic(EngToRuPairs[i].1)
    ensures DistinctKeys(EngToRuPairs) && DistinctValues(EngToRuPairs)
  {
    KeysLatin();
    ValuesCyrillic();
    KeysDistinct();
    ValuesDistinct();
  }

  lemma KeysLatin()
    ensures forall i :: 0 <= i < 26 ==> LowerLatin(EngToRuPairs[i].0)
  {
  }

  lemma ValuesCyrillic()
    ensures forall i :: 0 <= i < 26 ==> LowerCyrillic(EngToRuPairs[i].1)
  {
  }

  lemma KeysDistinct()
    ensures DistinctKeys(EngToRuPairs)
  {
  }

  lemma ValuesDistinct()
    ensures DistinctValues(EngToRuPairs)
  {
  }

  lemma UpperInjective(a: char, b: char)
    requires (LowerLatin(a) || LowerCyrillic(a)) && (LowerLatin(b) || LowerCyrillic(b))
    requires Upper(a) == Upper(b)
    ensures a == b
  {
  }

  /** `ENG_TO_RU` maps the 26 Latin letters onto 26 distinct Cyrillic letters. */
  lemma EngToRuBijective()
    ensures forall c :: c in EngToRu() <==> LowerLatin(c)
    ensures forall c :: c in EngToRu() ==> LowerCyrillic(EngToRu()[c])
    ensures forall c, d :: c in EngToRu() && d in EngToRu() && c != d ==> EngToRu()[c] != EngToRu()[d]
  {
    EngToRuShape();
    var ps := EngToRuPairs;
    forall c | LowerLatin(c) ensures c in EngToRu() {
      LatinCovered(c);
    }
    forall c | c in EngToRu() ensures LowerCyrillic(EngToRu()[c]) {
      var i :| 0 <= i < |ps| && ps[i].0 == c;
      DictAt(ps, i);
    }
    forall c, d | c in EngToRu() && d in EngToRu() && c != d ensures EngToRu()[c] != EngToRu()[d] {
      var i :| 0 <= i < |ps| && ps[i].0 == c;
      var j :| 0 <= j < |ps| && ps[j].0 == d;
      DictAt(ps, i);
      DictAt(ps, j);
      assert i != j;
    }
  }

  /** Every Latin letter is a key: 26 distinct letters in `a..z` are all of them. */
  lemma LatinCovered(c: char)
    requires LowerLatin(c)
    ensures exists i :: 0 <= i < |EngToRuPairs| && EngToRuPairs[i].0 == c
  {
    var keys := "qwertyuiopasdfghjklzxcvbnm";
    assert forall i :: 0 <= i < 26 ==> EngToRuPairs[i].0 == keys[i];
    assert c in keys;
  }

  /** `RU_TO_ENG` undoes `ENG_TO_RU`, and the other way round. */
  lemma RuToEngInverse(c: char)
    ensures c in EngToRu() ==> EngToRu()[c] in RuToEng() && RuToEng()[EngToRu()[c]] == c
    ensures c in RuToEng() ==> RuToEng()[c] in EngToRu() && EngToRu()[RuToEng()[c]] == c
  {
    EngToRuShape();
    var ps := EngToRuPairs;
    var sw := Swap(ps);
    assert DistinctKeys(sw);
    if c in EngToRu() {
      var i :| 0 <= i < |ps| && ps[i].0 == c;
      DictAt(ps, i);
      DictAt(sw, i);
    }
    if c in RuToEng() {
      var i :| 0 <= i < |sw| && sw[i].0 == c;
      DictAt(ps, i);
      DictAt(sw, i);
    }
  }

  lemma {:induction false} UpperDictAt(ps: seq<(char, char)>, i: nat)
    requires DistinctKeys(ps) && i < |ps|
    requires forall k :: 0 <= k < |ps| ==> LowerLatin(ps[k].0) || LowerCyrillic(ps[k].0)
    ensures Dict(UpperPairs(ps))[Upper(ps[i].0)] == Upper(ps[i].1)
  {
    var up := UpperPairs(ps);
    assert DistinctKeys(up) by {
      forall a, b | 0 <= a < b < |up| ensures up[a].0 != up[b].0 {
        if up[a].0 == up[b].0 {
          UpperInjective(ps[a].0, ps[b].0);
        }
      }
    }
    DictAt(up, i);
  }

  /** The upper-case maps copy the lower-case ones letter for letter. */
  lemma UpperMirrors(c: char)
    ensures c in EngToRu() ==> Upper(c) in EngToRuUpper() && EngToRuUpper()[Upper(c)] == Upper(EngToRu()[c])
    ensures c in RuToEng() ==> Upper(c) in RuToEngUpper() && RuToEngUpper()[Upper(c)] == Upper(RuToEng()[c])
  {
    if c in EngToRu() {
      UpperMirrorsEng(c);
    }
    if c in RuToEng() {
      UpperMirrorsRu(c);
    }
  }

  lemma UpperMirrorsEng(c: char)
    requires c in EngToRu()
    ensures Upper(c) in EngToRuUpper() && EngToRuUpper()[Upper(c)] == Upper(EngToRu()[c])
  {
    KeysLatin();
    KeysDistinct();
    var ps := EngToRuPairs;
    var i :| 0 <= i < |ps| && ps[i].0 == c;
    DictAt(ps, i);
    UpperDictAt(ps, i);
    assert UpperPairs(ps)[i].0 == Upper(c);
  }

  lemma UpperMirrorsRu(c: char)
    requires c in RuToEng()
    ensures Upper(c) in RuToEngUpper() && RuToEngUpper()[Upper(c)] == Upper(RuToEng()[c])
  {
    ValuesCyrillic();
    ValuesDistinct();
    var sw := Swap(EngToRuPairs);
    assert DistinctKeys(sw);
    assert forall k :: 0 <= k < |sw| ==> LowerLatin(sw[k].0) || LowerCyrillic(sw[k].0);
    var i :| 0 <= i < |sw| && sw[i].0 == c;
    DictAt(sw, i);
    UpperDictAt(sw, i);
    assert UpperPairs(sw)[i].0 == Upper(c);
  }

  /** The key sets of the four maps lie in four disjoint alphabets. */
  lemma KeySets()
    ensures forall c :: c in EngToRu() ==> LowerLatin(c)
    ensures forall c :: c in EngToRuUpper() ==> UpperLatin(c)
    ensures forall c :: c in RuToEng() ==> LowerCyrillic(c)
    ensures forall c :: c in RuToEngUpper() ==> UpperCyrillic(c)
  {
    EngToRuShape();
    var ps := EngToRuPairs;
    forall c | c in EngToRuUpper() ensures UpperLatin(c) {
      var i :| 0 <= i < 26 && UpperPairs(ps)[i].0 == c;
    }
    forall c | c in RuToEng() ensures LowerCyrillic(c) {
      var i :| 0 <= i < 26 && Swap(ps)[i].0 == c;
    }
    forall c | c in RuToEngUpper() ensures UpperCyrillic(c) {
      var i :| 0 <= i < 26 && UpperPairs(Swap(ps))[i].0 == c;
      assert Swap(ps)[i].0 == ps[i].1;
    }
  }

  /** No merged key is overridden: each key of `LAYOUT_MAP` keeps the value
      of the one table that has it. */
  lemma MergeKeeps(c: char)
    ensures c in EngToRu() ==> LayoutMap()[c] == EngToRu()[c]
    ensures c in EngToRuUpper() ==> LayoutMap()[c] == EngToRuUpper()[c]
    ensures c in RuToEng() ==> LayoutMap()[c] == RuToEng()[c]
    ensures c in RuToEngUpper() ==> LayoutMap()[c] == RuToEngUpper()[c]
    ensures c in LayoutMap() <==> c in EngToRu() || c in EngToRuUpper() || c in RuToEng() || c in RuToEngUpper()
  {
    KeySets();
    var m1, m2, m3, m4 := EngToRu(), EngToRuUpper(), RuToEng(), RuToEngUpper();
    assert LayoutMap() == m1 + m2 + m3 + m4;
    if c in m1 {
      assert c !in m2 && c !in m3 && c !in m4;
    } else if c in m2 {
      assert c !in m3 && c !in m4;
    } else if c in m3 {
      assert c !in m4;
    }
  }

  /** Swapping the layout twice gives the character back. */
  lemma LayoutInvolution(c: char)
    requires c in LayoutMap()
    ensures LayoutMap()[c] in LayoutMap() && LayoutMap()[LayoutMap()[c]] == c
  {
    KeySets();
    MergeKeeps(c);
    if c in EngToRu() {
      RuToEngInverse(c);
      MergeKeeps(EngToRu()[c]);
    } else if c in RuToEng() {
      RuToEngInverse(c);
      MergeKeeps(RuToEng()[c]);
    } else if c in EngToRuUpper() {
      UpperKey(EngToRuPairs, c);
      var l :| l in EngToRu() && Upper(l) == c;
      UpperMirrors(l);
      RuToEngInverse(l);
      UpperMirrors(EngToRu()[l]);
      MergeKeeps(Upper(EngToRu()[l]));
    } else {
      UpperKey(Swap(EngToRuPairs), c);
      var l :| l in RuToEng() && Upper(l) == c;
      UpperMirrors(l);
      RuToEngInverse(l);
      UpperMirrors(RuToEng()[l]);
      MergeKeeps(Upper(RuToEng()[l]));
    }
  }

  /** An upper-case key comes from a lower-case key of the same table. */
  lemma UpperKey(ps: seq<(char, char)>, c: char)
    requires c in Dict(UpperPairs(ps))
    ensures exists l :: l in Dict(ps) && Upper(l) == c
  {
    var i :| 0 <= i < |ps| && UpperPairs(ps)[i].0 == c;
    assert ps[i].0 in Dict(ps);
  }
}

=== FILE: play.dfy ===
/**
 * Playable categories of `src/commands/play/play.py`: value tiers, the
 * win value, the validation run at construction, the tier lookup by
 * binary search and the mapping of a drawn index onto the tier ranges.
 */
module Play {
  import opened Wrappers

  type Lang = string

  /** `Pair[int, int]`: an inclusive range `x..y`. */
  datatype Pair = Pair(x: int, y: int)

  /** `Tier`: a value range and its phrases per language. */
  datatype Tier = Tier(range: Pair, phrases: map<Lang, seq<string>>)

  datatype WinType = Min | Max | Exact

  /** `WinValue`: its type, the value its callable yields (the callables
      built here are constants, so the cache changes nothing), and the goal
      templates per language. */
  datatype WinValue = WinValue(kind: WinType, value: int, goalTemplates: map<Lang, string>)

  /** `WinValue.get_goal_text`: the template, or "" for an unknown language. */
  function GoalText(w: WinValue, language: Lang): (r: string)
    ensures language in w.goalTemplates ==> r == w.goalTemplates[language]
    ensures language !in w.goalTemplates ==> r == ""
  {
    if language in w.goalTemplates then w.goalTemplates[language] else ""
  }

  /** The forms a win-value specification takes in a category definition:
      a string, a tuple (its first two items are read only when it has
      exactly two; `head` is None when the first is not a string), or
      anything else. */
  datatype WinSpec =
    | SpecText(text: string)
    | SpecTuple(size: nat, head: Option<string>, exact: int)
    | SpecOther

  /** `WinValue.create_from_schema`: "min" and "max" take the category's
      extremes, `("exact", v)` takes `v`; anything else is an error. */
  function FromSchema(spec: WinSpec, minRange: int, maxRange: int, goals: map<Lang, string>): (r: Result<WinValue, string>)
    ensures r.Ok? ==> r.value.goalTemplates == goals
    ensures r.Ok? && r.value.kind == Min ==> r.value.value == minRange
    ensures r.Ok? && r.value.kind == Max ==> r.value.value == maxRange
    ensures r.Ok? <==>
      || spec == SpecText("min") || spec == SpecText("max")
      || (spec.SpecTuple? && spec.size == 2 && spec.head == Some("exact"))
    ensures r.Ok? && spec.SpecTuple? ==> r.value == WinValue(Exact, spec.exact, goals)
  {
    match spec
    case SpecText(t) =>
      if t == "min" then Ok(WinValue(Min, minRange, goals))
      else if t == "max" then Ok(WinValue(Max, maxRange, goals))
      else Err("Invalid win_value string")
    case SpecTuple(size, head, exact) =>
      if size != 2 then Err("Tuple win_value must have 2 elements")
      else if head != Some("exact") then Err("Tuple win_value must be ('exact', value)")
      else Ok(WinValue(Exact, exact, goals))
    case SpecOther => Err("win_value must be str or tuple")
  }

  datatype CategoryLocale = CategoryLocale(name: map<Lang, string>, units: map<Lang, string>)

  /** A constructed `PlayableCategory`, with the fields its constructor derives. */
  datatype Category = Category(
    name: string,
    tiers: seq<Tier>,
    win: WinValue,
    locale: CategoryLocale,
    continuous: bool,
    minRange: int,
    maxRange: int,
    total: int)

  /** What the constructor complains about, in the order it complains. */
  datatype CategoryError =
    | NoTiers
    | InvalidRange(index: nat, range: Pair)
    | Overlap(index: nat, current: Pair, next: Pair)
    | Gap(index: nat, current: Pair, next: Pair)
    | NameMissing(language: Lang)
    | UnitsMissing(language: Lang)
    | TierLanguageMissing(tier: nat, language: Lang)
    | TierNoPhrases(tier: nat, language: Lang)
    | GoalMissing(language: Lang)
    | GoalEmpty(language: Lang)
    | WinValueOutside(value: int)

  // --------------------------------------------------------------- ranges

  predicate SortedByStart(ts: seq<Tier>) {
    forall i, j :: 0 <= i < j < |ts| ==> ts[i].range.x <= ts[j].range.x
  }

  /** Insert before the first tier that starts at or after `t`. */
  function InsertByStart(t: Tier, ts: seq<Tier>): (r: seq<Tier>)
    requires SortedByStart(ts)
    ensures SortedByStart(r)
    ensures multiset(r) == multiset(ts) + multiset{t}
    ensures |r| == |ts| + 1
    ensures r[0] == t || (|ts| > 0 && r[0] == ts[0])
  {
    if |ts| == 0 || t.range.x <= ts[0].range.x then [t] + ts
    else
      var rest := InsertByStart(t, ts[1..]);
      assert ts == [ts[0]] + ts[1..];
      assert ts[0].range.x <= rest[0].range.x;
      [ts[0]] + rest
  }

  /** `sorted(tiers, key=lambda tier: tier.value_range.x)`. */
  function SortByStart(ts: seq<Tier>): (r: seq<Tier>)
    ensures SortedByStart(r)
    ensures multiset(r) == multiset(ts)
    ensures |r| == |ts|
  {
    if |ts| == 0 then []
    else
      assert ts == [ts[0]] + ts[1..];
      InsertByStart(ts[0], SortByStart(ts[1..]))
  }

  /** The tiers starting at `x`, in their order. */
  function WithStart(ts: seq<Tier>, x: int): seq<Tier>
  {
    if |ts| == 0 then [] else (if ts[0].range.x == x then [ts[0]] else []) + WithStart(ts[1..], x)
  }

  lemma {:induction false} WithStartConcat(a: seq<Tier>, b: seq<Tier>, x: int)
    ensures WithStart(a + b, x) == WithStart(a, x) + WithStart(b, x)
  {
    if |a| > 0 {
      assert (a + b)[1..] == a[1..] + b;
      WithStartConcat(a[1..], b, x);
    } else {
      assert a + b == b;
    }
  }

  /** Inserting `t` puts it ahead of every tier with the same start. */
  lemma {:induction false} InsertByStartStable(t: Tier, ts: seq<Tier>, x: int)
    requires SortedByStart(ts)
    ensures WithStart(InsertByStart(t, ts), x) == WithStart([t] + ts, x)
  {
    if |ts| > 0 && t.range.x > ts[0].range.x {
      var rest := InsertByStart(t, ts[1..]);
      assert ([ts[0]] + rest)[1..] == rest;
      assert ([t] + ts)[1..] == ts;
      assert ([t] + ts[1..])[1..] == ts[1..];
      InsertByStartStable(t, ts[1..], x);
    }
  }

  /** `sorted` is stable: the tiers sharing a start keep their order. */
  lemma {:induction false} SortByStartStable(ts: seq<Tier>, x: int)
    ensures WithStart(SortByStart(ts), x) == WithStart(ts, x)
  {
    if |ts| > 0 {
      assert ts == [ts[0]] + ts[1..];
      SortByStartStable(ts[1..], x);
      InsertByStartStable(ts[0], SortByStart(ts[1..]), x);
      assert ([ts[0]] + SortByStart(ts[1..]))[1..] == SortByStart(ts[1..]);
    }
  }

  /** The position of the first tier starting at `x`. */
  function FirstWithStart(ts: seq<Tier>, x: int): (i: nat)
    requires exists j :: 0 <= j < |ts| && ts[j].range.x == x
    ensures i < |ts| && ts[i].range.x == x
    ensures forall j :: 0 <= j < i ==> ts[j].range.x != x
  {
    if ts[0].range.x == x then 0
    else
      assert forall j :: 1 <= j < |ts| ==> ts[j] == ts[1..][j - 1];
      1 + FirstWithStart(ts[1..], x)
  }

  /** The position of the last tier starting at `x`. */
  function LastWithStart(ts: seq<Tier>, x: int): (i: nat)
    requires exists j :: 0 <= j < |ts| && ts[j].range.x == x
    ensures i < |ts| && ts[i].range.x == x
    ensures forall j :: i < j < |ts| ==> ts[j].range.x != x
  {
    var n := |ts| - 1;
    if ts[n].range.x == x then n
    else
      assert forall j :: 0 <= j < n ==> ts[j] == ts[..n][j];
      LastWithStart(ts[..n], x)
  }

  /** The tiers starting at `x` begin with the first such tier. */
  lemma {:induction false} WithStartFirst(ts: seq<Tier>, x: int)
    requires exists j :: 0 <= j < |ts| && ts[j].range.x == x
    ensures |WithStart(ts, x)| > 0 && WithStart(ts, x)[0] == ts[FirstWithStart(ts, x)]
  {
    var f := FirstWithStart(ts, x);
    var before, from := ts[..f], ts[f..];
    WithStartNone(before, x);
    assert ts == before + from;
    WithStartConcat(before, from, x);
    assert from[0] == ts[f];
  }

  /** The tiers starting at `x` end with the last such tier. */
  lemma {:induction false} WithStartLast(ts: seq<Tier>, x: int)
    requires exists j :: 0 <= j < |ts| && ts[j].range.x == x
    ensures |WithStart(ts, x)| > 0 && WithStart(ts, x)[|WithStart(ts, x)| - 1] == ts[LastWithStart(ts, x)]
  {
    var l := LastWithStart(ts, x);
    var upTo, after := ts[..l + 1], ts[l + 1..];
    WithStartNone(after, x);
    assert ts == upTo + after;
    WithStartConcat(upTo, after, x);
    assert upTo == upTo[..l] + [ts[l]];
    WithStartConcat(upTo[..l], [ts[l]], x);
    assert [ts[l]][1..] == [];
    assert WithStart([ts[l]], x) == [ts[l]];
  }

  lemma {:induction false} WithStartSome(ts: seq<Tier>, x: int)
    requires |WithStart(ts, x)| > 0
    ensures exists j :: 0 <= j < |ts| && ts[j].range.x == x
  {
    if ts[0].range.x != x {
      WithStartSome(ts[1..], x);
      var j :| 0 <= j < |ts[1..]| && ts[1..][j].range.x == x;
      assert ts[j + 1] == ts[1..][j];
    }
  }

  lemma {:induction false} WithStartNone(ts: seq<Tier>, x: int)
    requires forall j :: 0 <= j < |ts| ==> ts[j].range.x != x
    ensures WithStart(ts, x) == []
  {
    if |ts| > 0 {
      WithStartNone(ts[1..], x);
    }
  }

  /** When `a` keeps the tiers starting at `x` that `b` has, in the same
      order, and `a` begins with one, it begins with the first of them in `b`. */
  lemma SameStartFirst(a: seq<Tier>, b: seq<Tier>)
    requires |a| > 0 && WithStart(a, a[0].range.x) == WithStart(b, a[0].range.x)
    ensures exists j :: 0 <= j < |b| && b[j].range.x == a[0].range.x
    ensures a[0] == b[FirstWithStart(b, a[0].range.x)]
  {
    var x := a[0].range.x;
    WithStartFirst(a, x);
    assert FirstWithStart(a, x) == 0;
    WithStartSome(b, x);
    WithStartFirst(b, x);
  }

  /** Likewise a sequence that ends with a tier starting at `x` ends with the
      last of them in `b`. */
  lemma SameStartLast(a: seq<Tier>, b: seq<Tier>)
    requires |a| > 0 && WithStart(a, a[|a| - 1].range.x) == WithStart(b, a[|a| - 1].range.x)
    ensures exists j :: 0 <= j < |b| && b[j].range.x == a[|a| - 1].range.x
    ensures a[|a| - 1] == b[LastWithStart(b, a[|a| - 1].range.x)]
  {
    var x := a[|a| - 1].range.x;
    WithStartLast(a, x);
    assert LastWithStart(a, x) == |a| - 1;
    WithStartSome(b, x);
    WithStartLast(b, x);
  }

  /** The number of values in a range. */
  function Size(p: Pair): int { p.y - p.x + 1 }

  /** `_total_values_count`. */
  function Total(ts: seq<Tier>): int
  {
    if |ts| == 0 then 0 else Size(ts[0].range) + Total(ts[1..])
  }

  function MinStart(ts: seq<Tier>): (m: int)
    requires |ts| > 0
    ensures forall i :: 0 <= i < |ts| ==> m <= ts[i].range.x
    ensures exists i :: 0 <= i < |ts| && m == ts[i].range.x
  {
    if |ts| == 1 then ts[0].range.x
    else
      var rest := MinStart(ts[1..]);
      assert forall i :: 1 <= i < |ts| ==> ts[i] == ts[1..][i - 1];
      if ts[0].range.x <= rest then ts[0].range.x else rest
  }

  function MaxEnd(ts: seq<Tier>): (m: int)
    requires |ts| > 0
    ensures forall i :: 0 <= i < |ts| ==> ts[i].range.y <= m
    ensures exists i :: 0 <= i < |ts| && m == ts[i].range.y
  {
    if |ts| == 1 then ts[0].range.y
    else
      var rest := MaxEnd(ts[1..]);
      assert forall i :: 1 <= i < |ts| ==> ts[i] == ts[1..][i - 1];
      if ts[0].range.y >= rest then ts[0].range.y else rest
  }

  /** The first tier whose range is inverted, if any. */
  function FirstInverted(ts: seq<Tier>, from: nat): (r: Option<nat>)
    requires from <= |ts|
    ensures r.Some? ==> from <= r.value < |ts| && ts[r.value].range.x > ts[r.value].range.y
    ensures r.Some? ==> forall i :: from <= i < r.value ==> ts[i].range.x <= ts[i].range.y
    ensures r.None? ==> forall i :: from <= i < |ts| ==> ts[i].range.x <= ts[i].range.y
    decreases |ts| - from
  {
    if from == |ts| then None
    else if ts[from].range.x > ts[from].range.y then Some(from)
    else FirstInverted(ts, from + 1)
  }

  /** Tiers `i` and `i + 1` neither overlap nor, when continuous, leave a gap. */
  predicate PairOk(ts: seq<Tier>, continuous: bool, i: nat)
    requires i + 1 < |ts|
  {
    ts[i].range.y < ts[i + 1].range.x && (continuous ==> ts[i].range.y + 1 == ts[i + 1].range.x)
  }

  /** The complaint about tiers `i` and `i + 1`, if any. */
  function PairError(ts: seq<Tier>, continuous: bool, i: nat): (e: seq<CategoryError>)
    requires i + 1 < |ts|
    ensures |e| <= 1
    ensures e == [] <==> PairOk(ts, continuous, i)
  {
    var cur := ts[i].range;
    var next := ts[i + 1].range;
    if cur.y >= next.x then [Overlap(i, cur, next)]
    else if continuous && cur.y + 1 != next.x then [Gap(i, cur, next)]
    else []
  }

  /** `_validate_all_ranges` from pair `i` on. */
  function RangeErrors(ts: seq<Tier>, continuous: bool, i: nat): seq<CategoryError>
    requires i <= |ts|
    decreases |ts| - i
  {
    if i + 1 >= |ts| then [] else PairError(ts, continuous, i) + RangeErrors(ts, continuous, i + 1)
  }

  /** Neighbouring tiers do not overlap and, when continuous, leave no gap. */
  predicate Adjacent(ts: seq<Tier>, continuous: bool) {
    forall i: nat :: i + 1 < |ts| ==> PairOk(ts, continuous, i)
  }

  // -------------------------------------------------------------- locales

  /** Tier `i` has a non-empty phrase list in the required language. */
  predicate TierOk(ts: seq<Tier>, required: Lang, i: nat)
    requires i < |ts|
  {
    required in ts[i].phrases && |ts[i].phrases[required]| > 0
  }

  /** The complaint about tier `i` (numbered from 1 in the message), if any. */
  function TierError(ts: seq<Tier>, required: Lang, i: nat): (e: seq<CategoryError>)
    requires i < |ts|
    ensures |e| <= 1
    ensures e == [] <==> TierOk(ts, required, i)
  {
    if required !in ts[i].phrases then [TierLanguageMissing(i + 1, required)]
    else if |ts[i].phrases[required]| == 0 then [TierNoPhrases(i + 1, required)]
    else []
  }

  /** `_validate_locales` for the tiers from `i` on. */
  function TierLocaleErrors(ts: seq<Tier>, required: Lang, i: nat): seq<CategoryError>
    requires i <= |ts|
    decreases |ts| - i
  {
    if i == |ts| then [] else TierError(ts, required, i) + TierLocaleErrors(ts, required, i + 1)
  }

  function LocaleErrors(ts: seq<Tier>, locale: CategoryLocale, win: WinValue, required: Lang): seq<CategoryError>
  {
    (if required !in locale.name then [NameMissing(required)] else [])
    + (if required !in locale.units then [UnitsMissing(required)] else [])
    + TierLocaleErrors(ts, required, 0)
    + (if required !in win.goalTemplates then [GoalMissing(required)]
       else if win.goalTemplates[required] == "" then [GoalEmpty(required)]
       else [])
  }

  lemma LocaleErrorsEmpty(ts: seq<Tier>, locale: CategoryLocale, win: WinValue, required: Lang)
    ensures LocaleErrors(ts, locale, win, required) == [] <==>
      && required in locale.name && required in locale.units
      && TierLocaleErrors(ts, required, 0) == []
      && required in win.goalTemplates && win.goalTemplates[required] != ""
  {
  }

  /** Some tier's range holds `v`. */
  predicate InSomeTier(ts: seq<Tier>, v: int) {
    exists i :: 0 <= i < |ts| && ts[i].range.x <= v <= ts[i].range.y
  }

  /** `_validate_win_value`: only an exact value is range-checked. */
  function WinErrors(ts: seq<Tier>, win: WinValue): seq<CategoryError>
  {
    if win.kind == Exact && !InSomeTier(ts, win.value) then [WinValueOutside(win.value)] else []
  }

  // -------------------------------------------------------------- creation

  /** Every range is non-empty (`x <= y`). */
  predicate NonEmptyRanges(ts: seq<Tier>) {
    forall i :: 0 <= i < |ts| ==> ts[i].range.x <= ts[i].range.y
  }

  /** Every check `__post_init__` makes passes on the sorted tiers. */
  predicate Acceptable(sorted: seq<Tier>, win: WinValue, locale: CategoryLocale, continuous: bool, required: Lang) {
    && Adjacent(sorted, continuous)
    && required in locale.name && required in locale.units
    && (forall i: nat :: i < |sorted| ==> TierOk(sorted, required, i))
    && required in win.goalTemplates && win.goalTemplates[required] != ""
    && (win.kind == Exact ==> InSomeTier(sorted, win.value))
  }

  /** The complaints of `__post_init__`, in order: ranges, locales, win value. */
  function Complaints(sorted: seq<Tier>, win: WinValue, locale: CategoryLocale, continuous: bool, required: Lang): seq<CategoryError>
  {
    RangeErrors(sorted, continuous, 0) + LocaleErrors(sorted, locale, win, required) + WinErrors(sorted, win)
  }

  /** What every constructed category satisfies. */
  predicate ValidCategory(c: Category, required: Lang) {
    && |c.tiers| > 0
    && NonEmptyRanges(c.tiers)
    && SortedByStart(c.tiers)
    && c.minRange == MinStart(c.tiers)
    && c.maxRange == MaxEnd(c.tiers)
    && c.total == Total(c.tiers)
    && Acceptable(c.tiers, c.win, c.locale, c.continuous, required)
  }

  /** `PlayableCategory(...)` with its `__post_init__`: no tiers or an
      inverted range raise at once; otherwise the tiers are sorted, the
      extremes and the total derived, and every range, locale and win-value
      complaint collected into one error. `required` is the configured
      language. */
  function NewCategory(name: string, tiers: seq<Tier>, win: WinValue, locale: CategoryLocale, continuous: bool, required: Lang)
    : (r: Result<Category, seq<CategoryError>>)
    ensures |tiers| == 0 ==> r == Err([NoTiers])
    ensures r.Err? ==> |r.error| > 0
    ensures r.Ok? ==> |tiers| > 0 && NonEmptyRanges(tiers)
    ensures r.Ok? ==> r.value.tiers == SortByStart(tiers) && r.value.win == win && r.value.name == name
    ensures r.Ok? ==> r.value.locale == locale && r.value.continuous == continuous
  {
    if |tiers| == 0 then Err([NoTiers])
    else
      match FirstInverted(tiers, 0)
      case Some(i) => Err([InvalidRange(i, tiers[i].range)])
      case None =>
        var sorted := SortByStart(tiers);
        var errors := Complaints(sorted, win, locale, continuous, required);
        if |errors| > 0 then Err(errors)
        else Ok(Category(name, sorted, win, locale, continuous, MinStart(sorted), MaxEnd(sorted), Total(sorted)))
  }

  lemma {:induction false} RangeErrorsEmpty(ts: seq<Tier>, continuous: bool, i: nat)
    requires i <= |ts|
    ensures RangeErrors(ts, continuous, i) == [] <==> forall k: nat :: i <= k && k + 1 < |ts| ==> PairOk(ts, continuous, k)
    decreases |ts| - i
  {
    if i + 1 < |ts| {
      RangeErrorsEmpty(ts, continuous, i + 1);
      var e := PairError(ts, continuous, i);
      var rest := RangeErrors(ts, continuous, i + 1);
      assert RangeErrors(ts, continuous, i) == e + rest;
      assert e + rest == [] <==> e == [] && rest == [];
    }
  }

  lemma {:induction false} TierLocaleErrorsEmpty(ts: seq<Tier>, required: Lang, i: nat)
    requires i <= |ts|
    ensures TierLocaleErrors(ts, required, i) == [] <==> forall k: nat :: i <= k < |ts| ==> TierOk(ts, required, k)
    decreases |ts| - i
  {
    if i < |ts| {
      TierLocaleErrorsEmpty(ts, required, i + 1);
      var e := TierError(ts, required, i);
      var rest := TierLocaleErrors(ts, required, i + 1);
      assert TierLocaleErrors(ts, required, i) == e + rest;
      assert e + rest == [] <==> e == [] && rest == [];
    }
  }

  // --------------------------------------------------------------- lookup

  /** `get_tier_for_value`: outside `[minRange, maxRange]` nothing; inside,
      a binary search over the sorted tiers. Any tier returned holds the
      value; for a valid category a value in no tier gives nothing. */
  method TierForValue(c: Category, value: int) returns (r: Option<Tier>)
    ensures r.Some? ==> r.value in c.tiers && r.value.range.x <= value <= r.value.range.y
    ensures r.Some? ==> c.minRange <= value <= c.maxRange
    ensures SortedByStart(c.tiers) && Adjacent(c.tiers, c.continuous) && NonEmptyRanges(c.tiers)
            && c.minRange <= value <= c.maxRange
            ==> (r.Some? <==> InSomeTier(c.tiers, value))
  {
    if |c.tiers| == 0 {
      return None;
    }
    if value < c.minRange || value > c.maxRange {
      return None;
    }
    var ts := c.tiers;
    ghost var ordered := SortedByStart(ts) && Adjacent(ts, c.continuous) && NonEmptyRanges(ts);
    if ordered {
      AdjacentOrdered(ts, c.continuous);
    }
    var left, right := 0, |ts| - 1;
    while left <= right
      invariant 0 <= left <= |ts| && -1 <= right < |ts|
      invariant ordered ==> forall i :: 0 <= i < |ts| && ts[i].range.x <= value <= ts[i].range.y ==> left <= i <= right
      decreases right - left
    {
      var mid := (left + right) / 2;
      var t := ts[mid];
      if t.range.x <= value <= t.range.y {
        return Some(t);
      } else if value < t.range.x {
        right := mid - 1;
      } else {
        left := mid + 1;
      }
    }
    return None;
  }

  /** In ordered tiers, a later tier starts after every earlier one ends. */
  lemma {:induction false} AdjacentOrdered(ts: seq<Tier>, continuous: bool)
    requires Adjacent(ts, continuous) && NonEmptyRanges(ts)
    ensures forall i, j :: 0 <= i < j < |ts| ==> ts[i].range.y < ts[j].range.x
  {
    forall i, j | 0 <= i < j < |ts| ensures ts[i].range.y < ts[j].range.x {
      var k := i;
      assert PairOk(ts, continuous, i);
      while k + 1 < j
        invariant i <= k < j
        invariant ts[i].range.y < ts[k + 1].range.x
      {
        k := k + 1;
        assert PairOk(ts, continuous, k);
      }
    }
  }

  // ------------------------------------------------------------ drawing

  /** `get_random_value` after the index is drawn: walk the tiers, taking
      the `i`-th value of their concatenated ranges (the smallest start when
      `i` runs off the end). */
  function ValueAt(ts: seq<Tier>, i: int, fallback: int): int
  {
    if |ts| == 0 then fallback
    else if i < Size(ts[0].range) then ts[0].range.x + i
    else ValueAt(ts[1..], i - Size(ts[0].range), fallback)
  }

  /** The inverse: the position of a value among the concatenated ranges. */
  function IndexOf(ts: seq<Tier>, v: int): int
    requires InSomeTier(ts, v)
  {
    if ts[0].range.x <= v <= ts[0].range.y then v - ts[0].range.x
    else
      assert InSomeTier(ts[1..], v) by {
        var k :| 0 <= k < |ts| && ts[k].range.x <= v <= ts[k].range.y;
        assert ts[1..][k - 1] == ts[k];
      }
      Size(ts[0].range) + IndexOf(ts[1..], v)
  }

  /** `get_random_value(seed)` with the drawn index `i`, as `randint(0, total - 1)` gives. */
  function RandomValue(c: Category, i: int): int
    requires 0 <= i < c.total
  {
    ValueAt(c.tiers, i, c.minRange)
  }
}

/** Properties of the tier lookup and of the index-to-value mapping. */
module PlayProps {
  import opened Wrappers
  import opened Play

  lemma TotalPositive(ts: seq<Tier>)
    requires NonEmptyRanges(ts)
    ensures Total(ts) >= |ts|
  {
    if |ts| > 0 {
      TotalPositive(ts[1..]);
    }
  }

  /** Every drawn index lands in some tier. */
  lemma {:induction false} ValueAtInTier(ts: seq<Tier>, i: int, fallback: int)
    requires NonEmptyRanges(ts) && 0 <= i < Total(ts)
    ensures InSomeTier(ts, ValueAt(ts, i, fallback))
  {
    if i >= Size(ts[0].range) {
      ValueAtInTier(ts[1..], i - Size(ts[0].range), fallback);
      var k :| 0 <= k < |ts[1..]| && ts[1..][k].range.x <= ValueAt(ts[1..], i - Size(ts[0].range), fallback) <= ts[1..][k].range.y;
      assert ts[k + 1] == ts[1..][k];
    }
  }

  /** The position of a value is a valid draw, and drawing it gives the
      value back. */
  lemma {:induction false} ValueAtIndexOf(ts: seq<Tier>, v: int, fallback: int)
    requires NonEmptyRanges(ts) && InSomeTier(ts, v)
    ensures 0 <= IndexOf(ts, v) < Total(ts)
    ensures ValueAt(ts, IndexOf(ts, v), fallback) == v
  {
    var rest := ts[1..];
    assert Total(ts) == Size(ts[0].range) + Total(rest);
    assert NonEmptyRanges(rest) by {
      forall i | 0 <= i < |rest| ensures rest[i].range.x <= rest[i].range.y {
        assert rest[i] == ts[i + 1];
      }
    }
    if !(ts[0].range.x <= v <= ts[0].range.y) {
      var k :| 0 <= k < |ts| && ts[k].range.x <= v <= ts[k].range.y;
      assert rest[k - 1] == ts[k];
      ValueAtIndexOf(rest, v, fallback);
      assert IndexOf(ts, v) == Size(ts[0].range) + IndexOf(rest, v);
      assert ts[0].range.x <= ts[0].range.y;
    } else {
      TotalPositive(rest);
    }
  }

  /** For ordered tiers reading an index and looking the value up gives the
      index back; so distinct indices give distinct values. */
  lemma {:induction false} IndexOfValueAt(ts: seq<Tier>, continuous: bool, i: int, fallback: int)
    requires NonEmptyRanges(ts) && Adjacent(ts, continuous) && 0 <= i < Total(ts)
    ensures InSomeTier(ts, ValueAt(ts, i, fallback))
    ensures IndexOf(ts, ValueAt(ts, i, fallback)) == i
  {
    ValueAtInTier(ts, i, fallback);
    if i >= Size(ts[0].range) {
      var rest := ts[1..];
      var j := i - Size(ts[0].range);
      assert Adjacent(rest, continuous) by {
        forall k: nat | k + 1 < |rest| ensures PairOk(rest, continuous, k) {
          assert rest[k] == ts[k + 1] && rest[k + 1] == ts[k + 2];
          assert PairOk(ts, continuous, k + 1);
        }
      }
      IndexOfValueAt(rest, continuous, j, fallback);
      ValueAtInTier(rest, j, fallback);
      var v := ValueAt(rest, j, fallback);
      var k :| 0 <= k < |rest| && rest[k].range.x <= v <= rest[k].range.y;
      AdjacentOrdered(ts, continuous);
      assert ts[k + 1] == rest[k];
      assert !(ts[0].range.x <= v <= ts[0].range.y);
    }
  }

  /** Distinct draws give distinct values. */
  lemma DrawInjective(c: Category, required: Lang, i: int, j: int)
    requires ValidCategory(c, required) && 0 <= i < c.total && 0 <= j < c.total && i != j
    ensures RandomValue(c, i) != RandomValue(c, j)
  {
    IndexOfValueAt(c.tiers, c.continuous, i, c.minRange);
    IndexOfValueAt(c.tiers, c.continuous, j, c.minRange);
  }

  /** Every draw is a value of some tier of the category. */
  lemma DrawInTier(c: Category, required: Lang, i: int)
    requires ValidCategory(c, required) && 0 <= i < c.total
    ensures InSomeTier(c.tiers, RandomValue(c, i))
    ensures c.minRange <= RandomValue(c, i) <= c.maxRange
  {
    ValueAtInTier(c.tiers, i, c.minRange);
  }

  /** Every value of every tier is drawn by exactly the index `IndexOf` gives. */
  lemma DrawCovers(c: Category, required: Lang, v: int)
    requires ValidCategory(c, required) && InSomeTier(c.tiers, v)
    ensures 0 <= IndexOf(c.tiers, v) < c.total
    ensures RandomValue(c, IndexOf(c.tiers, v)) == v
  {
    ValueAtIndexOf(c.tiers, v, c.minRange);
  }

  /** No complaint is raised exactly when every check passes. */
  lemma ComplaintsEmpty(sorted: seq<Tier>, win: WinValue, locale: CategoryLocale, continuous: bool, required: Lang)
    ensures Complaints(sorted, win, locale, continuous, required) == [] <==> Acceptable(sorted, win, locale, continuous, required)
  {
    var ranges := RangeErrors(sorted, continuous, 0);
    var locales := LocaleErrors(sorted, locale, win, required);
    var wins := WinErrors(sorted, win);
    RangeErrorsEmpty(sorted, continuous, 0);
    TierLocaleErrorsEmpty(sorted, required, 0);
    LocaleErrorsEmpty(sorted, locale, win, required);
    assert ranges + locales + wins == [] <==> ranges == [] && locales == [] && wins == [];
  }

  /** Construction succeeds exactly when there are tiers, none inverted, and
      every check passes on them once sorted. */
  lemma CreateAccepts(name: string, tiers: seq<Tier>, win: WinValue, locale: CategoryLocale, continuous: bool, required: Lang)
    ensures NewCategory(name, tiers, win, locale, continuous, required).Ok? <==>
      |tiers| > 0 && NonEmptyRanges(tiers) && Acceptable(SortByStart(tiers), win, locale, continuous, required)
  {
    if |tiers| > 0 {
      ComplaintsEmpty(SortByStart(tiers), win, locale, continuous, required);
    }
  }

  /** A constructed category is valid and holds the tiers it was given. */
  lemma CreateValid(name: string, tiers: seq<Tier>, win: WinValue, locale: CategoryLocale, continuous: bool, required: Lang, c: Category)
    requires NewCategory(name, tiers, win, locale, continuous, required) == Ok(c)
    ensures ValidCategory(c, required)
    ensures multiset(c.tiers) == multiset(tiers)
  {
    CreateAccepts(name, tiers, win, locale, continuous, required);
    var sorted := SortByStart(tiers);
    assert FirstInverted(tiers, 0).None?;
    assert c == Category(name, sorted, win, locale, continuous, MinStart(sorted), MaxEnd(sorted), Total(sorted));
    assert NonEmptyRanges(sorted) by {
      forall i | 0 <= i < |sorted| ensures sorted[i].range.x <= sorted[i].range.y {
        assert sorted[i] in multiset(tiers);
      }
    }
  }

  /** Two tiers starting at the same value always overlap, whatever the
      order they were given in. */
  lemma SameStartOverlaps(a: Tier, b: Tier, win: WinValue, locale: CategoryLocale, continuous: bool, required: Lang)
    requires a.range.x <= a.range.y && b.range.x <= b.range.y && a.range.x == b.range.x
    ensures NewCategory("c", [a, b], win, locale, continuous, required).Err?
  {
    var sorted := SortByStart([a, b]);
    SortTwo(a, b);
    assert sorted[0].range.x == sorted[1].range.x;
    assert RangeErrors(sorted, continuous, 0) != [];
  }

  /** Two tiers come out of the sort in one order or the other. */
  lemma SortTwo(a: Tier, b: Tier)
    ensures var s := SortByStart([a, b]);
      |s| == 2 && ((s[0] == a && s[1] == b) || (s[0] == b && s[1] == a))
  {
    var s := SortByStart([a, b]);
    assert multiset(s) == multiset{a, b};
    assert s[0] in multiset{a, b} && s[1] in multiset{a, b};
    assert s == [s[0], s[1]];
    if s[0] == a {
      assert multiset{s[1]} == multiset{b};
    } else {
      assert multiset{s[1]} == multiset{a};
    }
  }
}

=== FILE: play_event.dfy ===
/**
 * The daily winner of `src/commands/play_event.py`: who may play, and how
 * the winner of the day is chosen from the players' values.
 */
module PlayEvent {
  import opened Wrappers
  import opened BotUtils

  /** The text between two copies of a MarkdownV2 marker. */
  function Wrap(mark: char, s: string): (r: string)
    ensures |r| == |s| + 2 && r[0] == mark && r[|r| - 1] == mark
    ensures r[1..|r| - 1] == s
  {
    [mark] + s + [mark]
  }

  /** `_to_bold`: MarkdownV2 bold. */
  function ToBold(s: string): string {
    Wrap('*', s)
  }

  /** `_to_italic`: MarkdownV2 italic. */
  function ToItalic(s: string): string {
    Wrap('_', s)
  }

  /** Wrapping loses nothing: two texts with the same bold (or italic)
      form are the same text, and a bold form is never an italic one. */
  lemma WrapInjective(a: string, b: string)
    ensures ToBold(a) == ToBold(b) ==> a == b
    ensures ToItalic(a) == ToItalic(b) ==> a == b
    ensures ToBold(a) != ToItalic(b)
  {
    if ToBold(a) == ToBold(b) {
      assert a == ToBold(a)[1..|ToBold(a)| - 1];
    }
    if ToItalic(a) == ToItalic(b) {
      assert a == ToItalic(a)[1..|ToItalic(a)| - 1];
    }
    assert ToBold(a)[0] != ToItalic(b)[0];
  }

  // ------------------------------------------------------------- players

  /** `are_players`: an administrator the bot can edit, or the creator. */
  predicate IsPlayer(a: ChatMember) {
    a.canBeEdited || a.status == "creator"
  }

  /** `get_players`: the users of the eligible administrators, in order. */
  function GetPlayers(admins: seq<ChatMember>): (players: seq<User>)
    ensures |players| <= |admins|
    ensures forall i :: 0 <= i < |admins| && IsPlayer(admins[i]) ==> admins[i].user in players
    ensures forall p :: p in players ==> exists i :: 0 <= i < |admins| && IsPlayer(admins[i]) && admins[i].user == p
  {
    if |admins| == 0 then []
    else
      var rest := GetPlayers(admins[1..]);
      assert forall i :: 1 <= i < |admins| ==> admins[i] == admins[1..][i - 1];
      if IsPlayer(admins[0]) then [admins[0].user] + rest else rest
  }

  /** The filter keeps the order: the players of a concatenation are the
      players of each part, one after the other. */
  lemma {:induction false} GetPlayersConcat(a: seq<ChatMember>, b: seq<ChatMember>)
    ensures GetPlayers(a + b) == GetPlayers(a) + GetPlayers(b)
  {
    if |a| == 0 {
      assert a + b == b;
    } else {
      assert (a + b)[1..] == a[1..] + b;
      GetPlayersConcat(a[1..], b);
    }
  }

  // ---------------------------------------------------------- selection

  /** A player with the value `get_random_value_for_user` gave them. */
  datatype Pick = Pick(player: User, value: int)

  /** `player_values`: each player with their value, in order; `valueOf`
      stands for `category.get_random_value_for_user(bot.daily_hash(id))`. */
  function PlayerValues(players: seq<User>, valueOf: int -> int): (r: seq<Pick>)
    ensures |r| == |players|
    ensures forall i :: 0 <= i < |r| ==> r[i] == Pick(players[i], valueOf(players[i].id))
  {
    seq(|players|, i requires 0 <= i < |players| => Pick(players[i], valueOf(players[i].id)))
  }

  /** The position Python's `min` returns: the first of the smallest keys. */
  function ArgMin(keys: seq<int>): (i: nat)
    requires |keys| > 0
    ensures i < |keys|
    ensures forall j :: 0 <= j < |keys| ==> keys[i] <= keys[j]
    ensures forall j :: 0 <= j < i ==> keys[i] < keys[j]
  {
    if |keys| == 1 then 0
    else
      var k := ArgMin(keys[..|keys| - 1]);
      assert forall j :: 0 <= j < |keys| - 1 ==> keys[..|keys| - 1][j] == keys[j];
      if keys[|keys| - 1] < keys[k] then |keys| - 1 else k
  }

  function Negate(keys: seq<int>): (r: seq<int>)
    ensures |r| == |keys| && forall j :: 0 <= j < |keys| ==> r[j] == -keys[j]
  {
    seq(|keys|, j requires 0 <= j < |keys| => -keys[j])
  }

  /** The position Python's `max` returns: the first of the largest keys. */
  function ArgMax(keys: seq<int>): (i: nat)
    requires |keys| > 0
    ensures i < |keys|
    ensures forall j :: 0 <= j < |keys| ==> keys[j] <= keys[i]
    ensures forall j :: 0 <= j < i ==> keys[j] < keys[i]
  {
    var n := Negate(keys);
    var i := ArgMin(n);
    assert forall j :: 0 <= j < |keys| ==> n[i] <= n[j];
    i
  }

  function Values(ps: seq<Pick>): (r: seq<int>)
    ensures |r| == |ps| && forall j :: 0 <= j < |ps| ==> r[j] == ps[j].value
  {
    seq(|ps|, j requires 0 <= j < |ps| => ps[j].value)
  }

  function Distances(ps: seq<Pick>, target: int): (r: seq<int>)
    ensures |r| == |ps| && forall j :: 0 <= j < |ps| ==> r[j] == Abs(ps[j].value - target)
  {
    seq(|ps|, j requires 0 <= j < |ps| => Abs(ps[j].value - target))
  }

  function Abs(x: int): nat { if x < 0 then -x else x }

  function ExactMatches(ps: seq<Pick>, target: int): (r: seq<Pick>)
    ensures forall p :: p in r <==> p in ps && p.value == target
  {
    if |ps| == 0 then []
    else
      var rest := ExactMatches(ps[1..], target);
      assert forall p :: p in ps <==> p == ps[0] || p in ps[1..];
      if ps[0].value == target then [ps[0]] + rest else rest
  }

  /** The winner for a win type; None for a type that is none of "exact",
      "max" and "min". `pick` stands for `random.choice` among the exact
      matches. */
  function SelectWinner(ps: seq<Pick>, winType: string, target: int, pick: nat): (r: Option<Pick>)
    requires |ps| > 0
    ensures r.None? <==> winType !in {"exact", "max", "min"}
    ensures r.Some? ==> r.value in ps
    ensures winType == "max" ==> r.Some? && forall p :: p in ps ==> p.value <= r.value.value
    ensures winType == "min" ==> r.Some? && forall p :: p in ps ==> r.value.value <= p.value
    ensures winType == "exact" ==>
      r.Some? && ((exists p :: p in ps && p.value == target) <==> r.value.value == target)
    ensures winType == "exact" ==>
      forall p :: p in ps ==> Abs(r.value.value - target) <= Abs(p.value - target)
  {
    if winType == "exact" then
      var exact := ExactMatches(ps, target);
      if |exact| > 0 then
        var w := exact[pick % |exact|];
        assert w in exact;
        Some(w)
      else
        var d := Distances(ps, target);
        var i := ArgMin(d);
        assert forall p :: p in ps ==> exists j :: 0 <= j < |ps| && ps[j] == p;
        Some(ps[i])
    else if winType == "max" then
      var i := ArgMax(Values(ps));
      Some(ps[i])
    else if winType == "min" then
      var i := ArgMin(Values(ps));
      Some(ps[i])
    else None
  }

  /** Ties go to the earliest player: for "max" and "min", nobody before
      the winner has the winning value. */
  lemma FirstAmongEquals(ps: seq<Pick>, winType: string, target: int, pick: nat)
    requires |ps| > 0 && winType in {"max", "min"}
    ensures exists i :: 0 <= i < |ps| && SelectWinner(ps, winType, target, pick) == Some(ps[i]) &&
                        forall j :: 0 <= j < i ==> ps[j].value != ps[i].value
  {
    if winType == "max" {
      var i := ArgMax(Values(ps));
      assert SelectWinner(ps, winType, target, pick) == Some(ps[i]);
    } else {
      var i := ArgMin(Values(ps));
      assert SelectWinner(ps, winType, target, pick) == Some(ps[i]);
    }
  }

  /** What `handle_winner` ends with. */
  datatype WinnerOutcome =
    | NoPlayers                        // the "no suitable players" reply
    | Selected(committed: Option<Pick>) // a new round; a commit and congratulations when set
    | Repeated(last: Pick)             // the previous winner is shown again
    | Diverges                         // the call re-enters itself with nothing changed

  /** `handle_winner`. `dayPassed` and `lastWinner` are what the events
      table answers; a new winner is drawn when the day flag is 1 or there
      is no row. When the previous winner is no longer a player the source
      calls itself again on the same data, so it never finishes. */
  function HandleWinner(admins: seq<ChatMember>, valueOf: int -> int, winType: string, target: int,
                        dayPassed: Option<int>, lastWinner: Option<int>, pick: nat): (r: WinnerOutcome)
    ensures r == NoPlayers <==> |GetPlayers(admins)| == 0
    ensures r.Selected? <==> |GetPlayers(admins)| > 0 && (dayPassed == Some(1) || dayPassed.None?)
    ensures r.Selected? ==> (r.committed.None? <==> winType !in {"exact", "max", "min"})
    ensures r.Selected? && r.committed.Some? ==>
      r.committed.value.player in GetPlayers(admins) &&
      r.committed.value.value == valueOf(r.committed.value.player.id)
    ensures r.Repeated? ==>
      lastWinner == Some(r.last.player.id) && r.last.player in GetPlayers(admins) &&
      r.last.value == valueOf(r.last.player.id)
    ensures r == Diverges <==>
      (|GetPlayers(admins)| > 0 && !(dayPassed == Some(1) || dayPassed.None?) &&
       forall p :: p in GetPlayers(admins) ==> Some(p.id) != lastWinner)
  {
    var players := GetPlayers(admins);
    if |players| == 0 then NoPlayers
    else if dayPassed == Some(1) || dayPassed.None? then
      var ps := PlayerValues(players, valueOf);
      var w := SelectWinner(ps, winType, target, pick);
      assert w.Some? ==> exists i :: 0 <= i < |ps| && ps[i] == w.value;
      Selected(w)
    else
      match FindPlayer(players, lastWinner)
      case Some(p) => Repeated(Pick(p, valueOf(p.id)))
      case None => Diverges
  }

  /** `next(filter(lambda p: p.id == last_winner_id, players), None)`. */
  function FindPlayer(players: seq<User>, id: Option<int>): (r: Option<User>)
    ensures r.Some? ==> r.value in players && Some(r.value.id) == id
    ensures r.None? <==> forall p :: p in players ==> Some(p.id) != id
  {
    if |players| == 0 then None
    else if Some(players[0].id) == id then Some(players[0])
    else
      var r := FindPlayer(players[1..], id);
      assert forall p :: p in players <==> p == players[0] || p in players[1..];
      r
  }

  /** On the day's first call a commit names the player with the best value
      for the category's win type. */
  lemma NewWinnerIsBest(admins: seq<ChatMember>, valueOf: int -> int, winType: string, target: int,
                        dayPassed: Option<int>, lastWinner: Option<int>, pick: nat)
    requires |GetPlayers(admins)| > 0 && (dayPassed == Some(1) || dayPassed.None?)
    requires winType in {"exact", "max", "min"}
    ensures var r := HandleWinner(admins, valueOf, winType, target, dayPassed, lastWinner, pick);
      r.Selected? && r.committed.Some? &&
      var w := r.committed.value;
      forall p :: p in GetPlayers(admins) ==>
        (winType == "max" ==> valueOf(p.id) <= w.value) &&
        (winType == "min" ==> w.value <= valueOf(p.id)) &&
        (winType == "exact" ==> Abs(w.value - target) <= Abs(valueOf(p.id) - target))
  {
    var players := GetPlayers(admins);
    var ps := PlayerValues(players, valueOf);
    forall p | p in players ensures Pick(p, valueOf(p.id)) in ps {
      var i :| 0 <= i < |players| && players[i] == p;
      assert ps[i] == Pick(p, valueOf(p.id));
    }
  }
}

=== FILE: play_schema.dfy ===
/**
 * The schema checks of `src/commands/play/play_schema.py`, run on a
 * category definition before anything is built. Python values whose type
 * is inspected at run time are modelled by `Dyn`.
 */
module PlaySchema {
  import opened Wrappers
  import Play

  /** A Python value as far as `isinstance` tells them apart. A `dict` keeps
      its entries in insertion order with distinct keys. */
  datatype Dyn =
    | DNone
    | DBool(b: bool)
    | DInt(i: int)
    | DStr(s: string)
    | DTuple(items: seq<Dyn>)
    | DList(items: seq<Dyn>)
    | DDict(entries: seq<(Dyn, Dyn)>)
    | DCallable
    | DOther

  /** `isinstance(v, int)`: `bool` is a subclass of `int`. */
  predicate IsInt(v: Dyn) {
    v.DInt? || v.DBool?
  }

  /** The integer an int-like value stands for (`True == 1`). */
  function IntOf(v: Dyn): int
    requires IsInt(v)
  {
    if v.DInt? then v.i else if v.b then 1 else 0
  }

  /** The key `tier_num` (an `int`) equals `k` as a dictionary key. */
  predicate KeyIs(k: Dyn, n: int) {
    IsInt(k) && IntOf(k) == n
  }

  /** `n in d`: some key of the entries equals the integer `n`. */
  predicate HasIntKey(entries: seq<(Dyn, Dyn)>, n: int) {
    exists j :: 0 <= j < |entries| && KeyIs(entries[j].0, n)
  }

  /** `d[n]` for an integer key that is present: the first matching entry. */
  function AtIntKey(entries: seq<(Dyn, Dyn)>, n: int): (v: Dyn)
    requires HasIntKey(entries, n)
    ensures exists j :: 0 <= j < |entries| && KeyIs(entries[j].0, n) && v == entries[j].1
  {
    if KeyIs(entries[0].0, n) then entries[0].1
    else
      assert HasIntKey(entries[1..], n) by {
        var j :| 0 <= j < |entries| && KeyIs(entries[j].0, n);
        assert entries[1..][j - 1] == entries[j];
      }
      var v := AtIntKey(entries[1..], n);
      var j :| 0 <= j < |entries[1..]| && KeyIs(entries[1..][j].0, n) && v == entries[1..][j].1;
      assert entries[j + 1] == entries[1..][j];
      v
  }

  /** `field in d` for a string key. */
  predicate HasStrKey(entries: seq<(Dyn, Dyn)>, key: string) {
    exists j :: 0 <= j < |entries| && entries[j].0 == DStr(key)
  }

  function AtStrKey(entries: seq<(Dyn, Dyn)>, key: string): (v: Dyn)
    requires HasStrKey(entries, key)
    ensures exists j :: 0 <= j < |entries| && entries[j].0 == DStr(key) && v == entries[j].1
  {
    if entries[0].0 == DStr(key) then entries[0].1
    else
      assert HasStrKey(entries[1..], key) by {
        var j :| 0 <= j < |entries| && entries[j].0 == DStr(key);
        assert entries[1..][j - 1] == entries[j];
      }
      var v := AtStrKey(entries[1..], key);
      var j :| 0 <= j < |entries[1..]| && entries[1..][j].0 == DStr(key) && v == entries[1..][j].1;
      assert entries[j + 1] == entries[1..][j];
      v
  }

  /** One complaint of the schema checks. */
  datatype SchemaError =
    | WinValueBadText(text: string)
    | WinValueTupleSize(size: nat)
    | WinValueTupleHead(head: Dyn)
    | WinValueExactNotInt(exact: Dyn)
    | WinValueWrongType(value: Dyn)
    | RangesWrongType
    | RangesMissingTier(tier: int)
    | RangesNotPair(tier: int)
    | RangesNotInts(tier: int)
    | PhrasesEmpty
    | PhrasesNotDict(language: Dyn)
    | PhrasesMissingTier(language: Dyn, tier: int)
    | PhrasesNotList(language: Dyn, tier: int)
    | PhrasesNone(language: Dyn, tier: int)
    | LocaleNotDict
    | LocaleNotDictFor(language: Dyn)
    | LocaleMissingField(language: Dyn, field: string)
    | LocaleFieldNotString(language: Dyn, field: string)
    | WinLocaleNotDict
    | WinLocaleNotList(language: Dyn)
    | WinLocaleEmpty(language: Dyn)
    | WinLocalePartNotString(language: Dyn, index: nat)

  // ------------------------------------------------------------ win value

  /** The win-value forms the schema admits: "min", "max", `("exact", int)`. */
  predicate WinValueAdmitted(v: Dyn) {
    || v == DStr("min") || v == DStr("max")
    || (v.DTuple? && |v.items| == 2 && v.items[0] == DStr("exact") && IsInt(v.items[1]))
  }

  /** `validate_win_value_schema`: at most one complaint, none exactly for
      the admitted forms. */
  function WinValueErrors(v: Dyn): (r: seq<SchemaError>)
    ensures |r| <= 1
    ensures r == [] <==> WinValueAdmitted(v)
  {
    match v
    case DStr(s) => if s == "min" || s == "max" then [] else [WinValueBadText(s)]
    case DTuple(items) =>
      if |items| != 2 then [WinValueTupleSize(|items|)]
      else if items[0] != DStr("exact") then [WinValueTupleHead(items[0])]
      else if !IsInt(items[1]) then [WinValueExactNotInt(items[1])]
      else []
    case _ => [WinValueWrongType(v)]
  }

  /** `extract_win_type`: the string itself, the tuple's head, or "unknown". */
  function WinType(v: Dyn): (r: Dyn)
    ensures v.DStr? ==> r == v
    ensures v.DTuple? && |v.items| >= 1 ==> r == v.items[0]
    ensures !v.DStr? && !(v.DTuple? && |v.items| >= 1) ==> r == DStr("unknown")
  {
    if v.DStr? then v
    else if v.DTuple? && |v.items| >= 1 then v.items[0]
    else DStr("unknown")
  }

  /** The value as `WinValue.create_from_schema` receives it. */
  function ToWinSpec(v: Dyn): Play.WinSpec
  {
    match v
    case DStr(s) => Play.SpecText(s)
    case DTuple(items) =>
      Play.SpecTuple(|items|,
        if |items| == 2 && items[0].DStr? then Some(items[0].s) else None,
        if |items| == 2 && IsInt(items[1]) then IntOf(items[1]) else 0)
    case _ => Play.SpecOther
  }

  // --------------------------------------------------------------- ranges

  /** A tier range the schema admits: a 2-tuple of ints. */
  predicate RangeAdmitted(r: Dyn) {
    r.DTuple? && |r.items| == 2 && IsInt(r.items[0]) && IsInt(r.items[1])
  }

  /** Tier `t` of a range dict is present and admitted. */
  predicate TierRangeOk(entries: seq<(Dyn, Dyn)>, t: int) {
    HasIntKey(entries, t) && RangeAdmitted(AtIntKey(entries, t))
  }

  /** The complaints about the range dict for tiers `k..n`. */
  function TierRangeErrors(entries: seq<(Dyn, Dyn)>, k: int, n: int): (r: seq<SchemaError>)
    ensures |r| <= if n - k + 1 > 0 then n - k + 1 else 0
    ensures r == [] <==> forall t :: k <= t <= n ==> TierRangeOk(entries, t)
    decreases n - k + 1
  {
    if k > n then []
    else
      var e := if !HasIntKey(entries, k) then [RangesMissingTier(k)]
               else if !(AtIntKey(entries, k).DTuple? && |AtIntKey(entries, k).items| == 2) then [RangesNotPair(k)]
               else if !RangeAdmitted(AtIntKey(entries, k)) then [RangesNotInts(k)]
               else [];
      var rest := TierRangeErrors(entries, k + 1, n);
      assert e + rest == [] <==> e == [] && rest == [];
      assert e == [] <==> TierRangeOk(entries, k);
      e + rest
  }

  /** `validate_ranges_schema`: a callable is not checked; anything but a
      dict or a callable gives one complaint; a dict gives at most one
      complaint per tier `1..tiersNum`. */
  function RangesErrors(ranges: Dyn, tiersNum: int): (r: seq<SchemaError>)
    ensures ranges.DCallable? ==> r == []
    ensures !ranges.DCallable? && !ranges.DDict? ==> r == [RangesWrongType]
    ensures ranges.DDict? ==> |r| <= (if tiersNum > 0 then tiersNum else 0)
    ensures ranges.DDict? ==> (r == [] <==>
      forall t :: 1 <= t <= tiersNum ==> TierRangeOk(ranges.entries, t))
  {
    if ranges.DCallable? then []
    else if !ranges.DDict? then [RangesWrongType]
    else TierRangeErrors(ranges.entries, 1, tiersNum)
  }

  // -------------------------------------------------------------- phrases

  /** A phrase entry the schema admits: a non-empty list. */
  predicate PhraseListAdmitted(p: Dyn) {
    p.DList? && |p.items| > 0
  }

  /** Tier `t` of a language's phrases is present and a non-empty list. */
  predicate TierPhrasesOk(tiers: seq<(Dyn, Dyn)>, t: int) {
    HasIntKey(tiers, t) && PhraseListAdmitted(AtIntKey(tiers, t))
  }

  function TierPhraseErrors(language: Dyn, tiers: seq<(Dyn, Dyn)>, k: int, n: int): (r: seq<SchemaError>)
    ensures |r| <= if n - k + 1 > 0 then n - k + 1 else 0
    ensures r == [] <==> forall t :: k <= t <= n ==> TierPhrasesOk(tiers, t)
    decreases n - k + 1
  {
    if k > n then []
    else
      var e := if !HasIntKey(tiers, k) then [PhrasesMissingTier(language, k)]
               else if !AtIntKey(tiers, k).DList? then [PhrasesNotList(language, k)]
               else if |AtIntKey(tiers, k).items| == 0 then [PhrasesNone(language, k)]
               else [];
      var rest := TierPhraseErrors(language, tiers, k + 1, n);
      assert e + rest == [] <==> e == [] && rest == [];
      assert e == [] <==> TierPhrasesOk(tiers, k);
      e + rest
  }

  /** Every tier `1..n` of a language's phrases is a non-empty list. */
  predicate LanguagePhrasesAdmitted(tierData: Dyn, n: int) {
    tierData.DDict? && forall t :: 1 <= t <= n ==> TierPhrasesOk(tierData.entries, t)
  }

  function PhraseEntriesErrors(entries: seq<(Dyn, Dyn)>, n: int): (r: seq<SchemaError>)
    ensures r == [] <==> forall j :: 0 <= j < |entries| ==> LanguagePhrasesAdmitted(entries[j].1, n)
  {
    if |entries| == 0 then []
    else
      var language := entries[0].0;
      var data := entries[0].1;
      var e := if !data.DDict? then [PhrasesNotDict(language)] else TierPhraseErrors(language, data.entries, 1, n);
      var rest := PhraseEntriesErrors(entries[1..], n);
      assert e + rest == [] <==> e == [] && rest == [];
      assert forall j :: 1 <= j < |entries| ==> entries[j] == entries[1..][j - 1];
      e + rest
  }

  /** `validate_phrases_schema` on a dict: an empty dict gives the single
      complaint that it is empty; otherwise every language must give a
      dict whose tiers `1..n` are non-empty lists. */
  function PhrasesErrors(phrases: seq<(Dyn, Dyn)>, tiersNum: int): (r: seq<SchemaError>)
    ensures |phrases| == 0 ==> r == [PhrasesEmpty]
    ensures r == [] <==> |phrases| > 0 && forall j :: 0 <= j < |phrases| ==> LanguagePhrasesAdmitted(phrases[j].1, tiersNum)
  {
    if |phrases| == 0 then [PhrasesEmpty] else PhraseEntriesErrors(phrases, tiersNum)
  }

  // ------------------------------------------------------- category locale

  /** A language's category locale the schema admits: string `name` and `units`. */
  predicate FieldAdmitted(data: Dyn, field: string)
    requires data.DDict?
  {
    HasStrKey(data.entries, field) && AtStrKey(data.entries, field).DStr?
  }

  predicate LocaleDataAdmitted(data: Dyn) {
    data.DDict? && FieldAdmitted(data, "name") && FieldAdmitted(data, "units")
  }

  /** The complaints about one required field. */
  function FieldError(language: Dyn, data: Dyn, field: string): (r: seq<SchemaError>)
    requires data.DDict?
    ensures |r| <= 1
    ensures r == [] <==> FieldAdmitted(data, field)
  {
    if !HasStrKey(data.entries, field) then [LocaleMissingField(language, field)]
    else if !AtStrKey(data.entries, field).DStr? then [LocaleFieldNotString(language, field)]
    else []
  }

  /** The two required fields, in the order the set `{"name", "units"}`
      happens to iterate; Python does not fix that order. */
  predicate FieldOrder(fields: seq<string>) {
    fields == ["name", "units"] || fields == ["units", "name"]
  }

  function LocaleEntriesErrors(entries: seq<(Dyn, Dyn)>, fields: seq<string>): (r: seq<SchemaError>)
    requires FieldOrder(fields)
    ensures r == [] <==> forall j :: 0 <= j < |entries| ==> LocaleDataAdmitted(entries[j].1)
  {
    if |entries| == 0 then []
    else
      var language := entries[0].0;
      var data := entries[0].1;
      var e := if !data.DDict? then [LocaleNotDictFor(language)]
               else FieldError(language, data, fields[0]) + FieldError(language, data, fields[1]);
      var rest := LocaleEntriesErrors(entries[1..], fields);
      assert e + rest == [] <==> e == [] && rest == [];
      assert forall j :: 1 <= j < |entries| ==> entries[j] == entries[1..][j - 1];
      e + rest
  }

  /** `validate_category_locale_schema`: a non-dict gives one complaint, an
      empty dict none; every language must map to a dict with string
      `name` and `units`. */
  function LocaleErrors(locale: Dyn, fields: seq<string>): (r: seq<SchemaError>)
    requires FieldOrder(fields)
    ensures !locale.DDict? ==> r == [LocaleNotDict]
    ensures locale == DDict([]) ==> r == []
    ensures locale.DDict? ==> (r == [] <==> forall j :: 0 <= j < |locale.entries| ==> LocaleDataAdmitted(locale.entries[j].1))
  {
    if !locale.DDict? then [LocaleNotDict]
    else LocaleEntriesErrors(locale.entries, fields)
  }

  // ------------------------------------------------------------ win locale

  function PartErrors(language: Dyn, parts: seq<Dyn>, k: nat): (r: seq<SchemaError>)
    requires k <= |parts|
    ensures |r| <= |parts| - k
    ensures r == [] <==> forall j :: k <= j < |parts| ==> parts[j].DStr?
    decreases |parts| - k
  {
    if k == |parts| then []
    else
      var e := if !parts[k].DStr? then [WinLocalePartNotString(language, k)] else [];
      var rest := PartErrors(language, parts, k + 1);
      assert e + rest == [] <==> e == [] && rest == [];
      e + rest
  }

  /** A language's goal template the schema admits: a non-empty list of strings. */
  predicate TemplateAdmitted(parts: Dyn) {
    parts.DList? && |parts.items| > 0 && forall j :: 0 <= j < |parts.items| ==> parts.items[j].DStr?
  }

  function WinLocaleEntriesErrors(entries: seq<(Dyn, Dyn)>): (r: seq<SchemaError>)
    ensures r == [] <==> forall j :: 0 <= j < |entries| ==> TemplateAdmitted(entries[j].1)
  {
    if |entries| == 0 then []
    else
      var language := entries[0].0;
      var parts := entries[0].1;
      var e := if !parts.DList? then [WinLocaleNotList(language)]
               else if |parts.items| == 0 then [WinLocaleEmpty(language)]
               else PartErrors(language, parts.items, 0);
      var rest := WinLocaleEntriesErrors(entries[1..]);
      assert e + rest == [] <==> e == [] && rest == [];
      assert forall j :: 1 <= j < |entries| ==> entries[j] == entries[1..][j - 1];
      e + rest
  }

  /** `validate_win_locale_schema`: None is allowed, a non-dict gives one
      complaint, and every language must map to a non-empty list of strings. */
  function WinLocaleErrors(winLocale: Dyn): (r: seq<SchemaError>)
    ensures winLocale == DNone ==> r == []
    ensures winLocale != DNone && !winLocale.DDict? ==> r == [WinLocaleNotDict]
    ensures winLocale.DDict? ==> (r == [] <==> forall j :: 0 <= j < |winLocale.entries| ==> TemplateAdmitted(winLocale.entries[j].1))
  {
    if winLocale == DNone then []
    else if !winLocale.DDict? then [WinLocaleNotDict]
    else WinLocaleEntriesErrors(winLocale.entries)
  }

  // ---------------------------------------------------------------- result

  datatype ValidationResult = ValidationResult(
    localeErrors: seq<SchemaError>,
    phrasesErrors: seq<SchemaError>,
    winValueErrors: seq<SchemaError>,
    rangesErrors: seq<SchemaError>,
    winLocaleErrors: seq<SchemaError>)

  /** `has_errors`: some list is non-empty. */
  predicate HasErrors(v: ValidationResult) {
    || v.localeErrors != [] || v.phrasesErrors != [] || v.winValueErrors != []
    || v.rangesErrors != [] || v.winLocaleErrors != []
  }

  /** `all_errors`: the lists in the order locale, phrases, win value, ranges, win locale. */
  function AllErrors(v: ValidationResult): (r: seq<SchemaError>)
    ensures |r| == |v.localeErrors| + |v.phrasesErrors| + |v.winValueErrors| + |v.rangesErrors| + |v.winLocaleErrors|
    ensures r == [] <==> !HasErrors(v)
    ensures r[..|v.localeErrors|] == v.localeErrors
    ensures r[|r| - |v.winLocaleErrors|..] == v.winLocaleErrors
  {
    v.localeErrors + v.phrasesErrors + v.winValueErrors + v.rangesErrors + v.winLocaleErrors
  }

  /** The definition of one category as the game's table gives it. */
  datatype CategorySpec = CategorySpec(
    name: string,
    tiersNum: int,
    ranges: Dyn,
    phrases: seq<(Dyn, Dyn)>,
    winValue: Dyn,
    locale: Dyn,
    winLocale: Dyn)

  /** `validate_full_schema`: each list from its own check. */
  function FullSchema(spec: CategorySpec, fields: seq<string>): ValidationResult
    requires FieldOrder(fields)
  {
    ValidationResult(
      LocaleErrors(spec.locale, fields),
      PhrasesErrors(spec.phrases, spec.tiersNum),
      WinValueErrors(spec.winValue),
      RangesErrors(spec.ranges, spec.tiersNum),
      WinLocaleErrors(spec.winLocale))
  }
}

/** How the schema checks relate to the category constructor. */
module PlaySchemaProps {
  import opened Wrappers
  import opened PlaySchema
  import Play

  /** A win value the schema admits is one `create_from_schema` accepts,
      and it then carries the value the definition gives. */
  lemma AdmittedBuilds(v: Dyn, minRange: int, maxRange: int, goals: map<Play.Lang, string>)
    requires WinValueAdmitted(v)
    ensures Play.FromSchema(ToWinSpec(v), minRange, maxRange, goals).Ok?
    ensures v == DStr("min") ==> Play.FromSchema(ToWinSpec(v), minRange, maxRange, goals).value.value == minRange
    ensures v == DStr("max") ==> Play.FromSchema(ToWinSpec(v), minRange, maxRange, goals).value.value == maxRange
    ensures v.DTuple? ==> Play.FromSchema(ToWinSpec(v), minRange, maxRange, goals).value.value == IntOf(v.items[1])
  {
  }

  /** Whatever the schema rejects in shape, `create_from_schema` rejects
      too; only a non-integer exact value gets past the constructor's own
      check. */
  lemma RejectedFails(v: Dyn, minRange: int, maxRange: int, goals: map<Play.Lang, string>)
    requires !WinValueAdmitted(v)
    requires !(v.DTuple? && |v.items| == 2 && v.items[0] == DStr("exact"))
    ensures Play.FromSchema(ToWinSpec(v), minRange, maxRange, goals).Err?
  {
  }

  /** `validate_full_schema` reports nothing exactly when the win value is
      admitted, every tier range and phrase list is, and the locale and goal
      templates are well-formed; the flat list is then empty too. */
  lemma FullSchemaAccepts(spec: CategorySpec, fields: seq<string>)
    requires FieldOrder(fields)
    ensures !HasErrors(FullSchema(spec, fields)) <==>
      && WinValueAdmitted(spec.winValue)
      && RangesErrors(spec.ranges, spec.tiersNum) == []
      && |spec.phrases| > 0 && (forall j :: 0 <= j < |spec.phrases| ==> LanguagePhrasesAdmitted(spec.phrases[j].1, spec.tiersNum))
      && LocaleErrors(spec.locale, fields) == []
      && WinLocaleErrors(spec.winLocale) == []
    ensures AllErrors(FullSchema(spec, fields)) == [] <==> !HasErrors(FullSchema(spec, fields))
  {
  }

  /** A range dict is checked per tier: a missing tier is reported by number. */
  lemma MissingTierReported(entries: seq<(Dyn, Dyn)>, tiersNum: int, t: int)
    requires 1 <= t <= tiersNum && !HasIntKey(entries, t)
    ensures RangesErrors(DDict(entries), tiersNum) != []
  {
    assert !TierRangeOk(entries, t);
  }
}

=== FILE: roll_custom_title.dfy ===
/**
 * The custom-title game of `src/commands/roll_custom_title.py`: the button
 * payloads and their validation, the steal-menu pages and keyboard, the
 * roll-status decision table, random titles and the dice success rule.
 * The enums come from `src/custom_typing/typing.py`.
 */
module RollCustomTitle {
  import opened Wrappers
  import opened Text
  import opened BotUtils

  // --------------------------------------------------------------- enums

  /** `Action`: what a button asks for. */
  datatype Action = RollRandomD6 | RollD6 | OpenRenameMenu | OpenStealMenu | StealTitle | OpenTitlesBag | SetTitleBag

  /** The enum's string values. */
  function ActionValue(a: Action): string {
    match a
    case RollRandomD6 => "0"
    case RollD6 => "1"
    case OpenRenameMenu => "2"
    case OpenStealMenu => "3"
    case StealTitle => "4"
    case OpenTitlesBag => "5"
    case SetTitleBag => "6"
  }

  /** `Field`: the payload keys. */
  datatype Field = ActionType | UserId | DiceValue | Page | TargetUserId | TitleBagId

  function FieldKey(f: Field): string {
    match f
    case ActionType => "0"
    case UserId => "1"
    case DiceValue => "2"
    case Page => "3"
    case TargetUserId => "4"
    case TitleBagId => "5"
  }

  /** `RollType`: what a roll request leads to. */
  datatype RollType = RollInstant | RollReady | GiveOld | Wait

  /** The enum's integer values. */
  function RollTypeValue(t: RollType): int {
    match t
    case RollInstant => 1
    case RollReady => 2
    case GiveOld => 3
    case Wait => 4
  }

  /** Distinct members have distinct values, so the value lookups of the
      enums are well defined. */
  lemma EnumValuesDistinct()
    ensures forall a, b :: ActionValue(a) == ActionValue(b) ==> a == b
    ensures forall f, g :: FieldKey(f) == FieldKey(g) ==> f == g
    ensures forall s, t :: RollTypeValue(s) == RollTypeValue(t) ==> s == t
  {
  }

  // ------------------------------------------------------------ payloads

  /** A decoded JSON value, as far as the handlers tell values apart. */
  datatype Json = JNull | JBool(b: bool) | JInt(i: int) | JStr(s: string) | JFloat | JArray | JObject

  /** A decoded callback payload: a JSON object, by the fields the handlers
      read. Field `f` is stored under the key `FieldKey(f)`; distinct fields
      have distinct keys (`EnumValuesDistinct`), and keys that name no field
      are never read. */
  type Payload = map<Field, Json>

  /** `payload.get(f.value, default)`. */
  function Get(p: Payload, f: Field, default: Json): Json {
    if f in p then p[f] else default
  }

  /** The exceptions the handlers can raise. */
  datatype PyError = ValueError | TypeError | IndexError

  /** `_to_int`: an int is kept; a string whose text after its leading '-'
      characters is a non-empty run of digits is parsed, and raises when it
      had more than one '-'; anything else is None. */
  function ToInt(v: Json): (r: Result<Option<int>, PyError>)
    ensures v.JInt? ==> r == Ok(Some(v.i))
    ensures !v.JInt? && !v.JStr? ==> r == Ok(None)
    ensures v.JStr? ==>
      var t := LStripChar(v.s, '-');
      (r == Ok(None) <==> |t| == 0 || !AllDigits(t)) &&
      (r == Err(ValueError) <==> |t| > 0 && AllDigits(t) && |v.s| - |t| > 1)
  {
    match v
    case JInt(i) => Ok(Some(i))
    case JStr(s) =>
      var t := LStripChar(s, '-');
      if |t| == 0 || !AllDigits(t) then Ok(None)
      else if |s| - |t| > 1 then Err(ValueError)
      else
        var n: int := ParseNat(t);
        if |s| - |t| == 1 then Ok(Some(-n)) else Ok(Some(n))
    case _ => Ok(None)
  }

  /** The decimal text of any integer reads back as that integer. */
  lemma ToIntRoundTrip(i: int)
    ensures ToInt(JStr(IntToString(i))) == Ok(Some(i))
  {
    if i < 0 {
      ToIntNegative(i);
    } else {
      ToIntNatural(i);
    }
  }

  lemma ToIntNatural(n: nat)
    ensures ToInt(JStr(IntToString(n))) == Ok(Some(n))
  {
    var d := NatToString(n);
    assert IntToString(n) == d;
    assert IsDigit(d[0]);
    assert LStripChar(d, '-') == d;
    ParseNatToString(n);
  }

  lemma ToIntNegative(i: int)
    requires i < 0
    ensures ToInt(JStr(IntToString(i))) == Ok(Some(i))
  {
    var d := NatToString(-i);
    var s := "-" + d;
    assert IntToString(i) == s;
    assert IsDigit(d[0]);
    assert LStripChar(d, '-') == d;
    assert s[1..] == d;
    assert LStripChar(s, '-') == d;
    ParseNatToString(-i);
  }

  /** `_to_action_type`: the member whose value the string is; a list or
      an object is unhashable, and the membership test raises. */
  function ToActionType(v: Json): (r: Result<Option<Action>, PyError>)
    ensures r.Err? <==> v.JArray? || v.JObject?
    ensures r.Ok? && r.value.Some? ==> v == JStr(ActionValue(r.value.value))
    ensures r.Ok? && r.value.None? ==> forall a :: v != JStr(ActionValue(a))
  {
    match v
    case JArray => Err(TypeError)
    case JObject => Err(TypeError)
    case JStr(s) =>
      if s == "0" then Ok(Some(RollRandomD6))
      else if s == "1" then Ok(Some(RollD6))
      else if s == "2" then Ok(Some(OpenRenameMenu))
      else if s == "3" then Ok(Some(OpenStealMenu))
      else if s == "4" then Ok(Some(StealTitle))
      else if s == "5" then Ok(Some(OpenTitlesBag))
      else if s == "6" then Ok(Some(SetTitleBag))
      else Ok(None)
    case _ => Ok(None)
  }

  /** `_create_d6_payload`; the value is the button's label. */
  function D6Payload(option: string, owner: int): Payload {
    map[ActionType := JStr(ActionValue(RollD6)), UserId := JInt(owner),
        DiceValue := JStr(option)]
  }

  /** `_create_random_d6_payload`. */
  function RandomD6Payload(owner: int): Payload {
    map[ActionType := JStr(ActionValue(RollRandomD6)), UserId := JInt(owner)]
  }

  /** `_create_rename_menu_payload`. */
  function RenameMenuPayload(owner: int): Payload {
    map[ActionType := JStr(ActionValue(OpenRenameMenu)), UserId := JInt(owner)]
  }

  /** `_create_steal_menu_payload`. */
  function StealMenuPayload(page: int, owner: int): Payload {
    map[ActionType := JStr(ActionValue(OpenStealMenu)), UserId := JInt(owner),
        Page := JInt(page)]
  }

  /** `_create_steal_title_payload`. */
  function StealTitlePayload(target: int, owner: int): Payload {
    map[ActionType := JStr(ActionValue(StealTitle)), UserId := JInt(owner),
        TargetUserId := JInt(target)]
  }

  // ------------------------------------------------------- roll status

  /** `_get_admin_title`: the custom title of the first administrator with
      that id, None when there is none. */
  function AdminTitle(admins: seq<ChatMember>, userId: int): (r: Option<string>)
    ensures (forall a :: a in admins ==> a.user.id != userId) ==> r.None?
    ensures forall i :: (0 <= i < |admins| && admins[i].user.id == userId &&
                         forall j :: 0 <= j < i ==> admins[j].user.id != userId) ==> r == admins[i].customTitle
  {
    if |admins| == 0 then None
    else if admins[0].user.id == userId then admins[0].customTitle
    else
      assert forall i :: 1 <= i < |admins| ==> admins[i] == admins[1..][i - 1];
      AdminTitle(admins[1..], userId)
  }

  /** `_get_roll_status`. `dayPassed` is the titles table's day flag (None
      when the user has no row), `stored` the stored title and `current`
      the title the chat shows. */
  function GetRollStatus(dayPassed: Option<int>, stored: Option<string>, current: Option<string>): (t: RollType)
    ensures t == RollInstant <==> dayPassed.None?
    ensures t == GiveOld <==> dayPassed.Some? && stored != current
    ensures t == RollReady <==> dayPassed.Some? && stored == current && dayPassed.value != 0
    ensures t == Wait <==> dayPassed.Some? && stored == current && dayPassed.value == 0
  {
    if dayPassed.None? then RollInstant
    else if stored != current then GiveOld
    else if dayPassed.value != 0 then RollReady
    else Wait
  }

  /** What `_handle_roll_logic` does. */
  datatype RollOutcome<T> =
    | SetRandomTitle        // a new random title
    | ReapplyOldTitle       // the stored title is put back
    | CantRoll              // the "can't roll yet" reply
    | Ready(result: T)      // the callback ran

  /** `_handle_roll_logic`: the callback runs exactly when a roll is due,
      or when waiting and the caller asked for it. */
  function HandleRollLogic<T>(status: RollType, callback: T, callReadyOnWait: bool): (r: RollOutcome<T>)
    ensures r.Ready? <==> status == RollReady || (status == Wait && callReadyOnWait)
    ensures r.Ready? ==> r.result == callback
    ensures r == SetRandomTitle <==> status == RollInstant
    ensures r == ReapplyOldTitle <==> status == GiveOld
    ensures r == CantRoll <==> status == Wait && !callReadyOnWait
  {
    match status
    case RollInstant => SetRandomTitle
    case GiveOld => ReapplyOldTitle
    case Wait => if callReadyOnWait then Ready(callback) else CantRoll
    case RollReady => Ready(callback)
  }

  // ------------------------------------------------------ button presses

  /** Why `buttons_not_works` answered. */
  datatype Broken = BadUserId | BadAction | BadPage | BadTarget | BadDice

  /** What a handler started. */
  datatype Run =
    | ShowRenameMenu
    | ShowStealMenu(page: nat)
    | Steal(target: int)
    | RandomD6
    | D6(value: int)
    | NotWorking(reason: Broken)
    | Idle                  // an action with no handler

  /** The reply to a button press. */
  datatype Reaction =
    | Rejected(reason: Broken)  // before any roll logic
    | NotYours                  // the "not your button" answer
    | Rolled(outcome: RollOutcome<Run>)

  /** The inner `handlers` of `handle_title_change_attempt`. */
  function Handlers(p: Payload, action: Action): (r: Result<Run, PyError>)
    ensures action == OpenStealMenu && r.Ok? ==>
      (r.value.ShowStealMenu? || r.value == NotWorking(BadPage)) &&
      (r.value.ShowStealMenu? ==> ToInt(Get(p, Page, JInt(0))) == Ok(Some(r.value.page as int)))
    ensures action == RollD6 ==> (r == Err(TypeError) <==> ToInt(Get(p, DiceValue, JNull)) == Ok(None))
    ensures action == RollD6 && r.Ok? && r.value.D6? ==> 0 <= r.value.value <= 6
    ensures r == Ok(Idle) <==> action == OpenTitlesBag || action == SetTitleBag
  {
    match action
    case OpenRenameMenu => Ok(ShowRenameMenu)
    case OpenStealMenu =>
      (match ToInt(Get(p, Page, JInt(0)))
       case Err(e) => Err(e)
       case Ok(page) =>
         if page.Some? && page.value >= 0 then Ok(ShowStealMenu(page.value)) else Ok(NotWorking(BadPage)))
    case StealTitle =>
      (match ToInt(Get(p, TargetUserId, JNull))
       case Err(e) => Err(e)
       case Ok(target) => if target.Some? then Ok(Steal(target.value)) else Ok(NotWorking(BadTarget)))
    case RollRandomD6 => Ok(RandomD6)
    case RollD6 =>
      (match ToInt(Get(p, DiceValue, JNull))
       case Err(e) => Err(e)
       case Ok(v) =>
         if v.None? then Err(TypeError)  // `0 <= None` raises
         else if 0 <= v.value <= 6 then Ok(D6(v.value)) else Ok(NotWorking(BadDice)))
    case OpenTitlesBag => Ok(Idle)
    case SetTitleBag => Ok(Idle)
  }

  /** `handle_title_change_attempt`. `status` is the roll status of the
      presser. */
  function HandleTitleChangeAttempt(p: Payload, actorId: int, status: RollType): (r: Result<Reaction, PyError>)
    ensures r == Ok(Rejected(BadUserId)) <==>
      ToActionType(Get(p, ActionType, JNull)).Ok? && ToInt(Get(p, UserId, JNull)) == Ok(None)
    ensures r == Ok(Rejected(BadAction)) <==>
      ToActionType(Get(p, ActionType, JNull)) == Ok(None) && ToInt(Get(p, UserId, JNull)).Ok? &&
      ToInt(Get(p, UserId, JNull)).value.Some?
    ensures r == Ok(NotYours) <==>
      ToActionType(Get(p, ActionType, JNull)).Ok? && ToActionType(Get(p, ActionType, JNull)).value.Some? &&
      ToInt(Get(p, UserId, JNull)).Ok? && ToInt(Get(p, UserId, JNull)).value.Some? &&
      ToInt(Get(p, UserId, JNull)).value.value != actorId
    ensures r.Ok? && r.value.Rolled? ==> Get(p, UserId, JNull) != JNull && ToInt(Get(p, UserId, JNull)) == Ok(Some(actorId))
    ensures r.Ok? && r.value.Rolled? && r.value.outcome.Ready? ==> status == RollReady
  {
    match ToActionType(Get(p, ActionType, JNull))
    case Err(e) => Err(e)
    case Ok(action) =>
      match ToInt(Get(p, UserId, JNull))
      case Err(e) => Err(e)
      case Ok(userId) =>
        if userId.None? then Ok(Rejected(BadUserId))
        else if action.None? then Ok(Rejected(BadAction))
        else if actorId != userId.value then Ok(NotYours)
        else
          match HandleRollLogic(status, (), false)
          case SetRandomTitle => Ok(Rolled(SetRandomTitle))
          case ReapplyOldTitle => Ok(Rolled(ReapplyOldTitle))
          case CantRoll => Ok(Rolled(CantRoll))
          case Ready(_) =>
            match Handlers(p, action.value)
            case Err(e) => Err(e)
            case Ok(run) => Ok(Rolled(Ready(run)))
  }

  /** The button owner's press on a button made for them, when a roll is
      due, starts what the button was made for. */
  function Press(p: Payload, owner: int): Result<Reaction, PyError> {
    HandleTitleChangeAttempt(p, owner, RollReady)
  }

  /** Each payload builder, pressed by its owner, starts its action; a
      press by anyone else is refused before any roll logic. */
  lemma StealMenuPayloadRoundTrip(owner: int, other: int, page: nat)
    requires other != owner
    ensures Press(StealMenuPayload(page, owner), owner) == Ok(Rolled(Ready(ShowStealMenu(page))))
    ensures Press(StealMenuPayload(page, owner), other) == Ok(NotYours)
  {
    var p := StealMenuPayload(page, owner);
    assert Get(p, ActionType, JNull) == JStr("3");
    assert Get(p, UserId, JNull) == JInt(owner);
    assert Get(p, Page, JInt(0)) == JInt(page);
  }

  lemma StealTitlePayloadRoundTrip(owner: int, target: int)
    ensures Press(StealTitlePayload(target, owner), owner) == Ok(Rolled(Ready(Steal(target))))
  {
    var p := StealTitlePayload(target, owner);
    assert Get(p, ActionType, JNull) == JStr("4");
    assert Get(p, UserId, JNull) == JInt(owner);
    assert Get(p, TargetUserId, JNull) == JInt(target);
  }

  lemma MenuPayloadsRoundTrip(owner: int)
    ensures Press(RenameMenuPayload(owner), owner) == Ok(Rolled(Ready(ShowRenameMenu)))
    ensures Press(RandomD6Payload(owner), owner) == Ok(Rolled(Ready(RandomD6)))
  {
    var p, q := RenameMenuPayload(owner), RandomD6Payload(owner);
    assert Get(p, ActionType, JNull) == JStr("2");
    assert Get(p, UserId, JNull) == JInt(owner);
    assert Get(q, ActionType, JNull) == JStr("0");
    assert Get(q, UserId, JNull) == JInt(owner);
  }

  lemma D6PayloadRoundTrip(owner: int, i: nat)
    requires 1 <= i <= 6
    ensures Press(D6Payload(IntToString(i), owner), owner) == Ok(Rolled(Ready(D6(i))))
  {
    D6Handler(IntToString(i), owner, i);
    D6Press(D6Payload(IntToString(i), owner), owner, D6(i));
  }

  /** The dice handler reads the number a six-sided payload carries. */
  lemma D6Handler(option: string, owner: int, i: nat)
    requires 1 <= i <= 6 && option == IntToString(i)
    ensures Handlers(D6Payload(option, owner), RollD6) == Ok(D6(i))
  {
    ToIntRoundTrip(i);
    assert Get(D6Payload(option, owner), DiceValue, JNull) == JStr(option);
  }

  /** The owner's press on a six-sided payload runs the dice handler. */
  lemma D6Press(p: Payload, owner: int, run: Run)
    requires ActionType in p && p[ActionType] == JStr("1") && UserId in p && p[UserId] == JInt(owner)
    requires Handlers(p, RollD6) == Ok(run)
    ensures Press(p, owner) == Ok(Rolled(Ready(run)))
  {
    OwnerPress(p, owner, RollD6, run);
  }

  /** The owner's press on a readable payload, when a roll is due, runs
      the action's handler. */
  lemma OwnerPress(p: Payload, owner: int, action: Action, run: Run)
    requires ToActionType(Get(p, ActionType, JNull)) == Ok(Some(action))
    requires ToInt(Get(p, UserId, JNull)) == Ok(Some(owner))
    requires Handlers(p, action) == Ok(run)
    ensures Press(p, owner) == Ok(Rolled(Ready(run)))
  {
  }

  /** A negative page never opens a menu. */
  lemma NegativePageRejected(owner: int, page: int)
    requires page < 0
    ensures Press(StealMenuPayload(page, owner), owner) == Ok(Rolled(Ready(NotWorking(BadPage))))
  {
  }

  // -------------------------------------------------------- title pages

  /** Row `i` is the last row for its user. */
  predicate LastRowFor(rows: seq<(int, Option<string>)>, i: nat)
    requires i < |rows|
  {
    forall j :: i < j < |rows| ==> rows[j].0 != rows[i].0
  }

  /** The rows of `get_user_titles` as `{user_id: title}`: every user of a
      row is a key, every key is the user of a row, and the last row wins. */
  function UserTitles(rows: seq<(int, Option<string>)>): (m: map<int, Option<string>>)
    ensures forall i :: 0 <= i < |rows| ==> rows[i].0 in m
    ensures forall k :: k in m ==> exists i :: 0 <= i < |rows| && rows[i].0 == k
    ensures |rows| > 0 ==> m[rows[|rows| - 1].0] == rows[|rows| - 1].1
  {
    if |rows| == 0 then map[]
    else
      var m := UserTitles(rows[..|rows| - 1]);
      assert forall i :: 0 <= i < |rows| - 1 ==> rows[..|rows| - 1][i] == rows[i];
      m[rows[|rows| - 1].0 := rows[|rows| - 1].1]
  }

  /** Each user maps to the title of the last row for that user. */
  lemma {:induction false} UserTitlesLastRow(rows: seq<(int, Option<string>)>, i: nat)
    requires i < |rows| && LastRowFor(rows, i)
    ensures UserTitles(rows)[rows[i].0] == rows[i].1
  {
    if i < |rows| - 1 {
      var init := rows[..|rows| - 1];
      assert init[i] == rows[i];
      assert rows[|rows| - 1].0 != rows[i].0;
      assert LastRowFor(init, i) by {
        forall j | i < j < |init|
          ensures init[j].0 != init[i].0
        {
          assert init[j] == rows[j];
        }
      }
      UserTitlesLastRow(init, i);
    }
  }

  /** `user_titles.get(id)`: a missing user and a user stored without a
      title both read as None. */
  function StoredTitle(m: map<int, Option<string>>, id: int): Option<string> {
    if id in m then m[id] else None
  }

  /** The candidates of `_get_titles_page`: every administrator other than
      the requester whose shown title is the stored one, in order; an
      administrator with neither counts too, as None equals None. */
  function Titles(admins: seq<ChatMember>, stored: map<int, Option<string>>, userId: int): (r: seq<(User, Option<string>)>)
    ensures |r| <= |admins|
    ensures forall t :: t in r ==>
      (t.0.id != userId && StoredTitle(stored, t.0.id) == t.1 &&
       exists i :: 0 <= i < |admins| && admins[i].user == t.0 && admins[i].customTitle == t.1)
    ensures forall i :: (0 <= i < |admins| && admins[i].user.id != userId &&
                         StoredTitle(stored, admins[i].user.id) == admins[i].customTitle) ==>
      (admins[i].user, admins[i].customTitle) in r
  {
    if |admins| == 0 then []
    else
      var rest := Titles(admins[1..], stored, userId);
      assert forall i :: 1 <= i < |admins| ==> admins[i] == admins[1..][i - 1];
      var a := admins[0];
      if StoredTitle(stored, a.user.id) == a.customTitle && a.user.id != userId
      then [(a.user, a.customTitle)] + rest else rest
  }

  /** `Titles` filters administrator by administrator: the candidates of a
      concatenation are those of each part, in order, so every kept
      administrator appears once per occurrence and in list order. */
  lemma {:induction false} TitlesConcat(a: seq<ChatMember>, b: seq<ChatMember>, stored: map<int, Option<string>>, userId: int)
    ensures Titles(a + b, stored, userId) == Titles(a, stored, userId) + Titles(b, stored, userId)
  {
    if |a| == 0 {
      assert a + b == b;
    } else {
      assert (a + b)[1..] == a[1..] + b;
      TitlesConcat(a[1..], b, stored, userId);
    }
  }

  /** The default page size of `_get_titles_page`. */
  const PageSize: nat := 9

  /** `titles[start:end]` for `0 <= start <= end`: indices past the end
      are cut, as Python slices are. */
  function Slice<T>(s: seq<T>, start: nat, end: nat): (r: seq<T>)
    requires start <= end
    ensures |r| <= end - start
    ensures start < |s| ==> |r| == (if end < |s| then end else |s|) - start
    ensures forall k :: 0 <= k < |r| ==> start + k < |s| && r[k] == s[start + k]
  {
    if start >= |s| then [] else if end >= |s| then s[start..] else s[start..end]
  }

  /** The page slice and whether more pages follow. The handler admits only
      pages `>= 0`. */
  function GetTitlesPage<T>(titles: seq<T>, page: nat, size: nat): (r: (seq<T>, bool))
    ensures r.0 == Slice(titles, page * size, page * size + size)
    ensures r.1 <==> page * size + size < |titles|
  {
    var start := page * size;
    (Slice(titles, start, start + size), start + size < |titles|)
  }

  /** Every title is on exactly one page: title `j` is item `j % size` of
      page `j / size`, and the pages before the last announce more. */
  lemma PagesCover<T>(titles: seq<T>, j: nat, size: nat)
    requires j < |titles| && size > 0
    ensures var pg := GetTitlesPage(titles, j / size, size);
      j % size < |pg.0| && pg.0[j % size] == titles[j]
    ensures forall page: nat :: page < j / size ==> GetTitlesPage(titles, page, size).1
  {
    var q, k := j / size, j % size;
    assert j == q * size + k;
    forall page: nat | page < q ensures page * size + size < |titles| {
      MulMono(page + 1, q, size);
    }
  }

  lemma MulMono(a: nat, b: nat, c: nat)
    requires a <= b
    ensures a * c <= b * c
  {
    assert b * c - a * c == (b - a) * c;
  }

  // ---------------------------------------------------------- keyboards

  /** An inline button: its label and its callback payload. */
  datatype Button = Button(text: string, data: Payload)

  /** An inline keyboard, row by row. */
  type Markup = seq<seq<Button>>

  /** `user.username or user.first_name`. */
  function DisplayName(u: User): string {
    if u.username.Some? && |u.username.value| > 0 then u.username.value else u.firstName
  }

  /** `f"{x}"` of an optional text. */
  function Show(x: Option<string>): string {
    match x
    case None => "None"
    case Some(s) => s
  }

  /** `_steal_user_title_button`. */
  function StealUserTitleButton(u: User, title: Option<string>, owner: int): Button {
    Button(Show(title) + " | " + DisplayName(u), StealTitlePayload(u.id, owner))
  }

  /** `_back_steal_menu_button(page, owner)`: its payload is `page - 1`. */
  function BackButton(page: int, owner: int): Button {
    Button("◀️", StealMenuPayload(page - 1, owner))
  }

  /** `_forward_steal_menu_button(page, owner)`: its payload is `page + 1`. */
  function ForwardButton(page: int, owner: int): Button {
    Button("▶️", StealMenuPayload(page + 1, owner))
  }

  /** `_rename_menu_button`. */
  function RenameButton(owner: int): Button {
    Button("\U{1F7E3} Вернуться", RenameMenuPayload(owner))
  }

  /** The navigation rows: back and forward share a row when both exist. */
  function NavRows(back: Button, forward: Button, page: int, hasMore: bool): (rows: Markup)
    ensures (page > 0 || hasMore) <==> |rows| == 1
    ensures |rows| == 1 ==> rows[0] == (if page > 0 then [back] else []) + (if hasMore then [forward] else [])
  {
    if page > 0 && hasMore then [[back, forward]]
    else (if page > 0 then [[back]] else []) + (if hasMore then [[forward]] else [])
  }

  function TitleRows(pageTitles: seq<(User, Option<string>)>, owner: int): (rows: Markup)
    ensures |rows| == |pageTitles|
    ensures forall k :: 0 <= k < |rows| ==> rows[k] == [StealUserTitleButton(pageTitles[k].0, pageTitles[k].1, owner)]
  {
    seq(|pageTitles|, k requires 0 <= k < |pageTitles| => [StealUserTitleButton(pageTitles[k].0, pageTitles[k].1, owner)])
  }

  /** `_create_steal_menu_markups` as written: it hands `page - 1` and
      `page + 1` to button builders that move the page once more. */
  function StealMenuAsWritten(owner: int, page: int, pageTitles: seq<(User, Option<string>)>, hasMore: bool): Markup {
    TitleRows(pageTitles, owner) + NavRows(BackButton(page - 1, owner), ForwardButton(page + 1, owner), page, hasMore)
      + [[RenameButton(owner)]]
  }

  /** The steal menu with each navigation button moving one page. */
  function StealMenu(owner: int, page: int, pageTitles: seq<(User, Option<string>)>, hasMore: bool): (m: Markup)
    ensures |m| == |pageTitles| + (if page > 0 || hasMore then 1 else 0) + 1
    ensures m[|m| - 1] == [RenameButton(owner)]
    ensures forall k :: 0 <= k < |pageTitles| ==> m[k] == [StealUserTitleButton(pageTitles[k].0, pageTitles[k].1, owner)]
    ensures page > 0 || hasMore ==>
      m[|pageTitles|] == (if page > 0 then [BackButton(page, owner)] else []) + (if hasMore then [ForwardButton(page, owner)] else [])
  {
    TitleRows(pageTitles, owner) + NavRows(BackButton(page, owner), ForwardButton(page, owner), page, hasMore)
      + [[RenameButton(owner)]]
  }

  /** Every button of the steal menu, pressed by its owner when a roll is
      due, does what it shows: the title buttons steal that user's title,
      back and forward open the neighbouring pages, and the last button
      returns to the rename menu. */
  lemma StealMenuNavigates(owner: int, page: nat, pageTitles: seq<(User, Option<string>)>, hasMore: bool)
    ensures var m := StealMenu(owner, page, pageTitles, hasMore);
      (forall k :: 0 <= k < |pageTitles| ==> Press(m[k][0].data, owner) == Ok(Rolled(Ready(Steal(pageTitles[k].0.id))))) &&
      Press(m[|m| - 1][0].data, owner) == Ok(Rolled(Ready(ShowRenameMenu)))
    ensures page > 0 ==> Press(BackButton(page, owner).data, owner) == Ok(Rolled(Ready(ShowStealMenu(page - 1))))
    ensures Press(ForwardButton(page, owner).data, owner) == Ok(Rolled(Ready(ShowStealMenu(page + 1))))
  {
    forall k | 0 <= k < |pageTitles|
      ensures Press(StealTitlePayload(pageTitles[k].0.id, owner), owner) == Ok(Rolled(Ready(Steal(pageTitles[k].0.id))))
    {
      StealTitlePayloadRoundTrip(owner, pageTitles[k].0.id);
    }
    MenuPayloadsRoundTrip(owner);
    StealMenuPayloadRoundTrip(owner, owner + 1, page + 1);
    if page > 0 {
      StealMenuPayloadRoundTrip(owner, owner + 1, page - 1);
    }
  }

  /** The menu as written sends the back button of page 1 to page -1,
      which the handler refuses, and the forward button of page 0 skips
      page 1. */
  lemma StealMenuAsWrittenSkips(owner: int, u: User)
    ensures var m := StealMenuAsWritten(owner, 1, [], false);
      m[0] == [BackButton(0, owner)] &&
      Press(m[0][0].data, owner) == Ok(Rolled(Ready(NotWorking(BadPage))))
    ensures var m := StealMenuAsWritten(owner, 0, [], true);
      m[0] == [ForwardButton(1, owner)] &&
      Press(m[0][0].data, owner) == Ok(Rolled(Ready(ShowStealMenu(2))))
  {
    NegativePageRejected(owner, -1);
    StealMenuPayloadRoundTrip(owner, owner + 1, 2);
  }

  /** `_d6_option_button`. */
  function D6Button(option: string, owner: int): Button {
    Button(option, D6Payload(option, owner))
  }

  /** `_create_rename_menu_markups`: the six numbers in one row, then the
      lucky roll, then the steal menu at page 0. */
  function RenameMenu(owner: int): (m: Markup)
    ensures |m| == 3 && |m[0]| == 6
    ensures forall i :: 1 <= i <= 6 ==> m[0][i - 1] == D6Button(IntToString(i), owner)
  {
    [seq(6, k requires 0 <= k < 6 => D6Button(IntToString(k + 1), owner)),
     [Button("Мне повезёт", RandomD6Payload(owner))],
     [Button("Кража", StealMenuPayload(0, owner))]]
  }

  /** The rename menu's buttons, pressed by their owner when a roll is due:
      number `i` rolls for `i`, then the lucky roll, then the first steal
      page. */
  lemma RenameMenuNavigates(owner: int)
    ensures var m := RenameMenu(owner);
      (forall i :: 1 <= i <= 6 ==> Press(m[0][i - 1].data, owner) == Ok(Rolled(Ready(D6(i))))) &&
      Press(m[1][0].data, owner) == Ok(Rolled(Ready(RandomD6))) &&
      Press(m[2][0].data, owner) == Ok(Rolled(Ready(ShowStealMenu(0))))
  {
    forall i | 1 <= i <= 6 ensures Press(D6Payload(IntToString(i), owner), owner) == Ok(Rolled(Ready(D6(i)))) {
      D6PayloadRoundTrip(owner, i);
    }
    MenuPayloadsRoundTrip(owner);
    StealMenuPayloadRoundTrip(owner, owner + 1, 0);
  }

  // ------------------------------------------------------- random title

  /** The longest custom title the chat accepts. */
  const MaxTitleLength := 16

  function Fitting(adj: string, nouns: seq<string>): (r: seq<string>)
    ensures forall n :: n in r <==> n in nouns && |adj| + 1 + |n| <= MaxTitleLength
  {
    if |nouns| == 0 then []
    else
      var rest := Fitting(adj, nouns[1..]);
      assert forall n :: n in nouns <==> n == nouns[0] || n in nouns[1..];
      if |adj| + 1 + |nouns[0]| <= MaxTitleLength then [nouns[0]] + rest else rest
  }

  /** `_random_title`: an adjective (`adjPick` stands for the weighted
      draw), then a noun among those that keep the title within the limit
      (`nounPick` for `random.choice`); either draw from nothing raises. */
  function RandomTitle(adjectives: seq<string>, nouns: seq<string>, adjPick: nat, nounPick: nat): (r: Result<string, PyError>)
    ensures r.Err? <==> |adjectives| == 0 || forall n :: n in nouns ==> |adjectives[adjPick % |adjectives|]| + 1 + |n| > MaxTitleLength
    ensures r.Ok? ==> |r.value| <= MaxTitleLength
    ensures r.Ok? ==> exists n :: n in nouns && r.value == adjectives[adjPick % |adjectives|] + " " + n
  {
    if |adjectives| == 0 then Err(IndexError)
    else
      var adj := adjectives[adjPick % |adjectives|];
      var candidates := Fitting(adj, nouns);
      if |candidates| == 0 then Err(IndexError)
      else
        var noun := candidates[nounPick % |candidates|];
        assert noun in candidates;
        Ok(adj + " " + noun)
  }

  /** The user whose random titles always end in "манул". */
  const ManulUser := 6652718625

  /** `_set_random_title`'s choice of title: for that one user, the first
      word of the drawn title followed by "манул"; a blank title raises. */
  function PersonalTitle(userId: int, title: string): (r: Result<string, PyError>)
    ensures userId != ManulUser ==> r == Ok(title)
    ensures userId == ManulUser ==>
      (r.Err? <==> forall i :: 0 <= i < |title| ==> IsSpace(title[i])) &&
      (r.Ok? ==> exists w :: FirstWord(title) == Some(w) && r.value == w + " манул")
  {
    if userId != ManulUser then Ok(title)
    else
      match FirstWord(title)
      case None => Err(IndexError)
      case Some(w) => Ok(w + " манул")
  }

  // --------------------------------------------------------------- dice

  /** `roll_dice`'s verdict: with no expected value the rolled die's own
      winning faces count; with one, only the rolled value itself, compared
      with the expected value or, when that is 0, with the roll. */
  function RollSuccess(expected: Option<int>, die: Dice, rolled: int): (ok: bool)
    ensures expected.None? ==> (ok <==> rolled in die.winValues)
    ensures expected.Some? && expected.value != 0 ==> (ok <==> expected.value == rolled)
    ensures expected == Some(0) ==> ok
  {
    var winValues := if expected.None? then die.winValues else [rolled];
    var probe := if expected.Some? && expected.value != 0 then expected.value else rolled;
    probe in winValues
  }

  /** `_handle_d6`'s verdict: it rolls without an expected value, so the
      number the player chose plays no part. */
  function HandleD6Success(chosen: int, die: Dice, rolled: int): bool {
    RollSuccess(None, die, rolled)
  }

  lemma D6ChoiceIgnored(a: int, b: int, die: Dice, rolled: int)
    ensures HandleD6Success(a, die, rolled) == HandleD6Success(b, die, rolled)
    ensures HandleD6Success(a, die, rolled) <==> rolled in die.winValues
  {
  }
}

=== FILE: text.dfy ===
/**
 * String helpers the Python code gets from its standard library: decimal
 * rendering of integers (`str(n)`), digit tests (`str.isdigit`), ASCII case
 * mapping (`str.lower`/`str.upper`), whitespace stripping and splitting.
 */
module Text {
  import opened Wrappers

  /** True for the ten ASCII digits. */
  predicate IsDigit(c: char) {
    '0' <= c <= '9'
  }

  /** `s.isdigit()` restricted to ASCII: non-empty and every character a digit. */
  predicate AllDigits(s: string) {
    |s| > 0 && forall i :: 0 <= i < |s| ==> IsDigit(s[i])
  }

  /** The character of a single decimal digit. */
  function DigitChar(d: nat): (c: char)
    requires d < 10
    ensures IsDigit(c)
  {
    ['0', '1', '2', '3', '4', '5', '6', '7', '8', '9'][d]
  }

  /** The value of a digit character. */
  function DigitValue(c: char): (d: nat)
    requires IsDigit(c)
    ensures d < 10
  {
    (c as int - '0' as int) as nat
  }

  lemma DigitRoundTrip(d: nat)
    requires d < 10
    ensures DigitValue(DigitChar(d)) == d
  {
  }

  /** Decimal rendering of a natural number, as `str(n)`: no leading zeros. */
  function NatToString(n: nat): (s: string)
    ensures AllDigits(s)
    ensures |s| == 1 || s[0] != '0'
    decreases n
  {
    if n < 10 then [DigitChar(n)] else NatToString(n / 10) + [DigitChar(n % 10)]
  }

  /** `str(i)` for any Python int: a leading '-' for negatives. */
  function IntToString(i: int): string
  {
    if i >= 0 then NatToString(i) else "-" + NatToString(-i)
  }

  /** The rendering is digits, preceded by '-' exactly for negatives. */
  lemma IntToStringShape(i: int)
    ensures |IntToString(i)| > 0
    ensures i >= 0 ==> AllDigits(IntToString(i))
    ensures i < 0 ==> IntToString(i)[0] == '-' && AllDigits(IntToString(i)[1..])
  {
    if i < 0 {
      assert IntToString(i)[1..] == NatToString(-i);
    }
  }

  /** `int(s)` for a string of ASCII digits. */
  function ParseNat(s: string): (n: nat)
    requires forall i :: 0 <= i < |s| ==> IsDigit(s[i])
    decreases |s|
  {
    if |s| == 0 then 0 else ParseNat(s[..|s| - 1]) * 10 + DigitValue(s[|s| - 1])
  }

  /** Parsing the decimal rendering of a number gives the number back. */
  lemma {:induction false} ParseNatToString(n: nat)
    ensures ParseNat(NatToString(n)) == n
    decreases n
  {
    if n >= 10 {
      var s := NatToString(n);
      var p := NatToString(n / 10);
      assert s == p + [DigitChar(n % 10)];
      assert s[..|s| - 1] == p;
      ParseNatToString(n / 10);
      DigitRoundTrip(n % 10);
    } else {
      DigitRoundTrip(n);
      assert NatToString(n)[..0] == [];
    }
  }

  /** Rendering is injective: distinct integers give distinct strings. */
  lemma IntToStringInjective(a: int, b: int)
    requires IntToString(a) == IntToString(b)
    ensures a == b
  {
    if a >= 0 && b >= 0 {
      NatToStringInjective(a, b);
    } else if a < 0 && b < 0 {
      DropMinus(NatToString(-a), NatToString(-b));
      NatToStringInjective(-a, -b);
    } else {
      LeadingMinus(a);
      LeadingMinus(b);
    }
  }

  lemma DropMinus(x: string, y: string)
    requires "-" + x == "-" + y
    ensures x == y
  {
    assert x == ("-" + x)[1..];
    assert y == ("-" + y)[1..];
  }

  lemma NatToStringInjective(a: nat, b: nat)
    requires NatToString(a) == NatToString(b)
    ensures a == b
  {
    ParseNatToString(a);
    ParseNatToString(b);
  }

  /** The rendering starts with '-' exactly for negative numbers. */
  lemma LeadingMinus(i: int)
    ensures |IntToString(i)| > 0 && (IntToString(i)[0] == '-' <==> i < 0)
  {
    if i >= 0 {
      assert IsDigit(NatToString(i)[0]);
    }
  }

  /** `str.lower` on one character, restricted to ASCII letters. */
  function Lower(c: char): char {
    if 'A' <= c <= 'Z' then (c as int + 32) as char else c
  }

  /** `str.upper` on one character, restricted to ASCII letters. */
  function Upper(c: char): char {
    if 'a' <= c <= 'z' then (c as int - 32) as char else c
  }

  /** `s.lower()` character by character. */
  function LowerStr(s: string): (r: string)
    ensures |r| == |s|
    ensures forall i :: 0 <= i < |s| ==> r[i] == Lower(s[i])
  {
    if |s| == 0 then [] else [Lower(s[0])] + LowerStr(s[1..])
  }

  /** The characters `str.strip()` and `str.split()` treat as whitespace:
      exactly those for which `str.isspace()` holds. */
  predicate IsSpace(c: char) {
    ('\U{9}' <= c <= '\U{D}') || ('\U{1C}' <= c <= '\U{20}') || c == '\U{85}' || c == '\U{A0}'
    || c == '\U{1680}' || ('\U{2000}' <= c <= '\U{200A}') || c == '\U{2028}' || c == '\U{2029}'
    || c == '\U{202F}' || c == '\U{205F}' || c == '\U{3000}'
  }

  /** `s.lstrip(c)`: drop every leading copy of `c`. */
  function LStripChar(s: string, c: char): (r: string)
    ensures |r| <= |s| && r == s[|s| - |r|..]
    ensures |r| > 0 ==> r[0] != c
    ensures forall i :: 0 <= i < |s| - |r| ==> s[i] == c
  {
    if |s| > 0 && s[0] == c then LStripChar(s[1..], c) else s
  }

  /** `s.lstrip()` for whitespace. */
  function LStripSpace(s: string): (r: string)
    ensures |r| <= |s| && r == s[|s| - |r|..]
    ensures |r| > 0 ==> !IsSpace(r[0])
    ensures forall i :: 0 <= i < |s| - |r| ==> IsSpace(s[i])
  {
    if |s| > 0 && IsSpace(s[0]) then LStripSpace(s[1..]) else s
  }

  /** `s.rstrip()` for whitespace. */
  function RStripSpace(s: string): (r: string)
    ensures |r| <= |s| && r == s[..|r|]
    ensures |r| > 0 ==> !IsSpace(r[|r| - 1])
    ensures forall i :: |r| <= i < |s| ==> IsSpace(s[i])
  {
    if |s| > 0 && IsSpace(s[|s| - 1]) then RStripSpace(s[..|s| - 1]) else s
  }

  /** `s.strip()`: no leading or trailing whitespace remains. */
  function Strip(s: string): (r: string)
    ensures |r| > 0 ==> !IsSpace(r[0]) && !IsSpace(r[|r| - 1])
    ensures |r| == 0 <==> forall i :: 0 <= i < |s| ==> IsSpace(s[i])
  {
    RStripSpace(LStripSpace(s))
  }

  /** `c * n` in Python: `n` copies, none when `n <= 0`. */
  function Repeat(c: char, n: int): (r: string)
    ensures |r| == if n > 0 then n else 0
    ensures forall i :: 0 <= i < |r| ==> r[i] == c
    decreases if n > 0 then n else 0
  {
    if n <= 0 then [] else [c] + Repeat(c, n - 1)
  }

  /** Python's `int(x)` of an exact quotient: division truncated toward zero. */
  function TruncDiv(a: int, b: int): (q: int)
    requires b > 0
    ensures a >= 0 ==> q * b <= a < q * b + b
    ensures a < 0 ==> q * b - b < a <= q * b
  {
    if a >= 0 then a / b else -((-a) / b)
  }

  lemma {:induction false} LStripPadded(pre: string, s: string)
    requires forall i :: 0 <= i < |pre| ==> IsSpace(pre[i])
    requires |s| > 0 && !IsSpace(s[0])
    ensures LStripSpace(pre + s) == s
  {
    if |pre| > 0 {
      assert (pre + s)[1..] == pre[1..] + s;
      LStripPadded(pre[1..], s);
    } else {
      assert pre + s == s;
    }
  }

  lemma {:induction false} RStripPadded(s: string, post: string)
    requires forall i :: 0 <= i < |post| ==> IsSpace(post[i])
    requires |s| > 0 && !IsSpace(s[|s| - 1])
    ensures RStripSpace(s + post) == s
  {
    if |post| > 0 {
      assert (s + post)[..|s + post| - 1] == s + post[..|post| - 1];
      RStripPadded(s, post[..|post| - 1]);
    } else {
      assert s + post == s;
    }
  }

  /** Stripping removes exactly the surrounding whitespace. */
  lemma StripPadded(pre: string, s: string, post: string)
    requires forall i :: 0 <= i < |pre| ==> IsSpace(pre[i])
    requires forall i :: 0 <= i < |post| ==> IsSpace(post[i])
    requires |s| > 0 && !IsSpace(s[0]) && !IsSpace(s[|s| - 1])
    ensures Strip(pre + s + post) == s
  {
    assert pre + s + post == pre + (s + post);
    LStripPadded(pre, s + post);
    RStripPadded(s, post);
  }

  /** The characters of `s` before its first whitespace. */
  function TakeWord(s: string): (w: string)
    ensures |w| <= |s| && w == s[..|w|]
    ensures forall i :: 0 <= i < |w| ==> !IsSpace(w[i])
    ensures |w| < |s| ==> IsSpace(s[|w|])
  {
    if |s| == 0 || IsSpace(s[0]) then [] else [s[0]] + TakeWord(s[1..])
  }

  /** `head(s.split())`: the first whitespace-separated word, or None when
      the text is blank. */
  function FirstWord(s: string): (r: Option<string>)
    ensures r.None? <==> forall i :: 0 <= i < |s| ==> IsSpace(s[i])
    ensures r.Some? ==> |r.value| > 0 && forall i :: 0 <= i < |r.value| ==> !IsSpace(r.value[i])
  {
    var t := LStripSpace(s);
    if |t| == 0 then None else Some(TakeWord(t))
  }

  /** A word standing alone is its own first word, whatever whitespace
      surrounds it. */
  lemma {:induction false} FirstWordOf(pre: string, w: string, post: string)
    requires forall i :: 0 <= i < |pre| ==> IsSpace(pre[i])
    requires |w| > 0 && forall i :: 0 <= i < |w| ==> !IsSpace(w[i])
    requires |post| == 0 || IsSpace(post[0])
    ensures FirstWord(pre + w + post) == Some(w)
  {
    assert pre + w + post == pre + (w + post);
    LStripPadded(pre, w + post);
    TakeWhole(w, post);
  }

  lemma {:induction false} TakeWhole(w: string, post: string)
    requires forall i :: 0 <= i < |w| ==> !IsSpace(w[i])
    requires |post| == 0 || IsSpace(post[0])
    ensures TakeWord(w + post) == w
  {
    if |w| == 0 {
      assert w + post == post;
    } else {
      assert (w + post)[1..] == w[1..] + post;
      TakeWhole(w[1..], post);
      assert w == [w[0]] + w[1..];
    }
  }
}

=== FILE: wrappers.dfy ===
/** Option and Result datatypes shared by every module of the model. */
module Wrappers {

  /** A value that may be absent; Python's `None` or a missing key. */
  datatype Option<+T> = None | Some(value: T) {

    /** The wrapped value, or `default` when absent (Python's `x or default`). */
    function GetOr(default: T): T {
      match this
      case Some(v) => v
      case None => default
    }
  }

  /** Either a computed value or the exception the source would raise. */
  datatype Result<+R, +E> = Ok(value: R) | Err(error: E)
}
